=== FILE: README.md ===
# flarekit core, modelled in Dafny

This project models the core of flarekit, a Cloudflare Workers monorepo. The core has four parts:

- **The database package.**
  - Two SQLite tables: `storage` and `storage_info`.
  - The generic repository engine `BaseService`: payload preparation, create, update, permanent and soft delete, the reads (by id, by short id, many, list, count, reference, with relations) and the bulk operations.
  - The service wiring, including the `storage_info → storage` left join.
  - The per-binding client cache.
  - The stand-alone storage record helpers.
- **The backend's error system.**
  - The `BaseError` taxonomy: eight categories, eight classes and their static factories.
  - `toJSON`.
  - The last-resort `handleError`.
  - The request-id generator and the structured error logger.
- **The backend's route helpers.**
  - The route analyser.
  - The OpenAPI summary, description and tag generators.
  - The params and query schema choice.
  - The standard response map.
  - The two storage routes: `GET /api/v1/storage`, which lists, and `POST /api/v1/storage`, which uploads.
- **The workspace scripts.**
  - The three copies of `deepMerge`, which layer a package's `wrangler.config.json` over the root `wrangler.json`.
  - The package loops that write the results.
  - The `isValidPath` check.

The model follows the form of each part of the source:

- **Stateful parts are classes.** A table whose rows the driver updates is `Store.Table`. A service bound to that table is `Repository.BaseService`. The client cache (a `WeakMap`) is `ClientCache.ClientTable`. The imported root configuration that two of the scripts fill in place is `WranglerConfig.ConfigObject`. Each method is proved against a specification function of the old state.
- **Loops are methods with invariants.** This covers the enum and date loops of `#prepareData`, the bulk loops, the merge loops and the package loops.
- **Pure helpers are functions.** They come with lemmas about what they mean.

Several inputs are parameters, because they come from the runtime or from code outside the model:

- clocks and random or uuid values;
- `path.resolve`, the SQLite UTC formatter and `slugify`;
- the outcome of `JSON.parse` on a query parameter;
- whether the database driver rejects a query;
- the outcome of the upload helper.

## Model

| member | source | states |
|---|---|---|
| Errors.EightCategories | apps/backend/src/classes/BaseError.class.ts:45-54 | The category enum has exactly eight members, and reading a member's string value back gives the member. |
| Errors.CategoryNamesDistinct | apps/backend/src/classes/BaseError.class.ts:45-54 | Two categories have the same string value exactly when they are the same category. |
| Errors.CategoryIdentifiesClass | apps/backend/src/classes/ValidationError.class.ts:4-6 | Each error class declares its own category: equal categories mean equal classes. |
| Errors.Base | apps/backend/src/classes/BaseError.class.ts:11-26 | The base constructor gives the class's status and category. It defaults details to `[]` and context to `{}`, and keeps the request id as given. |
| Errors.Construct | apps/backend/src/classes/AuthorizationError.class.ts:8-34 | An overridable class's constructor uses the class's default message when none is passed. It keeps the class code unless `options.code` is a non-empty string. Details, context and request id are taken from the options. |
| Errors.NewValidationError | apps/backend/src/classes/ValidationError.class.ts:3-17 | A validation error has status 400 and code `VALIDATION_ERROR`. It has one detail per field, each equal to the field, in order. Context is empty and there is no request id. |
| Errors.NewNotFoundError | apps/backend/src/classes/NotFoundError.class.ts:3-12 | A not-found error has status 404 and code `RESOURCE_NOT_FOUND`. Its message is `<resource> not found`, its context is exactly `{resource, identifier}`, and it has no details. |
| Errors.NewBusinessLogicError | apps/backend/src/classes/BusinessLogicError.class.ts:3-11 | The code is the caller's first argument and the status is 400. The context is the caller's, or `{}`. |
| Errors.Spread | apps/backend/src/classes/AuthorizationError.class.ts:49 | `{ ...named, ...context }` has the keys of both records, and the caller's value wins on a shared key. |
| Errors.Raise | apps/backend/src/classes/AuthenticationError.class.ts:37-42 | A static factory's error carries the class status and category, the fixed message, the factory code and the built context. It has no details and no request id. |
| Errors.BareConstruction | apps/backend/src/classes/SystemError.class.ts:8-34 | A constructor called with nothing gives the default message, the default code, and empty details and context. |
| Errors.ToJson | apps/backend/src/classes/BaseError.class.ts:28-42 | `toJSON` always has the seven public keys, and adds `context` and `stack` exactly when `NODE_ENV` is `development`. Code, status, category, message and request id are the error's own. |
| AuthenticationErrors.Make | apps/backend/src/classes/AuthenticationError.class.ts:37-80 | Each factory gives status 401 and its own code, which differs from the class default. It uses its fixed message, not the class default, and passes the caller's context through unchanged. |
| AuthenticationErrors.CodeIdentifiesFactory | apps/backend/src/classes/AuthenticationError.class.ts:37-80 | Reading a factory code back gives the factory, so no two factories share a code and none uses `AUTHENTICATION_ERROR`. |
| AuthenticationErrors.Code | apps/backend/src/classes/AuthenticationError.class.ts:37-80 | Each factory's code reads back to that factory and is not the class default `AUTHENTICATION_ERROR`. |
| AuthenticationErrors.Message | apps/backend/src/classes/AuthenticationError.class.ts:37-80 | Each factory's message is non-empty and differs from the class default message. |
| AuthorizationErrors.Make | apps/backend/src/classes/AuthorizationError.class.ts:37-156 | Each factory gives status 403 and its own code. Its context holds the factory's own arguments, with the caller's keys spread over them. |
| AuthorizationErrors.Code | apps/backend/src/classes/AuthorizationError.class.ts:37-156 | Each factory's code is non-empty, is not the class default, and reads back to that factory alone. |
| AuthorizationErrors.Message | apps/backend/src/classes/AuthorizationError.class.ts:37-156 | Each factory's message is non-empty. |
| AuthorizationErrors.Named | apps/backend/src/classes/AuthorizationError.class.ts:37-156 | Only `adminRequired` records no context of its own; every other factory records at least one of its arguments. |
| AuthorizationErrors.InsufficientPermissionsMessage | apps/backend/src/classes/AuthorizationError.class.ts:42-45 | The action and resource are named only when both are non-empty; otherwise the generic text is used. The message always starts with `Insufficient permissions to `. |
| AuthorizationErrors.AccessDeniedWithoutResource | apps/backend/src/classes/AuthorizationError.class.ts:53-60 | `accessDenied()` without a resource gives the same message as the bare constructor, but a different code. |
| AuthorizationErrors.QuotaMessageIgnoresCounts | apps/backend/src/classes/AuthorizationError.class.ts:131-145 | The `quotaExceeded` message does not depend on the limit or the current usage. Both of those are recorded in the context. |
| AuthorizationErrors.CallerContextWins | apps/backend/src/classes/AuthorizationError.class.ts:49 | A key in the caller's context overrides the factory's argument of the same name. |
| DatabaseErrors.Truncated | apps/backend/src/classes/DatabaseError.class.ts:77 | `query?.substring(0, 200)`: an absent query stays absent. A present one becomes a prefix of at most 200 characters, or the whole query when it is short enough. |
| DatabaseErrors.Make | apps/backend/src/classes/DatabaseError.class.ts:37-336 | Each factory gives status 500 and its own code. Its context holds the factory's arguments, with the caller's keys spread over them. |
| DatabaseErrors.Code | apps/backend/src/classes/DatabaseError.class.ts:37-336 | Each factory's code is non-empty and reads back to that factory alone. |
| DatabaseErrors.DefaultCodeUnclaimed | apps/backend/src/classes/DatabaseError.class.ts:37-336 | The class default `DATABASE_ERROR` reads back to no factory, so no factory uses it. |
| DatabaseErrors.Message | apps/backend/src/classes/DatabaseError.class.ts:37-336 | Each factory's message is non-empty. |
| DatabaseErrors.Named | apps/backend/src/classes/DatabaseError.class.ts:37-336 | Every factory records at least one of its arguments in the context. |
| DatabaseErrors.QueryTimeoutFacts | apps/backend/src/classes/DatabaseError.class.ts:66-79 | A zero or absent timeout gives the message without a number; otherwise the milliseconds are named. The stored query is a prefix of at most 200 characters. |
| DatabaseErrors.SyntaxErrorFacts | apps/backend/src/classes/DatabaseError.class.ts:81-94 | A zero or absent position is not named. The stored query is a prefix of at most 200 characters. |
| DatabaseErrors.SchemaErrorMessages | apps/backend/src/classes/DatabaseError.class.ts:194-210 | All four cases of the `schemaError` message: schema and reason, schema alone, reason alone, and `Unknown schema issue`. |
| DatabaseErrors.RecordNotFoundFacts | apps/backend/src/classes/DatabaseError.class.ts:324-336 | `recordNotFound` gives code `RECORD_NOT_FOUND` with status 500. Its message names the table and identifier, and its context is exactly `{tableName, identifier}`. |
| DatabaseErrors.BackupFallback | apps/backend/src/classes/DatabaseError.class.ts:257-291 | Without a name or a reason, a failed backup or restore says `Unknown error`. |
| ExternalServiceErrors.Make | apps/backend/src/classes/ExternalServiceError.class.ts:37-243 | Each factory gives status 502 and its own code. Its context is led by the service name, which the caller can override. |
| ExternalServiceErrors.Code | apps/backend/src/classes/ExternalServiceError.class.ts:37-243 | Each factory's code is non-empty, is not the class default, and reads back to that factory alone. |
| ExternalServiceErrors.Message | apps/backend/src/classes/ExternalServiceError.class.ts:37-243 | Each factory's message is non-empty. |
| ExternalServiceErrors.Named | apps/backend/src/classes/ExternalServiceError.class.ts:37-243 | Every factory's context records the service name. |
| ExternalServiceErrors.ServiceUnavailableMessage | apps/backend/src/classes/ExternalServiceError.class.ts:37-48 | `serviceUnavailable` leads with the service name. |
| ExternalServiceErrors.VersionMismatchDetailed | apps/backend/src/classes/ExternalServiceError.class.ts:153-168 | The detailed text is used exactly when both versions are given. |
| ExternalServiceErrors.WebhookDetailed | apps/backend/src/classes/ExternalServiceError.class.ts:228-243 | The URL and attempt are named exactly when the URL is non-empty and the attempt is non-zero. |
| ExternalServiceErrors.PartialFailureCounts | apps/backend/src/classes/ExternalServiceError.class.ts:185-198 | The message starts with `<service> partial failure: `. The success count reads back right after that prefix, and the failure count reads back after the following ` succeeded, `. |
| ExternalServiceErrors.PartialFailureText | apps/backend/src/classes/ExternalServiceError.class.ts:185-198 | The message is `<service> partial failure: <ok> succeeded, <failed> failed`. |
| ExternalServiceErrors.PartialFailureContext | apps/backend/src/classes/ExternalServiceError.class.ts:185-198 | Without a caller context, `successCount` and `failureCount` hold the two counts. |
| SystemErrors.Make | apps/backend/src/classes/SystemError.class.ts:37-373 | Each factory gives status 500 and its own code. Its context holds its arguments, with the caller's keys spread over them. |
| SystemErrors.Code | apps/backend/src/classes/SystemError.class.ts:37-373 | Each factory's code is non-empty and reads back to that factory alone. |
| SystemErrors.DefaultCodeUnclaimed | apps/backend/src/classes/SystemError.class.ts:37-373 | The class default `SYSTEM_ERROR` reads back to no factory, so no factory uses it. |
| SystemErrors.Message | apps/backend/src/classes/SystemError.class.ts:37-373 | Each factory's message is non-empty. |
| SystemErrors.Named | apps/backend/src/classes/SystemError.class.ts:37-373 | Every factory records at least one of its arguments in the context. |
| SystemErrors.FileSystemMessages | apps/backend/src/classes/SystemError.class.ts:68-85 | The path is named only when given, and the reason only together with a path. |
| SystemErrors.ConfigurationFallback | apps/backend/src/classes/SystemError.class.ts:134-150 | Without a path, the reason follows a colon. Without a reason either, the message is `Invalid configuration`. |
| SystemErrors.RuntimeMessages | apps/backend/src/classes/SystemError.class.ts:228-245 | The version is named only together with a reason. Without a reason, only the runtime is named. |
| SystemErrors.WatchdogUnknown | apps/backend/src/classes/SystemError.class.ts:310-326 | With neither a service nor a timeout, `unknown` stands in for the number. |
| SystemErrors.OutOfMemoryFacts | apps/backend/src/classes/SystemError.class.ts:37-50 | `outOfMemory` has code `OUT_OF_MEMORY` and status 500. The process id goes in the context, and the usage appears in the message when given. |
| ErrorLog.GenerateRequestId | apps/backend/src/utils/error-log.util.ts:8-13 | The id always starts with `req_`. With a UUID it is `req_` plus the UUID; otherwise it is no longer than `req_`, the clock's digits, `_` and seven random characters. |
| ErrorLog.Slice | apps/backend/src/utils/error-log.util.ts:12 | `slice(from, to)` with both bounds clamped: never longer than `to - from`. |
| ErrorLog.ClientIp | apps/backend/src/utils/error-log.util.ts:37 | The client ip is a non-empty `cf-connecting-ip` when there is one, and `x-forwarded-for` otherwise. |
| ErrorLog.LogError | apps/backend/src/utils/error-log.util.ts:18-49 | The record goes to the severe channel exactly when asked or when the status is at least 500. It has exactly the fixed log keys, plus `stack` in development. It carries the given request id, the code as `errorCode`, the status, the context and the client ip. |
| ErrorLog.ServerErrorsAreSevere | apps/backend/src/utils/error-log.util.ts:44-48 | Database, external-service and system errors are always logged as severe. The other classes are severe exactly when asked. |
| ErrorHandler.AnswerAppError | apps/backend/src/handlers/error.handler.ts:18-26 | An application error keeps a non-empty request id and otherwise gets the fresh one. The response has the error's status and its JSON. |
| ErrorHandler.IsZod | apps/backend/src/handlers/error.handler.ts:29-35 | Only an `Error` instance or a plain object can count as a schema-validation failure, and every `ZodError` instance does. |
| ErrorHandler.IssueDetail | apps/backend/src/handlers/error.handler.ts:39-44 | Each issue gives a detail with its field, code and message. The field splits back at `.` into the issue path when no segment holds a `.`. The code is the issue code upper-cased, of the same length. A missing `received` gives `undefined`. |
| ErrorHandler.PathRoundTrip | apps/backend/src/handlers/error.handler.ts:40 | A non-empty path whose segments hold no `.` is recovered by splitting its `.`-joined form. |
| ErrorHandler.IssuesJson | apps/backend/src/handlers/error.handler.ts:49 | One JSON object per validation issue, in order. Each holds the issue's path, code and message, and `received` exactly when the issue has one. |
| ErrorHandler.AnswerValidationFailure | apps/backend/src/handlers/error.handler.ts:29-56 | A schema-validation failure becomes a 400 `VALIDATION_ERROR` with one detail per issue, in order. Each detail has the joined path, the upper-cased code and the received value. The error has the fresh request id and the issues under `zodIssues`. |
| ErrorHandler.OriginalError | apps/backend/src/handlers/error.handler.ts:64-74 | `originalError` is an object. For an `Error` it has exactly `name`, `message` and `stack`, with the name and message kept. For anything else it has exactly `type` and `value`, where `value` is the thrown value as text and a plain object's type is `object`. |
| ErrorHandler.AnswerUnexpected | apps/backend/src/handlers/error.handler.ts:58-88 | Any other throw becomes a 500 `UNEXPECTED_ERROR` with the fresh request id and `originalError` in its context. The response is exactly that status and the error's `toJSON`, which holds `context` only in development. |
| ErrorHandler.HandleError | apps/backend/src/handlers/error.handler.ts:14-89 | The three branches, in order. A `ZodError`-named throw without `issues` makes the handler itself throw (the `issues.map` at line 39), and no response is built; in every other case it answers. The response is always the reported error's status and its `toJSON`. An application error is reported as it was thrown, apart from its request id. A schema-validation failure becomes a 400 `VALIDATION_ERROR` with one detail per issue and `zodIssues` as its whole context. Anything else becomes a 500 `UNEXPECTED_ERROR` with `originalError` as its whole context and goes to the severe channel. Every record carries the fresh request id. |
| ErrorHandler.ProductionCleanupIsNoOp | apps/backend/src/handlers/error.handler.ts:82-86 | Deleting `context` and `stack` in production removes nothing, because `toJSON` only adds them in development. |
| ErrorHandler.KeptIdDiffersFromLoggedId | apps/backend/src/handlers/error.handler.ts:15-24 | A thrown error that already has a request id answers with it, while the log carries the fresh id, so the two differ. |
| RouteAnalyzer.IndexOf | apps/backend/src/utils/route-analyzer.util.ts:26 | The first position of a character, or none when the string lacks it. |
| RouteAnalyzer.PathVariables | apps/backend/src/utils/route-analyzer.util.ts:26-28 | Every `{…}` match gives a non-empty name without `}`. |
| RouteAnalyzer.Analyze | apps/backend/src/utils/route-analyzer.util.ts:22-41 | `hasPathVariables` is true exactly when there are variables. A get-by-id route has variables, and list and create routes have none. |
| RouteAnalyzer.AtMostOneKind | apps/backend/src/utils/route-analyzer.util.ts:33-37 | At most one of the five route kinds holds for any method and path. |
| RouteAnalyzer.LiteralHasNoVariables | apps/backend/src/utils/route-analyzer.util.ts:26-28 | A path without `{` has no variables. |
| RouteAnalyzer.VariableAfterLiteral | apps/backend/src/utils/route-analyzer.util.ts:26-28 | A literal followed by `{v}` contributes exactly `v` ahead of the rest's variables. |
| RouteAnalyzer.TemplateVariables | apps/backend/src/utils/route-analyzer.util.ts:26-28 | A path built from literals and variable names yields exactly those names, in order. |
| ApiDocs.Summary | apps/backend/src/utils/api-docs.util.ts:4-28 | The summary is the action, the resource and `Record`, plus `s` exactly on list routes, so a list route's summary ends in `s`. |
| ApiDocs.Action | apps/backend/src/utils/api-docs.util.ts:11-22 | Every method has a non-empty, capitalised action, so the `Process` fallback is never used. |
| ApiDocs.Description | apps/backend/src/utils/api-docs.util.ts:30-59 | Every description ends with `.`. A list route's starts with `Retrieve a paginated list of `. An unclassified route's starts with the action, the resource and `Record`. |
| ApiDocs.DescriptionMeaning | apps/backend/src/utils/api-docs.util.ts:30-59 | For a classified route, only the lower-cased resource name matters. Any other route's description is the summary followed by ` operation.`. |
| ApiDocs.ListRouteTexts | apps/backend/src/utils/api-docs.util.ts:23-47 | The texts for a variable-free path under GET and POST. |
| ApiDocs.Capitalize | apps/backend/src/utils/api-docs.util.ts:66 | Capitalising keeps the length. |
| ApiDocs.CapitalizeAll | apps/backend/src/utils/api-docs.util.ts:66 | One word out per word in. |
| ApiDocs.Tags | apps/backend/src/utils/api-docs.util.ts:61-69 | Exactly one tag. |
| ApiDocs.TagText | apps/backend/src/utils/api-docs.util.ts:63-67 | The tag keeps the name's length and has no `_`. |
| ApiDocs.TagTextOfSplit | apps/backend/src/utils/api-docs.util.ts:63-67 | Lower-casing, splitting on `_`, capitalising each word and joining with spaces equals the one-pass character rewrite. |
| ApiDocs.TagMeaning | apps/backend/src/utils/api-docs.util.ts:61-69 | The single tag is the rewritten name: same length, and no `_`. |
| SchemaGenerator.RemoveBraces | apps/backend/src/utils/schema-generator.util.ts:21 | The result has no braces and is no longer than the input. |
| SchemaGenerator.ParamsSchemaFor | apps/backend/src/utils/schema-generator.util.ts:7-35 | A path without variables gets no params schema. The get-by-id schema is chosen exactly for get-by-id routes. A single uuid parameter is named after the path's only variable, without braces. |
| SchemaGenerator.ParamsSchemaCases | apps/backend/src/utils/schema-generator.util.ts:7-35 | No variables gives no schema. A get-by-id route gives the shared id schema. A single variable gives a schema named after it. More than one gives no schema. |
| SchemaGenerator.QuerySchemaFor | apps/backend/src/utils/schema-generator.util.ts:37-52 | A provided schema wins. Otherwise the list query schema is chosen exactly on list routes. |
| SchemaGenerator.SingleVariableNamesTheParam | apps/backend/src/utils/schema-generator.util.ts:20-31 | A path with one variable other than `id` names the param after that variable. |
| SchemaGenerator.NoBracesUnchanged | apps/backend/src/utils/schema-generator.util.ts:21 | Removing braces from a brace-free name changes nothing. |
| ResponseBuilder.SuccessStatus | apps/backend/src/config/api-responses.config.ts:2-11 | The success status of each method: 201 for POST, 204 for DELETE and OPTIONS, and 200 for the rest. |
| ResponseBuilder.AddErrorEntry | apps/backend/src/utils/response-builder.util.ts:16-24 | Adding an error entry keeps the map well formed: each error status has its own error schema. The key set grows by that status. |
| ResponseBuilder.Assemble | apps/backend/src/utils/response-builder.util.ts:40-117 | The map has the success entry and 400, 409, 500 and 502. It adds 401 and 403 exactly when authentication is required, and 404 exactly when the route targets one resource. |
| ResponseBuilder.BuildStandardResponses | apps/backend/src/utils/response-builder.util.ts:34-120 | The success entry is under the method's status with the generated description. Every other key is one of the error statuses and carries its schema. The key set is exactly as the route analysis and `requiresAuth` dictate. |
| StorageListRoute.ParseOr | apps/backend/src/routes/v1/storage/storageList.route.ts:39-41 | An absent or empty parameter gives the default; a supplied one gives what `JSON.parse` makes of it. |
| StorageListRoute.FilterConditions | apps/backend/src/routes/v1/storage/storageList.route.ts:88-91 | A plain-object filter gives a condition for each entry that holds a scalar or an array of scalars. Anything else gives no condition. |
| StorageListRoute.InvalidJson | apps/backend/src/routes/v1/storage/storageList.route.ts:42-51 | A JSON failure is a 400 with one `INVALID_JSON` detail on `query`. |
| StorageListRoute.InvalidRange | apps/backend/src/routes/v1/storage/storageList.route.ts:54-68 | A malformed range is a 400 with one `INVALID_FORMAT` detail on `range` that carries the value. |
| StorageListRoute.InvalidSort | apps/backend/src/routes/v1/storage/storageList.route.ts:71-85 | A malformed sort is a 400 with one `INVALID_FORMAT` detail on `sort` that carries the value. |
| StorageListRoute.PropertyKey | packages/database/src/services/base.service.ts:429 | A string field is used as the property name as it is. A number field is used as its decimal rendering, which reads back to the number. |
| StorageListRoute.FaultReason | apps/backend/src/routes/v1/storage/storageList.route.ts:92-137 | Every database-fault reason is non-empty. |
| StorageListRoute.StorageSchemaError | apps/backend/src/routes/v1/storage/storageList.route.ts:93-104 | `schemaError('storage', reason, context)` is a 500 `SCHEMA_ERROR` whose message is `Schema error in storage: <reason>`. Its context keeps every key given. |
| StorageListRoute.StorageSchemaFacts | apps/backend/src/routes/v1/storage/storageList.route.ts:93-117 | The factory call gives a 500 `SCHEMA_ERROR` whose message names `storage` and the reason, and whose context holds every given key. |
| StorageListRoute.RunQueries | apps/backend/src/routes/v1/storage/storageList.route.ts:88-123 | The list query, then the count query, as the specification says. A rejection of either becomes its own schema error. |
| StorageListRoute.Answer | apps/backend/src/routes/v1/storage/storageList.route.ts:88-123 | A listed answer means neither query was rejected, and its records are table rows. A failure is a driver fault, and a count fault means the list query went through. |
| StorageListRoute.ContentRange | apps/backend/src/routes/v1/storage/storageList.route.ts:121 | The header starts with `storage `, and the range's start and end read back from their places after it. |
| StorageListRoute.ListStorageSpec | apps/backend/src/routes/v1/storage/storageList.route.ts:28-138 | A setup failure is answered as that fault. A listed answer means no setup failure and no rejected query, and its records are table rows. A count fault means the list query went through. |
| StorageListRoute.ListStorage | apps/backend/src/routes/v1/storage/storageList.route.ts:28-138 | The handler: parse with defaults, check the shapes, then query, equal to the route's specification. |
| StorageListRoute.DefaultsMeaning | apps/backend/src/routes/v1/storage/storageList.route.ts:39-41 | The defaults mean the range 0-9, `createdAt DESC` and no filter. |
| StorageListRoute.DefaultsApply | apps/backend/src/routes/v1/storage/storageList.route.ts:39-123 | With no parameters the route lists the first ten live rows, newest first, with `Content-Range` `storage 0-9/<live count>`. |
| StorageListRoute.ErrorsAreValidationOrSchema | apps/backend/src/routes/v1/storage/storageList.route.ts:124-137 | Every error the route throws is either a 400 validation error with one detail, or a 500 `SCHEMA_ERROR` carrying `originalError`. |
| StorageListRoute.ShapeChecks | apps/backend/src/routes/v1/storage/storageList.route.ts:54-85 | A range that is not two numbers is refused on `range` before the sort is looked at. A bad sort is refused on `sort`. |
| StorageListRoute.AnswerMeaning | apps/backend/src/routes/v1/storage/storageList.route.ts:88-123 | A listed page holds only live rows matching the filter, in the requested order, and is never longer than the reported total. |
| StorageListRoute.AnswerPageLimit | apps/backend/src/routes/v1/storage/storageList.route.ts:88-91 | A listed page for `range = [start, end]` is at most `end - start + 1` rows long. |
| StorageListRoute.AnswerRecords | apps/backend/src/routes/v1/storage/storageList.route.ts:88-91 | A listed page is getList's answer to the parsed range, sort and filter, without deleted rows. So Query.ListPositions says which rows it holds: for `0 <= start <= end + 1`, the positions `start` to `end` of the ordered selection. |
| StorageListRoute.ListedPageMeaning | apps/backend/src/routes/v1/storage/storageList.route.ts:28-123 | The same, for the whole route. |
| StorageCreateRoute.CollectImages | apps/backend/src/routes/v1/storage/storageCreate.route.ts:35-54 | The collecting loop gives exactly the accepted files, in order. |
| StorageCreateRoute.Accepted | apps/backend/src/routes/v1/storage/storageCreate.route.ts:35-54 | Every uploaded file is acceptable. Of several values, every acceptable one is uploaded. A single value is uploaded exactly when it is acceptable. A missing field uploads nothing. |
| StorageCreateRoute.AcceptedMembers | apps/backend/src/routes/v1/storage/storageCreate.route.ts:44-54 | A value is kept exactly when it was sent and is an acceptable file. |
| StorageCreateRoute.AcceptedOfConcat | apps/backend/src/routes/v1/storage/storageCreate.route.ts:44-54 | The filter distributes over concatenation. |
| StorageCreateRoute.AcceptedNoLonger | apps/backend/src/routes/v1/storage/storageCreate.route.ts:44-54 | Nothing is added. Nothing is dropped exactly when every value is acceptable. |
| StorageCreateRoute.FilesJson | apps/backend/src/routes/v1/storage/storageCreate.route.ts:81-85 | One `{name, size, type}` entry per file. |
| StorageCreateRoute.CreateStorage | apps/backend/src/routes/v1/storage/storageCreate.route.ts:21-96 | A missing field gives `No images provided`, and no acceptable file gives `Invalid image files`. Otherwise exactly the accepted files are uploaded. The outcome is a 200 body or a service-unavailable error, with the thrown message when it was an `Error`. |
| StorageCreateRoute.SentFilesAreAcceptable | apps/backend/src/routes/v1/storage/storageCreate.route.ts:36-54 | Every uploaded file is an allowed image type of at most 2 MB. Every acceptable file in an array is uploaded. |
| StorageCreateRoute.SingleValue | apps/backend/src/routes/v1/storage/storageCreate.route.ts:36-43 | A single value is uploaded exactly when it is acceptable. |
| StorageCreateRoute.ImageSubtype | apps/backend/src/routes/v1/storage/storageCreate.route.ts:58 | `image/<sub>` splits into at least two parts, and its upper-cased second part is the subtype. |
| StorageCreateRoute.ImageTypes | apps/backend/src/schemas/storage.schema.ts:87-89 | `image/` is prefixed to each subtype. |
| StorageCreateRoute.ImageSubtypeNames | apps/backend/src/routes/v1/storage/storageCreate.route.ts:57-59 | The names listed in the error are the upper-cased subtypes. |
| StorageCreateRoute.AllowedAreImageTypes | apps/backend/src/schemas/storage.schema.ts:87-89 | The four allowed types are `image/` and the four subtypes. |
| StorageCreateRoute.AllowedSubtypeNames | apps/backend/src/routes/v1/storage/storageCreate.route.ts:57-59 | The listed names are JPEG, PNG, GIF and WEBP. |
| StorageCreateRoute.InvalidFilesMessage | apps/backend/src/routes/v1/storage/storageCreate.route.ts:56-64 | The message names `JPEG, PNG, GIF, WEBP` and `2MB`. |
| StorageCreateRoute.RoundedMegabytes | apps/backend/src/routes/v1/storage/storageCreate.route.ts:56 | `Math.round(bytes / 2^20)`: the result is within half a megabyte of the size, rounding halves up. |
| StorageCreateRoute.JoinOfSubtypes | apps/backend/src/routes/v1/storage/storageCreate.route.ts:59 | Joining the names with `, ` gives the listed text. |
| StorageCreateRoute.ValidationFailureErrors | apps/backend/src/routes/v1/storage/storageCreate.route.ts:25-68 | Both refusals are 400s on `images[]`: `REQUIRED`, and `INVALID_FILES` carrying the sent value. |
| StorageCreateRoute.UploadFailureError | apps/backend/src/routes/v1/storage/storageCreate.route.ts:77-95 | A failed upload is a 502 `SERVICE_UNAVAILABLE` about `File storage service` that lists the files. It has `originalError` exactly when an `Error` was thrown. |
| StorageCreateRoute.ErrorOf | apps/backend/src/routes/v1/storage/storageCreate.route.ts:25-95 | No images or no valid images give a 400 `VALIDATION_ERROR` with one detail on `images[]`, coded `REQUIRED` or `INVALID_FILES`. A failed upload gives a 502 `SERVICE_UNAVAILABLE` whose context holds the files and the original error. |
| Schema.Find | packages/database/src/schema/storage.schema.ts:7-18 | The column found has the key; none found means no column has it. |
| Schema.Keys | packages/database/src/schema/storage.schema.ts:7-18 | The property keys are exactly the keys with a column. |
| Schema.ColumnOf | packages/database/src/schema/storage.schema.ts:7-18 | The column for a key is a column of the table and has that key. |
| Schema.FindAt | packages/database/src/schema/storage.schema.ts:7-18 | With distinct keys, looking up the key of column `i` finds column `i`. |
| Schema.ColumnAt | packages/database/src/schema/storage.schema.ts:7-18 | The same, on a well-formed table. |
| Schema.StorageId | packages/database/src/schema/storage.schema.ts:8 | `id` is the primary key of `storage`. |
| Schema.StorageKey | packages/database/src/schema/storage.schema.ts:9 | `key` is NOT NULL and UNIQUE. |
| Schema.StorageOriginalName | packages/database/src/schema/storage.schema.ts:10 | `originalName` is NOT NULL. |
| Schema.StorageSize | packages/database/src/schema/storage.schema.ts:11 | `size` is NOT NULL. |
| Schema.StorageMimeType | packages/database/src/schema/storage.schema.ts:12 | `mimeType` is NOT NULL. |
| Schema.StorageHash | packages/database/src/schema/storage.schema.ts:13 | `hash` is NOT NULL. |
| Schema.StorageUpdatedAt | packages/database/src/schema/storage.schema.ts:15 | `updatedAt` is a column. |
| Schema.StorageDeletedAt | packages/database/src/schema/storage.schema.ts:16 | `deletedAt` is a column. |
| Schema.StorageSchemaConstraints | packages/database/src/schema/storage.schema.ts:8-13 | All the storage constraints together. |
| Schema.StorageSchemaFeatures | packages/database/src/schema/storage.schema.ts:15-16 | `storage` supports soft delete and has no `slug` or `shortId` column. |
| Schema.NoSlugOrShortId | packages/database/src/schema/storage.schema.ts:7-18 | No `slug` and no `shortId` column. |
| Schema.Absent | packages/database/src/schema/storage.schema.ts:7-18 | A key that no column has is not found. |
| Schema.StorageSchemaDefaults | packages/database/src/schema/storage.schema.ts:14 | Only `createdAt` has a default, CURRENT_TIMESTAMP, and no column has enum values. |
| Schema.StorageInfoSchemaShape | packages/database/src/schema/storage_info.schema.ts:7-15 | `id` is the key. `storageId` is NOT NULL and references `storage.id`. `description` is NOT NULL. There is no `deletedAt`, `updatedAt`, `slug` or `shortId`. |
| Schema.InfoColumns | packages/database/src/schema/storage_info.schema.ts:8-12 | Where `id`, `storageId` and `description` sit in `storage_info`. |
| Schema.InfoAbsentColumns | packages/database/src/schema/storage_info.schema.ts:7-15 | `storage_info` has no soft-delete, update, slug or short-id column. |
| Schema.SchemasWellFormed | packages/database/src/schema/storage.schema.ts:7-18 | Both tables have distinct property keys. |
| Schema.KeysDiffer | packages/database/src/schema/storage_info.schema.ts:7-15 | Pairwise different keys make a table well formed. |
| Services.AllServices | packages/database/src/services.ts:7-21 | Each service is registered under its table's name. |
| Services.ServicesShape | packages/database/src/services.ts:7-21 | There are exactly two services. `storage` has no relations, and `storage_info` has one relation, to `storage`. |
| Services.InfoJoinMeaning | packages/database/src/services.ts:12-20 | Every joined `storage_info` row has one slot. It holds a storage row whose `id` equals its `storageId`, or it is empty when there is none. Every info row appears. |
| Relations.Extend | packages/database/src/services/base.service.ts:304-333 | One extended row per target row, each with that target appended. |
| Relations.JoinOneMeaning | packages/database/src/services/base.service.ts:304-333 | A left join never drops the base row. Each result has one more slot, and it satisfies the `on` condition or is empty when nothing matches. |
| Relations.JoinAllMeaning | packages/database/src/services/base.service.ts:444-503 | Joining one more relation keeps every row well shaped and keeps every base row. |
| Relations.JoinRelations | packages/database/src/services/base.service.ts:474-477 | The left joins, one relation after another, never lose a row: there are at least as many joined rows as base rows. |
| Relations.Bases | packages/database/src/services/base.service.ts:472-477 | The base row of each joined row, in order. |
| Relations.JoinAllBases | packages/database/src/services/base.service.ts:474-477 | Every row a left join produces has the base of some row it was given. |
| Relations.JoinAllKeepsOrder | packages/database/src/services/base.service.ts:474-477 | A left join keeps the order of the bases. |
| Relations.JoinRelationsKeepsOrder | packages/database/src/services/base.service.ts:474-494 | Joining all relations over rows in list order leaves the bases in that order. |
| Relations.PageKeepsBaseOrder | packages/database/src/services/base.service.ts:497-500 | A page of the joined rows keeps the order of their bases. |
| Relations.Lift | packages/database/src/services/base.service.ts:444-503 | A row with no relations joined yet. |
| Relations.LeftJoinMeaning | packages/database/src/services/base.service.ts:444-503 | Every joined row is well shaped for all relations, and every base row appears. |
| Store.Filter | packages/database/src/services/base.service.ts:408-423 | Exactly the rows satisfying the predicate, never more. |
| Store.FirstViolation | packages/database/src/schema/storage.schema.ts:8-16 | No violation is found exactly when every column's NOT NULL and UNIQUE constraints hold. |
| Store.NewRow | packages/database/src/services/base.service.ts:179-186 | An inserted row has a value for every column of the table. |
| Store.InsertSpec | packages/database/src/services/base.service.ts:179-186 | A successful insert appends exactly the new row. A failed one changes nothing. Constraints are preserved. |
| Store.DuplicateIsRejected | packages/database/src/schema/storage.schema.ts:9 | Inserting a value already held in a UNIQUE or key column fails and changes nothing. |
| Store.Assignments | packages/database/src/services/base.service.ts:208-214 | The SET list holds only columns, with storable values. |
| Store.AssignmentOf | packages/database/src/services/base.service.ts:208-214 | A defined payload value for a column is assigned in its bound form. |
| Store.OverlaySingle | packages/database/src/services/base.service.ts:208-214 | Overlaying one assignment is a single-key update. |
| Store.SingleAssignment | packages/database/src/services/base.service.ts:254-260 | A one-key payload gives a one-key SET. |
| Store.ApplyUpdate | packages/database/src/services/base.service.ts:208-214 | The assignments are applied to exactly the matching rows, and every other row is kept. |
| Store.Overlay | packages/database/src/services/base.service.ts:576-589 | Every row gets the assignments. |
| Store.UpdateSpec | packages/database/src/services/base.service.ts:208-214 | No defined value is an error. A failure changes nothing. A success returns the updated matches. Constraints are preserved. |
| Store.UpdateKeepsFullRows | packages/database/src/services/base.service.ts:208-214 | Updating keeps every row complete. |
| Store.DeleteSplitsRows | packages/database/src/services/base.service.ts:234-245 | The kept and removed rows together are the old rows, as a multiset. |
| Store.HoldsOfTail | packages/database/src/schema/storage.schema.ts:8-16 | Constraints that hold on a table hold on its tail. |
| Store.FilterKeepsColumn | packages/database/src/schema/storage.schema.ts:8-16 | Removing rows keeps a column's constraints. |
| Store.FilterKeepsConsistent | packages/database/src/services/base.service.ts:234-245 | Removing rows keeps the table consistent. |
| Store.Table.constructor | packages/database/src/schema/storage.schema.ts:5-19 | A new table is empty and consistent. |
| Store.Table.Insert | packages/database/src/services/base.service.ts:179-186 | The insert, equal to its specification, keeping the table valid. |
| Store.Table.Update | packages/database/src/services/base.service.ts:208-214 | The update, equal to its specification, keeping the table valid. |
| Store.Table.Delete | packages/database/src/services/base.service.ts:234-245 | The delete: the kept rows stay, and the removed ones are returned. |
| Values.Get | packages/database/src/services/base.service.ts:415 | A missing key reads as `undefined`. |
| Values.Bind | packages/database/src/services/base.service.ts:419 | Every defined value binds to a value SQLite can store, and `undefined` stays unbound. |
| Values.TextLeTotal | packages/database/src/services/base.service.ts:427-436 | The text order is total. |
| Values.TextLeTrans | packages/database/src/services/base.service.ts:427-436 | The text order is transitive. |
| Values.LeTotal | packages/database/src/services/base.service.ts:427-436 | The column order (NULL, then numbers, then text) is total. |
| Values.LeTrans | packages/database/src/services/base.service.ts:427-436 | The column order is transitive. |
| Query.SelectedRows | packages/database/src/services/base.service.ts:405-423 | Exactly the rows that are visible and match every active filter entry. |
| Query.InactiveEntryIgnored | packages/database/src/services/base.service.ts:415 | An entry for a non-column or an `undefined` value does not change the match. |
| Query.SingleEntryMeaning | packages/database/src/services/base.service.ts:416-420 | A scalar entry means SQL `=` and an array entry means SQL `IN`. A NULL column never matches. |
| Query.ListOrder | packages/database/src/services/base.service.ts:427-436 | With no sort, the order is `id DESC` when the table has an `id`. A sort on a column is honoured, ascending exactly for `ASC`. The order key is always a column. A sort on anything else gives no order. |
| Query.InOrderTotal | packages/database/src/services/base.service.ts:427-436 | Any two rows are ordered one way or the other. |
| Query.InOrderTrans | packages/database/src/services/base.service.ts:427-436 | The row order is transitive. |
| Query.InsertSorted | packages/database/src/services/base.service.ts:427-436 | Insertion adds exactly the one row. |
| Query.SortRows | packages/database/src/services/base.service.ts:427-436 | Sorting keeps the length. |
| Query.InsertSortedKeepsOrder | packages/database/src/services/base.service.ts:427-436 | Inserting into a sorted list keeps it sorted. |
| Query.SortedSplit | packages/database/src/services/base.service.ts:427-436 | A sorted list's head comes before its tail, and the tail is sorted. |
| Query.SortedCons | packages/database/src/services/base.service.ts:427-436 | A head before every element, added to a sorted list, keeps it sorted. |
| Query.SortRowsCorrect | packages/database/src/services/base.service.ts:427-436 | The result is sorted and is a permutation of the input. |
| Query.Page | packages/database/src/services/base.service.ts:437-438 | No range gives every row. |
| Query.PageOfRange | packages/database/src/services/base.service.ts:437-438 | `[s, e]` gives at most `e - s + 1` rows, starting at row `s`. |
| Query.DefaultRangeIsFirstTen | packages/database/src/services/base.service.ts:437-438 | `[0, 9]` gives the first ten rows. |
| Query.PageIsSlice | packages/database/src/services/base.service.ts:437-438 | A page is a contiguous slice. |
| Query.PageKeeps | packages/database/src/services/base.service.ts:437-438 | A page holds only input rows. |
| Query.PageKeepsOrder | packages/database/src/services/base.service.ts:437-438 | A page of a sorted list is sorted. |
| Query.ListRowsAreSelected | packages/database/src/services/base.service.ts:395-442 | Every listed row is visible and matches the filter, and the list is in order. |
| Query.ListSpec | packages/database/src/services/base.service.ts:395-442 | The listed rows are table rows that are visible and match the filter. They are in list order, and there are never more of them than selected rows. |
| Query.ListPositions | packages/database/src/services/base.service.ts:425-439 | Without a range the listed rows are all the selected rows, as a multiset. A non-negative limit bounds them. For a range `[s, e]` with `0 <= s <= e + 1`, they are the rows at positions `s` to `e` of the ordered selection, as far as those exist. |
| Query.PagedSortedSelection | packages/database/src/services/base.service.ts:425-439 | A page of the sorted selection holds only selected rows, in order, and no more of them than are selected. |
| Query.PagedSortedPositions | packages/database/src/services/base.service.ts:425-439 | A page of the sorted selection is the whole selection without a range, as a multiset, and it respects a non-negative limit. |
| Query.PagedSortedRange | packages/database/src/services/base.service.ts:425-439 | A range `[s, e]` with `0 <= s <= e + 1` takes the sort's positions `s` to `e`, as far as they exist, and has that length. |
| Query.ListLengthIsCount | packages/database/src/services/base.service.ts:505-543 | Without a range, the list has exactly as many rows as the count reports. |
| Query.PageWithinCount | packages/database/src/services/base.service.ts:505-543 | A page never has more rows than the count. |
| Query.CountSpec | packages/database/src/services/base.service.ts:505-543 | The count never exceeds the selected rows. It equals them when the table has no `id`, or when no row has a null `id`. |
| Query.PageWithinLimit | packages/database/src/services/base.service.ts:437-438 | A page with a range of non-negative length has at most `end - start + 1` rows. |
| Query.NonNullIdsAll | packages/database/src/services/base.service.ts:518-519 | `count(id)` counts every row when no id is NULL. |
| Query.SoftDeletedRowHidden | packages/database/src/services/base.service.ts:408-410 | A row with `deletedAt` set is neither listed nor counted by default. |
| Repository.EnumCheck | packages/database/src/services/base.service.ts:93-103 | No error exactly when every enum column accepts its value. The error has status 400. |
| Repository.CheckEnums | packages/database/src/services/base.service.ts:93-103 | The enum loop finds the same first failing column. |
| Repository.ConvertDate | packages/database/src/services/base.service.ts:106-120 | Converting one date field keeps the keys and every other value. |
| Repository.ConvertDates | packages/database/src/services/base.service.ts:106-120 | Converting the date fields keeps the keys and every value outside those fields. |
| Repository.ConvertDatesPointwise | packages/database/src/services/base.service.ts:106-120 | Each present date column is converted and every other key is unchanged. |
| Repository.ConvertDateFields | packages/database/src/services/base.service.ts:106-120 | The date loop computes the conversion. |
| Repository.ConvertDatesAt | packages/database/src/services/base.service.ts:106-120 | The conversion, one key at a time. |
| Repository.StampKeeps | packages/database/src/services/base.service.ts:106-124 | Stamping keeps every key, changes only date fields, and sets `updatedAt` to now when asked. |
| Repository.Stamp | packages/database/src/services/base.service.ts:106-124 | Date conversion and the `updatedAt` refresh keep every key and every value outside the date fields. With auto-update and an `updatedAt` column, `updatedAt` is now. |
| Repository.PrepareSlug | packages/database/src/services/base.service.ts:127-142 | Only a table with a `slug` column can fail here, and without one the payload is unchanged. On success, every key is kept and nothing but `slug` changes. |
| Repository.SlugMeaning | packages/database/src/services/base.service.ts:127-142 | A truthy slug that is not a string is a type failure. On create, a blank slug with no string `title` fails with 400. A non-blank slug is kept, and no key other than `slug` changes. |
| Repository.PrepareSpecMeaning | packages/database/src/services/base.service.ts:82-145 | A rejected enum value fails before anything else. A success keeps the keys, refreshes `updatedAt` when asked, and settles the slug. |
| Repository.PrepareSpec | packages/database/src/services/base.service.ts:82-145 | A value outside its column's enum fails with the enum check's error. A prepared payload has passed every enum check and kept every key. |
| Repository.DateFieldsDistinct | packages/database/src/services/base.service.ts:106-120 | The date fields are distinct and none is `id`, `shortId`, `slug` or `title`. |
| Repository.BaseService.PrepareData | packages/database/src/services/base.service.ts:82-145 | `#prepareData`, step by step, equal to its specification. |
| Repository.CreateSpec | packages/database/src/services/base.service.ts:147-190 | A failure leaves the rows. A success appends exactly the returned row. Create succeeds exactly when preparation and the INSERT do. So the 500 `Insertion failed: No rows returned.` (lines 184-186) never arises. Constraints are preserved. |
| Repository.PrepareCreateAt | packages/database/src/services/base.service.ts:166 | On create, preparation changes no key but the dates and `slug`. |
| Repository.PreparedCreatePayload | packages/database/src/services/base.service.ts:157-171 | Preparation keeps `id` and `shortId` and stores each timestamp converted. |
| Repository.StampCreateAt | packages/database/src/services/base.service.ts:157-163 | A falsy `createdAt` or `updatedAt` becomes now, and everything else is unchanged. |
| Repository.StampCreate | packages/database/src/services/base.service.ts:157-163 | Every key is kept, and nothing but the two timestamps changes. Given a time, each timestamp column is set, and a truthy `createdAt` is kept. |
| Repository.PreparedIdentifier | packages/database/src/services/base.service.ts:166-176 | Preparation keeps the caller's `id` and `shortId`. |
| Repository.PreparedTimestamp | packages/database/src/services/base.service.ts:157-166 | The stored timestamp is the caller's, or now when it was falsy, converted. |
| Repository.NewRowTakesDefined | packages/database/src/services/base.service.ts:179-186 | The stored row holds each defined payload value in its bound form. |
| Repository.CreateFillsOnlyMissing | packages/database/src/services/base.service.ts:157-186 | Create keeps supplied identifiers and timestamps, and fills only the falsy ones. |
| Repository.CreatedRow | packages/database/src/services/base.service.ts:179-186 | The stored row is built from the prepared payload with identifiers filled. |
| Repository.CreatedIdentifier | packages/database/src/services/base.service.ts:169-176 | A stored `id` or `shortId` is the caller's truthy one, or the fresh one. |
| Repository.CreatedTimestamp | packages/database/src/services/base.service.ts:157-163 | A stored timestamp is the caller's truthy one, converted, or now. |
| Repository.FillIdentifiersAt | packages/database/src/services/base.service.ts:169-176 | Only falsy `id` and `shortId` columns are filled, and nothing else changes. |
| Repository.FillIdentifiers | packages/database/src/services/base.service.ts:168-176 | Every key is kept, and nothing but `id` and `shortId` changes. Given fresh values, each identifier column is set, and a truthy `id` is kept. |
| Repository.BaseService.StampTimestamps | packages/database/src/services/base.service.ts:157-163 | The caller's object gets its falsy timestamps set. |
| Repository.BaseService.Create | packages/database/src/services/base.service.ts:147-190 | The caller's object is stamped first. The result and the table are the specification's. |
| Repository.UpdateServiceSpec | packages/database/src/services/base.service.ts:192-221 | Same row count. Rows with another id are untouched. A failure changes nothing. On success, preparation succeeded, and the table is the UPDATE of the prepared payload's assignments on the rows with that id. Constraints are preserved. |
| Repository.NothingMatchedNothingChanges | packages/database/src/services/base.service.ts:215-219 | An UPDATE that returns no row changes no row. |
| Repository.UpdateRefreshesUpdatedAt | packages/database/src/services/base.service.ts:192-221 | A successful update returns a row that had that id, with `updatedAt` set to now. |
| Repository.UpdateStoresPayload | packages/database/src/services/base.service.ts:208-214 | After a successful update, a row with that id holds each defined value of the prepared payload that names a column, bound. Its other columns keep their values. Its `updatedAt` is now whenever the table has that column. |
| Repository.UpdatedRowShape | packages/database/src/services/base.service.ts:192-221 | The returned row is the first match overlaid with the prepared values. |
| Repository.PrepareRefreshesUpdatedAt | packages/database/src/services/base.service.ts:122-124 | Update's preparation sets `updatedAt` to now. |
| Repository.BaseService.Update | packages/database/src/services/base.service.ts:192-221 | Equal to its specification, so on success the table is the UPDATE of the prepared payload on the rows with that id. The table stays valid. |
| Repository.DeleteServiceSpec | packages/database/src/services/base.service.ts:223-269 | A permanent delete returns a row with that id. The table is then exactly the rows without that id, in order. A failure changes nothing. Constraints are preserved. |
| Repository.NothingMatchedNothingRemoved | packages/database/src/services/base.service.ts:234-245 | Removing nothing keeps every row. |
| Repository.KeptAll | packages/database/src/services/base.service.ts:234-245 | When no row matches, every row is kept. |
| Repository.FilterKeepsConsistentIf | packages/database/src/services/base.service.ts:234-245 | Deleting keeps the constraints. |
| Repository.SoftDeleteTouchesOnlyDeletedAt | packages/database/src/services/base.service.ts:246-268 | A soft delete sets `deletedAt` to now on the rows with that id and changes nothing else. |
| Repository.SoftDeleteRows | packages/database/src/services/base.service.ts:246-268 | The table after a soft delete is the UPDATE of `deletedAt` on the matching rows. |
| Repository.BaseService.Delete | packages/database/src/services/base.service.ts:223-269 | Equal to its specification, so a permanent delete keeps exactly the rows without that id. The table stays valid. |
| Repository.FirstOf | packages/database/src/services/base.service.ts:271-302 | A row of the table that satisfies the predicate, or none exactly when no row does. |
| Repository.GetById | packages/database/src/services/base.service.ts:271-302 | It fails exactly when there is no `id` column or the table is unregistered. Otherwise it returns a visible row with that id, and none only when no visible row has it. |
| Repository.GetByShortId | packages/database/src/services/base.service.ts:336-366 | The same on `shortId`. A missing column fails with 400. |
| Repository.GetByIdWithRelations | packages/database/src/services/base.service.ts:304-333 | It fails exactly when there is no `id` column. Otherwise it returns a joined row whose base is visible and has that id, and none only when no visible row has it. |
| Repository.Texts | packages/database/src/services/base.service.ts:368-393 | The ids as bound texts, one for one. |
| Repository.GetMany | packages/database/src/services/base.service.ts:368-393 | No ids gives `[]` without a query. Otherwise it gives exactly the visible rows whose id is listed. |
| Repository.GetList | packages/database/src/services/base.service.ts:395-442 | It fails exactly when unregistered. The rows are visible, match the filter, and are in list order. Without a range every selected row comes back. A non-negative limit bounds the page. For a range `[s, e]` with `0 <= s <= e + 1`, the page is the ordered selection's positions `s` to `e`, as far as they exist. |
| Repository.GetListWithRelations | packages/database/src/services/base.service.ts:444-503 | Every joined row is well shaped, and its base is visible and matches the filter. The bases follow the list order. Without a range, every selected row is the base of some joined row. With a range of non-negative length, at most `end - start + 1` rows come back. |
| Repository.JoinedListMeaning | packages/database/src/services/base.service.ts:444-503 | Any page of the joined list holds only well-shaped rows whose bases are selected. |
| Repository.JoinedListOrder | packages/database/src/services/base.service.ts:484-500 | The bases of any page of the joined list follow the list order. |
| Repository.JoinedListComplete | packages/database/src/services/base.service.ts:444-503 | Without a range, every selected row is the base of some joined row. |
| Repository.GetManyReference | packages/database/src/services/base.service.ts:545-568 | An unknown field is an error. Otherwise it is getList with `field = id` added to the filter. |
| Repository.ReferenceRowsHaveId | packages/database/src/services/base.service.ts:545-568 | Every row returned has `field` equal to the id. |
| Repository.SoftDeletedRowIsHidden | packages/database/src/services/base.service.ts:246-302 | After a soft delete, a default getById no longer finds the row. |
| Repository.StampedRowsHidden | packages/database/src/services/base.service.ts:246-268 | Rows with `deletedAt` set are hidden from default reads. |
| Repository.BulkUpdateCheck | packages/database/src/services/base.service.ts:576-589 | No error exactly when every entry has a truthy id and object data. The error has status 400. |
| Repository.BaseService.CheckUpdates | packages/database/src/services/base.service.ts:576-589 | The checking loop finds the same first bad entry. |
| Repository.BulkApply | packages/database/src/services/base.service.ts:590-592 | Same row count, one result per entry, and constraints preserved. |
| Repository.BulkApplyStep | packages/database/src/services/base.service.ts:590-592 | Each entry's update runs on the table the earlier ones left. |
| Repository.BaseService.ApplyUpdates | packages/database/src/services/base.service.ts:590-592 | The update loop computes the sequential application. |
| Repository.UpdateSyncFailure | packages/database/src/services/base.service.ts:192-205 | The part of `update` before its first await fails exactly when `#prepareData` fails or the table has no `id` column. |
| Repository.EarlyFailureIsUpdateFailure | packages/database/src/services/base.service.ts:192-205 | When that early part fails, the whole update fails with the same error and changes nothing, whatever the table holds. |
| Repository.SyncFailures | packages/database/src/services/base.service.ts:592 | One early outcome per entry, in entry order. |
| Repository.EarlyFailure | packages/database/src/services/base.service.ts:592 | No early failure exactly when no entry fails early. Otherwise it is the error of an entry that fails early, with no earlier entry failing early. |
| Repository.EarlyFailureAt | packages/database/src/services/base.service.ts:592 | The early failure of a list is the error of its first entry that fails early. |
| Repository.EarlyFailureWins | packages/database/src/services/base.service.ts:570-593 | When entry `k` is the first to fail early, the bulk update rejects with entry `k`'s error, even if an earlier entry would fail later for want of a matching row. |
| Repository.BulkUpdateSpec | packages/database/src/services/base.service.ts:570-593 | No entries gives `[]`. A bad entry fails before anything changes. Otherwise every entry's update runs on the table in entry order. The result is the first early failure (before any await) if there is one, and otherwise the combined result of the updates. A success has one row per entry. Constraints are preserved. |
| Repository.BaseService.BulkUpdate | packages/database/src/services/base.service.ts:570-593 | Equal to its specification: it checks the entries, applies every update in order, and reports an early failure ahead of any database failure. |
| Repository.FirstBadId | packages/database/src/services/base.service.ts:599-606 | The position of the first id that is not a non-blank string, or none. |
| Repository.BulkDeleteSpec | packages/database/src/services/base.service.ts:595-640 | No ids gives `[]`. Any bad id fails and changes nothing. A table without `id`, or a soft delete on a table without `deletedAt`, fails with the source's 400 and changes nothing. A permanent delete of a non-empty list succeeds, removes exactly the rows with a listed id and returns those rows. A soft delete stamps `deletedAt` on exactly those rows and returns them stamped. Constraints are preserved. |
| Repository.BulkSoftDeleteStamps | packages/database/src/services/base.service.ts:624-639 | A successful soft delete keeps the table's length. Each row with a listed id gets `deletedAt` set to the time and nothing else changed, every other row is unchanged, and the returned rows are the matching rows so stamped, in table order. |
| Repository.BaseService.BulkDelete | packages/database/src/services/base.service.ts:595-640 | Equal to its specification, including the soft-delete and missing-column cases. |
| Repository.Payload.constructor | packages/database/src/services/base.service.ts:147-156 | The caller's object holds the given fields. |
| Repository.BaseService.constructor | packages/database/src/services/base.service.ts:26-45 | A service over a table, with its relations and helpers. |
| StorageRecords.WithId | packages/database/src/services/storage.service.ts:19-27 | `{ ...record, id }` has the record's keys plus `id`, with that id. |
| StorageRecords.CreateRecordSpec | packages/database/src/services/storage.service.ts:13-34 | A success returns the record with the stored id and appends exactly that row. A failure changes nothing. |
| StorageRecords.CreatedRecordCarriesStoredId | packages/database/src/services/storage.service.ts:18-27 | The returned id is the stored row's id. |
| StorageRecords.CreateStorageRecord | packages/database/src/services/storage.service.ts:13-34 | Equal to its specification. |
| StorageRecords.CreateFileAsWritten | services/db/src/storage.ts:13-33 | A success stores the row under one id and returns the file under another. |
| StorageRecords.CreateFileReturnsAnotherId | services/db/src/storage.ts:18-26 | When the two generated ids differ, the returned id is not the stored row's id. |
| StorageRecords.CreateFile | services/db/src/storage.ts:13-33 | Equal to its as-written specification. |
| StorageRecords.RecordFromKey | packages/database/src/services/storage.service.ts:43-63 | The first live row with that key, or `null` exactly when no live row has it. |
| StorageRecords.ListRecords | packages/database/src/services/storage.service.ts:71-81 | Exactly the rows with NULL `deletedAt`. |
| ClientCache.DrizzleClient.constructor | packages/database/src/client.ts:13 | A client wraps its D1 binding. |
| ClientCache.ClientTable.constructor | packages/database/src/client.ts:3 | The cache starts empty. |
| ClientCache.ClientTable.GetDbClient | packages/database/src/client.ts:5-16 | A cached reference gets its client back and nothing changes. An uncached one gets a fresh client for the binding, added under that reference only. |
| Json.Lookup | scripts/setup-wrangler.mjs:62 | A missing key reads as `undefined`. |
| Json.Copy | scripts/setup-wrangler.mjs:27-30 | `JSON.parse(JSON.stringify(v))` yields a value without `undefined`. |
| Json.CopyItems | scripts/setup-wrangler.mjs:27-30 | Array slots holding `undefined` become `null`, and the others are copied. |
| Json.CopyOfClean | scripts/setup-wrangler.mjs:27-30 | Copying a clean value gives it back. |
| Json.CopyIdempotent | scripts/setup-wrangler.mjs:27-30 | The JSON round trip is idempotent. |
| WranglerConfig.Merge | scripts/setup-wrangler.js:17-53 | An object override gives an object with the union of the keys. |
| WranglerConfig.MergeFields | scripts/setup-wrangler.js:39-50 | Override keys are merged recursively, and other base keys are kept. |
| WranglerConfig.MergeIdempotent | scripts/setup-wrangler.js:17-53 | Merging the same override twice is merging it once. |
| WranglerConfig.MergeObjectMembers | scripts/setup-wrangler.js:17-53 | Unmentioned base keys are kept. A primitive or array member replaces the base's, and a null member keeps it. |
| WranglerConfig.NullOverMissingKeySetsUndefined | scripts/generate-wrangler.json.js:23-25 | A null member over a missing key sets that key to `undefined`. |
| WranglerConfig.MergeOneKey | scripts/setup-wrangler.js:48-50 | One more key of the loop keeps the partial merge exact. |
| WranglerConfig.MergeValues | scripts/setup-wrangler.mjs:26-66 | The key loop computes the merge. |
| WranglerConfig.CopyIfObject | scripts/setup-wrangler.mjs:27-30 | Object-typed values are copied clean, and others are kept. |
| WranglerConfig.DeepMergeCopying | scripts/setup-wrangler.mjs:26-66 | The copying merge is the merge of the copies. |
| WranglerConfig.CopyingMergeOfJsonInputs | scripts/setup-wrangler.mjs:26-66 | On inputs read from JSON, the copying merge equals the plain merge. |
| WranglerConfig.SetupAllPackagesCopying | scripts/setup-wrangler.mjs:146-195 | A wrangler path that fails the check stops the run. Otherwise each package that passes the check gets the root merged with its own config, in order. |
| WranglerConfig.CopyingRunMeaning | scripts/setup-wrangler.mjs:154-161 | Every output belongs to a checked package and is the merge of the root with that package's config. Every checked package has its output. |
| WranglerConfig.CopyingRun | scripts/setup-wrangler.mjs:154-161 | The loop writes at most one output per package. |
| WranglerConfig.CopyingOutputsAreIndependent | scripts/setup-wrangler.mjs:119-122 | For JSON inputs, a package's output is the merge of the root with it alone. |
| WranglerConfig.ConfigObject.constructor | scripts/setup-wrangler.js:5 | The imported root object holds the given fields. |
| WranglerConfig.ConfigObject.DeepMerge | scripts/setup-wrangler.js:17-53 | The in-place merge returns the base object itself exactly for object or nullish overrides, and then the base holds the merge. Otherwise it returns the override and the base is untouched. |
| WranglerConfig.GenerateWrangler | scripts/generate-wrangler.json.js:58-79 | The written config is the merge over the old root, and an object config leaves the root changed to it. |
| WranglerConfig.SharedRootOutputs | scripts/setup-wrangler.js:113-131 | One output per package. |
| WranglerConfig.SharedRootOutputsFrom | scripts/setup-wrangler.js:113-131 | Outputs from package `i` on depend on the root as earlier packages left it. |
| WranglerConfig.RootAfter | scripts/setup-wrangler.js:113-131 | A non-object package leaves the shared root as it was. An object package leaves an object holding the root's keys and the package's. Merging that package again changes nothing. |
| WranglerConfig.SetupAllPackagesShared | scripts/setup-wrangler.js:113-131 | The loop writes the shared-root outputs. |
| WranglerConfig.SharedRootLeaksBetweenPackages | scripts/setup-wrangler.js:96-99 | A later package's output carries a key that only an earlier package set. |
| WranglerConfig.IsValidPath | scripts/setup-wrangler.mjs:134-141 | Empty paths and shell-special characters are refused. Accepted paths resolve to something at least as long as the root. |
| WranglerConfig.IsValidPathWithin | scripts/setup-wrangler.mjs:138-140 | The intended check accepts only what the written check accepts. |
| WranglerConfig.UnderIffSegmentPrefix | scripts/setup-wrangler.mjs:138-140 | Lying under the root means the root's segments are a prefix of the path's, and conversely. |
| WranglerConfig.ValidPathWithinHasRootSegments | scripts/setup-wrangler.mjs:138-140 | A path the intended check accepts extends the root's segments. |
| WranglerConfig.SiblingDirectoryPassesPrefixCheck | scripts/setup-wrangler.mjs:140 | `/srv/app-evil/bin` passes the written check for root `/srv/app`, but does not lie under it. |
| Text.ToLower | apps/backend/src/utils/api-docs.util.ts:36 | On ASCII: no capital letter is left, every other character stays in place, and each capital becomes its small letter. The length is kept. |
| Text.ToUpper | apps/backend/src/handlers/error.handler.ts:41 | On ASCII: no small letter is left, every other character stays in place, and each small letter becomes its capital. The length is kept. |
| Text.LowerIsIdempotent | apps/backend/src/utils/api-docs.util.ts:36 | Lower-casing twice is lower-casing once. |
| Text.Split | apps/backend/src/utils/api-docs.util.ts:65 | There is always at least one part. |
| Text.SplitPartsHaveNoSeparator | apps/backend/src/utils/api-docs.util.ts:65 | No part contains the separator. |
| Text.JoinSplit | apps/backend/src/utils/api-docs.util.ts:65-67 | Joining the parts with the separator gives the string back. |
| Text.SplitJoin | apps/backend/src/handlers/error.handler.ts:40 | Splitting the joined form of non-empty parts without the separator gives the parts back. |
| Text.SplitAround | scripts/setup-wrangler.mjs:140 | A separator placed between two strings splits each side separately. |
| Text.SplitCons | apps/backend/src/utils/api-docs.util.ts:65 | How a first character changes the split. |
| Text.StepAppend | apps/backend/src/utils/api-docs.util.ts:65 | The split step commutes with appending. |
| Text.SplitWithoutSeparator | apps/backend/src/utils/api-docs.util.ts:65 | A string without the separator is its own single part. |
| Text.JoinAppend | apps/backend/src/utils/api-docs.util.ts:67 | Joining two lists puts one separator between their joins. |
| Text.TrimStart | packages/database/src/services/base.service.ts:127-142 | Trimming the start never lengthens the string. |
| Text.TrimEnd | packages/database/src/services/base.service.ts:127-142 | Trimming the end never lengthens the string. |
| Text.BlankTail | packages/database/src/services/base.service.ts:127-142 | A string starting with whitespace is blank exactly when its tail is. |
| Text.TrimStartBlank | packages/database/src/services/base.service.ts:127-142 | The trimmed start is blank exactly when the string is. |
| Text.TrimEndEmpty | packages/database/src/services/base.service.ts:127-142 | Trimming the end leaves nothing exactly when the string is blank. |
| Text.TrimEmptyIffBlank | packages/database/src/services/base.service.ts:599-606 | `s.trim()` is empty exactly when the string is blank. |
| Text.DigitChar | apps/backend/src/routes/v1/storage/storageList.route.ts:121 | A digit value maps to a digit character. |
| Text.DigitValue | apps/backend/src/routes/v1/storage/storageList.route.ts:121 | A digit character has a value below ten. |
| Text.NatToString | apps/backend/src/routes/v1/storage/storageList.route.ts:121 | `${n}` is a non-empty run of digits. |
| Text.IntToString | apps/backend/src/routes/v1/storage/storageList.route.ts:121 | `${i}` is never empty. The number can be read back from it (see ParseIntPrefixOfIntToString). |
| Text.DigitsValueOfNatToString | apps/backend/src/routes/v1/storage/storageList.route.ts:121 | The digits of `${n}` have value `n`. |
| Text.DigitRun | apps/backend/src/routes/v1/storage/storageList.route.ts:121 | The longest leading run of digits. |
| Text.DigitRunOfDigitsThenOther | apps/backend/src/routes/v1/storage/storageList.route.ts:121 | A digit run followed by a non-digit is exactly that run. |
| Text.DigitsPrefix | apps/backend/src/routes/v1/storage/storageList.route.ts:121 | A found run is non-empty and within the string. |
| Text.ParseIntPrefix | apps/backend/src/routes/v1/storage/storageList.route.ts:121 | A parsed integer consumed a non-empty prefix. |
| Text.ParseIntPrefixOfIntToString | apps/backend/src/routes/v1/storage/storageList.route.ts:121 | Reading back `${i}`, followed by any non-digit text, gives `i` and consumes exactly its rendering. |
| Text.ParseNonNegativeRendering | apps/backend/src/routes/v1/storage/storageList.route.ts:121 | The same for `n ≥ 0`. |
| Text.ParseNegativeRendering | apps/backend/src/routes/v1/storage/storageList.route.ts:121 | The same for negative numbers. |
| Text.DigitsPrefixOfRendering | apps/backend/src/routes/v1/storage/storageList.route.ts:121 | The digit run of a rendering is the whole rendering. |
| Text.ParseSigned | apps/backend/src/routes/v1/storage/storageList.route.ts:121 | A leading `-` negates the digit run. |
| Text.ParseUnsigned | apps/backend/src/routes/v1/storage/storageList.route.ts:121 | Without a sign, the digit run is the parse. |
| Text.TwoNumbersReadBack | apps/backend/src/routes/v1/storage/storageList.route.ts:121 | Two numbers rendered with a non-digit separator between them, and no digit after them, each read back from their places. |

## Left out

- I/O is not modelled. Console logging, the file reads and writes of the scripts, `glob`/`readdir` discovery of packages, and running `wrangler types` (with its 30-second timeout) are left out. The packages are given as a sequence of directory and config pairs.
- Clocks, randomness and uuids are parameters: `new Date()`, `Date.now()`, `Math.random()`, `crypto.randomUUID`, `uuidv7()` and the short-id generator. So are the error `stack` and `timestamp`.
- The SQLite UTC formatter and `slugify` are passed in as functions. Their code is not part of this model.
- `path.resolve` is passed in as a function.
- `JSON.parse` of a query parameter is given as its outcome. A failure is `None`.
- `uploadFiles` is given as its outcome: uploaded, or threw an `Error` with a message, or threw something else. Its code is not part of this model.
- Drizzle and SQLite are modelled only as far as the services use them:
  - insert, update and delete on a sequence of rows;
  - NOT NULL, UNIQUE and primary-key constraints, but not foreign keys (see `Store.InsertSpec` below);
  - `=`, `IN` and `IS NULL`, comparing values by their stored kind, without SQLite's column type affinity (see `Values.SqlEq` below);
  - ordering with NULL first, then numbers, then text;
  - `limit`/`offset`.
- Floating point, NaN and SQL REAL are not modelled. Numbers are integers.
- JSON object key order is not modelled (objects are maps).
- Header names are taken as already lower-case.
- The `cause` option of the error constructors is not modelled.
- `Error.name` and `instanceof` are modelled as data on the thrown value.
- The file objects of the upload route are modelled by the fields the route reads: name, MIME type and size. Their JSON form in the `INVALID_FILES` detail is reduced to those fields.
- In the list route, a filter entry holding a nested object or a non-scalar array is treated as a query the driver rejects. It then becomes a `SCHEMA_ERROR` like any other driver rejection.
- In the list route, a filter that parses to a non-object (a number, a string or an array) gives no conditions.
- In the list route, a throw before the parameters are read is modelled only for `Error` values. The `Unknown error occurred` text for other throws is not modelled.
- Repository.EnumCheck reads a payload value under the column's SQL name (`column.name`), as the code does, not under its property key. For `storage` and `storage_info`, no column has enum values.
- ApiDocs.Summary: the `'Process'` fallback of the action map cannot be reached, because every method has an action. It is left out.
- `ResponseBuilder` does not model the Zod schema objects themselves. An error schema is named by its class.
- The OpenAPI registration (`createApiEndpoint`) and the Hono routing around the two storage routes are not part of this model.
- `services/db/src/storage.ts` imports its table from `./schema/storage`, which is not part of this model. The `storage` table of `packages/database` stands in for it.
- WranglerConfig.SetupAllPackagesCopying uses the path check as written, because that is what the script runs. The corrected check is stated beside it.
- ToLower (Text.ToLower): only the ASCII letters are mapped. JavaScript's `toLowerCase` maps every Unicode letter and can change the length (`İ` becomes two code units). This affects the lower-cased resource name in ApiDocs.Description and ApiDocs.Tags.
- ToUpper (Text.ToUpper): only the ASCII letters are mapped. JavaScript's `toUpperCase` maps every Unicode letter and can change the length (`ß` becomes `SS`). This affects ApiDocs.Capitalize, ApiDocs.Tags, the issue code in ErrorHandler.IssueDetail and the subtype names of StorageCreateRoute.ImageSubtype.
- DatabaseErrors.Truncated: a string here is a sequence of code points. JavaScript's `substring(0, 200)` counts UTF-16 code units, so a query with characters outside the Basic Multilingual Plane is cut at a different place, possibly inside a surrogate pair.
- ErrorLog.Slice: the same code-point reading of `slice`. JavaScript counts UTF-16 code units.
- Repository.BulkUpdateSpec: `Promise.all` rejects with the first rejection to settle. The model decides that order as follows. An update that fails before its first await rejects first, and the first such entry by position wins. Otherwise the database answers are taken to settle in the order the updates were issued, so the first failing entry by position is reported. A driver that answers out of order could report another entry's 404. Every entry's update is applied to the table in entry order, with one time for all of them, and none is undone when another fails.
- Repository.BaseService.BulkUpdate: the same settling order as Repository.BulkUpdateSpec, which it implements.
- Store.InsertSpec: enforces NOT NULL, UNIQUE and PRIMARY KEY, but not FOREIGN KEY constraints. `storage_info.storage_id` references `storage.id` (packages/database/src/schema/storage_info.schema.ts:9-11), and D1 enforces foreign keys. So the database refuses a `storage_info` row whose `storageId` names no `storage` row. It also refuses to remove a `storage` row that a `storage_info` row still references. The model accepts both. Store.UpdateSpec, Store.Table.Insert, Store.Table.Update and Store.Table.Delete share this gap. So do the services built on them: `Repository.CreateSpec`, `UpdateServiceSpec`, `DeleteServiceSpec` (permanent), `BulkUpdateSpec` and `BulkDeleteSpec` (permanent).
- WranglerConfig.Merge: treats every override key as an ordinary key, `__proto__` included. `JSON.parse` makes a `__proto__` key an own property of the override. The assignment `originalConfig[key] = …` (scripts/setup-wrangler.js:49, scripts/generate-wrangler.json.js:52, scripts/setup-wrangler.mjs:62) then goes through the prototype setter. So the key never becomes an own key of the output, and it is not written out. In setup-wrangler.js and generate-wrangler.json.js, the nested merge first writes that value's keys into `Object.prototype` itself. The model keeps `__proto__` as an ordinary key of the result. WranglerConfig.MergeValues, WranglerConfig.ConfigObject.DeepMerge and the members built on them share this gap.
- Values.SqlEq: compares a column value and a bound value by kind, as SQLite does for two values with no affinity. SQLite's type affinity is not modelled. A TEXT value bound against an INTEGER or NUMERIC column is converted to a number when it reads as one, so `'1024'` equals the stored integer 1024 in SQLite but not in the model. Likewise, a numeric text inserted into such a column is stored as a number there. The members built on this comparison inherit the gap: the `where` of the repository (`Repository.GetById`, `GetByShortId`, `UpdateServiceSpec`, `DeleteServiceSpec`, `BulkDeleteSpec`) and the filter of the list queries.
- Query.SingleEntryMeaning: states the meaning of one filter entry under `Values.SqlEq`, without column affinity. A filter such as `{"size": "1024"}` on an INTEGER column matches the row with size 1024 in SQLite, while the model matches no such row.
- Query.ListOrder: getList has no column check on the sort field (packages/database/src/services/base.service.ts:427-429). For a field that is not a column it hands the query builder `fields[field]`, which is `undefined`, or `desc(undefined)`. What Drizzle then does is not part of this model. The model gives no order there, as getListWithRelations does by its own check (line 487). In the list route, a driver rejection of such a query is the `listRejected` parameter.
- Query.ListSpec: its own contract states soundness, list order and the bound by the selection. Which rows come back is stated beside it by Query.ListPositions: all the selected rows without a range, at most the limit, and the ordered selection's positions `s` to `e` for a range `[s, e]` with `0 <= s <= e + 1`. Repository.GetList carries those clauses in its contract. Keeping them out of ListSpec keeps the many callers of ListSpec cheap to verify.
- Repository.GetList: takes its order from Query.ListOrder, so the line above applies to it: a sort on a field that is not a column is modelled as no order.
- ErrorHandler.HandleError: only a missing `issues` is modelled as the handler's own throw. An `issues` value that is not an array, or an issue without `path` or `code`, would also throw inside the `map`; the model takes every present `issues` to be a list of well-formed issues. `zodIssues` stores the issue objects as Zod builds them (apps/backend/src/handlers/error.handler.ts:49). The model keeps four fields of each issue: path, code, message and `received`. Any other issue fields are not modelled.
- ErrorHandler.IssuesJson: the same four fields of each issue, for the same reason.
- JoinedListMeaning (Repository.JoinedListMeaning): states soundness only. The order of the bases is Repository.JoinedListOrder, and completeness without a range is Repository.JoinedListComplete.
- AuthorizationErrors.Message, DatabaseErrors.Message, ExternalServiceErrors.Message and SystemErrors.Message: each states only that the text is non-empty. The texts that depend on arguments are stated by the per-factory lemmas (AuthorizationErrors.InsufficientPermissionsMessage, DatabaseErrors.SchemaErrorMessages, SystemErrors.FileSystemMessages and their neighbours).
- AuthorizationErrors.Named: states only which factory records nothing of its own (`adminRequired`). The keys and values each other factory records are not stated by its contract. They are stated for `quotaExceeded` by AuthorizationErrors.QuotaMessageIgnoresCounts (`limit` and `current`). AuthorizationErrors.Make and AuthorizationErrors.CallerContextWins state how the caller's context is spread over them.
- ExternalServiceErrors.Named: states only that every factory records the service name under `serviceName`. The other keys and values are not stated by its contract. They are stated for `partialFailure` by ExternalServiceErrors.PartialFailureContext (`successCount` and `failureCount`). ExternalServiceErrors.Make states how the caller's context is spread over them, and that `serviceName` survives when the caller does not set it.
- DatabaseErrors.Named and SystemErrors.Named: each states only that a factory records at least one key. The stored values are stated by DatabaseErrors.QueryTimeoutFacts, DatabaseErrors.RecordNotFoundFacts and SystemErrors.OutOfMemoryFacts, and Make states how the caller's context is spread over them.
- DatabaseErrors.Code and SystemErrors.Code: the fact that no factory uses the class default code is stated by DefaultCodeUnclaimed and by Make, not by Code itself.
- WranglerConfig.CopyingRun: its own contract only bounds the number of outputs. What each output is is stated by WranglerConfig.CopyingRunMeaning.

## Findings

| source | as written | input that shows it | evidently intended | confidence | as-written member | corrected member |
|---|---|---|---|---|---|---|
| services/db/src/storage.ts:18-26 | `createFile` inserts the row with one `uuidv7()` and returns the file with a second, fresh `uuidv7()` | any successful insert: the two calls give different ids, so the returned `id` names no stored row | return the id that was stored, as `createStorageRecord` does (packages/database/src/services/storage.service.ts:18-27) | not executed | StorageRecords.CreateFileReturnsAnotherId | StorageRecords.CreatedRecordCarriesStoredId |
| scripts/setup-wrangler.js:96-99 | `deepMerge(rootWranglerConfig, packageConfig)` fills the one imported root object, so each package's output includes what earlier packages merged | root `{}`, packages `{main: "a.ts"}` then `{}`: the second output is `{main: "a.ts"}` | each package merged over the unchanged root, as setup-wrangler.mjs does by copying first | not executed | WranglerConfig.SharedRootLeaksBetweenPackages | WranglerConfig.CopyingOutputsAreIndependent |
| scripts/setup-wrangler.mjs:140 | `normalizedPath.startsWith(rootDir)` is a bare string-prefix test | root `/srv/app`, path `/srv/app-evil/bin`: accepted, though it lies outside the root | accept only the root itself or paths below it, segment by segment | not executed | WranglerConfig.SiblingDirectoryPassesPrefixCheck | WranglerConfig.ValidPathWithinHasRootSegments |

=== FILE: api_docs.dfy ===
/** The OpenAPI texts generated for a route: its summary, its description and its tag. */
module ApiDocs {
  import opened Text
  import opened RouteAnalyzer

  /** The `actionMap` entry; every method has one, so the `'Process'` fallback is
      never taken. */
  function Action(m: HttpMethod): (r: string)
    ensures r != "" && r != "Process"
    ensures 'A' <= r[0] <= 'Z'
  {
    match m
    case Get => "Retrieve"
    case Post => "Create"
    case Put => "Update"
    case Patch => "Update"
    case Delete => "Delete"
    case Options => "Options"
    case Head => "Head"
    case Trace => "Trace"
  }

  /** generateApiSummary: the action, a space, then `<name> Records` for a list route
      and `<name> Record` otherwise. */
  function Summary(m: HttpMethod, resourceName: string, path: string): (r: string)
    ensures StartsWith(r, Action(m) + " " + resourceName + " Record")
    ensures |r| == |Action(m) + " " + resourceName + " Record"| + (if Analyze(m, path).isListRoute then 1 else 0)
    ensures Analyze(m, path).isListRoute ==> r[|r| - 1] == 's'
  {
    var resourceText := if Analyze(m, path).isListRoute then resourceName + " Records" else resourceName + " Record";
    Action(m) + " " + resourceText
  }

  /** generateApiDescription: the text of the first route kind that holds, in the order
      list, get-by-id, create, update, delete; otherwise the summary and ` operation.`. */
  function Description(m: HttpMethod, resourceName: string, path: string): (r: string)
    ensures r != [] && r[|r| - 1] == '.'
    ensures Analyze(m, path).isListRoute ==> StartsWith(r, "Retrieve a paginated list of ")
    ensures !Classified(Analyze(m, path)) ==> StartsWith(r, Action(m) + " " + resourceName + " Record")
  {
    var a := Analyze(m, path);
    var lower := ToLower(resourceName);
    if a.isListRoute then "Retrieve a paginated list of " + lower + " records."
    else if a.isGetByIdRoute then "Retrieve a specific " + lower + " record by its unique identifier."
    else if a.isCreateRoute then "Create a new " + lower + " record."
    else if a.isUpdateRoute then "Update an existing " + lower + " record."
    else if a.isDeleteRoute then "Delete a specific " + lower + " record."
    else Summary(m, resourceName, path) + " operation."
  }

  predicate Classified(a: RouteAnalysis) {
    a.isListRoute || a.isGetByIdRoute || a.isCreateRoute || a.isUpdateRoute || a.isDeleteRoute
  }

  /** A classified route's description ignores the case of the resource name, and an
      unclassified route falls back to its summary. */
  lemma DescriptionMeaning(m: HttpMethod, a: string, b: string, path: string)
    ensures Classified(Analyze(m, path)) && ToLower(a) == ToLower(b) ==> Description(m, a, path) == Description(m, b, path)
    ensures !Classified(Analyze(m, path)) ==> Description(m, a, path) == Summary(m, a, path) + " operation."
  {
  }

  /** A route's summary and description for the two list-route cases: the summary is
      plural exactly for list routes, and then the description is the paginated one. */
  lemma ListRouteTexts(resourceName: string, path: string)
    requires PathVariables(path) == []
    ensures Summary(Get, resourceName, path) == "Retrieve " + resourceName + " Records"
    ensures Description(Get, resourceName, path) == "Retrieve a paginated list of " + ToLower(resourceName) + " records."
    ensures Summary(Post, resourceName, path) == "Create " + resourceName + " Record"
  {
  }

  // ---------------------------------------------------------------- tags

  /** `word.charAt(0).toUpperCase() + word.slice(1)`. */
  function Capitalize(w: string): (r: string)
    ensures |r| == |w|
  {
    if w == [] then [] else [ToUpperChar(w[0])] + w[1..]
  }

  function CapitalizeAll(words: seq<string>): (r: seq<string>)
    ensures |r| == |words|
  {
    if words == [] then [] else [Capitalize(words[0])] + CapitalizeAll(words[1..])
  }

  /** generateResourceTags: one tag, the name lower-cased, split on `_`, each word
      capitalised, joined with spaces. */
  function Tags(resourceName: string): (r: seq<string>)
    ensures |r| == 1
  {
    [Join(CapitalizeAll(Split(ToLower(resourceName), '_')), " ")]
  }

  /** The tag character by character: `_` becomes a space, the first letter of each
      word is upper case and every other letter lower case. */
  function TagText(s: string, atWordStart: bool): (r: string)
    ensures |r| == |s|
    ensures !ContainsChar(r, '_')
  {
    if s == [] then []
    else if s[0] == '_' then " " + TagText(s[1..], true)
    else
      var rest := TagText(s[1..], false);
      var c := if atWordStart then ToUpperChar(ToLowerChar(s[0])) else ToLowerChar(s[0]);
      assert c != '_';
      [c] + rest
  }

  function WithFirst(words: seq<string>, capitalizeFirst: bool): seq<string>
    requires |words| >= 1
  {
    [if capitalizeFirst then Capitalize(words[0]) else words[0]] + CapitalizeAll(words[1..])
  }

  lemma JoinConsChar(c: char, p: string, ps: seq<string>, sep: string)
    ensures Join([[c] + p] + ps, sep) == [c] + Join([p] + ps, sep)
  {
    if ps != [] {
      assert ([[c] + p] + ps)[1..] == ps;
      assert ([p] + ps)[1..] == ps;
    }
  }

  lemma {:induction false} TagTextOfSplit(s: string, atWordStart: bool)
    ensures Join(WithFirst(Split(ToLower(s), '_'), atWordStart), " ") == TagText(s, atWordStart)
    decreases |s|
  {
    var t := ToLower(s);
    if s == [] {
      assert t == [];
    } else {
      assert t[1..] == ToLower(s[1..]);
      TagTextOfSplit(s[1..], s[0] == '_');
      if s[0] == '_' {
        assert t[0] == '_';
        UnderscoreHead(t, atWordStart);
      } else {
        assert t[0] == ToLowerChar(s[0]) && t[0] != '_';
        LetterHead(t, atWordStart);
      }
    }
  }

  /** A leading `_` ends an empty first word: it becomes a space before the rest,
      whose first word is capitalised. */
  lemma UnderscoreHead(t: string, atWordStart: bool)
    requires t != [] && t[0] == '_'
    ensures Join(WithFirst(Split(t, '_'), atWordStart), " ") == " " + Join(WithFirst(Split(t[1..], '_'), true), " ")
  {
    var rest := Split(t[1..], '_');
    var caps := CapitalizeAll(rest);
    assert Split(t, '_') == [""] + rest;
    assert WithFirst([""] + rest, atWordStart) == [""] + caps by {
      assert ([""] + rest)[0] == "" && ([""] + rest)[1..] == rest;
    }
    assert caps == WithFirst(rest, true);
    var xs := [""] + caps;
    assert xs[0] == "" && xs[1..] == caps && |xs| >= 2;
    assert Join(xs, " ") == "" + " " + Join(caps, " ");
  }

  /** A leading letter opens the first word: it is capitalised at a word start and
      kept otherwise, and the rest continues the same word. */
  lemma LetterHead(t: string, atWordStart: bool)
    requires t != [] && t[0] != '_'
    ensures Join(WithFirst(Split(t, '_'), atWordStart), " ")
      == [if atWordStart then ToUpperChar(t[0]) else t[0]] + Join(WithFirst(Split(t[1..], '_'), false), " ")
  {
    var rest := Split(t[1..], '_');
    assert Split(t, '_') == [[t[0]] + rest[0]] + rest[1..];
    var c := if atWordStart then ToUpperChar(t[0]) else t[0];
    assert WithFirst(Split(t, '_'), atWordStart) == [[c] + rest[0]] + CapitalizeAll(rest[1..]);
    JoinConsChar(c, rest[0], CapitalizeAll(rest[1..]), " ");
  }

  /** The tag is the resource name with underscores turned into spaces and each word
      capitalised (the rest lower-cased); it never contains `_`. */
  lemma TagMeaning(resourceName: string)
    ensures Tags(resourceName) == [TagText(resourceName, true)]
    ensures |Tags(resourceName)[0]| == |resourceName|
    ensures !ContainsChar(Tags(resourceName)[0], '_')
  {
    var words := Split(ToLower(resourceName), '_');
    TagTextOfSplit(resourceName, true);
    assert CapitalizeAll(words) == WithFirst(words, true);
  }
}

=== FILE: authentication_errors.dfy ===
/** `AuthenticationError` (401) and its static factories. Each factory passes the
    caller's context through unchanged. */
module AuthenticationErrors {
  import opened Wrappers
  import opened Errors

  datatype Factory =
    | InvalidCredentials
    | TokenExpired
    | TokenInvalid
    | MissingCredentials
    | AccountLocked
    | TooManyAttempts

  function Code(f: Factory): (c: string)
    ensures FactoryOfCode(c) == Some(f)
    ensures c != DefaultCode(AuthenticationError)
  {
    match f
    case InvalidCredentials => "INVALID_CREDENTIALS"
    case TokenExpired => "TOKEN_EXPIRED"
    case TokenInvalid => "TOKEN_INVALID"
    case MissingCredentials => "MISSING_CREDENTIALS"
    case AccountLocked => "ACCOUNT_LOCKED"
    case TooManyAttempts => "TOO_MANY_ATTEMPTS"
  }

  function Message(f: Factory): (m: string)
    ensures m != "" && m != DefaultMessage(AuthenticationError)
  {
    match f
    case InvalidCredentials => "Invalid credentials provided"
    case TokenExpired => "Authentication token has expired"
    case TokenInvalid => "Invalid authentication token"
    case MissingCredentials => "Authentication credentials are required"
    case AccountLocked => "Account is locked due to security reasons"
    case TooManyAttempts => "Too many failed authentication attempts"
  }

  /** The factory whose code is `s`, if any. */
  function FactoryOfCode(s: string): Option<Factory> {
    if s == "INVALID_CREDENTIALS" then Some(InvalidCredentials)
    else if s == "TOKEN_EXPIRED" then Some(TokenExpired)
    else if s == "TOKEN_INVALID" then Some(TokenInvalid)
    else if s == "MISSING_CREDENTIALS" then Some(MissingCredentials)
    else if s == "ACCOUNT_LOCKED" then Some(AccountLocked)
    else if s == "TOO_MANY_ATTEMPTS" then Some(TooManyAttempts)
    else None
  }

  /** A factory's error: status 401, its own code in place of the class default, its
      fixed message, and the caller's context as given (`{}` when absent). */
  function Make(f: Factory, context: Option<Context>): (e: AppError)
    ensures e.status == 401 && e.category == Authentication
    ensures e.code == Code(f) && e.code != DefaultCode(AuthenticationError)
    ensures e.message == Message(f) && e.message != DefaultMessage(AuthenticationError)
    ensures e.context == (if context.Some? then context.value else map[])
  {
    Raise(AuthenticationError, Message(f), Code(f), Spread(map[], context))
  }

  /** The code identifies the factory: reading it back gives the factory, so no two
      factories share a code, and none uses the class default. */
  lemma CodeIdentifiesFactory(f: Factory, g: Factory)
    ensures FactoryOfCode(Code(f)) == Some(f)
    ensures FactoryOfCode(DefaultCode(AuthenticationError)).None?
    ensures Code(f) == Code(g) <==> f == g
  {
  }
}

=== FILE: authorization_errors.dfy ===
/** `AuthorizationError` (403) and its static factories. Except `adminRequired`,
    each factory records its own arguments in the context and spreads the caller's
    context over them. */
module AuthorizationErrors {
  import opened Wrappers
  import opened Json
  import opened Errors
  import Text

  datatype Factory =
    | InsufficientPermissions(resource: Option<string>, action: Option<string>)
    | AccessDenied(resource: Option<string>)
    | RoleRequired(requiredRole: string, userRole: Option<string>)
    | ScopeInsufficient(requiredScopes: seq<string>, userScopes: Option<seq<string>>)
    | ResourceOwnershipRequired(resourceId: Option<string>, userId: Option<string>)
    | ActionNotPermitted(actionName: string, resource: Option<string>)
    | AdminRequired
    | AccountSuspended(reason: Option<string>)
    | QuotaExceeded(quotaType: Option<string>, limit: Option<int>, current: Option<int>)
    | TemporarilyRestricted(reason: Option<string>)

  /** The factory's position in the class's list of factories. */
  function Kind(f: Factory): nat {
    match f
    case InsufficientPermissions(_, _) => 0
    case AccessDenied(_) => 1
    case RoleRequired(_, _) => 2
    case ScopeInsufficient(_, _) => 3
    case ResourceOwnershipRequired(_, _) => 4
    case ActionNotPermitted(_, _) => 5
    case AdminRequired => 6
    case AccountSuspended(_) => 7
    case QuotaExceeded(_, _, _) => 8
    case TemporarilyRestricted(_) => 9
  }

  /** The position of the factory whose code is `c`, if any: the length and a
      character or two single out the one candidate, which must then match. */
  function KindOfCode(c: string): Option<nat> {
    if |c| == 24 then (if c == "INSUFFICIENT_PERMISSIONS" then Some(0) else None)
    else if |c| == 13 && c[0] == 'A' then (if c == "ACCESS_DENIED" then Some(1) else None)
    else if |c| == 13 && c[0] == 'R' then (if c == "ROLE_REQUIRED" then Some(2) else None)
    else if |c| == 18 then (if c == "SCOPE_INSUFFICIENT" then Some(3) else None)
    else if |c| == 27 then (if c == "RESOURCE_OWNERSHIP_REQUIRED" then Some(4) else None)
    else if |c| == 20 then (if c == "ACTION_NOT_PERMITTED" then Some(5) else None)
    else if |c| == 14 && c[0] == 'A' then (if c == "ADMIN_REQUIRED" then Some(6) else None)
    else if |c| == 17 then (if c == "ACCOUNT_SUSPENDED" then Some(7) else None)
    else if |c| == 14 && c[0] == 'Q' then (if c == "QUOTA_EXCEEDED" then Some(8) else None)
    else if |c| == 22 then (if c == "TEMPORARILY_RESTRICTED" then Some(9) else None)
    else None
  }

  function Code(f: Factory): (c: string)
    ensures c != "" && c != DefaultCode(AuthorizationError)
    ensures KindOfCode(c) == Some(Kind(f))
  {
    match f
    case InsufficientPermissions(_, _) => "INSUFFICIENT_PERMISSIONS"
    case AccessDenied(_) => "ACCESS_DENIED"
    case RoleRequired(_, _) => "ROLE_REQUIRED"
    case ScopeInsufficient(_, _) => "SCOPE_INSUFFICIENT"
    case ResourceOwnershipRequired(_, _) => "RESOURCE_OWNERSHIP_REQUIRED"
    case ActionNotPermitted(_, _) => "ACTION_NOT_PERMITTED"
    case AdminRequired => "ADMIN_REQUIRED"
    case AccountSuspended(_) => "ACCOUNT_SUSPENDED"
    case QuotaExceeded(_, _, _) => "QUOTA_EXCEEDED"
    case TemporarilyRestricted(_) => "TEMPORARILY_RESTRICTED"
  }

  function Strings(xs: seq<string>): Json {
    JArr(seq(|xs|, i requires 0 <= i < |xs| => JStr(xs[i])))
  }

  function Message(f: Factory): (m: string)
    ensures m != ""
  {
    match f
    case InsufficientPermissions(resource, action) =>
      if TextGiven(resource) && TextGiven(action) then "Insufficient permissions to " + action.value + " " + resource.value
      else "Insufficient permissions to perform this action"
    case AccessDenied(resource) =>
      if TextGiven(resource) then "Access denied to " + resource.value else "Access denied"
    case RoleRequired(requiredRole, _) => requiredRole + " role required for this operation"
    case ScopeInsufficient(_, _) => "Insufficient scope for this operation"
    case ResourceOwnershipRequired(_, _) => "You can only access resources you own"
    case ActionNotPermitted(action, resource) =>
      if TextGiven(resource) then "Action '" + action + "' not permitted on " + resource.value
      else "Action '" + action + "' not permitted"
    case AdminRequired => "Administrator privileges required"
    case AccountSuspended(reason) =>
      if TextGiven(reason) then "Account suspended: " + reason.value else "Account has been suspended"
    case QuotaExceeded(quotaType, _, _) =>
      if TextGiven(quotaType) then quotaType.value + " quota exceeded" else "Usage quota exceeded"
    case TemporarilyRestricted(reason) =>
      if TextGiven(reason) then "Access temporarily restricted: " + reason.value else "Access temporarily restricted"
  }

  /** The context a factory builds from its own arguments, before the caller's. */
  function Named(f: Factory): (c: Context)
    ensures f.AdminRequired? <==> |c| == 0
  {
    match f
    case InsufficientPermissions(resource, action) => map["resource" := TextValue(resource), "action" := TextValue(action)]
    case AccessDenied(resource) => map["resource" := TextValue(resource)]
    case RoleRequired(requiredRole, userRole) => map["requiredRole" := JStr(requiredRole), "userRole" := TextValue(userRole)]
    case ScopeInsufficient(requiredScopes, userScopes) =>
      map["requiredScopes" := Strings(requiredScopes), "userScopes" := if userScopes.Some? then Strings(userScopes.value) else JUndefined]
    case ResourceOwnershipRequired(resourceId, userId) => map["resourceId" := TextValue(resourceId), "userId" := TextValue(userId)]
    case ActionNotPermitted(action, resource) => map["action" := JStr(action), "resource" := TextValue(resource)]
    case AdminRequired => map[]
    case AccountSuspended(reason) => map["reason" := TextValue(reason)]
    case QuotaExceeded(quotaType, limit, current) =>
      map["quotaType" := TextValue(quotaType), "limit" := NumberValue(limit), "current" := NumberValue(current)]
    case TemporarilyRestricted(reason) => map["reason" := TextValue(reason)]
  }

  /** A factory's error: status 403, its own code in place of the class default, and
      a context holding its arguments with the caller's keys winning. */
  function Make(f: Factory, context: Option<Context>): (e: AppError)
    ensures e.status == 403 && e.category == Authorization
    ensures e.code == Code(f) && e.code != DefaultCode(AuthorizationError)
    ensures e.message == Message(f)
    ensures e.context == Spread(Named(f), context)
  {
    Raise(AuthorizationError, Message(f), Code(f), Spread(Named(f), context))
  }

  /** `insufficientPermissions` names the action and resource only when both are
      given and non-empty; otherwise it uses the generic text. */
  lemma InsufficientPermissionsMessage(resource: Option<string>, action: Option<string>)
    ensures TextGiven(resource) && TextGiven(action) ==>
      Message(InsufficientPermissions(resource, action)) == "Insufficient permissions to " + action.value + " " + resource.value
    ensures !(TextGiven(resource) && TextGiven(action)) ==>
      Message(InsufficientPermissions(resource, action)) == "Insufficient permissions to perform this action"
    ensures Text.StartsWith(Message(InsufficientPermissions(resource, action)), "Insufficient permissions to ")
  {
  }

  /** `accessDenied` without a resource says exactly what the bare constructor says,
      yet carries its own code. */
  lemma AccessDeniedWithoutResource(context: Option<Context>)
    ensures Make(AccessDenied(None), context).message == Construct(AuthorizationError, None, NoOptions).message
    ensures Make(AccessDenied(None), context).code != Construct(AuthorizationError, None, NoOptions).code
  {
  }

  /** The `quotaExceeded` message depends on the quota type only, never on the limit
      or current usage (which go to the context). */
  lemma QuotaMessageIgnoresCounts(quotaType: Option<string>, l1: Option<int>, c1: Option<int>, l2: Option<int>, c2: Option<int>)
    ensures Message(QuotaExceeded(quotaType, l1, c1)) == Message(QuotaExceeded(quotaType, l2, c2))
    ensures var ctx := Make(QuotaExceeded(quotaType, l1, c1), None).context;
      ctx["limit"] == NumberValue(l1) && ctx["current"] == NumberValue(c1)
  {
  }

  /** A caller's context key overrides the factory's own argument of that name. */
  lemma CallerContextWins(f: Factory, context: Context, k: string)
    requires k in context
    ensures Make(f, Some(context)).context[k] == context[k]
  {
  }
}

=== FILE: base_service.dfy ===
/** The generic repository engine: payload preparation (enum check, date fields,
    `updatedAt` refresh, slug derivation), create, update, delete (permanent or soft),
    the reads, and the bulk operations, over one table. */
module Repository {
  import opened Wrappers
  import opened Values
  import opened Schema
  import opened Store
  import opened Query
  import opened Relations
  import Text

  /** What an operation throws. */
  datatype Thrown =
    | ServiceFail(status: int, message: string)  // a ServiceError with an HTTP status
    | StoreFail(error: StoreError)                // the database driver's error, passed on unchanged
    | TypeFail(message: string)                   // a JavaScript TypeError

  // ---------------------------------------------------------------- the messages services throw

  const NoIdForGetById := "Schema does not have an 'id' field, cannot perform getById operation."
  const NoDeletedAtForSoftDelete := "Schema does not have a 'deletedAt' field, cannot perform soft delete."
  const NoIdForDelete := "Schema does not have an 'id' field, cannot perform delete operation."
  const NoIdForUpdate := "Schema does not have an 'id' field, cannot update."
  const NoIdForGetMany := "Schema does not have an 'id' field, cannot perform getMany operation."
  const NoShortIdColumn := "Schema does not have a 'shortId' field."
  const BulkUpdateMissingId := "bulkUpdate error: Every update must include a valid ID."
  const SlugWithoutTitle := "Slug is empty and 'title' field is missing or invalid."
  const SlugTrimNotAFunction := "preparedData.slug.trim is not a function"
  const NoRecordPrefix := "No record found with ID: "
  const InsertionReturnedNothing := "Insertion failed: No rows returned."
  const BulkDeleteBadIdPrefix := "bulkDelete error: Invalid ID provided at position "
  const BulkUpdateBadDataPrefix := "bulkUpdate error: Update data for ID "

  // ---------------------------------------------------------------- #prepareData, as a specification

  /** A truthy value for an enum column must be one of its values; the value is read
      under the column's SQL name. */
  predicate EnumAccepts(c: Column, data: Row) {
    c.enumValues.None? || !Truthy(Get(data, c.name))
    || (Get(data, c.name).VText? && Get(data, c.name).s in c.enumValues.value)
  }

  /** The error for the first column, in declaration order, whose enum check fails. */
  function EnumCheck(cols: seq<Column>, data: Row): (r: Option<Thrown>)
    ensures r.None? <==> forall c :: c in cols ==> EnumAccepts(c, data)
    ensures r.Some? ==> r.value.ServiceFail? && r.value.status == 400
  {
    if cols == [] then None
    else if !EnumAccepts(cols[0], data) then
      Some(ServiceFail(400, "Invalid value '" + Render(Get(data, cols[0].name)) + "' for " + cols[0].name))
    else EnumCheck(cols[1..], data)
  }

  const DateFields: seq<string> := ["createdAt", "updatedAt", "deletedAt", "publishedAt"]

  /** A date column holding neither `undefined` nor `null` is rewritten as a SQLite UTC
      string. */
  function ConvertDate(schema: TableSchema, p: Row, field: string, toUtc: Value -> string): (r: Row)
    ensures r.Keys == p.Keys
    ensures forall k :: k in p && k != field ==> r[k] == p[k]
  {
    if HasColumn(schema, field) && !IsNullish(Get(p, field)) then p[field := VText(toUtc(Get(p, field)))] else p
  }

  /** The listed date fields converted in turn: no key is added or removed, and a key
      that is not listed keeps its value. */
  function ConvertDates(schema: TableSchema, p: Row, fields: seq<string>, toUtc: Value -> string): (r: Row)
    ensures r.Keys == p.Keys
    ensures forall k :: k in p && k !in fields ==> r[k] == p[k]
    decreases |fields|
  {
    if fields == [] then p else ConvertDates(schema, ConvertDate(schema, p, fields[0], toUtc), fields[1..], toUtc)
  }

  predicate NoDuplicates(s: seq<string>) {
    forall i, j :: 0 <= i < j < |s| ==> s[i] != s[j]
  }

  /** Each listed date column that holds a value is converted; every other key keeps its
      value, and no key is added. */
  lemma {:induction false} ConvertDatesPointwise(schema: TableSchema, p: Row, fields: seq<string>, toUtc: Value -> string)
    requires NoDuplicates(fields)
    ensures ConvertDates(schema, p, fields, toUtc).Keys == p.Keys
    ensures forall k :: k in p ==>
      ConvertDates(schema, p, fields, toUtc)[k] ==
        if k in fields && HasColumn(schema, k) && !IsNullish(p[k]) then VText(toUtc(p[k])) else p[k]
    decreases |fields|
  {
    if fields != [] {
      var q := ConvertDate(schema, p, fields[0], toUtc);
      var rest := fields[1..];
      assert NoDuplicates(rest) by {
        forall i, j | 0 <= i < j < |rest| ensures rest[i] != rest[j] {
          assert rest[i] == fields[i + 1] && rest[j] == fields[j + 1];
        }
      }
      ConvertDatesPointwise(schema, q, rest, toUtc);
      forall k | k in p
        ensures ConvertDates(schema, p, fields, toUtc)[k] ==
          if k in fields && HasColumn(schema, k) && !IsNullish(p[k]) then VText(toUtc(p[k])) else p[k]
      {
        if k == fields[0] {
          assert k !in rest by {
            forall i | 0 <= i < |rest| ensures rest[i] != k { assert rest[i] == fields[i + 1]; }
          }
        } else {
          assert q[k] == p[k];
          assert k in fields <==> k in rest;
        }
      }
    }
  }

  /** The slug step: a blank or missing slug is derived from a string `title`; without
      one, create fails and update leaves the slug as it is. A truthy slug that is not a
      string has no `trim` to call. */
  function PrepareSlug(schema: TableSchema, p: Row, isCreate: bool, slugify: string -> string): (r: Result<Row, Thrown>)
    ensures r.Failure? ==> HasColumn(schema, "slug")
    ensures r.Success? ==> p.Keys <= r.value.Keys && forall k :: k in p && k != "slug" ==> r.value[k] == p[k]
    ensures !HasColumn(schema, "slug") ==> r == Success(p)
  {
    if !HasColumn(schema, "slug") then Success(p)
    else
      var slug := Get(p, "slug");
      if Truthy(slug) && !slug.VText? then Failure(TypeFail(SlugTrimNotAFunction))
      else if Truthy(slug) && Text.Trim(slug.s) != [] then Success(p)
      else if Get(p, "title").VText? then Success(p["slug" := VText(slugify(Get(p, "title").s))])
      else if isCreate then Failure(ServiceFail(400, SlugWithoutTitle))
      else Success(p)
  }

  /** The date fields converted, then `updatedAt` set to now when asked. */
  function Stamp(schema: TableSchema, data: Row, autoUpdate: bool, now: string, toUtc: Value -> string): (r: Row)
    ensures data.Keys <= r.Keys
    ensures forall k :: k in data && k !in DateFields ==> r[k] == data[k]
    ensures autoUpdate && HasColumn(schema, "updatedAt") ==> Get(r, "updatedAt") == VText(now)
  {
    var dated := ConvertDates(schema, data, DateFields, toUtc);
    if autoUpdate && HasColumn(schema, "updatedAt") then dated["updatedAt" := VText(now)] else dated
  }

  /** `#prepareData(data, {isCreate, autoUpdateUpdatedAt})`; `now` is the formatted
      current time. */
  function PrepareSpec(schema: TableSchema, data: Row, isCreate: bool, autoUpdate: bool, now: string,
                       toUtc: Value -> string, slugify: string -> string): (r: Result<Row, Thrown>)
    ensures (exists c :: c in schema.columns && !EnumAccepts(c, data)) ==> r.Failure? && r.error == EnumCheck(schema.columns, data).value
    ensures r.Success? ==> (forall c :: c in schema.columns ==> EnumAccepts(c, data)) && data.Keys <= r.value.Keys
  {
    match EnumCheck(schema.columns, data)
    case Some(e) => Failure(e)
    case None => PrepareSlug(schema, Stamp(schema, data, autoUpdate, now, toUtc), isCreate, slugify)
  }

  /** Stamping keeps every key and changes only the date fields. */
  lemma StampKeeps(schema: TableSchema, data: Row, autoUpdate: bool, now: string, toUtc: Value -> string)
    ensures data.Keys <= Stamp(schema, data, autoUpdate, now, toUtc).Keys
    ensures forall k :: k !in DateFields ==> Get(Stamp(schema, data, autoUpdate, now, toUtc), k) == Get(data, k)
    ensures autoUpdate && HasColumn(schema, "updatedAt") ==> Stamp(schema, data, autoUpdate, now, toUtc)["updatedAt"] == VText(now)
    ensures Get(Stamp(schema, data, autoUpdate, now, toUtc), "slug") == Get(data, "slug")
    ensures Get(Stamp(schema, data, autoUpdate, now, toUtc), "title") == Get(data, "title")
  {
    assert NoDuplicates(DateFields) by {
      assert DateFields[0][0] == 'c' && DateFields[1][0] == 'u' && DateFields[2][0] == 'd' && DateFields[3][0] == 'p';
    }
    assert "slug" !in DateFields && "title" !in DateFields by {
      assert forall i :: 0 <= i < |DateFields| ==> |DateFields[i]| >= 9;
    }
    ConvertDatesPointwise(schema, data, DateFields, toUtc);
  }

  /** The slug step keeps every key and changes no key but `slug`; it fails with a
      TypeError exactly on a truthy non-string slug and otherwise only on create without
      a string title; a non-blank string slug is kept, and on create the slug ends up a
      non-blank string or is derived from the title. */
  lemma SlugMeaning(schema: TableSchema, p: Row, isCreate: bool, slugify: string -> string)
    ensures var r := PrepareSlug(schema, p, isCreate, slugify);
      r.Failure? ==>
        && HasColumn(schema, "slug")
        && (r.error.TypeFail? <==> Truthy(Get(p, "slug")) && !Get(p, "slug").VText?)
        && (r.error.ServiceFail? ==> isCreate && !Get(p, "title").VText?)
    ensures var r := PrepareSlug(schema, p, isCreate, slugify);
      r.Success? ==>
        && p.Keys <= r.value.Keys
        && (forall k :: k != "slug" ==> Get(r.value, k) == Get(p, k))
        && (Get(p, "slug").VText? && Text.Trim(Get(p, "slug").s) != [] ==> r.value["slug"] == p["slug"])
        && (isCreate && HasColumn(schema, "slug") ==>
              Get(r.value, "slug").VText? && (Text.Trim(Get(r.value, "slug").s) != [] || Get(p, "title").VText?))
  {
  }

  /** What preparation promises: a rejected enum value fails with 400 before anything
      else; apart from that it fails only on a slug it cannot trim or, on create, one it
      cannot derive. On success every enum check passed, keys are kept and only date
      fields and `slug` change, `updatedAt` is refreshed when asked, and on create a
      slug column ends with a non-blank slug or one derived from `title`. */
  lemma PrepareSpecMeaning(schema: TableSchema, data: Row, isCreate: bool, autoUpdate: bool, now: string,
                           toUtc: Value -> string, slugify: string -> string)
    ensures var r := PrepareSpec(schema, data, isCreate, autoUpdate, now, toUtc, slugify);
      (exists c :: c in schema.columns && !EnumAccepts(c, data)) ==>
        r.Failure? && r.error.ServiceFail? && r.error.status == 400
    ensures var r := PrepareSpec(schema, data, isCreate, autoUpdate, now, toUtc, slugify);
      r.Failure? && (forall c :: c in schema.columns ==> EnumAccepts(c, data)) ==>
        && HasColumn(schema, "slug")
        && (r.error.TypeFail? <==> Truthy(Get(data, "slug")) && !Get(data, "slug").VText?)
        && (r.error.ServiceFail? ==> isCreate && !Get(data, "title").VText?)
    ensures var r := PrepareSpec(schema, data, isCreate, autoUpdate, now, toUtc, slugify);
      r.Success? ==>
        && (forall c :: c in schema.columns ==> EnumAccepts(c, data))
        && data.Keys <= r.value.Keys
        && (forall k :: k !in DateFields && k != "slug" ==> Get(r.value, k) == Get(data, k))
        && (autoUpdate && HasColumn(schema, "updatedAt") ==> r.value["updatedAt"] == VText(now))
        && (Get(data, "slug").VText? && Text.Trim(Get(data, "slug").s) != [] ==> r.value["slug"] == data["slug"])
        && (isCreate && HasColumn(schema, "slug") ==>
              Get(r.value, "slug").VText? && (Text.Trim(Get(r.value, "slug").s) != [] || Get(data, "title").VText?))
  {
    if EnumCheck(schema.columns, data).None? {
      var stamped := Stamp(schema, data, autoUpdate, now, toUtc);
      StampKeeps(schema, data, autoUpdate, now, toUtc);
      SlugMeaning(schema, stamped, isCreate, slugify);
      assert "updatedAt" != "slug";
    }
  }

  lemma DateFieldsDistinct()
    ensures NoDuplicates(DateFields)
    ensures "id" !in DateFields && "shortId" !in DateFields && "slug" !in DateFields && "title" !in DateFields
  {
    assert DateFields[0][0] == 'c' && DateFields[1][0] == 'u' && DateFields[2][0] == 'd' && DateFields[3][0] == 'p';
    assert forall i :: 0 <= i < |DateFields| ==> |DateFields[i]| >= 9;
  }

  // ---------------------------------------------------------------- create, update, delete

  /** What the caller's object looks like after create's first step: `createdAt` and
      `updatedAt`, when they are columns and falsy, are set to now. */
  function StampCreate(schema: TableSchema, data: Row, now: string): (r: Row)
    ensures data.Keys <= r.Keys
    ensures forall k :: k in data && k != "createdAt" && k != "updatedAt" ==> r[k] == data[k]
    ensures HasColumn(schema, "createdAt") && now != "" ==> Truthy(Get(r, "createdAt"))
    ensures HasColumn(schema, "updatedAt") && now != "" ==> Truthy(Get(r, "updatedAt"))
    ensures Truthy(Get(data, "createdAt")) ==> Get(r, "createdAt") == Get(data, "createdAt")
  {
    var a := if HasColumn(schema, "createdAt") && !Truthy(Get(data, "createdAt")) then data["createdAt" := VText(now)] else data;
    if HasColumn(schema, "updatedAt") && !Truthy(Get(a, "updatedAt")) then a["updatedAt" := VText(now)] else a
  }

  /** `id` and `shortId`, when they are columns and falsy, get fresh values. */
  function FillIdentifiers(schema: TableSchema, p: Row, newId: string, newShortId: string): (r: Row)
    ensures p.Keys <= r.Keys
    ensures forall k :: k in p && k != "id" && k != "shortId" ==> r[k] == p[k]
    ensures HasColumn(schema, "id") && newId != "" ==> Truthy(Get(r, "id"))
    ensures HasColumn(schema, "shortId") && newShortId != "" ==> Truthy(Get(r, "shortId"))
    ensures Truthy(Get(p, "id")) ==> Get(r, "id") == Get(p, "id")
  {
    var a := if HasColumn(schema, "id") && !Truthy(Get(p, "id")) then p["id" := VText(newId)] else p;
    if HasColumn(schema, "shortId") && !Truthy(Get(a, "shortId")) then a["shortId" := VText(newShortId)] else a
  }

  /** create, from the stamped payload on: prepare, fill identifiers, insert. An INSERT
      that succeeds always returns the row it stored, so the 500 for an empty RETURNING
      never arises. */
  function CreateSpec(schema: TableSchema, rows: seq<Row>, stamped: Row, now: string, newId: string, newShortId: string,
                      toUtc: Value -> string, slugify: string -> string): (out: (Result<Row, Thrown>, seq<Row>))
    ensures out.0.Failure? ==> out.1 == rows
    ensures out.0.Success? ==> out.1 == rows + [out.0.value]
    ensures out.0 != Failure(ServiceFail(500, InsertionReturnedNothing))
    ensures var pr := PrepareSpec(schema, stamped, true, false, now, toUtc, slugify);
      var inserted := pr.Success? && InsertSpec(schema, rows, FillIdentifiers(schema, pr.value, newId, newShortId), now).0.Success?;
      out.0.Success? <==> inserted
    ensures Consistent(schema, rows) ==> Consistent(schema, out.1)
  {
    match PrepareSpec(schema, stamped, true, false, now, toUtc, slugify)
    case Failure(e) => (Failure(e), rows)
    case Success(p) =>
      var ins := InsertSpec(schema, rows, FillIdentifiers(schema, p, newId, newShortId), now);
      match ins.0
      case Failure(e) => (Failure(StoreFail(e)), ins.1)
      case Success(row) => (Success(row), ins.1)
  }

  /** On create, preparation changes no key but the date fields and `slug`. */
  lemma PrepareCreateAt(schema: TableSchema, stamped: Row, now: string, toUtc: Value -> string,
                        slugify: string -> string, k: string)
    requires PrepareSpec(schema, stamped, true, false, now, toUtc, slugify).Success?
    requires k != "slug"
    ensures Get(PrepareSpec(schema, stamped, true, false, now, toUtc, slugify).value, k)
      == Get(ConvertDates(schema, stamped, DateFields, toUtc), k)
  {
    SlugMeaning(schema, ConvertDates(schema, stamped, DateFields, toUtc), true, slugify);
  }

  /** One key after the date fields are converted. */
  lemma ConvertDatesAt(schema: TableSchema, p: Row, toUtc: Value -> string, k: string)
    ensures Get(ConvertDates(schema, p, DateFields, toUtc), k)
      == if k in DateFields && HasColumn(schema, k) && !IsNullish(Get(p, k)) then VText(toUtc(p[k])) else Get(p, k)
  {
    DateFieldsDistinct();
    ConvertDatesPointwise(schema, p, DateFields, toUtc);
  }

  /** Preparing the stamped payload keeps `id` and `shortId` and stores each timestamp
      column as the UTC string of the supplied value, or of now when it was falsy. */
  lemma PreparedCreatePayload(schema: TableSchema, data: Row, now: string, toUtc: Value -> string, slugify: string -> string)
    ensures var pr := PrepareSpec(schema, StampCreate(schema, data, now), true, false, now, toUtc, slugify);
      pr.Success? ==>
        && Get(pr.value, "id") == Get(data, "id") && Get(pr.value, "shortId") == Get(data, "shortId")
        && (HasColumn(schema, "createdAt") ==>
              Get(pr.value, "createdAt") == VText(toUtc(if Truthy(Get(data, "createdAt")) then data["createdAt"] else VText(now))))
        && (HasColumn(schema, "updatedAt") ==>
              Get(pr.value, "updatedAt") == VText(toUtc(if Truthy(Get(data, "updatedAt")) then data["updatedAt"] else VText(now))))
  {
    var pr := PrepareSpec(schema, StampCreate(schema, data, now), true, false, now, toUtc, slugify);
    if pr.Success? {
      PreparedIdentifier(schema, data, now, toUtc, slugify, "id");
      PreparedIdentifier(schema, data, now, toUtc, slugify, "shortId");
      if HasColumn(schema, "createdAt") { PreparedTimestamp(schema, data, now, toUtc, slugify, "createdAt"); }
      if HasColumn(schema, "updatedAt") { PreparedTimestamp(schema, data, now, toUtc, slugify, "updatedAt"); }
    }
  }

  /** Create's stamping step sets a falsy timestamp column to now and leaves every
      other key alone. */
  lemma StampCreateAt(schema: TableSchema, data: Row, now: string, k: string)
    ensures Get(StampCreate(schema, data, now), k) ==
      if (k == "createdAt" || k == "updatedAt") && HasColumn(schema, k) && !Truthy(Get(data, k)) then VText(now)
      else Get(data, k)
  {
  }

  lemma PreparedIdentifier(schema: TableSchema, data: Row, now: string, toUtc: Value -> string,
                           slugify: string -> string, k: string)
    requires k == "id" || k == "shortId"
    requires PrepareSpec(schema, StampCreate(schema, data, now), true, false, now, toUtc, slugify).Success?
    ensures Get(PrepareSpec(schema, StampCreate(schema, data, now), true, false, now, toUtc, slugify).value, k) == Get(data, k)
  {
    var stamped := StampCreate(schema, data, now);
    DateFieldsDistinct();
    PrepareCreateAt(schema, stamped, now, toUtc, slugify, k);
    ConvertDatesAt(schema, stamped, toUtc, k);
    StampCreateAt(schema, data, now, k);
  }

  lemma PreparedTimestamp(schema: TableSchema, data: Row, now: string, toUtc: Value -> string,
                          slugify: string -> string, k: string)
    requires k == "createdAt" || k == "updatedAt"
    requires HasColumn(schema, k)
    requires PrepareSpec(schema, StampCreate(schema, data, now), true, false, now, toUtc, slugify).Success?
    ensures Get(PrepareSpec(schema, StampCreate(schema, data, now), true, false, now, toUtc, slugify).value, k)
      == VText(toUtc(if Truthy(Get(data, k)) then data[k] else VText(now)))
  {
    var stamped := StampCreate(schema, data, now);
    assert k in DateFields;
    assert k != "slug";
    PrepareCreateAt(schema, stamped, now, toUtc, slugify, k);
    ConvertDatesAt(schema, stamped, toUtc, k);
    StampCreateAt(schema, data, now, k);
  }

  /** The row an insert stores holds, for a column, the payload's defined value. */
  lemma NewRowTakesDefined(schema: TableSchema, values: Row, now: string, k: string)
    requires HasColumn(schema, k) && !Get(values, k).VUndefined?
    ensures NewRow(schema, values, now)[k] == Bind(values[k])
  {
    assert k in Schema.Keys(schema);
  }

  /** create keeps supplied identifiers and timestamps and fills only the falsy ones:
      `id` and `shortId` with the fresh values, `createdAt` and `updatedAt` with now;
      either timestamp is then stored as its SQLite UTC string. */
  lemma CreateFillsOnlyMissing(schema: TableSchema, rows: seq<Row>, data: Row, now: string, newId: string,
                               newShortId: string, toUtc: Value -> string, slugify: string -> string)
    ensures var out := CreateSpec(schema, rows, StampCreate(schema, data, now), now, newId, newShortId, toUtc, slugify);
      out.0.Success? ==>
        && (HasColumn(schema, "id") ==>
              out.0.value["id"] == if Truthy(Get(data, "id")) then Bind(data["id"]) else VText(newId))
        && (HasColumn(schema, "shortId") ==>
              out.0.value["shortId"] == if Truthy(Get(data, "shortId")) then Bind(data["shortId"]) else VText(newShortId))
        && (HasColumn(schema, "createdAt") ==>
              out.0.value["createdAt"] == VText(toUtc(if Truthy(Get(data, "createdAt")) then data["createdAt"] else VText(now))))
        && (HasColumn(schema, "updatedAt") ==>
              out.0.value["updatedAt"] == VText(toUtc(if Truthy(Get(data, "updatedAt")) then data["updatedAt"] else VText(now))))
  {
    var out := CreateSpec(schema, rows, StampCreate(schema, data, now), now, newId, newShortId, toUtc, slugify);
    if out.0.Success? {
      if HasColumn(schema, "id") { CreatedIdentifier(schema, rows, data, now, newId, newShortId, toUtc, slugify, "id", newId); }
      if HasColumn(schema, "shortId") {
        CreatedIdentifier(schema, rows, data, now, newId, newShortId, toUtc, slugify, "shortId", newShortId);
      }
      if HasColumn(schema, "createdAt") { CreatedTimestamp(schema, rows, data, now, newId, newShortId, toUtc, slugify, "createdAt"); }
      if HasColumn(schema, "updatedAt") { CreatedTimestamp(schema, rows, data, now, newId, newShortId, toUtc, slugify, "updatedAt"); }
    }
  }

  /** The row a successful create stores: the new row built from the prepared payload
      with its identifiers filled. */
  lemma CreatedRow(schema: TableSchema, rows: seq<Row>, stamped: Row, now: string, newId: string,
                   newShortId: string, toUtc: Value -> string, slugify: string -> string)
    requires CreateSpec(schema, rows, stamped, now, newId, newShortId, toUtc, slugify).0.Success?
    ensures PrepareSpec(schema, stamped, true, false, now, toUtc, slugify).Success?
    ensures CreateSpec(schema, rows, stamped, now, newId, newShortId, toUtc, slugify).0.value
      == NewRow(schema, FillIdentifiers(schema, PrepareSpec(schema, stamped, true, false, now, toUtc, slugify).value, newId, newShortId), now)
  {
  }

  lemma CreatedIdentifier(schema: TableSchema, rows: seq<Row>, data: Row, now: string, newId: string,
                          newShortId: string, toUtc: Value -> string, slugify: string -> string, k: string, freshValue: string)
    requires (k == "id" && freshValue == newId) || (k == "shortId" && freshValue == newShortId)
    requires HasColumn(schema, k)
    requires CreateSpec(schema, rows, StampCreate(schema, data, now), now, newId, newShortId, toUtc, slugify).0.Success?
    ensures CreateSpec(schema, rows, StampCreate(schema, data, now), now, newId, newShortId, toUtc, slugify).0.value[k]
      == if Truthy(Get(data, k)) then Bind(data[k]) else VText(freshValue)
  {
    var stamped := StampCreate(schema, data, now);
    CreatedRow(schema, rows, stamped, now, newId, newShortId, toUtc, slugify);
    var pr := PrepareSpec(schema, stamped, true, false, now, toUtc, slugify).value;
    PreparedIdentifier(schema, data, now, toUtc, slugify, k);
    FillIdentifiersAt(schema, pr, newId, newShortId);
    NewRowTakesDefined(schema, FillIdentifiers(schema, pr, newId, newShortId), now, k);
  }

  lemma CreatedTimestamp(schema: TableSchema, rows: seq<Row>, data: Row, now: string, newId: string,
                         newShortId: string, toUtc: Value -> string, slugify: string -> string, k: string)
    requires k == "createdAt" || k == "updatedAt"
    requires HasColumn(schema, k)
    requires CreateSpec(schema, rows, StampCreate(schema, data, now), now, newId, newShortId, toUtc, slugify).0.Success?
    ensures CreateSpec(schema, rows, StampCreate(schema, data, now), now, newId, newShortId, toUtc, slugify).0.value[k]
      == VText(toUtc(if Truthy(Get(data, k)) then data[k] else VText(now)))
  {
    var stamped := StampCreate(schema, data, now);
    CreatedRow(schema, rows, stamped, now, newId, newShortId, toUtc, slugify);
    var pr := PrepareSpec(schema, stamped, true, false, now, toUtc, slugify).value;
    PreparedTimestamp(schema, data, now, toUtc, slugify, k);
    FillIdentifiersAt(schema, pr, newId, newShortId);
    NewRowTakesDefined(schema, FillIdentifiers(schema, pr, newId, newShortId), now, k);
  }

  lemma FillIdentifiersAt(schema: TableSchema, p: Row, newId: string, newShortId: string)
    ensures Get(FillIdentifiers(schema, p, newId, newShortId), "id")
      == if HasColumn(schema, "id") && !Truthy(Get(p, "id")) then VText(newId) else Get(p, "id")
    ensures Get(FillIdentifiers(schema, p, newId, newShortId), "shortId")
      == if HasColumn(schema, "shortId") && !Truthy(Get(p, "shortId")) then VText(newShortId) else Get(p, "shortId")
    ensures forall k :: k != "id" && k != "shortId" ==> Get(FillIdentifiers(schema, p, newId, newShortId), k) == Get(p, k)
  {
  }

  /** update: prepare (refreshing `updatedAt`), then UPDATE … WHERE id = ?; 404 when no
      row has that id. */
  function UpdateServiceSpec(schema: TableSchema, rows: seq<Row>, id: Value, data: Row, now: string,
                             toUtc: Value -> string, slugify: string -> string): (out: (Result<Row, Thrown>, seq<Row>))
    ensures out.0.Failure? ==> out.1 == rows
    ensures |out.1| == |rows|
    ensures forall i :: 0 <= i < |rows| && !SqlEq(Get(rows[i], "id"), Bind(id)) ==> out.1[i] == rows[i]
    ensures out.0.Success? ==>
      && PrepareSpec(schema, data, false, true, now, toUtc, slugify).Success?
      && out.1 == ApplyUpdate(rows, IdEquals(Bind(id)), Assignments(schema, PrepareSpec(schema, data, false, true, now, toUtc, slugify).value))
    ensures Consistent(schema, rows) ==> Consistent(schema, out.1)
  {
    match PrepareSpec(schema, data, false, true, now, toUtc, slugify)
    case Failure(e) => (Failure(e), rows)
    case Success(p) =>
      if !HasColumn(schema, "id") then (Failure(ServiceFail(400, NoIdForUpdate)), rows)
      else
        var w := IdEquals(Bind(id));
        var out := UpdateSpec(schema, rows, w, p);
        match out.0
        case Failure(e) => (Failure(StoreFail(e)), out.1)
        case Success(affected) =>
          if affected == [] then
            NothingMatchedNothingChanges(rows, w, Assignments(schema, p));
            (Failure(ServiceFail(404, NoRecordPrefix + Render(id))), rows)
          else (Success(affected[0]), out.1)
  }

  /** An UPDATE that returns no row changes no row. */
  lemma NothingMatchedNothingChanges(rows: seq<Row>, w: Where, a: Row)
    requires Affected(rows, w, a) == []
    ensures ApplyUpdate(rows, w, a) == rows
  {
    assert Removed(rows, w) == [];
    forall i | 0 <= i < |rows| ensures !Matches(w, rows[i]) {
      assert rows[i] in rows;
    }
  }

  /** A successful update returns a row that had that id, with the prepared values
      applied, so with `updatedAt` refreshed whenever the table has that column. */
  lemma UpdateRefreshesUpdatedAt(schema: TableSchema, rows: seq<Row>, id: Value, data: Row, now: string,
                                 toUtc: Value -> string, slugify: string -> string)
    ensures var out := UpdateServiceSpec(schema, rows, id, data, now, toUtc, slugify);
      out.0.Success? ==>
        && (exists i :: 0 <= i < |rows| && SqlEq(Get(rows[i], "id"), Bind(id)) && rows[i].Keys <= out.0.value.Keys)
        && (HasColumn(schema, "updatedAt") ==> Get(out.0.value, "updatedAt") == VText(now))
  {
    var out := UpdateServiceSpec(schema, rows, id, data, now, toUtc, slugify);
    if out.0.Success? {
      UpdatedRowShape(schema, rows, id, data, now, toUtc, slugify);
      var p := PrepareSpec(schema, data, false, true, now, toUtc, slugify).value;
      var removed := Removed(rows, IdEquals(Bind(id)));
      var a := Assignments(schema, p);
      assert removed[0] in removed;
      var i :| 0 <= i < |rows| && rows[i] == removed[0];
      if HasColumn(schema, "updatedAt") {
        PrepareRefreshesUpdatedAt(schema, data, now, toUtc, slugify);
        AssignmentOf(schema, p, "updatedAt");
        assert a["updatedAt"] == VText(now);
        assert (removed[0] + a)["updatedAt"] == VText(now);
      }
    }
  }

  /** The row a successful update returns: the first row with that id, with the
      assignments of the prepared values laid over it. */
  lemma UpdatedRowShape(schema: TableSchema, rows: seq<Row>, id: Value, data: Row, now: string,
                        toUtc: Value -> string, slugify: string -> string)
    requires UpdateServiceSpec(schema, rows, id, data, now, toUtc, slugify).0.Success?
    ensures PrepareSpec(schema, data, false, true, now, toUtc, slugify).Success?
    ensures Removed(rows, IdEquals(Bind(id))) != []
    ensures UpdateServiceSpec(schema, rows, id, data, now, toUtc, slugify).0.value
      == Removed(rows, IdEquals(Bind(id)))[0] + Assignments(schema, PrepareSpec(schema, data, false, true, now, toUtc, slugify).value)
  {
  }

  /** After a successful update, each row with that id holds every defined value of the
      prepared payload that names a column, bound, and keeps its other columns; so its
      `updatedAt` is now whenever the table has that column. */
  lemma UpdateStoresPayload(schema: TableSchema, rows: seq<Row>, id: Value, data: Row, now: string,
                            toUtc: Value -> string, slugify: string -> string, i: int, k: string)
    requires UpdateServiceSpec(schema, rows, id, data, now, toUtc, slugify).0.Success?
    requires 0 <= i < |rows| && SqlEq(Get(rows[i], "id"), Bind(id))
    ensures var p := PrepareSpec(schema, data, false, true, now, toUtc, slugify).value;
      Get(UpdateServiceSpec(schema, rows, id, data, now, toUtc, slugify).1[i], k)
        == if k in p && HasColumn(schema, k) && !p[k].VUndefined? then Bind(p[k]) else Get(rows[i], k)
    ensures HasColumn(schema, "updatedAt") ==>
      Get(UpdateServiceSpec(schema, rows, id, data, now, toUtc, slugify).1[i], "updatedAt") == VText(now)
  {
    var out := UpdateServiceSpec(schema, rows, id, data, now, toUtc, slugify);
    var p := PrepareSpec(schema, data, false, true, now, toUtc, slugify).value;
    var a := Assignments(schema, p);
    assert out.1 == ApplyUpdate(rows, IdEquals(Bind(id)), a);
    assert Matches(IdEquals(Bind(id)), rows[i]);
    assert out.1[i] == rows[i] + a;
    OverlayAssignmentAt(schema, rows[i], p, k);
    if HasColumn(schema, "updatedAt") {
      PrepareRefreshesUpdatedAt(schema, data, now, toUtc, slugify);
      OverlayAssignmentAt(schema, rows[i], p, "updatedAt");
    }
  }

  /** One key of a row after the assignments of a payload are laid over it. */
  lemma OverlayAssignmentAt(schema: TableSchema, row: Row, p: Row, k: string)
    ensures Get(row + Assignments(schema, p), k)
      == if k in p && HasColumn(schema, k) && !p[k].VUndefined? then Bind(p[k]) else Get(row, k)
  {
    if k in p && HasColumn(schema, k) && !p[k].VUndefined? {
      AssignmentOf(schema, p, k);
    }
  }

  lemma PrepareRefreshesUpdatedAt(schema: TableSchema, data: Row, now: string,
                                  toUtc: Value -> string, slugify: string -> string)
    requires PrepareSpec(schema, data, false, true, now, toUtc, slugify).Success? && HasColumn(schema, "updatedAt")
    ensures "updatedAt" in PrepareSpec(schema, data, false, true, now, toUtc, slugify).value
    ensures PrepareSpec(schema, data, false, true, now, toUtc, slugify).value["updatedAt"] == VText(now)
  {
    PrepareSpecMeaning(schema, data, false, true, now, toUtc, slugify);
  }

  /** delete: permanent removes the row, soft sets only `deletedAt`; 404 when no row has
      that id. */
  function DeleteServiceSpec(schema: TableSchema, rows: seq<Row>, id: string, permanent: bool, now: string)
    : (out: (Result<Row, Thrown>, seq<Row>))
    ensures out.0.Failure? ==> out.1 == rows
    ensures out.0.Success? && permanent ==> out.0.value in rows && SqlEq(Get(out.0.value, "id"), VText(id))
    ensures out.0.Success? && permanent ==> forall x :: x in out.1 ==> !SqlEq(Get(x, "id"), VText(id))
    ensures out.0.Success? && permanent ==> out.1 == Kept(rows, IdEquals(VText(id)))
    ensures Consistent(schema, rows) ==> Consistent(schema, out.1)
  {
    if !HasColumn(schema, "id") then
      (Failure(ServiceFail(400, NoIdForDelete)), rows)
    else
      var w := IdEquals(VText(id));
      if permanent then
        var removed := Removed(rows, w);
        if removed == [] then
          NothingMatchedNothingRemoved(rows, w);
          (Failure(ServiceFail(404, NoRecordPrefix + id)), rows)
        else
          FilterKeepsConsistentIf(schema, rows, w);
          assert removed[0] in removed;
          (Success(removed[0]), Kept(rows, w))
      else if !HasColumn(schema, "deletedAt") then
        (Failure(ServiceFail(400, NoDeletedAtForSoftDelete)), rows)
      else
        var out := UpdateSpec(schema, rows, w, map["deletedAt" := VText(now)]);
        match out.0
        case Failure(e) => (Failure(StoreFail(e)), out.1)
        case Success(affected) =>
          if affected == [] then
            NothingMatchedNothingChanges(rows, w, Assignments(schema, map["deletedAt" := VText(now)]));
            (Failure(ServiceFail(404, NoRecordPrefix + id)), rows)
          else (Success(affected[0]), out.1)
  }

  lemma NothingMatchedNothingRemoved(rows: seq<Row>, w: Where)
    requires Removed(rows, w) == []
    ensures Kept(rows, w) == rows
  {
    KeptAll(rows, w);
  }

  lemma {:induction false} KeptAll(rows: seq<Row>, w: Where)
    requires forall x :: x in rows ==> !Matches(w, x)
    ensures Kept(rows, w) == rows
  {
    if rows != [] {
      KeptAll(rows[1..], w);
    }
  }

  lemma FilterKeepsConsistentIf(schema: TableSchema, rows: seq<Row>, w: Where)
    ensures Consistent(schema, rows) ==> Consistent(schema, Kept(rows, w))
  {
    if Consistent(schema, rows) {
      FilterKeepsConsistent(schema, rows, r => !Matches(w, r));
    }
  }

  /** A soft delete sets `deletedAt` to now on the rows with that id and changes
      nothing else. */
  lemma SoftDeleteTouchesOnlyDeletedAt(schema: TableSchema, rows: seq<Row>, id: string, now: string)
    requires HasColumn(schema, "deletedAt")
    ensures var out := DeleteServiceSpec(schema, rows, id, false, now);
      out.0.Success? ==>
        |out.1| == |rows| &&
        forall i :: 0 <= i < |rows| ==>
          out.1[i] == if SqlEq(Get(rows[i], "id"), VText(id)) then rows[i]["deletedAt" := VText(now)] else rows[i]
  {
    var out := DeleteServiceSpec(schema, rows, id, false, now);
    if out.0.Success? {
      var a := map["deletedAt" := VText(now)];
      SoftDeleteRows(schema, rows, id, now);
      SingleAssignment(schema, "deletedAt", VText(now));
      forall i | 0 <= i < |rows| ensures rows[i] + a == rows[i]["deletedAt" := VText(now)] {
        OverlaySingle(rows[i], "deletedAt", VText(now));
      }
    }
  }

  /** The table after a successful soft delete: the UPDATE of `deletedAt` on the rows
      with that id. */
  lemma SoftDeleteRows(schema: TableSchema, rows: seq<Row>, id: string, now: string)
    requires HasColumn(schema, "deletedAt")
    requires DeleteServiceSpec(schema, rows, id, false, now).0.Success?
    ensures DeleteServiceSpec(schema, rows, id, false, now).1
      == ApplyUpdate(rows, IdEquals(VText(id)), Assignments(schema, map["deletedAt" := VText(now)]))
  {
  }

  // ---------------------------------------------------------------- reads

  /** The first row, in table order, that satisfies `p` (`findFirst`, `limit(1)`). */
  function FirstOf(rows: seq<Row>, p: Row -> bool): (r: Option<Row>)
    ensures r.Some? ==> r.value in rows && p(r.value)
    ensures r.None? ==> forall x :: x in rows ==> !p(x)
  {
    var f := Filter(rows, p);
    if f == [] then None else assert f[0] in f; Some(f[0])
  }

  /** `getTableQuery` fails when the table is not registered for relational queries. */
  function QueryInterfaceMissing(schema: TableSchema): Thrown {
    ServiceFail(400, "Query interface missing for table: " + schema.tableName)
  }

  /** getById: the first row with that id that a default read may see, or none. */
  function GetById(schema: TableSchema, rows: seq<Row>, queryable: bool, id: string, includeDeleted: bool)
    : (r: Result<Option<Row>, Thrown>)
    ensures r.Failure? <==> !HasColumn(schema, "id") || !queryable
    ensures r.Success? && r.value.Some? ==>
      r.value.value in rows && SqlEq(Get(r.value.value, "id"), VText(id)) && Visible(schema, includeDeleted, r.value.value)
    ensures r.Success? && r.value.None? ==>
      forall x :: x in rows && SqlEq(Get(x, "id"), VText(id)) ==> !Visible(schema, includeDeleted, x)
  {
    if !HasColumn(schema, "id") then
      Failure(ServiceFail(400, NoIdForGetById))
    else if !queryable then Failure(QueryInterfaceMissing(schema))
    else Success(FirstOf(rows, x => SqlEq(Get(x, "id"), VText(id)) && Visible(schema, includeDeleted, x)))
  }

  /** getByShortId: as getById, on the `shortId` column. */
  function GetByShortId(schema: TableSchema, rows: seq<Row>, queryable: bool, shortId: string, includeDeleted: bool)
    : (r: Result<Option<Row>, Thrown>)
    ensures r.Failure? <==> !HasColumn(schema, "shortId") || !queryable
    ensures !HasColumn(schema, "shortId") ==> r == Failure(ServiceFail(400, NoShortIdColumn))
    ensures r.Success? && r.value.Some? ==>
      r.value.value in rows && SqlEq(Get(r.value.value, "shortId"), VText(shortId))
      && Visible(schema, includeDeleted, r.value.value)
    ensures r.Success? && r.value.None? ==>
      forall x :: x in rows && SqlEq(Get(x, "shortId"), VText(shortId)) ==> !Visible(schema, includeDeleted, x)
  {
    if !HasColumn(schema, "shortId") then Failure(ServiceFail(400, NoShortIdColumn))
    else if !queryable then Failure(QueryInterfaceMissing(schema))
    else Success(FirstOf(rows, x => SqlEq(Get(x, "shortId"), VText(shortId)) && Visible(schema, includeDeleted, x)))
  }

  /** getByIdWithRelations: the first joined row whose base row has that id and is
      visible. */
  function GetByIdWithRelations(schema: TableSchema, rows: seq<Row>, rels: seq<Relation>, related: seq<seq<Row>>,
                                id: string, includeDeleted: bool): (r: Result<Option<Joined>, Thrown>)
    requires |rels| == |related|
    ensures r.Failure? <==> !HasColumn(schema, "id")
    ensures r.Success? && r.value.Some? ==>
      Shaped(r.value.value, rows, rels, related) && SqlEq(Get(r.value.value.base, "id"), VText(id))
      && Visible(schema, includeDeleted, r.value.value.base)
    ensures r.Success? && r.value.None? ==>
      forall x :: x in rows && SqlEq(Get(x, "id"), VText(id)) ==> !Visible(schema, includeDeleted, x)
  {
    if !HasColumn(schema, "id") then
      Failure(ServiceFail(400, NoIdForGetById))
    else
      var base := Filter(rows, x => SqlEq(Get(x, "id"), VText(id)) && Visible(schema, includeDeleted, x));
      var joined := JoinRelations(base, rels, related);
      LeftJoinMeaning(base, rels, related);
      if joined == [] then
        assert forall b :: b in base ==> exists x :: x in joined && x.base == b;
        Success(None)
      else
        assert joined[0] in joined;
        Success(Some(joined[0]))
  }

  /** The ids as bound string values. */
  function Texts(ids: seq<string>): (r: seq<Value>)
    ensures |r| == |ids| && forall i :: 0 <= i < |ids| ==> r[i] == VText(ids[i])
  {
    seq(|ids|, i requires 0 <= i < |ids| => VText(ids[i]))
  }

  /** getMany: the visible rows whose id is one of `ids`, in table order; no query at
      all for an empty list. */
  function GetMany(schema: TableSchema, rows: seq<Row>, queryable: bool, ids: seq<string>, includeDeleted: bool)
    : (r: Result<seq<Row>, Thrown>)
    ensures ids == [] ==> r == Success([])
    ensures r.Failure? <==> ids != [] && (!HasColumn(schema, "id") || !queryable)
    ensures r.Success? ==> forall x :: x in r.value <==>
      x in rows && Get(x, "id").VText? && Get(x, "id").s in ids && Visible(schema, includeDeleted, x)
  {
    if ids == [] then Success([])
    else if !HasColumn(schema, "id") then
      Failure(ServiceFail(400, NoIdForGetMany))
    else if !queryable then Failure(QueryInterfaceMissing(schema))
    else
      var vs := Texts(ids);
      var r := Filter(rows, x => SqlIn(Get(x, "id"), vs) && Visible(schema, includeDeleted, x));
      assert forall x :: Get(x, "id").VText? && Get(x, "id").s in ids ==> SqlIn(Get(x, "id"), vs) by {
        forall x | Get(x, "id").VText? && Get(x, "id").s in ids ensures SqlIn(Get(x, "id"), vs) {
          var i :| 0 <= i < |ids| && ids[i] == Get(x, "id").s;
          assert SqlEq(Get(x, "id"), vs[i]);
        }
      }
      Success(r)
  }

  /** getList: the query fails only when the table is not registered; otherwise the
      rows are the list query's: selected rows in list order, all of them without a
      range, and the ranged positions of the ordered selection with one. */
  function GetList(schema: TableSchema, rows: seq<Row>, queryable: bool, range: Option<Range>, sort: Option<Sort>,
                   filter: Conditions, includeDeleted: bool): (r: Result<seq<Row>, Thrown>)
    ensures r.Failure? <==> !queryable
    ensures r.Success? ==> forall x :: x in r.value ==>
      x in rows && Visible(schema, includeDeleted, x) && MatchesFilter(schema, filter, x)
    ensures r.Success? ==> Sorted(ListOrder(schema, sort), r.value)
    ensures r.Success? && range.None? ==> multiset(r.value) == multiset(SelectedRows(schema, filter, includeDeleted, rows))
    ensures r.Success? && range.Some? && Limit(range.value) >= 0 ==> |r.value| <= Limit(range.value)
    ensures r.Success? && range.Some? && 0 <= range.value.start <= range.value.end + 1 ==>
      var sorted := SortRows(ListOrder(schema, sort), SelectedRows(schema, filter, includeDeleted, rows));
      var n := |SelectedRows(schema, filter, includeDeleted, rows)|;
      var s := range.value.start;
      && |r.value| == (if s >= n then 0 else if range.value.end + 1 <= n then range.value.end - s + 1 else n - s)
      && forall i :: 0 <= i < |r.value| ==> r.value[i] == sorted[s + i]
  {
    if !queryable then Failure(QueryInterfaceMissing(schema))
    else
      ListRowsAreSelected(schema, rows, range, sort, filter, includeDeleted);
      ListPositions(schema, rows, range, sort, filter, includeDeleted);
      Success(ListSpec(schema, rows, range, sort, filter, includeDeleted))
  }

  /** getListWithRelations: the selected rows in list order, each joined with the
      relations, then paged. Every result row is a selected base row with its join
      slots filled; the base rows follow the list order; without a range every
      selected row is there; a non-negative limit bounds the page. */
  function GetListWithRelations(schema: TableSchema, rows: seq<Row>, rels: seq<Relation>, related: seq<seq<Row>>,
                                range: Option<Range>, sort: Option<Sort>, filter: Conditions, includeDeleted: bool)
    : (r: seq<Joined>)
    requires |rels| == |related|
    ensures forall x :: x in r ==>
      Shaped(x, rows, rels, related) && Visible(schema, includeDeleted, x.base) && MatchesFilter(schema, filter, x.base)
    ensures Sorted(ListOrder(schema, sort), Bases(r))
    ensures range.None? ==>
      forall b :: b in rows && Selected(schema, filter, includeDeleted, b) ==> exists x :: x in r && x.base == b
    ensures range.Some? && Limit(range.value) >= 0 ==> |r| <= Limit(range.value)
  {
    JoinedListMeaning(schema, rows, rels, related, range, sort, filter, includeDeleted);
    JoinedListOrder(schema, rows, rels, related, range, sort, filter, includeDeleted);
    JoinedListComplete(schema, rows, rels, related, sort, filter, includeDeleted);
    PageWithinLimit(JoinRelations(SortRows(ListOrder(schema, sort), SelectedRows(schema, filter, includeDeleted, rows)), rels, related), range);
    Page(JoinRelations(SortRows(ListOrder(schema, sort), SelectedRows(schema, filter, includeDeleted, rows)), rels, related), range)
  }

  lemma JoinedListMeaning(schema: TableSchema, rows: seq<Row>, rels: seq<Relation>, related: seq<seq<Row>>,
                          range: Option<Range>, sort: Option<Sort>, filter: Conditions, includeDeleted: bool)
    requires |rels| == |related|
    ensures forall x :: x in Page(JoinRelations(SortRows(ListOrder(schema, sort), SelectedRows(schema, filter, includeDeleted, rows)), rels, related), range) ==>
      Shaped(x, rows, rels, related) && Visible(schema, includeDeleted, x.base) && MatchesFilter(schema, filter, x.base)
  {
    var sel := SelectedRows(schema, filter, includeDeleted, rows);
    var sorted := SortRows(ListOrder(schema, sort), sel);
    var joined := JoinRelations(sorted, rels, related);
    SortRowsCorrect(ListOrder(schema, sort), sel);
    LeftJoinMeaning(sorted, rels, related);
    PageKeeps(joined, range);
    forall x | x in Page(joined, range)
      ensures Shaped(x, rows, rels, related) && Selected(schema, filter, includeDeleted, x.base)
    {
      assert Shaped(x, sorted, rels, related);
      assert x.base in multiset(sel);
    }
  }

  /** The joined rows' bases follow the list order, page or no page. */
  lemma JoinedListOrder(schema: TableSchema, rows: seq<Row>, rels: seq<Relation>, related: seq<seq<Row>>,
                        range: Option<Range>, sort: Option<Sort>, filter: Conditions, includeDeleted: bool)
    requires |rels| == |related|
    ensures Sorted(ListOrder(schema, sort),
      Bases(Page(JoinRelations(SortRows(ListOrder(schema, sort), SelectedRows(schema, filter, includeDeleted, rows)), rels, related), range)))
  {
    var o := ListOrder(schema, sort);
    var sorted := SortRows(o, SelectedRows(schema, filter, includeDeleted, rows));
    SortRowsCorrect(o, SelectedRows(schema, filter, includeDeleted, rows));
    JoinRelationsKeepsOrder(o, sorted, rels, related);
    PageKeepsBaseOrder(o, JoinRelations(sorted, rels, related), range);
  }

  /** Without a range, every selected row appears as the base of some joined row. */
  lemma JoinedListComplete(schema: TableSchema, rows: seq<Row>, rels: seq<Relation>, related: seq<seq<Row>>,
                           sort: Option<Sort>, filter: Conditions, includeDeleted: bool)
    requires |rels| == |related|
    ensures forall b :: b in rows && Selected(schema, filter, includeDeleted, b) ==>
      exists x :: x in JoinRelations(SortRows(ListOrder(schema, sort), SelectedRows(schema, filter, includeDeleted, rows)), rels, related) && x.base == b
  {
    var sel := SelectedRows(schema, filter, includeDeleted, rows);
    var sorted := SortRows(ListOrder(schema, sort), sel);
    SortRowsCorrect(ListOrder(schema, sort), sel);
    LeftJoinMeaning(sorted, rels, related);
    forall b | b in rows && Selected(schema, filter, includeDeleted, b)
      ensures exists x :: x in JoinRelations(sorted, rels, related) && x.base == b
    {
      assert b in multiset(sel);
      assert b in sorted;
    }
  }

  /** getManyReference: getList with the caller's filter and `field = id`, the latter
      winning over any caller entry for the same field. */
  function GetManyReference(schema: TableSchema, rows: seq<Row>, queryable: bool, field: string, id: string,
                            range: Option<Range>, sort: Option<Sort>, filter: Conditions, includeDeleted: bool)
    : (r: Result<seq<Row>, Thrown>)
    ensures !HasColumn(schema, field) ==>
      r == Failure(ServiceFail(400, "Reference field " + field + " does not exist in schema."))
    ensures HasColumn(schema, field) ==> r == GetList(schema, rows, queryable, range, sort, filter[field := FScalar(VText(id))], includeDeleted)
  {
    if !HasColumn(schema, field) then Failure(ServiceFail(400, "Reference field " + field + " does not exist in schema."))
    else GetList(schema, rows, queryable, range, sort, filter[field := FScalar(VText(id))], includeDeleted)
  }

  /** Every row getManyReference returns has `field` equal to the given id, whatever the
      caller's filter said about that field. */
  lemma ReferenceRowsHaveId(schema: TableSchema, rows: seq<Row>, queryable: bool, field: string, id: string,
                            range: Option<Range>, sort: Option<Sort>, filter: Conditions, includeDeleted: bool)
    ensures var r := GetManyReference(schema, rows, queryable, field, id, range, sort, filter, includeDeleted);
      r.Success? ==> forall x :: x in r.value ==> x in rows && Get(x, field) == VText(id)
  {
    var r := GetManyReference(schema, rows, queryable, field, id, range, sort, filter, includeDeleted);
    if r.Success? {
      var f := filter[field := FScalar(VText(id))];
      forall x | x in r.value ensures x in rows && Get(x, field) == VText(id) {
        assert MatchesFilter(schema, f, x);
        assert field in f && Active(schema, field, f[field]);
      }
    }
  }

  /** After a soft delete, a default getById no longer finds the row. */
  lemma SoftDeletedRowIsHidden(schema: TableSchema, rows: seq<Row>, id: string, now: string)
    requires HasColumn(schema, "deletedAt")
    ensures var out := DeleteServiceSpec(schema, rows, id, false, now);
      out.0.Success? ==> GetById(schema, out.1, true, id, false) == Success(None)
  {
    var out := DeleteServiceSpec(schema, rows, id, false, now);
    if out.0.Success? {
      SoftDeleteTouchesOnlyDeletedAt(schema, rows, id, now);
      StampedRowsHidden(schema, rows, out.1, id, now);
    }
  }

  /** Rows whose `deletedAt` was set to a string are hidden from default reads. */
  lemma StampedRowsHidden(schema: TableSchema, rows: seq<Row>, stamped: seq<Row>, id: string, now: string)
    requires HasColumn(schema, "deletedAt") && |stamped| == |rows|
    requires forall i :: 0 <= i < |rows| ==>
      stamped[i] == if SqlEq(Get(rows[i], "id"), VText(id)) then rows[i]["deletedAt" := VText(now)] else rows[i]
    ensures forall x :: x in stamped && SqlEq(Get(x, "id"), VText(id)) ==> !Visible(schema, false, x)
  {
    forall x | x in stamped && SqlEq(Get(x, "id"), VText(id)) ensures !Visible(schema, false, x) {
      var i :| 0 <= i < |stamped| && stamped[i] == x;
    }
  }

  // ---------------------------------------------------------------- bulk operations

  /** One entry of bulkUpdate; `data` is `None` when it is not an object. */
  datatype UpdateEntry = UpdateEntry(id: Value, data: Option<Row>)

  /** The first entry, in order, without a truthy id or without object data. */
  function BulkUpdateCheck(updates: seq<UpdateEntry>): (r: Option<Thrown>)
    ensures r.None? <==> forall k :: 0 <= k < |updates| ==> Truthy(updates[k].id) && updates[k].data.Some?
    ensures r.Some? ==> r.value.ServiceFail? && r.value.status == 400
  {
    if updates == [] then None
    else if !Truthy(updates[0].id) then Some(ServiceFail(400, BulkUpdateMissingId))
    else if updates[0].data.None? then
      Some(ServiceFail(400, BulkUpdateBadDataPrefix + Render(updates[0].id) + " is invalid."))
    else
      var rest := BulkUpdateCheck(updates[1..]);
      assert forall k :: 1 <= k < |updates| ==> updates[k] == updates[1..][k - 1];
      rest
  }

  /** Collecting results: the first failure wins, otherwise the rows in entry order. */
  function Combine(acc: Result<seq<Row>, Thrown>, next: Result<Row, Thrown>): Result<seq<Row>, Thrown> {
    if acc.Failure? then acc
    else match next
      case Failure(e) => Failure(e)
      case Success(row) => Success(acc.value + [row])
  }

  /** Every entry's update, one after another on the changing table. A failing entry
      changes nothing, the later ones still run, and the first failure is reported. */
  function BulkApply(schema: TableSchema, rows: seq<Row>, updates: seq<UpdateEntry>, now: string,
                     toUtc: Value -> string, slugify: string -> string): (out: (Result<seq<Row>, Thrown>, seq<Row>))
    requires forall k :: 0 <= k < |updates| ==> updates[k].data.Some?
    ensures |out.1| == |rows|
    ensures out.0.Success? ==> |out.0.value| == |updates|
    ensures Consistent(schema, rows) ==> Consistent(schema, out.1)
    decreases |updates|
  {
    if updates == [] then (Success([]), rows)
    else
      var n := |updates| - 1;
      var prev := BulkApply(schema, rows, updates[..n], now, toUtc, slugify);
      var last := UpdateServiceSpec(schema, prev.1, updates[n].id, updates[n].data.value, now, toUtc, slugify);
      (Combine(prev.0, last.0), last.1)
  }

  /** One more entry of the bulk update: its update runs on the table the earlier
      entries left. */
  lemma BulkApplyStep(schema: TableSchema, rows: seq<Row>, updates: seq<UpdateEntry>, k: nat, now: string,
                      toUtc: Value -> string, slugify: string -> string)
    requires k < |updates| && forall j :: 0 <= j < |updates| ==> updates[j].data.Some?
    ensures var prev := BulkApply(schema, rows, updates[..k], now, toUtc, slugify);
      var last := UpdateServiceSpec(schema, prev.1, updates[k].id, updates[k].data.value, now, toUtc, slugify);
      BulkApply(schema, rows, updates[..k + 1], now, toUtc, slugify) == (Combine(prev.0, last.0), last.1)
  {
    assert updates[..k + 1][..k] == updates[..k];
  }

  /** The part of `update` that runs before its first await: `#prepareData` and the
      `id` column check. Its failure rejects the update's promise at once. */
  function UpdateSyncFailure(schema: TableSchema, data: Row, now: string,
                             toUtc: Value -> string, slugify: string -> string): (r: Option<Thrown>)
    ensures r.None? <==> HasColumn(schema, "id") && PrepareSpec(schema, data, false, true, now, toUtc, slugify).Success?
  {
    match PrepareSpec(schema, data, false, true, now, toUtc, slugify)
    case Failure(e) => Some(e)
    case Success(_) => if !HasColumn(schema, "id") then Some(ServiceFail(400, NoIdForUpdate)) else None
  }

  /** An early failure is the update's own outcome, whatever the table holds: the
      update fails with that error and changes nothing. */
  lemma EarlyFailureIsUpdateFailure(schema: TableSchema, rows: seq<Row>, id: Value, data: Row, now: string,
                                    toUtc: Value -> string, slugify: string -> string)
    requires UpdateSyncFailure(schema, data, now, toUtc, slugify).Some?
    ensures UpdateServiceSpec(schema, rows, id, data, now, toUtc, slugify)
      == (Failure(UpdateSyncFailure(schema, data, now, toUtc, slugify).value), rows)
  {
  }

  /** What each entry's update does before its first await. */
  function SyncFailures(schema: TableSchema, updates: seq<UpdateEntry>, now: string,
                        toUtc: Value -> string, slugify: string -> string): (r: seq<Option<Thrown>>)
    requires forall k :: 0 <= k < |updates| ==> updates[k].data.Some?
    ensures |r| == |updates|
    ensures forall k :: 0 <= k < |r| ==> r[k] == UpdateSyncFailure(schema, updates[k].data.value, now, toUtc, slugify)
  {
    if updates == [] then []
    else
      var first := UpdateSyncFailure(schema, updates[0].data.value, now, toUtc, slugify);
      [first] + SyncFailures(schema, updates[1..], now, toUtc, slugify)
  }

  /** The first index at or after `from` that holds a value. */
  function FirstSome<T>(xs: seq<Option<T>>, from: nat): (r: Option<nat>)
    requires from <= |xs|
    ensures r.Some? ==> from <= r.value < |xs| && xs[r.value].Some? && forall j :: from <= j < r.value ==> xs[j].None?
    ensures r.None? ==> forall j :: from <= j < |xs| ==> xs[j].None?
    decreases |xs| - from
  {
    if from == |xs| then None
    else if xs[from].Some? then Some(from)
    else FirstSome(xs, from + 1)
  }

  /** The error of the first entry that fails before its first await, if any. */
  function EarlyFailure(schema: TableSchema, updates: seq<UpdateEntry>, now: string,
                        toUtc: Value -> string, slugify: string -> string): (r: Option<Thrown>)
    requires forall k :: 0 <= k < |updates| ==> updates[k].data.Some?
    ensures r.None? <==> forall k :: 0 <= k < |updates| ==> UpdateSyncFailure(schema, updates[k].data.value, now, toUtc, slugify).None?
    ensures r.Some? ==> exists k ::
      && 0 <= k < |updates|
      && r == UpdateSyncFailure(schema, updates[k].data.value, now, toUtc, slugify)
      && (forall j :: 0 <= j < k ==> UpdateSyncFailure(schema, updates[j].data.value, now, toUtc, slugify).None?)
  {
    var fails := SyncFailures(schema, updates, now, toUtc, slugify);
    match FirstSome(fails, 0)
    case None => None
    case Some(k) => fails[k]
  }

  /** bulkUpdate: nothing for no entries; every entry is checked before any update.
      Then every update starts at once and `Promise.all` rejects with the first
      rejection to settle: an update that fails before its first await rejects before
      any database answer, so the first such entry's error wins; otherwise the first
      database failure by position is reported. Either way, every update that got past
      its preparation has run on the table. */
  function BulkUpdateSpec(schema: TableSchema, rows: seq<Row>, updates: seq<UpdateEntry>, now: string,
                          toUtc: Value -> string, slugify: string -> string): (out: (Result<seq<Row>, Thrown>, seq<Row>))
    ensures updates == [] ==> out == (Success([]), rows)
    ensures BulkUpdateCheck(updates).Some? ==> out == (Failure(BulkUpdateCheck(updates).value), rows)
    ensures updates != [] && BulkUpdateCheck(updates).None? ==>
      && out.1 == BulkApply(schema, rows, updates, now, toUtc, slugify).1
      && (EarlyFailure(schema, updates, now, toUtc, slugify).Some? ==>
            out.0 == Failure(EarlyFailure(schema, updates, now, toUtc, slugify).value))
      && (EarlyFailure(schema, updates, now, toUtc, slugify).None? ==>
            out.0 == BulkApply(schema, rows, updates, now, toUtc, slugify).0)
    ensures out.0.Success? ==> |out.0.value| == |updates|
    ensures Consistent(schema, rows) ==> Consistent(schema, out.1)
  {
    if updates == [] then (Success([]), rows)
    else match BulkUpdateCheck(updates)
      case Some(e) => (Failure(e), rows)
      case None =>
        var applied := BulkApply(schema, rows, updates, now, toUtc, slugify);
        match EarlyFailure(schema, updates, now, toUtc, slugify)
        case Some(e) => (Failure(e), applied.1)
        case None => applied
  }

  /** The early failure of a list of entries is that of the first entry failing
      before its first await. */
  lemma EarlyFailureAt(schema: TableSchema, updates: seq<UpdateEntry>, k: nat, now: string,
                       toUtc: Value -> string, slugify: string -> string)
    requires k < |updates| && forall j :: 0 <= j < |updates| ==> updates[j].data.Some?
    requires UpdateSyncFailure(schema, updates[k].data.value, now, toUtc, slugify).Some?
    requires forall j :: 0 <= j < k ==> UpdateSyncFailure(schema, updates[j].data.value, now, toUtc, slugify).None?
    ensures EarlyFailure(schema, updates, now, toUtc, slugify) == UpdateSyncFailure(schema, updates[k].data.value, now, toUtc, slugify)
  {
    var fails := SyncFailures(schema, updates, now, toUtc, slugify);
    var f := FirstSome(fails, 0);
    assert f.Some?;
    assert f.value == k;
  }

  /** The error of a bulk update whose entries pass the checks is that of the first
      entry failing before its first await, even when an earlier entry would fail later
      for want of a matching row. */
  lemma EarlyFailureWins(schema: TableSchema, rows: seq<Row>, updates: seq<UpdateEntry>, k: nat, now: string,
                         toUtc: Value -> string, slugify: string -> string)
    requires k < |updates| && BulkUpdateCheck(updates).None?
    requires UpdateSyncFailure(schema, updates[k].data.value, now, toUtc, slugify).Some?
    requires forall j :: 0 <= j < k ==> UpdateSyncFailure(schema, updates[j].data.value, now, toUtc, slugify).None?
    ensures BulkUpdateSpec(schema, rows, updates, now, toUtc, slugify).0
      == Failure(UpdateSyncFailure(schema, updates[k].data.value, now, toUtc, slugify).value)
  {
    EarlyFailureAt(schema, updates, k, now, toUtc, slugify);
  }

  /** A bulkDelete id must be a string that is not blank. */
  predicate ValidBulkId(v: Value) {
    v.VText? && Text.Trim(v.s) != []
  }

  /** The position of the first invalid id at or after `from`. */
  function FirstBadId(ids: seq<Value>, from: nat): (r: Option<nat>)
    requires from <= |ids|
    ensures r.Some? ==> (from <= r.value < |ids| && !ValidBulkId(ids[r.value])
                         && forall j :: from <= j < r.value ==> ValidBulkId(ids[j]))
    ensures r.None? ==> forall j :: from <= j < |ids| ==> ValidBulkId(ids[j])
    decreases |ids| - from
  {
    if from == |ids| then None
    else if !ValidBulkId(ids[from]) then Some(from)
    else FirstBadId(ids, from + 1)
  }

  /** bulkDelete: every id is checked before anything changes, the error naming the
      first bad position; a soft bulk delete needs `deletedAt` and never fails for
      want of matching rows. */
  function BulkDeleteSpec(schema: TableSchema, rows: seq<Row>, ids: seq<Value>, permanent: bool, now: string)
    : (out: (Result<seq<Row>, Thrown>, seq<Row>))
    ensures out.0.Failure? ==> out.1 == rows
    ensures out.0.Failure? && out.0.error.ServiceFail? ==> out.0.error.status == 400
    ensures (exists j :: 0 <= j < |ids| && !ValidBulkId(ids[j])) ==> out.0.Failure?
    ensures ids == [] ==> out == (Success([]), rows)
    ensures ids != [] && FirstBadId(ids, 0).None? && !HasColumn(schema, "id") ==>
      out == (Failure(ServiceFail(400, NoIdForGetById)), rows)
    ensures ids != [] && FirstBadId(ids, 0).None? && HasColumn(schema, "id") && permanent ==> out.0.Success?
    ensures ids != [] && FirstBadId(ids, 0).None? && HasColumn(schema, "id") && !permanent && !HasColumn(schema, "deletedAt") ==>
      out == (Failure(ServiceFail(400, NoDeletedAtForSoftDelete)), rows)
    ensures out.0.Success? && permanent && ids != [] ==> out.1 == Kept(rows, IdIn(ids)) && out.0.value == Removed(rows, IdIn(ids))
    ensures out.0.Success? && !permanent && ids != [] ==>
      var a := Assignments(schema, map["deletedAt" := VText(now)]);
      out.1 == ApplyUpdate(rows, IdIn(ids), a) && out.0.value == Affected(rows, IdIn(ids), a)
    ensures Consistent(schema, rows) ==> Consistent(schema, out.1)
  {
    if ids == [] then (Success([]), rows)
    else match FirstBadId(ids, 0)
      case Some(i) =>
        (Failure(ServiceFail(400, BulkDeleteBadIdPrefix + Text.IntToString(i) + ".")), rows)
      case None =>
        if !HasColumn(schema, "id") then
          (Failure(ServiceFail(400, NoIdForGetById)), rows)
        else if permanent then
          FilterKeepsConsistentIf(schema, rows, IdIn(ids));
          (Success(Removed(rows, IdIn(ids))), Kept(rows, IdIn(ids)))
        else if !HasColumn(schema, "deletedAt") then
          (Failure(ServiceFail(400, NoDeletedAtForSoftDelete)), rows)
        else
          var out := UpdateSpec(schema, rows, IdIn(ids), map["deletedAt" := VText(now)]);
          match out.0
          case Failure(e) => (Failure(StoreFail(e)), out.1)
          case Success(affected) => (Success(affected), out.1)
  }

  /** A successful soft bulk delete stamps `deletedAt` on exactly the rows whose id is
      listed, changes nothing else, and returns those rows, stamped, in table order. */
  lemma BulkSoftDeleteStamps(schema: TableSchema, rows: seq<Row>, ids: seq<Value>, now: string)
    requires HasColumn(schema, "deletedAt") && ids != []
    ensures var out := BulkDeleteSpec(schema, rows, ids, false, now);
      out.0.Success? ==>
        && |out.1| == |rows|
        && (forall i :: 0 <= i < |rows| ==>
              out.1[i] == if SqlIn(Get(rows[i], "id"), ids) then rows[i]["deletedAt" := VText(now)] else rows[i])
        && |out.0.value| == |Removed(rows, IdIn(ids))|
        && (forall i :: 0 <= i < |out.0.value| ==> out.0.value[i] == Removed(rows, IdIn(ids))[i]["deletedAt" := VText(now)])
  {
    var out := BulkDeleteSpec(schema, rows, ids, false, now);
    if out.0.Success? {
      SingleAssignment(schema, "deletedAt", VText(now));
      var removed := Removed(rows, IdIn(ids));
      forall i | 0 <= i < |rows| ensures rows[i] + map["deletedAt" := VText(now)] == rows[i]["deletedAt" := VText(now)] {
        OverlaySingle(rows[i], "deletedAt", VText(now));
      }
      forall i | 0 <= i < |removed| ensures removed[i] + map["deletedAt" := VText(now)] == removed[i]["deletedAt" := VText(now)] {
        OverlaySingle(removed[i], "deletedAt", VText(now));
      }
    }
  }

  // ---------------------------------------------------------------- the service

  /** The enum loop of `#prepareData`: the first column whose enum rejects the value. */
  method CheckEnums(cols: seq<Column>, data: Row) returns (r: Option<Thrown>)
    ensures r == EnumCheck(cols, data)
  {
    var i := 0;
    while i < |cols|
      invariant 0 <= i <= |cols|
      invariant EnumCheck(cols, data) == EnumCheck(cols[i..], data)
    {
      assert cols[i..] == [cols[i]] + cols[i + 1..];
      var c := cols[i];
      if c.enumValues.Some? {
        var fieldValue := Get(data, c.name);
        if Truthy(fieldValue) && !(fieldValue.VText? && fieldValue.s in c.enumValues.value) {
          return Some(ServiceFail(400, "Invalid value '" + Render(fieldValue) + "' for " + c.name));
        }
      }
      i := i + 1;
    }
    return None;
  }

  /** The date loop of `#prepareData`: every present date field rewritten in UTC. */
  method ConvertDateFields(schema: TableSchema, data: Row, toUtc: Value -> string) returns (p: Row)
    ensures p == ConvertDates(schema, data, DateFields, toUtc)
  {
    p := data;
    var j := 0;
    while j < |DateFields|
      invariant 0 <= j <= |DateFields|
      invariant ConvertDates(schema, p, DateFields[j..], toUtc) == ConvertDates(schema, data, DateFields, toUtc)
    {
      assert DateFields[j..] == [DateFields[j]] + DateFields[j + 1..];
      var field := DateFields[j];
      if HasColumn(schema, field) && !IsNullish(Get(p, field)) {
        p := p[field := VText(toUtc(Get(p, field)))];
      }
      j := j + 1;
    }
  }

  /** A caller's payload object, which create writes its timestamps into. */
  class Payload {
    var fields: Row

    constructor (fields: Row)
      ensures this.fields == fields
    {
      this.fields := fields;
    }
  }

  /** `BaseService`: one table, its relations, and the helpers it calls (the UTC
      formatter and the slugifier). `queryable` says whether the table is registered
      for relational queries. */
  class BaseService {
    const table: Table
    const relations: seq<Relation>
    const queryable: bool
    const toUtc: Value -> string
    const slugify: string -> string

    ghost predicate Valid()
      reads table
    {
      table.Valid()
    }

    constructor (table: Table, relations: seq<Relation>, queryable: bool, toUtc: Value -> string, slugify: string -> string)
      ensures this.table == table && this.relations == relations && this.queryable == queryable
      ensures this.toUtc == toUtc && this.slugify == slugify
    {
      this.table := table;
      this.relations := relations;
      this.queryable := queryable;
      this.toUtc := toUtc;
      this.slugify := slugify;
    }

    /** `#prepareData`: a copy of the payload, checked and rewritten step by step. */
    method PrepareData(data: Row, isCreate: bool, autoUpdate: bool, now: string) returns (r: Result<Row, Thrown>)
      ensures r == PrepareSpec(table.schema, data, isCreate, autoUpdate, now, toUtc, slugify)
    {
      var schema := table.schema;
      var rejected := CheckEnums(schema.columns, data);
      if rejected.Some? {
        return Failure(rejected.value);
      }
      var p := ConvertDateFields(schema, data, toUtc);
      if autoUpdate && HasColumn(schema, "updatedAt") {
        p := p["updatedAt" := VText(now)];
      }
      if HasColumn(schema, "slug") {
        var slug := Get(p, "slug");
        if Truthy(slug) && !slug.VText? {
          return Failure(TypeFail(SlugTrimNotAFunction));
        }
        if !Truthy(slug) || Text.Trim(slug.s) == [] {
          if Get(p, "title").VText? {
            p := p["slug" := VText(slugify(Get(p, "title").s))];
          } else if isCreate {
            return Failure(ServiceFail(400, SlugWithoutTitle));
          }
        }
      }
      return Success(p);
    }

    /** create: the timestamps go into the caller's object first, whatever happens
        next; then prepare, fill identifiers and insert. */
    method Create(data: Payload, now: string, newId: string, newShortId: string) returns (r: Result<Row, Thrown>)
      requires Valid()
      modifies data, table
      ensures Valid()
      ensures data.fields == StampCreate(table.schema, old(data.fields), now)
      ensures (r, table.rows) == CreateSpec(table.schema, old(table.rows), data.fields, now, newId, newShortId, toUtc, slugify)
    {
      var schema := table.schema;
      StampTimestamps(data, schema, now);
      var prepared := PrepareData(data.fields, true, false, now);
      if prepared.Failure? {
        return Failure(prepared.error);
      }
      var finalData := prepared.value;
      if HasColumn(schema, "id") && !Truthy(Get(finalData, "id")) {
        finalData := finalData["id" := VText(newId)];
      }
      if HasColumn(schema, "shortId") && !Truthy(Get(finalData, "shortId")) {
        finalData := finalData["shortId" := VText(newShortId)];
      }
      assert finalData == FillIdentifiers(schema, prepared.value, newId, newShortId);
      var inserted := table.Insert(finalData, now);
      if inserted.Failure? {
        return Failure(StoreFail(inserted.error));
      }
      return Success(inserted.value);
    }

    /** create's first step: falsy `createdAt` and `updatedAt` of the caller's object
        are set to now, in place. */
    static method StampTimestamps(data: Payload, schema: TableSchema, now: string)
      modifies data
      ensures data.fields == StampCreate(schema, old(data.fields), now)
    {
      if HasColumn(schema, "createdAt") && !Truthy(Get(data.fields, "createdAt")) {
        data.fields := data.fields["createdAt" := VText(now)];
      }
      if HasColumn(schema, "updatedAt") && !Truthy(Get(data.fields, "updatedAt")) {
        data.fields := data.fields["updatedAt" := VText(now)];
      }
    }

    /** update: prepare with `updatedAt` refreshed, then update the row with that id. */
    method Update(id: Value, data: Row, now: string) returns (r: Result<Row, Thrown>)
      requires Valid()
      modifies table
      ensures Valid()
      ensures (r, table.rows) == UpdateServiceSpec(table.schema, old(table.rows), id, data, now, toUtc, slugify)
    {
      var prepared := PrepareData(data, false, true, now);
      if prepared.Failure? {
        return Failure(prepared.error);
      }
      if !HasColumn(table.schema, "id") {
        return Failure(ServiceFail(400, NoIdForUpdate));
      }
      var w := IdEquals(Bind(id));
      ghost var before := table.rows;
      var updated := table.Update(w, prepared.value);
      if updated.Failure? {
        return Failure(StoreFail(updated.error));
      }
      if updated.value == [] {
        NothingMatchedNothingChanges(before, w, Assignments(table.schema, prepared.value));
        return Failure(ServiceFail(404, NoRecordPrefix + Render(id)));
      }
      return Success(updated.value[0]);
    }

    /** delete: permanent or soft, by id. */
    method Delete(id: string, permanent: bool, now: string) returns (r: Result<Row, Thrown>)
      requires Valid()
      modifies table
      ensures Valid()
      ensures (r, table.rows) == DeleteServiceSpec(table.schema, old(table.rows), id, permanent, now)
    {
      if !HasColumn(table.schema, "id") {
        return Failure(ServiceFail(400, NoIdForDelete));
      }
      var w := IdEquals(VText(id));
      ghost var before := table.rows;
      if permanent {
        var deleted := table.Delete(w);
        if deleted == [] {
          NothingMatchedNothingRemoved(before, w);
          return Failure(ServiceFail(404, NoRecordPrefix + id));
        }
        return Success(deleted[0]);
      } else {
        if !HasColumn(table.schema, "deletedAt") {
          return Failure(ServiceFail(400, NoDeletedAtForSoftDelete));
        }
        var updated := table.Update(w, map["deletedAt" := VText(now)]);
        if updated.Failure? {
          return Failure(StoreFail(updated.error));
        }
        if updated.value == [] {
          NothingMatchedNothingChanges(before, w, Assignments(table.schema, map["deletedAt" := VText(now)]));
          return Failure(ServiceFail(404, NoRecordPrefix + id));
        }
        return Success(updated.value[0]);
      }
    }

    /** bulkUpdate: check every entry, then run every update in order. */
    method BulkUpdate(updates: seq<UpdateEntry>, now: string) returns (r: Result<seq<Row>, Thrown>)
      requires Valid()
      modifies table
      ensures Valid()
      ensures (r, table.rows) == BulkUpdateSpec(table.schema, old(table.rows), updates, now, toUtc, slugify)
    {
      if |updates| == 0 {
        return Success([]);
      }
      var problem := CheckUpdates(updates);
      if problem.Some? {
        return Failure(problem.value);
      }
      r := ApplyUpdates(updates, now);
      var early := EarlyFailure(table.schema, updates, now, toUtc, slugify);
      if early.Some? {
        r := Failure(early.value);
      }
    }

    /** The checking loop of bulkUpdate: the first entry without a truthy id or without
        data stops it. */
    method CheckUpdates(updates: seq<UpdateEntry>) returns (problem: Option<Thrown>)
      ensures problem == BulkUpdateCheck(updates)
    {
      var i := 0;
      while i < |updates|
        invariant 0 <= i <= |updates|
        invariant BulkUpdateCheck(updates) == BulkUpdateCheck(updates[i..])
      {
        assert updates[i..][1..] == updates[i + 1..];
        var u := updates[i];
        if !Truthy(u.id) {
          return Some(ServiceFail(400, BulkUpdateMissingId));
        }
        if u.data.None? {
          return Some(ServiceFail(400, BulkUpdateBadDataPrefix + Render(u.id) + " is invalid."));
        }
        i := i + 1;
      }
      assert updates[|updates|..] == [];
      return None;
    }

    /** The update loop of bulkUpdate: every entry in order on the changing table. */
    method ApplyUpdates(updates: seq<UpdateEntry>, now: string) returns (acc: Result<seq<Row>, Thrown>)
      requires Valid()
      requires forall k :: 0 <= k < |updates| ==> updates[k].data.Some?
      modifies table
      ensures Valid()
      ensures (acc, table.rows) == BulkApply(table.schema, old(table.rows), updates, now, toUtc, slugify)
    {
      acc := Success([]);
      var k := 0;
      while k < |updates|
        invariant 0 <= k <= |updates|
        invariant Valid()
        invariant (acc, table.rows) == BulkApply(table.schema, old(table.rows), updates[..k], now, toUtc, slugify)
      {
        BulkApplyStep(table.schema, old(table.rows), updates, k, now, toUtc, slugify);
        var res := Update(updates[k].id, updates[k].data.value, now);
        acc := Combine(acc, res);
        k := k + 1;
      }
      assert updates[..|updates|] == updates;
    }

    /** bulkDelete: check every id, then delete or soft delete them all at once. */
    method BulkDelete(ids: seq<Value>, permanent: bool, now: string) returns (r: Result<seq<Row>, Thrown>)
      requires Valid()
      modifies table
      ensures Valid()
      ensures (r, table.rows) == BulkDeleteSpec(table.schema, old(table.rows), ids, permanent, now)
    {
      if |ids| == 0 {
        return Success([]);
      }
      var index := 0;
      while index < |ids|
        invariant 0 <= index <= |ids|
        invariant FirstBadId(ids, 0) == FirstBadId(ids, index)
      {
        var id := ids[index];
        if !id.VText? || Text.Trim(id.s) == [] {
          return Failure(ServiceFail(400, BulkDeleteBadIdPrefix + Text.IntToString(index) + "."));
        }
        index := index + 1;
      }
      if !HasColumn(table.schema, "id") {
        return Failure(ServiceFail(400, NoIdForGetById));
      }
      if permanent {
        var deleted := table.Delete(IdIn(ids));
        return Success(deleted);
      } else {
        if !HasColumn(table.schema, "deletedAt") {
          return Failure(ServiceFail(400, NoDeletedAtForSoftDelete));
        }
        var updated := table.Update(IdIn(ids), map["deletedAt" := VText(now)]);
        if updated.Failure? {
          return Failure(StoreFail(updated.error));
        }
        return Success(updated.value);
      }
    }
  }
}

=== FILE: client_cache.dfy ===
/** `getDBClient`: one drizzle client per reference object, created on first use and
    remembered in a module-level table keyed by the reference's identity. */
module ClientCache {

  /** A D1 database binding (the `DB` argument). */
  class D1Binding {
    constructor ()
    {
    }
  }

  /** An object used as a cache key; keys are compared by identity. */
  class Reference {
    constructor ()
    {
    }
  }

  /** `drizzle(DB)`: a client over one binding. */
  class DrizzleClient {
    const db: D1Binding

    constructor (db: D1Binding)
      ensures this.db == db
    {
      this.db := db;
    }
  }

  /** The `drizzleDBMap` table. */
  class ClientTable {
    var entries: map<Reference, DrizzleClient>

    /** Distinct references hold distinct clients. */
    ghost predicate Valid()
      reads this
    {
      forall r1, r2 :: r1 in entries && r2 in entries && r1 != r2 ==> entries[r1] != entries[r2]
    }

    constructor ()
      ensures Valid() && entries == map[]
    {
      entries := map[];
    }

    /** A cached reference gets its client back and `db` is ignored; otherwise one new
        client over `db` is created and stored under the reference. No entry is ever
        replaced. */
    method GetDbClient(reference: Reference, db: D1Binding) returns (client: DrizzleClient)
      requires Valid()
      modifies this
      ensures Valid()
      ensures reference in entries && entries[reference] == client
      ensures reference in old(entries) ==> client == old(entries[reference]) && entries == old(entries)
      ensures reference !in old(entries) ==> fresh(client) && client.db == db && entries == old(entries)[reference := client]
      ensures forall r :: r in old(entries) ==> r in entries && entries[r] == old(entries[r])
    {
      if reference in entries {
        return entries[reference];
      }
      client := new DrizzleClient(db);
      entries := entries[reference := client];
    }
  }
}

=== FILE: database_errors.dfy ===
/** `DatabaseError` (500) and its static factories. Each factory records its own
    arguments in the context and spreads the caller's context over them. */
module DatabaseErrors {
  import opened Wrappers
  import opened Json
  import opened Text
  import opened Errors

  /** `identifier: string | number`. */
  datatype Identifier = TextId(s: string) | NumberId(n: int)

  function ShowIdentifier(i: Identifier): string {
    match i
    case TextId(s) => s
    case NumberId(n) => IntToString(n)
  }

  function IdentifierValue(i: Identifier): Json {
    match i
    case TextId(s) => JStr(s)
    case NumberId(n) => JNum(n)
  }

  datatype Factory =
    | ConnectionFailed(databaseName: Option<string>)
    | ConnectionTimeout(databaseName: Option<string>, timeoutMs: Option<int>)
    | QueryTimeout(query: Option<string>, timeoutMs: Option<int>)
    | SyntaxError(query: Option<string>, position: Option<int>)
    | ConstraintViolation(constraintName: string, tableName: Option<string>)
    | UniqueViolation(field: string, value: Json, tableName: Option<string>)
    | ForeignKeyViolation(foreignKey: string, referencedTable: Option<string>)
    | NotNullViolation(field: string, tableName: Option<string>)
    | TransactionFailed(reason: Option<string>)
    | DeadlockDetected(tableName: Option<string>)
    | MigrationFailed(migrationName: string, reason: Option<string>)
    | SchemaError(schemaName: Option<string>, reason: Option<string>)
    | AccessDenied(operation: string, resource: Option<string>)
    | DataIntegrityError(description: string, tableName: Option<string>)
    | PoolExhausted(maxConnections: Option<int>, currentConnections: Option<int>)
    | BackupFailed(backupName: Option<string>, reason: Option<string>)
    | RestoreFailed(backupName: Option<string>, reason: Option<string>)
    | ReplicationLag(lagMs: int, threshold: Option<int>)
    | DiskSpaceExhausted(availableSpace: Option<string>, requiredSpace: Option<string>)
    | RecordNotFound(recordTable: string, identifier: Identifier)

  /** The factory's position in the class's list of factories. */
  function Kind(f: Factory): nat {
    match f
    case ConnectionFailed(_) => 0
    case ConnectionTimeout(_, _) => 1
    case QueryTimeout(_, _) => 2
    case SyntaxError(_, _) => 3
    case ConstraintViolation(_, _) => 4
    case UniqueViolation(_, _, _) => 5
    case ForeignKeyViolation(_, _) => 6
    case NotNullViolation(_, _) => 7
    case TransactionFailed(_) => 8
    case DeadlockDetected(_) => 9
    case MigrationFailed(_, _) => 10
    case SchemaError(_, _) => 11
    case AccessDenied(_, _) => 12
    case DataIntegrityError(_, _) => 13
    case PoolExhausted(_, _) => 14
    case BackupFailed(_, _) => 15
    case RestoreFailed(_, _) => 16
    case ReplicationLag(_, _) => 17
    case DiskSpaceExhausted(_, _) => 18
    case RecordNotFound(_, _) => 19
  }

  /** The position of the factory whose code is `c`, if any: the length and a
      character or two single out the one candidate, which must then match. */
  function KindOfCode(c: string): Option<nat> {
    if |c| == 17 && c[0] == 'C' then (if c == "CONNECTION_FAILED" then Some(0) else None)
    else if |c| == 18 && c[0] == 'C' then (if c == "CONNECTION_TIMEOUT" then Some(1) else None)
    else if |c| == 13 && c[0] == 'Q' then (if c == "QUERY_TIMEOUT" then Some(2) else None)
    else if |c| == 12 && c[1] == 'Y' then (if c == "SYNTAX_ERROR" then Some(3) else None)
    else if |c| == 20 && c[0] == 'C' then (if c == "CONSTRAINT_VIOLATION" then Some(4) else None)
    else if |c| == 16 && c[0] == 'U' then (if c == "UNIQUE_VIOLATION" then Some(5) else None)
    else if |c| == 21 then (if c == "FOREIGN_KEY_VIOLATION" then Some(6) else None)
    else if |c| == 18 && c[0] == 'N' then (if c == "NOT_NULL_VIOLATION" then Some(7) else None)
    else if |c| == 18 && c[0] == 'T' then (if c == "TRANSACTION_FAILED" then Some(8) else None)
    else if |c| == 17 && c[0] == 'D' then (if c == "DEADLOCK_DETECTED" then Some(9) else None)
    else if |c| == 16 && c[0] == 'M' then (if c == "MIGRATION_FAILED" then Some(10) else None)
    else if |c| == 12 && c[1] == 'C' then (if c == "SCHEMA_ERROR" then Some(11) else None)
    else if |c| == 13 && c[0] == 'A' then (if c == "ACCESS_DENIED" then Some(12) else None)
    else if |c| == 20 && c[1] == 'A' then (if c == "DATA_INTEGRITY_ERROR" then Some(13) else None)
    else if |c| == 14 && c[0] == 'P' then (if c == "POOL_EXHAUSTED" then Some(14) else None)
    else if |c| == 13 && c[0] == 'B' then (if c == "BACKUP_FAILED" then Some(15) else None)
    else if |c| == 14 && c[0] == 'R' then (if c == "RESTORE_FAILED" then Some(16) else None)
    else if |c| == 15 then (if c == "REPLICATION_LAG" then Some(17) else None)
    else if |c| == 20 && c[1] == 'I' then (if c == "DISK_SPACE_EXHAUSTED" then Some(18) else None)
    else if |c| == 16 && c[0] == 'R' then (if c == "RECORD_NOT_FOUND" then Some(19) else None)
    else None
  }

  /** The class default is no factory's code. */
  lemma DefaultCodeUnclaimed()
    ensures KindOfCode(DefaultCode(DatabaseError)).None?
  {
  }

  function Code(f: Factory): (c: string)
    ensures c != ""
    ensures KindOfCode(c) == Some(Kind(f))
  {
    match f
    case ConnectionFailed(_) => "CONNECTION_FAILED"
    case ConnectionTimeout(_, _) => "CONNECTION_TIMEOUT"
    case QueryTimeout(_, _) => "QUERY_TIMEOUT"
    case SyntaxError(_, _) => "SYNTAX_ERROR"
    case ConstraintViolation(_, _) => "CONSTRAINT_VIOLATION"
    case UniqueViolation(_, _, _) => "UNIQUE_VIOLATION"
    case ForeignKeyViolation(_, _) => "FOREIGN_KEY_VIOLATION"
    case NotNullViolation(_, _) => "NOT_NULL_VIOLATION"
    case TransactionFailed(_) => "TRANSACTION_FAILED"
    case DeadlockDetected(_) => "DEADLOCK_DETECTED"
    case MigrationFailed(_, _) => "MIGRATION_FAILED"
    case SchemaError(_, _) => "SCHEMA_ERROR"
    case AccessDenied(_, _) => "ACCESS_DENIED"
    case DataIntegrityError(_, _) => "DATA_INTEGRITY_ERROR"
    case PoolExhausted(_, _) => "POOL_EXHAUSTED"
    case BackupFailed(_, _) => "BACKUP_FAILED"
    case RestoreFailed(_, _) => "RESTORE_FAILED"
    case ReplicationLag(_, _) => "REPLICATION_LAG"
    case DiskSpaceExhausted(_, _) => "DISK_SPACE_EXHAUSTED"
    case RecordNotFound(_, _) => "RECORD_NOT_FOUND"
  }

  /** The message shape shared by `backupFailed` and `restoreFailed`:
      name and reason, name alone, or the reason (or a fallback) alone. */
  function NameReason(head: string, name: Option<string>, reason: Option<string>, fallback: string): string {
    if TextGiven(name) && TextGiven(reason) then head + name.value + " - " + reason.value
    else if TextGiven(name) then head + name.value
    else head + OrElse(reason, fallback)
  }

  /** The fallbacks used when a reason is missing. */
  const UnknownError := "Unknown error"
  const UnknownSchemaIssue := "Unknown schema issue"

  function SchemaErrorText(name: Option<string>, r: Option<string>): string {
    if TextGiven(name) && TextGiven(r) then "Schema error in " + name.value + ": " + r.value
    else if TextGiven(name) then "Schema error in " + name.value
    else "Schema error: " + OrElse(r, UnknownSchemaIssue)
  }

  function Message(f: Factory): (m: string)
    ensures m != ""
  {
    match f
    case ConnectionFailed(db) =>
      if TextGiven(db) then "Failed to connect to database: " + db.value else "Failed to connect to database"
    case ConnectionTimeout(_, t) =>
      if NumberGiven(t) then "Database connection timed out after " + IntToString(t.value) + "ms"
      else "Database connection timed out"
    case QueryTimeout(_, t) =>
      if NumberGiven(t) then "Query timed out after " + IntToString(t.value) + "ms" else "Query timed out"
    case SyntaxError(_, p) =>
      if NumberGiven(p) then "SQL syntax error at position " + IntToString(p.value) else "SQL syntax error"
    case ConstraintViolation(c, t) =>
      if TextGiven(t) then "Constraint violation: " + c + " on table " + t.value else "Constraint violation: " + c
    case UniqueViolation(field, _, t) =>
      if TextGiven(t) then "Unique constraint violation: " + field + " already exists in " + t.value
      else "Unique constraint violation: " + field + " already exists"
    case ForeignKeyViolation(k, t) =>
      if TextGiven(t) then "Foreign key violation: " + k + " references non-existent record in " + t.value
      else "Foreign key violation: " + k
    case NotNullViolation(field, t) =>
      if TextGiven(t) then "Not null constraint violation: " + field + " in table " + t.value
      else "Not null constraint violation: " + field
    case TransactionFailed(r) =>
      if TextGiven(r) then "Transaction failed: " + r.value else "Transaction failed"
    case DeadlockDetected(t) =>
      if TextGiven(t) then "Deadlock detected on table: " + t.value else "Deadlock detected"
    case MigrationFailed(name, r) =>
      if TextGiven(r) then "Migration failed: " + name + " - " + r.value else "Migration failed: " + name
    case SchemaError(name, r) => SchemaErrorText(name, r)
    case AccessDenied(op, res) =>
      if TextGiven(res) then "Access denied: Cannot " + op + " on " + res.value else "Access denied: Cannot " + op
    case DataIntegrityError(d, t) =>
      if TextGiven(t) then "Data integrity error in " + t.value + ": " + d else "Data integrity error: " + d
    case PoolExhausted(max, current) =>
      if NumberGiven(max) then "Connection pool exhausted: " + ShowNumber(current) + "/" + IntToString(max.value) + " connections in use"
      else "Connection pool exhausted"
    case BackupFailed(name, r) => NameReason("Backup failed: ", name, r, UnknownError)
    case RestoreFailed(name, r) => NameReason("Restore failed: ", name, r, UnknownError)
    case ReplicationLag(lag, th) =>
      if NumberGiven(th) then "Replication lag of " + IntToString(lag) + "ms exceeds threshold of " + IntToString(th.value) + "ms"
      else "Replication lag detected: " + IntToString(lag) + "ms"
    case DiskSpaceExhausted(a, r) =>
      if TextGiven(a) && TextGiven(r) then "Disk space exhausted: " + a.value + " available, " + r.value + " required"
      else "Disk space exhausted"
    case RecordNotFound(t, id) => "Record not found in " + t + " with identifier: " + ShowIdentifier(id)
  }

  /** `query?.substring(0, 200)`: absent stays absent; otherwise the first 200
      characters, or the whole query when it is shorter. */
  function Truncated(query: Option<string>): (j: Json)
    ensures query.None? <==> j == JUndefined
    ensures query.Some? ==> j.JStr? && |j.s| <= 200 && StartsWith(query.value, j.s)
    ensures query.Some? && |query.value| <= 200 ==> j == JStr(query.value)
  {
    if query.None? then JUndefined
    else if |query.value| <= 200 then JStr(query.value)
    else JStr(query.value[..200])
  }

  function Named(f: Factory): (c: Context)
    ensures |c| >= 1
  {
    match f
    case ConnectionFailed(db) => map["databaseName" := TextValue(db)]
    case ConnectionTimeout(db, t) => map["databaseName" := TextValue(db), "timeoutMs" := NumberValue(t)]
    case QueryTimeout(q, t) => map["query" := Truncated(q), "timeoutMs" := NumberValue(t)]
    case SyntaxError(q, p) => map["query" := Truncated(q), "position" := NumberValue(p)]
    case ConstraintViolation(c, t) => map["constraintName" := JStr(c), "tableName" := TextValue(t)]
    case UniqueViolation(field, v, t) => map["field" := JStr(field), "value" := v, "tableName" := TextValue(t)]
    case ForeignKeyViolation(k, t) => map["foreignKey" := JStr(k), "referencedTable" := TextValue(t)]
    case NotNullViolation(field, t) => map["field" := JStr(field), "tableName" := TextValue(t)]
    case TransactionFailed(r) => map["reason" := TextValue(r)]
    case DeadlockDetected(t) => map["tableName" := TextValue(t)]
    case MigrationFailed(name, r) => map["migrationName" := JStr(name), "reason" := TextValue(r)]
    case SchemaError(name, r) => map["schemaName" := TextValue(name), "reason" := TextValue(r)]
    case AccessDenied(op, res) => map["operation" := JStr(op), "resource" := TextValue(res)]
    case DataIntegrityError(d, t) => map["description" := JStr(d), "tableName" := TextValue(t)]
    case PoolExhausted(max, current) => map["maxConnections" := NumberValue(max), "currentConnections" := NumberValue(current)]
    case BackupFailed(name, r) => map["backupName" := TextValue(name), "reason" := TextValue(r)]
    case RestoreFailed(name, r) => map["backupName" := TextValue(name), "reason" := TextValue(r)]
    case ReplicationLag(lag, th) => map["lagMs" := JNum(lag), "threshold" := NumberValue(th)]
    case DiskSpaceExhausted(a, r) => map["availableSpace" := TextValue(a), "requiredSpace" := TextValue(r)]
    case RecordNotFound(t, id) => map["tableName" := JStr(t), "identifier" := IdentifierValue(id)]
  }

  /** A factory's error: status 500, its own code in place of the class default, and
      a context holding its arguments with the caller's keys winning. */
  function Make(f: Factory, context: Option<Context>): (e: AppError)
    ensures e.status == 500 && e.category == Database
    ensures e.code == Code(f) && e.code != DefaultCode(DatabaseError)
    ensures e.message == Message(f)
    ensures e.context == Spread(Named(f), context)
  {
    Raise(DatabaseError, Message(f), Code(f), Spread(Named(f), context))
  }

  /** A query timeout of zero or none gives the message without a number; a non-zero
      timeout is named in milliseconds. The query is stored at most 200 characters
      long, as a prefix of the original, unless the caller's context replaces it. */
  lemma QueryTimeoutFacts(query: Option<string>, timeoutMs: Option<int>, context: Option<Context>)
    ensures !NumberGiven(timeoutMs) ==> Message(QueryTimeout(query, timeoutMs)) == "Query timed out"
    ensures NumberGiven(timeoutMs) ==>
      Message(QueryTimeout(query, timeoutMs)) == "Query timed out after " + IntToString(timeoutMs.value) + "ms"
    ensures (context.None? || "query" !in context.value) && query.Some? ==>
      var stored := Make(QueryTimeout(query, timeoutMs), context).context["query"];
      stored.JStr? && |stored.s| <= 200 && StartsWith(query.value, stored.s)
  {
  }

  /** The same for syntax errors: the position is named only when non-zero, and the
      stored query never exceeds 200 characters. */
  lemma SyntaxErrorFacts(query: Option<string>, position: Option<int>)
    ensures !NumberGiven(position) ==> Message(SyntaxError(query, position)) == "SQL syntax error"
    ensures query.Some? ==>
      var stored := Make(SyntaxError(query, position), None).context["query"];
      stored.JStr? && |stored.s| <= 200 && StartsWith(query.value, stored.s)
  {
  }

  /** `schemaError` picks one of three texts: schema and reason, schema alone, or the
      reason (`Unknown schema issue` when absent) alone. */
  lemma SchemaErrorMessages(schemaName: Option<string>, reason: Option<string>)
    ensures var m := Message(SchemaError(schemaName, reason));
      && (TextGiven(schemaName) && TextGiven(reason) ==> m == "Schema error in " + schemaName.value + ": " + reason.value)
      && (TextGiven(schemaName) && !TextGiven(reason) ==> m == "Schema error in " + schemaName.value)
      && (!TextGiven(schemaName) && TextGiven(reason) ==> m == "Schema error: " + reason.value)
      && (!TextGiven(schemaName) && !TextGiven(reason) ==> m == "Schema error: " + UnknownSchemaIssue)
  {
    assert Message(SchemaError(schemaName, reason)) == SchemaErrorText(schemaName, reason);
  }

  /** `recordNotFound` names the table and the identifier, and records both in the
      context unless the caller overrides them. */
  lemma RecordNotFoundFacts(table: string, id: Identifier)
    ensures var e := Make(RecordNotFound(table, id), None);
      && e.code == "RECORD_NOT_FOUND" && e.status == 500
      && e.message == "Record not found in " + table + " with identifier: " + ShowIdentifier(id)
      && e.context == map["tableName" := JStr(table), "identifier" := IdentifierValue(id)]
  {
  }

  /** A failed backup or restore with neither a name nor a reason says `Unknown error`. */
  lemma BackupFallback(name: Option<string>, reason: Option<string>)
    requires !TextGiven(name) && !TextGiven(reason)
    ensures Message(BackupFailed(name, reason)) == "Backup failed: " + UnknownError
    ensures Message(RestoreFailed(name, reason)) == "Restore failed: " + UnknownError
  {
  }
}

=== FILE: error_handler.dfy ===
/** handleError: the application's last-resort error handler. A thrown application
    error is answered as it is; a schema-validation failure becomes a validation
    error; anything else becomes a 500 system error. */
module ErrorHandler {
  import opened Wrappers
  import opened Json
  import opened Text
  import opened Errors
  import opened ErrorLog

  /** One issue of a schema-validation failure; path segments are already text. */
  datatype ZodIssue = ZodIssue(path: seq<string>, code: string, message: string, received: Option<Json>)

  /** What can be thrown. */
  datatype Thrown =
    | AppErrorInstance(error: AppError)
      /** An `Error`; `zodClass` says whether it is a `ZodError` instance, and
          `issues` is its `issues` property, when it has one. */
    | ErrorInstance(zodClass: bool, name: string, message: string, stack: Option<string>, issues: Option<seq<ZodIssue>>)
      /** Any other non-null object; `text` is `String(ex)`. */
    | ObjectValue(objectName: Option<string>, issues: Option<seq<ZodIssue>>, text: string)
      /** A primitive, `null` or `undefined`: its `typeof` and `String(ex)`. */
    | OtherValue(typeName: string, text: string)

  /** `ex instanceof ZodError`, or an object whose `name` is `ZodError`. */
  predicate IsZod(ex: Thrown)
    ensures IsZod(ex) ==> ex.ErrorInstance? || ex.ObjectValue?
    ensures ex.ErrorInstance? && ex.zodClass ==> IsZod(ex)
  {
    (ex.ErrorInstance? && (ex.zodClass || ex.name == "ZodError"))
    || (ex.ObjectValue? && ex.objectName == Some("ZodError"))
  }

  /** The issue as a detail: the path joined with `.`, the code upper-cased, and the
      received value when the issue has one. */
  function IssueDetail(i: ZodIssue): (d: Detail)
    ensures d.field.Some? && d.code.Some? && d.message == i.message
    ensures i.path != [] && (forall k :: 0 <= k < |i.path| ==> !ContainsChar(i.path[k], '.')) ==>
      Split(d.field.value, '.') == i.path
    ensures |d.code.value| == |i.code|
    ensures i.received.None? ==> d.value == JUndefined
  {
    PathRoundTrip(i.path);
    Detail(Some(Join(i.path, ".")), Some(ToUpper(i.code)), i.message, if i.received.Some? then i.received.value else JUndefined)
  }

  /** A path whose segments hold no `.` comes back from its dotted form. */
  lemma PathRoundTrip(path: seq<string>)
    ensures path != [] && (forall k :: 0 <= k < |path| ==> !ContainsChar(path[k], '.')) ==>
      Split(Join(path, "."), '.') == path
  {
    if path != [] && (forall k :: 0 <= k < |path| ==> !ContainsChar(path[k], '.')) {
      SplitJoin(path, '.');
    }
  }

  function IssueJson(i: ZodIssue): Json {
    var base := map[
      "path" := JArr(seq(|i.path|, k requires 0 <= k < |i.path| => JStr(i.path[k]))),
      "code" := JStr(i.code),
      "message" := JStr(i.message)];
    JObj(if i.received.Some? then base["received" := i.received.value] else base)
  }

  /** The `originalError` record of an unexpected throw. */
  function OriginalError(ex: Thrown): (r: Json)
    requires !ex.AppErrorInstance?
    ensures r.JObj?
    ensures ex.ErrorInstance? ==>
      r.fields.Keys == {"name", "message", "stack"} && r.fields["name"] == JStr(ex.name) && r.fields["message"] == JStr(ex.message)
    ensures !ex.ErrorInstance? ==> r.fields.Keys == {"type", "value"} && r.fields["value"] == JStr(ex.text)
    ensures ex.ObjectValue? ==> r.fields["type"] == JStr("object")
  {
    match ex
    case ErrorInstance(_, name, message, stack, _) =>
      JObj(map["name" := JStr(name), "message" := JStr(message), "stack" := TextValue(stack)])
    case ObjectValue(_, _, text) => JObj(map["type" := JStr("object"), "value" := JStr(text)])
    case OtherValue(typeName, text) => JObj(map["type" := JStr(typeName), "value" := JStr(text)])
  }

  datatype Response = Response(status: int, body: map<string, Json>)

  /** An application error keeps a request id it already has and gets the fresh one
      otherwise; the response carries its status and its JSON. */
  method AnswerAppError(e: AppError, requestId: string, nodeEnv: string, timestamp: string, stack: Option<seq<string>>)
    returns (response: Response, reported: AppError)
    ensures reported == e.(requestId := reported.requestId)
    ensures reported.requestId == (if TextGiven(e.requestId) then e.requestId else Some(requestId))
    ensures response == Response(e.status, ToJson(reported, nodeEnv, timestamp, stack))
  {
    reported := e;
    if !TextGiven(reported.requestId) {
      reported := reported.(requestId := Some(requestId));
    }
    response := Response(reported.status, ToJson(reported, nodeEnv, timestamp, stack));
  }

  /** The issues as stored under `zodIssues`: one object per issue, in order, with the
      issue's code and message, and `received` exactly when the issue has one. */
  function IssuesJson(issues: seq<ZodIssue>): (r: Json)
    ensures r.JArr? && |r.items| == |issues|
    ensures forall k :: 0 <= k < |issues| ==>
      && r.items[k].JObj? && {"path", "code", "message"} <= r.items[k].fields.Keys
      && r.items[k].fields["code"] == JStr(issues[k].code) && r.items[k].fields["message"] == JStr(issues[k].message)
      && ("received" in r.items[k].fields <==> issues[k].received.Some?)
  {
    JArr(seq(|issues|, k requires 0 <= k < |issues| => IssueJson(issues[k])))
  }

  /** A schema-validation failure becomes a 400 validation error with one detail per
      issue, the fresh request id, and the issues under `zodIssues` in its context. */
  method AnswerValidationFailure(issues: seq<ZodIssue>, requestId: string, nodeEnv: string, timestamp: string, stack: Option<seq<string>>)
    returns (response: Response, reported: AppError)
    ensures response.status == 400 && reported.status == 400
    ensures reported.code == "VALIDATION_ERROR" && reported.cls == ValidationError
    ensures reported.message == "Request validation failed"
    ensures |reported.details| == |issues|
    ensures forall k :: 0 <= k < |issues| ==> reported.details[k] == IssueDetail(issues[k])
    ensures reported.requestId == Some(requestId)
    ensures reported.context == map["zodIssues" := IssuesJson(issues)]
    ensures response.body == ToJson(reported, nodeEnv, timestamp, stack)
  {
    var details := seq(|issues|, k requires 0 <= k < |issues| => IssueDetail(issues[k]));
    reported := NewValidationError("Request validation failed", details);
    reported := reported.(requestId := Some(requestId));
    reported := reported.(context := reported.context["zodIssues" := IssuesJson(issues)]);
    response := Response(reported.status, ToJson(reported, nodeEnv, timestamp, stack));
  }

  /** Anything else becomes a 500 `UNEXPECTED_ERROR` system error with the fresh
      request id and the original throw described in its context; in production the
      response drops `context` and the stack. */
  method AnswerUnexpected(ex: Thrown, requestId: string, nodeEnv: string, timestamp: string, stack: Option<seq<string>>)
    returns (response: Response, reported: AppError)
    requires !ex.AppErrorInstance?
    ensures response.status == 500 && reported.status == 500
    ensures reported.code == "UNEXPECTED_ERROR" && reported.cls == SystemError
    ensures reported.message == "An unexpected error occurred"
    ensures reported.requestId == Some(requestId)
    ensures reported.context == map["originalError" := OriginalError(ex)]
    ensures "code" in response.body && response.body["code"] == JStr("UNEXPECTED_ERROR")
    ensures "context" in response.body <==> nodeEnv == "development"
    ensures response == Response(reported.status, ToJson(reported, nodeEnv, timestamp, stack))
  {
    reported := Construct(SystemError, Some("An unexpected error occurred"),
      Options(Some("UNEXPECTED_ERROR"), None, Some(map["originalError" := OriginalError(ex)]), Some(requestId)));
    var body := ToJson(reported, nodeEnv, timestamp, stack);
    if nodeEnv == "production" {
      ProductionCleanupIsNoOp(reported, timestamp, stack);
      body := body - {"context", "stack"};
    }
    response := Response(reported.status, body);
  }

  /** What the handler does: answer, with the error as it stands after the handler's
      updates and the record it logged, or throw itself. */
  datatype Handled =
    | Answered(response: Response, reported: AppError, logged: (Channel, map<string, Json>))
      /** `zodError.issues.map` on a `ZodError`-named throw without `issues`: a
          `TypeError` escapes the handler and no response is built. */
    | IssuesMissing

  /** The handler. The fresh request id, the clock's timestamp and the stack trace are
      passed in. Every logged record carries the fresh request id, and only the
      unexpected case asks for the severe channel. */
  method HandleError(ex: Thrown, requestId: string, req: Request, nodeEnv: string, timestamp: string, stack: Option<seq<string>>)
    returns (h: Handled)
    ensures h.IssuesMissing? <==> !ex.AppErrorInstance? && IsZod(ex) && ex.issues.None?
    ensures h.Answered? ==>
      h.logged == LogError(h.reported, requestId, req, !ex.AppErrorInstance? && !IsZod(ex), nodeEnv, timestamp, stack)
    ensures h.Answered? ==> h.logged.1["requestId"] == JStr(requestId)
    ensures h.Answered? ==> h.response == Response(h.reported.status, ToJson(h.reported, nodeEnv, timestamp, stack))
    ensures ex.AppErrorInstance? ==> h.Answered? && h.reported == ex.error.(requestId := h.reported.requestId)
    ensures ex.AppErrorInstance? ==>
      h.Answered? && h.reported.requestId == (if TextGiven(ex.error.requestId) then ex.error.requestId else Some(requestId))
    ensures !ex.AppErrorInstance? && IsZod(ex) && ex.issues.Some? ==>
      && h.Answered?
      && h.reported.status == 400 && h.reported.code == "VALIDATION_ERROR" && h.reported.requestId == Some(requestId)
      && |h.reported.details| == |ex.issues.value|
      && (forall k :: 0 <= k < |ex.issues.value| ==> h.reported.details[k] == IssueDetail(ex.issues.value[k]))
      && h.reported.context == map["zodIssues" := IssuesJson(ex.issues.value)]
    ensures !ex.AppErrorInstance? && !IsZod(ex) ==>
      && h.Answered?
      && h.reported.status == 500 && h.reported.code == "UNEXPECTED_ERROR" && h.reported.requestId == Some(requestId)
      && h.reported.context == map["originalError" := OriginalError(ex)]
      && h.logged.0 == SevereChannel
  {
    var response, reported;
    if ex.AppErrorInstance? {
      response, reported := AnswerAppError(ex.error, requestId, nodeEnv, timestamp, stack);
      h := Answered(response, reported, LogError(reported, requestId, req, false, nodeEnv, timestamp, stack));
    } else if IsZod(ex) {
      if ex.issues.None? {
        return IssuesMissing;
      }
      response, reported := AnswerValidationFailure(ex.issues.value, requestId, nodeEnv, timestamp, stack);
      h := Answered(response, reported, LogError(reported, requestId, req, false, nodeEnv, timestamp, stack));
    } else {
      response, reported := AnswerUnexpected(ex, requestId, nodeEnv, timestamp, stack);
      h := Answered(response, reported, LogError(reported, requestId, req, true, nodeEnv, timestamp, stack));
    }
  }

  /** The production clean-up removes nothing: the JSON form holds `context` and the
      stack only in development. */
  lemma ProductionCleanupIsNoOp(e: AppError, timestamp: string, stack: Option<seq<string>>)
    ensures ToJson(e, "production", timestamp, stack) - {"context", "stack"} == ToJson(e, "production", timestamp, stack)
  {
    var body := ToJson(e, "production", timestamp, stack);
    assert "context" !in body && "stack" !in body;
  }

  /** A thrown application error that already has a request id answers with that id,
      while the log record carries the freshly generated one: the two differ whenever
      the fresh id is another string. */
  lemma KeptIdDiffersFromLoggedId(e: AppError, newId: string)
    requires TextGiven(e.requestId) && e.requestId.value != newId
    ensures var body := ToJson(e, "production", "", None);
      var log := LogError(e, newId, Request("GET", "/", map[]), false, "production", "", None);
      body["requestId"] != log.1["requestId"]
  {
  }
}

=== FILE: error_log.dfy ===
/** Request ids for error tracking, and the structured record an error is logged as. */
module ErrorLog {
  import opened Wrappers
  import opened Json
  import opened Text
  import opened Errors

  /** `s.slice(from, to)` with both bounds clamped to the string. */
  function Slice(s: string, from: nat, to: nat): (r: string)
    ensures |r| <= if to >= from then to - from else 0
  {
    var a := if from <= |s| then from else |s|;
    var b := if to <= |s| then to else |s|;
    if a <= b then s[a..b] else []
  }

  /** generateRequestId: `req_` and a UUID when the runtime offers one; otherwise `req_`,
      the clock in milliseconds, `_` and seven base-36 digits of a random number. The
      UUID, the clock and the random digits are passed in. */
  function GenerateRequestId(uuid: Option<string>, nowMs: int, random36: string): (id: string)
    ensures StartsWith(id, "req_")
    ensures uuid.Some? ==> id == "req_" + uuid.value
    ensures uuid.None? ==> |id| <= 4 + |IntToString(nowMs)| + 1 + 7
  {
    if uuid.Some? then "req_" + uuid.value
    else "req_" + IntToString(nowMs) + "_" + Slice(random36, 2, 9)
  }

  /** The request as the logger sees it; header names are lower-case. */
  datatype Request = Request(httpMethod: string, path: string, headers: map<string, string>)

  function Header(r: Request, name: string): Option<string> {
    if name in r.headers then Some(r.headers[name]) else None
  }

  /** `cf-connecting-ip || x-forwarded-for`. */
  function ClientIp(r: Request): (ip: Json)
    ensures TextGiven(Header(r, "cf-connecting-ip")) ==> ip == JStr(r.headers["cf-connecting-ip"])
    ensures !TextGiven(Header(r, "cf-connecting-ip")) ==> ip == TextValue(Header(r, "x-forwarded-for"))
  {
    var cf := Header(r, "cf-connecting-ip");
    if TextGiven(cf) then JStr(cf.value) else TextValue(Header(r, "x-forwarded-for"))
  }

  datatype Channel = SevereChannel | WarnChannel

  const LogKeys: set<string> :=
    {"requestId", "errorCode", "category", "status", "message", "details", "context", "timestamp", "request"}

  function StackLines(stack: Option<seq<string>>): Json {
    if stack.Some? then JArr(seq(|stack.value|, i requires 0 <= i < |stack.value| => JStr(stack.value[i]))) else JUndefined
  }

  /** logError: the record carries the request id it is given, the error's code as
      `errorCode`, and the request's method, path, user agent and client ip; the stack
      only in development. It goes to the severe channel when asked to or when the
      status is 500 or more, and to the warning channel otherwise. */
  function LogError(e: AppError, requestId: string, req: Request, severe: bool,
                    nodeEnv: string, timestamp: string, stack: Option<seq<string>>): (r: (Channel, map<string, Json>))
    ensures r.0 == SevereChannel <==> severe || e.status >= 500
    ensures r.1.Keys == LogKeys + (if nodeEnv == "development" then {"stack"} else {})
    ensures r.1["requestId"] == JStr(requestId) && r.1["errorCode"] == JStr(e.code)
    ensures r.1["status"] == JNum(e.status) && r.1["context"] == JObj(e.context)
    ensures r.1["request"].JObj? && "ip" in r.1["request"].fields && r.1["request"].fields["ip"] == ClientIp(req)
  {
    var request := map[
      "method" := JStr(req.httpMethod),
      "path" := JStr(req.path),
      "userAgent" := TextValue(Header(req, "user-agent")),
      "ip" := ClientIp(req)];
    var payload := map[
      "requestId" := JStr(requestId),
      "errorCode" := JStr(e.code),
      "category" := JStr(CategoryName(e.category)),
      "status" := JNum(e.status),
      "message" := JStr(e.message),
      "details" := JArr(DetailsJson(e.details)),
      "context" := JObj(e.context),
      "timestamp" := JStr(timestamp),
      "request" := JObj(request)];
    var channel := if severe || e.status >= 500 then SevereChannel else WarnChannel;
    if nodeEnv == "development" then (channel, payload["stack" := StackLines(stack)]) else (channel, payload)
  }

  /** Every error of the classes with status 500 or more (database, external service,
      system) is logged as severe, whatever the caller asks; the client-error classes
      are severe only when asked. */
  lemma ServerErrorsAreSevere(e: AppError, requestId: string, req: Request, severe: bool,
                              nodeEnv: string, timestamp: string, stack: Option<seq<string>>)
    requires e.status == StatusOf(e.cls)
    ensures e.cls.DatabaseError? || e.cls.ExternalServiceError? || e.cls.SystemError? ==>
      LogError(e, requestId, req, severe, nodeEnv, timestamp, stack).0 == SevereChannel
    ensures !(e.cls.DatabaseError? || e.cls.ExternalServiceError? || e.cls.SystemError?) ==>
      (LogError(e, requestId, req, severe, nodeEnv, timestamp, stack).0 == SevereChannel <==> severe)
  {
  }
}

=== FILE: errors.dfy ===
/** The application's error taxonomy: every error carries a code, an HTTP status, a
    category, a message, details, a context record and an optional request id. Each
    error class fixes its status and category; five of them let the caller replace the
    default code. */
module Errors {
  import opened Wrappers
  import opened Json
  import Text

  /** `ErrorCategory`. */
  datatype Category =
    | Validation
    | Authentication
    | Authorization
    | NotFound
    | BusinessLogic
    | ExternalService
    | Database
    | System

  /** The string value of each category member. */
  function CategoryName(c: Category): string {
    match c
    case Validation => "VALIDATION"
    case Authentication => "AUTHENTICATION"
    case Authorization => "AUTHORIZATION"
    case NotFound => "NOT_FOUND"
    case BusinessLogic => "BUSINESS_LOGIC"
    case ExternalService => "EXTERNAL_SERVICE"
    case Database => "DATABASE"
    case System => "SYSTEM"
  }

  const AllCategories: seq<Category> :=
    [Validation, Authentication, Authorization, NotFound, BusinessLogic, ExternalService, Database, System]

  /** The member whose string value is `s`, if any. */
  function CategoryFromName(s: string): Option<Category> {
    if s == "VALIDATION" then Some(Validation)
    else if s == "AUTHENTICATION" then Some(Authentication)
    else if s == "AUTHORIZATION" then Some(Authorization)
    else if s == "NOT_FOUND" then Some(NotFound)
    else if s == "BUSINESS_LOGIC" then Some(BusinessLogic)
    else if s == "EXTERNAL_SERVICE" then Some(ExternalService)
    else if s == "DATABASE" then Some(Database)
    else if s == "SYSTEM" then Some(System)
    else None
  }

  /** The category has exactly eight members, and each has its own string value:
      reading a member's value back gives the member. */
  lemma EightCategories(c: Category)
    ensures |AllCategories| == 8 && c in AllCategories
    ensures CategoryFromName(CategoryName(c)) == Some(c)
  {
    match c
    case Validation => assert AllCategories[0] == c;
    case Authentication => assert AllCategories[1] == c;
    case Authorization => assert AllCategories[2] == c;
    case NotFound => assert AllCategories[3] == c;
    case BusinessLogic => assert AllCategories[4] == c;
    case ExternalService => assert AllCategories[5] == c;
    case Database => assert AllCategories[6] == c;
    case System => assert AllCategories[7] == c;
  }

  lemma CategoryNamesDistinct(a: Category, b: Category)
    ensures CategoryName(a) == CategoryName(b) <==> a == b
  {
    EightCategories(a);
    EightCategories(b);
  }

  /** The concrete error classes. */
  datatype ErrorClass =
    | ValidationError
    | NotFoundError
    | BusinessLogicError
    | AuthenticationError
    | AuthorizationError
    | DatabaseError
    | ExternalServiceError
    | SystemError

  function StatusOf(cls: ErrorClass): int {
    match cls
    case ValidationError => 400
    case NotFoundError => 404
    case BusinessLogicError => 400
    case AuthenticationError => 401
    case AuthorizationError => 403
    case DatabaseError => 500
    case ExternalServiceError => 502
    case SystemError => 500
  }

  function CategoryOf(cls: ErrorClass): Category {
    match cls
    case ValidationError => Validation
    case NotFoundError => NotFound
    case BusinessLogicError => BusinessLogic
    case AuthenticationError => Authentication
    case AuthorizationError => Authorization
    case DatabaseError => Database
    case ExternalServiceError => ExternalService
    case SystemError => System
  }

  /** Each class has its own category. */
  lemma CategoryIdentifiesClass(a: ErrorClass, b: ErrorClass)
    ensures CategoryOf(a) == CategoryOf(b) <==> a == b
  {
  }

  /** The classes whose constructor takes `options.code`. */
  predicate Overridable(cls: ErrorClass) {
    cls.AuthenticationError? || cls.AuthorizationError? || cls.DatabaseError? || cls.ExternalServiceError? || cls.SystemError?
  }

  /** The code a class declares. */
  function DefaultCode(cls: ErrorClass): string
    requires Overridable(cls) || cls.ValidationError? || cls.NotFoundError?
  {
    match cls
    case ValidationError => "VALIDATION_ERROR"
    case NotFoundError => "RESOURCE_NOT_FOUND"
    case AuthenticationError => "AUTHENTICATION_ERROR"
    case AuthorizationError => "AUTHORIZATION_ERROR"
    case DatabaseError => "DATABASE_ERROR"
    case ExternalServiceError => "EXTERNAL_SERVICE_ERROR"
    case SystemError => "SYSTEM_ERROR"
  }

  /** The message a constructor uses when none is passed. */
  function DefaultMessage(cls: ErrorClass): string
    requires Overridable(cls)
  {
    match cls
    case AuthenticationError => "Authentication failed"
    case AuthorizationError => "Access denied"
    case DatabaseError => "Database error"
    case ExternalServiceError => "External service error"
    case SystemError => "System error"
  }

  // ---------------------------------------------------------------- values

  /** `ErrorDetail`; an absent `value` is `JUndefined`. */
  datatype Detail = Detail(field: Option<string>, code: Option<string>, message: string, value: Json)

  /** A context record. */
  type Context = map<string, Json>

  datatype AppError = AppError(
    cls: ErrorClass,
    code: string,
    status: int,
    category: Category,
    message: string,
    details: seq<Detail>,
    context: Context,
    requestId: Option<string>)

  /** The `options` bag of the overridable constructors (`cause` is not modelled). */
  datatype Options = Options(code: Option<string>, details: Option<seq<Detail>>, context: Option<Context>, requestId: Option<string>)

  const NoOptions := Options(None, None, None, None)

  /** A string argument that may be absent: truthy when present and non-empty. */
  predicate TextGiven(o: Option<string>) {
    o.Some? && o.value != ""
  }

  /** A number argument that may be absent: truthy when present and non-zero. */
  predicate NumberGiven(o: Option<int>) {
    o.Some? && o.value != 0
  }

  /** `${o}` for an optional string. */
  function ShowText(o: Option<string>): string {
    if o.Some? then o.value else "undefined"
  }

  /** `${o}` for an optional number. */
  function ShowNumber(o: Option<int>): string {
    if o.Some? then Text.IntToString(o.value) else "undefined"
  }

  /** An optional argument as a context value. */
  function TextValue(o: Option<string>): Json {
    if o.Some? then JStr(o.value) else JUndefined
  }

  function NumberValue(o: Option<int>): Json {
    if o.Some? then JNum(o.value) else JUndefined
  }

  /** `a || b` on two strings. */
  function OrElse(a: Option<string>, b: string): string {
    if TextGiven(a) then a.value else b
  }

  // ---------------------------------------------------------------- constructors

  /** `BaseError`'s constructor: details default to `[]`, context to `{}`, and the
      request id is kept as given. */
  function Base(cls: ErrorClass, code: string, message: string, details: Option<seq<Detail>>,
                context: Option<Context>, requestId: Option<string>): (e: AppError)
    ensures e.status == StatusOf(cls) && e.category == CategoryOf(cls) && e.cls == cls
    ensures e.details == (if details.Some? then details.value else [])
    ensures e.context == (if context.Some? then context.value else map[])
    ensures e.requestId == requestId
  {
    AppError(cls, code, StatusOf(cls), CategoryOf(cls), message, details.GetOr([]), context.GetOr(map[]), requestId)
  }

  /** The constructor of an overridable class: its default message when none is
      passed, its own code unless `options.code` is a non-empty string. */
  function Construct(cls: ErrorClass, message: Option<string>, opts: Options): (e: AppError)
    requires Overridable(cls)
    ensures e.cls == cls && e.status == StatusOf(cls) && e.category == CategoryOf(cls)
    ensures e.code == (if TextGiven(opts.code) then opts.code.value else DefaultCode(cls))
    ensures e.details == (if opts.details.Some? then opts.details.value else [])
    ensures e.context == (if opts.context.Some? then opts.context.value else map[])
    ensures e.message == (if message.Some? then message.value else DefaultMessage(cls))
    ensures e.requestId == opts.requestId
  {
    var e := Base(cls, DefaultCode(cls), message.GetOr(DefaultMessage(cls)), opts.details, opts.context, opts.requestId);
    if TextGiven(opts.code) then e.(code := opts.code.value) else e
  }

  /** `ValidationError`: one detail per field, in order, each copied. No context and
      no request id are passed. */
  function NewValidationError(message: string, fields: seq<Detail>): (e: AppError)
    ensures e.status == 400 && e.code == "VALIDATION_ERROR" && e.category == Validation
    ensures |e.details| == |fields| && forall i :: 0 <= i < |fields| ==> e.details[i] == fields[i]
    ensures e.context == map[] && e.requestId.None?
  {
    var copied := seq(|fields|, i requires 0 <= i < |fields| =>
      Detail(fields[i].field, fields[i].code, fields[i].message, fields[i].value));
    Base(ValidationError, DefaultCode(ValidationError), message, Some(copied), None, None)
  }

  /** `NotFoundError`: `<resource> not found`, with the resource and identifier as
      context and no details. */
  function NewNotFoundError(resource: string, identifier: string): (e: AppError)
    ensures e.status == 404 && e.code == "RESOURCE_NOT_FOUND" && e.category == NotFound
    ensures e.message == resource + " not found"
    ensures e.context == map["resource" := JStr(resource), "identifier" := JStr(identifier)]
    ensures e.details == []
  {
    Base(NotFoundError, DefaultCode(NotFoundError), resource + " not found", None,
         Some(map["resource" := JStr(resource), "identifier" := JStr(identifier)]), None)
  }

  /** `BusinessLogicError`: the code is the first argument, whatever it is. */
  function NewBusinessLogicError(code: string, message: string, context: Option<Context>): (e: AppError)
    ensures e.code == code && e.status == 400 && e.category == BusinessLogic
    ensures e.message == message
    ensures e.context == (if context.Some? then context.value else map[])
  {
    Base(BusinessLogicError, code, message, None, context, None)
  }

  /** `{ ...named, ...context }`: every key of either record, the caller's value
      winning on a key both have. */
  function Spread(named: Context, context: Option<Context>): (r: Context)
    ensures r.Keys == named.Keys + (if context.Some? then context.value.Keys else {})
    ensures context.Some? ==> forall k :: k in context.value ==> r[k] == context.value[k]
    ensures forall k :: k in named && (context.None? || k !in context.value) ==> r[k] == named[k]
  {
    if context.Some? then named + context.value else named
  }

  /** What every static factory does: construct with a fixed message, a non-empty
      code that replaces the class default, and the context it has built. */
  function Raise(cls: ErrorClass, message: string, code: string, context: Context): (e: AppError)
    requires Overridable(cls) && code != ""
    ensures e.cls == cls && e.status == StatusOf(cls) && e.category == CategoryOf(cls)
    ensures e.code == code && e.message == message && e.context == context
    ensures e.details == [] && e.requestId.None?
  {
    Construct(cls, Some(message), Options(Some(code), None, Some(context), None))
  }

  /** A constructor called with no message and no options: the class's default
      message and default code, empty details and context. */
  lemma BareConstruction(cls: ErrorClass)
    requires Overridable(cls)
    ensures var e := Construct(cls, None, NoOptions);
      e.message == DefaultMessage(cls) && e.code == DefaultCode(cls)
      && e.details == [] && e.context == map[] && e.requestId.None?
  {
  }

  // ---------------------------------------------------------------- toJSON

  function DetailJson(d: Detail): Json {
    JObj(map["field" := TextValue(d.field), "code" := TextValue(d.code), "message" := JStr(d.message), "value" := d.value])
  }

  function DetailsJson(ds: seq<Detail>): (r: seq<Json>)
    ensures |r| == |ds|
  {
    seq(|ds|, i requires 0 <= i < |ds| => DetailJson(ds[i]))
  }

  const PublicKeys: set<string> := {"code", "status", "category", "message", "details", "timestamp", "requestId"}

  /** `toJSON`: the seven public fields always; `context` and the stack lines only when
      `NODE_ENV` is `development`. The timestamp and stack are passed in, being taken
      from the clock and the runtime. */
  function ToJson(e: AppError, nodeEnv: string, timestamp: string, stack: Option<seq<string>>): (r: map<string, Json>)
    ensures r.Keys == PublicKeys + (if nodeEnv == "development" then {"context", "stack"} else {})
    ensures r["code"] == JStr(e.code) && r["status"] == JNum(e.status) && r["message"] == JStr(e.message)
    ensures r["category"] == JStr(CategoryName(e.category))
    ensures r["requestId"] == TextValue(e.requestId)
    ensures nodeEnv == "development" ==> r["context"] == JObj(e.context)
  {
    var pub := map[
      "code" := JStr(e.code),
      "status" := JNum(e.status),
      "category" := JStr(CategoryName(e.category)),
      "message" := JStr(e.message),
      "details" := JArr(DetailsJson(e.details)),
      "timestamp" := JStr(timestamp),
      "requestId" := TextValue(e.requestId)];
    if nodeEnv == "development" then
      var lines := if stack.Some? then JArr(seq(|stack.value|, i requires 0 <= i < |stack.value| => JStr(stack.value[i]))) else JUndefined;
      pub["context" := JObj(e.context)]["stack" := lines]
    else pub
  }
}

=== FILE: external_service_errors.dfy ===
/** `ExternalServiceError` (502) and its static factories. Each factory names the
    service, records its arguments in the context and spreads the caller's context
    over them. */
module ExternalServiceErrors {
  import opened Wrappers
  import opened Json
  import opened Text
  import opened Errors

  datatype Factory =
    | ServiceUnavailable(serviceName: string)
    | Timeout(serviceName: string, timeoutMs: Option<int>)
    | RateLimited(serviceName: string, retryAfter: Option<int>)
    | InvalidResponse(serviceName: string, expectedFormat: Option<string>)
    | AuthenticationFailed(serviceName: string)
    | ConfigurationError(serviceName: string, missingConfig: Option<string>)
    | NetworkError(serviceName: string, networkCode: Option<string>)
    | QuotaExceeded(serviceName: string, quotaType: Option<string>)
    | VersionMismatch(serviceName: string, expectedVersion: Option<string>, actualVersion: Option<string>)
    | MalformedRequest(serviceName: string, reason: Option<string>)
    | PartialFailure(serviceName: string, successCount: int, failureCount: int)
    | CircuitBreakerOpen(serviceName: string)
    | MaintenanceMode(serviceName: string, estimatedDuration: Option<string>)
    | WebhookDeliveryFailed(serviceName: string, webhookUrl: Option<string>, attempt: Option<int>)

  /** The factory's position in the class's list of factories. */
  function Kind(f: Factory): nat {
    match f
    case ServiceUnavailable(_) => 0
    case Timeout(_, _) => 1
    case RateLimited(_, _) => 2
    case InvalidResponse(_, _) => 3
    case AuthenticationFailed(_) => 4
    case ConfigurationError(_, _) => 5
    case NetworkError(_, _) => 6
    case QuotaExceeded(_, _) => 7
    case VersionMismatch(_, _, _) => 8
    case MalformedRequest(_, _) => 9
    case PartialFailure(_, _, _) => 10
    case CircuitBreakerOpen(_) => 11
    case MaintenanceMode(_, _) => 12
    case WebhookDeliveryFailed(_, _, _) => 13
  }

  /** The position of the factory whose code is `c`, if any: the length and a
      character or two single out the one candidate, which must then match. */
  function KindOfCode(c: string): Option<nat> {
    if |c| == 19 && c[8] == 'U' then (if c == "SERVICE_UNAVAILABLE" then Some(0) else None)
    else if |c| == 15 && c[0] == 'S' then (if c == "SERVICE_TIMEOUT" then Some(1) else None)
    else if |c| == 20 && c[8] == 'R' then (if c == "SERVICE_RATE_LIMITED" then Some(2) else None)
    else if |c| == 23 && c[0] == 'I' then (if c == "INVALID_RESPONSE_FORMAT" then Some(3) else None)
    else if |c| == 19 && c[8] == 'A' then (if c == "SERVICE_AUTH_FAILED" then Some(4) else None)
    else if |c| == 20 && c[8] == 'C' then (if c == "SERVICE_CONFIG_ERROR" then Some(5) else None)
    else if |c| == 13 then (if c == "NETWORK_ERROR" then Some(6) else None)
    else if |c| == 22 then (if c == "SERVICE_QUOTA_EXCEEDED" then Some(7) else None)
    else if |c| == 20 && c[0] == 'A' then (if c == "API_VERSION_MISMATCH" then Some(8) else None)
    else if |c| == 17 then (if c == "MALFORMED_REQUEST" then Some(9) else None)
    else if |c| == 15 && c[0] == 'P' then (if c == "PARTIAL_FAILURE" then Some(10) else None)
    else if |c| == 20 && c[0] == 'C' then (if c == "CIRCUIT_BREAKER_OPEN" then Some(11) else None)
    else if |c| == 19 && c[8] == 'M' then (if c == "SERVICE_MAINTENANCE" then Some(12) else None)
    else if |c| == 23 && c[0] == 'W' then (if c == "WEBHOOK_DELIVERY_FAILED" then Some(13) else None)
    else None
  }

  function Code(f: Factory): (c: string)
    ensures c != "" && c != DefaultCode(ExternalServiceError)
    ensures KindOfCode(c) == Some(Kind(f))
  {
    match f
    case ServiceUnavailable(_) => "SERVICE_UNAVAILABLE"
    case Timeout(_, _) => "SERVICE_TIMEOUT"
    case RateLimited(_, _) => "SERVICE_RATE_LIMITED"
    case InvalidResponse(_, _) => "INVALID_RESPONSE_FORMAT"
    case AuthenticationFailed(_) => "SERVICE_AUTH_FAILED"
    case ConfigurationError(_, _) => "SERVICE_CONFIG_ERROR"
    case NetworkError(_, _) => "NETWORK_ERROR"
    case QuotaExceeded(_, _) => "SERVICE_QUOTA_EXCEEDED"
    case VersionMismatch(_, _, _) => "API_VERSION_MISMATCH"
    case MalformedRequest(_, _) => "MALFORMED_REQUEST"
    case PartialFailure(_, _, _) => "PARTIAL_FAILURE"
    case CircuitBreakerOpen(_) => "CIRCUIT_BREAKER_OPEN"
    case MaintenanceMode(_, _) => "SERVICE_MAINTENANCE"
    case WebhookDeliveryFailed(_, _, _) => "WEBHOOK_DELIVERY_FAILED"
  }

  function Message(f: Factory): (m: string)
    ensures m != ""
  {
    match f
    case ServiceUnavailable(s) => s + " service is currently unavailable"
    case Timeout(s, t) =>
      if NumberGiven(t) then s + " request timed out after " + IntToString(t.value) + "ms" else s + " request timed out"
    case RateLimited(s, r) =>
      if NumberGiven(r) then s + " rate limit exceeded. Retry after " + IntToString(r.value) + " seconds"
      else s + " rate limit exceeded"
    case InvalidResponse(s, e) =>
      if TextGiven(e) then s + " returned invalid response format. Expected: " + e.value
      else s + " returned invalid response format"
    case AuthenticationFailed(s) => "Authentication failed with " + s
    case ConfigurationError(s, m) =>
      if TextGiven(m) then s + " configuration error: " + m.value + " is missing or invalid"
      else s + " configuration error"
    case NetworkError(s, c) =>
      if TextGiven(c) then "Network error connecting to " + s + ": " + c.value else "Network error connecting to " + s
    case QuotaExceeded(s, q) =>
      if TextGiven(q) then s + " " + q.value + " quota exceeded" else s + " quota exceeded"
    case VersionMismatch(s, e, a) =>
      if TextGiven(e) && TextGiven(a) then s + " API version mismatch. Expected: " + e.value + ", Got: " + a.value
      else s + " API version mismatch"
    case MalformedRequest(s, r) =>
      if TextGiven(r) then s + " rejected request: " + r.value else s + " rejected malformed request"
    case PartialFailure(s, ok, failed) =>
      s + " partial failure: " + IntToString(ok) + " succeeded, " + IntToString(failed) + " failed"
    case CircuitBreakerOpen(s) => s + " circuit breaker is open due to repeated failures"
    case MaintenanceMode(s, d) =>
      if TextGiven(d) then s + " is in maintenance mode. Estimated duration: " + d.value
      else s + " is in maintenance mode"
    case WebhookDeliveryFailed(s, url, attempt) =>
      if TextGiven(url) && NumberGiven(attempt) then
        "Failed to deliver webhook to " + s + " at " + url.value + " (attempt " + IntToString(attempt.value) + ")"
      else "Failed to deliver webhook to " + s
  }

  /** The factory's arguments under their parameter names, led by the service name. */
  function Named(f: Factory): (c: Context)
    ensures "serviceName" in c && c["serviceName"] == JStr(f.serviceName)
  {
    match f
    case ServiceUnavailable(s) => map["serviceName" := JStr(s)]
    case Timeout(s, t) => map["serviceName" := JStr(s), "timeoutMs" := NumberValue(t)]
    case RateLimited(s, r) => map["serviceName" := JStr(s), "retryAfter" := NumberValue(r)]
    case InvalidResponse(s, e) => map["serviceName" := JStr(s), "expectedFormat" := TextValue(e)]
    case AuthenticationFailed(s) => map["serviceName" := JStr(s)]
    case ConfigurationError(s, m) => map["serviceName" := JStr(s), "missingConfig" := TextValue(m)]
    case NetworkError(s, c) => map["serviceName" := JStr(s), "networkCode" := TextValue(c)]
    case QuotaExceeded(s, q) => map["serviceName" := JStr(s), "quotaType" := TextValue(q)]
    case VersionMismatch(s, e, a) =>
      map["serviceName" := JStr(s), "expectedVersion" := TextValue(e), "actualVersion" := TextValue(a)]
    case MalformedRequest(s, r) => map["serviceName" := JStr(s), "reason" := TextValue(r)]
    case PartialFailure(s, ok, failed) =>
      map["serviceName" := JStr(s), "successCount" := JNum(ok), "failureCount" := JNum(failed)]
    case CircuitBreakerOpen(s) => map["serviceName" := JStr(s)]
    case MaintenanceMode(s, d) => map["serviceName" := JStr(s), "estimatedDuration" := TextValue(d)]
    case WebhookDeliveryFailed(s, url, attempt) =>
      map["serviceName" := JStr(s), "webhookUrl" := TextValue(url), "attempt" := NumberValue(attempt)]
  }

  /** A factory's error: status 502, its own code in place of the class default, and
      a context holding the service name and the other arguments, with the caller's
      keys winning. */
  function Make(f: Factory, context: Option<Context>): (e: AppError)
    ensures e.status == 502 && e.category == ExternalService
    ensures e.code == Code(f) && e.code != DefaultCode(ExternalServiceError)
    ensures e.message == Message(f)
    ensures e.context == Spread(Named(f), context)
    ensures (context.None? || "serviceName" !in context.value) ==> e.context["serviceName"] == JStr(f.serviceName)
  {
    Raise(ExternalServiceError, Message(f), Code(f), Spread(Named(f), context))
  }

  /** `serviceUnavailable` leads with the service name. */
  lemma ServiceUnavailableMessage(serviceName: string)
    ensures StartsWith(Message(ServiceUnavailable(serviceName)), serviceName)
    ensures Message(ServiceUnavailable(serviceName)) == serviceName + " service is currently unavailable"
  {
    assert (serviceName + " service is currently unavailable")[..|serviceName|] == serviceName;
  }

  /** `versionMismatch` gives the detailed text exactly when both versions are given;
      otherwise the short one. */
  lemma VersionMismatchDetailed(s: string, expected: Option<string>, actual: Option<string>)
    ensures Message(VersionMismatch(s, expected, actual)) != s + " API version mismatch"
      <==> TextGiven(expected) && TextGiven(actual)
  {
  }

  /** `webhookDeliveryFailed` names the URL and attempt exactly when both are given
      (a non-empty URL and a non-zero attempt). */
  lemma WebhookDetailed(s: string, url: Option<string>, attempt: Option<int>)
    ensures Message(WebhookDeliveryFailed(s, url, attempt)) != "Failed to deliver webhook to " + s
      <==> TextGiven(url) && NumberGiven(attempt)
  {
  }

  /** `partialFailure` states both counts, the succeeded one first: the message
      leads with the service name, and each count reads back from its place in the
      text. */
  lemma PartialFailureCounts(s: string, ok: int, failed: int)
    ensures StartsWith(Message(PartialFailure(s, ok, failed)), s + " partial failure: ")
    ensures ParseIntPrefix(Message(PartialFailure(s, ok, failed))[|s + " partial failure: "|..])
      == (true, ok, |IntToString(ok)|)
    ensures |s + " partial failure: "| + |IntToString(ok)| + |" succeeded, "| <= |Message(PartialFailure(s, ok, failed))|
    ensures ParseIntPrefix(Message(PartialFailure(s, ok, failed))[|s + " partial failure: "| + |IntToString(ok)| + |" succeeded, "|..])
      == (true, failed, |IntToString(failed)|)
  {
    PartialFailureText(s, ok, failed);
    TwoNumbersReadBack(Message(PartialFailure(s, ok, failed)), s + " partial failure: ", ok, " succeeded, ", failed, " failed");
  }

  lemma PartialFailureText(s: string, ok: int, failed: int)
    ensures Message(PartialFailure(s, ok, failed))
      == s + " partial failure: " + IntToString(ok) + " succeeded, " + IntToString(failed) + " failed"
  {
  }

  /** `partialFailure` records both counts in the context. */
  lemma PartialFailureContext(s: string, ok: int, failed: int)
    ensures var c := Make(PartialFailure(s, ok, failed), None).context;
      c["successCount"] == JNum(ok) && c["failureCount"] == JNum(failed)
  {
  }
}

=== FILE: json.dfy ===
/** JavaScript values as they appear in configuration files and error payloads:
    `undefined`, `null`, booleans, integral numbers, strings, arrays and plain objects.
    Object key order is not represented. */
module Json {

  datatype Json =
    | JUndefined
    | JNull
    | JBool(b: bool)
    | JNum(n: int)
    | JStr(s: string)
    | JArr(items: seq<Json>)
    | JObj(fields: map<string, Json>)

  /** `typeof v === 'object'`: true of null, arrays and plain objects. */
  predicate IsObjectTyped(j: Json) {
    j.JNull? || j.JArr? || j.JObj?
  }

  /** `obj[key]` on a plain object: a missing key reads as `undefined`. */
  function Lookup(m: map<string, Json>, key: string): (v: Json)
    ensures key !in m ==> v == JUndefined
  {
    if key in m then m[key] else JUndefined
  }

  /** No `undefined` anywhere inside: what a value read from a JSON text looks like. */
  predicate Clean(j: Json) {
    match j
    case JUndefined => false
    case JArr(items) => forall i :: 0 <= i < |items| ==> Clean(items[i])
    case JObj(fields) => forall k :: k in fields ==> Clean(fields[k])
    case _ => true
  }

  /** `JSON.parse(JSON.stringify(j))` for a value that is not `undefined` at the top:
      object members holding `undefined` are dropped and array slots holding
      `undefined` become `null`. */
  function Copy(j: Json): (r: Json)
    requires !j.JUndefined?
    ensures Clean(r)
  {
    match j
    case JArr(items) => JArr(CopyItems(items, j))
    case JObj(fields) =>
      JObj(map k | k in fields && !fields[k].JUndefined? :: Copy(fields[k]))
    case _ => j
  }

  /** The array part of `Copy`, slot by slot. */
  function CopyItems(items: seq<Json>, ghost parent: Json): (r: seq<Json>)
    requires parent.JArr? && forall i :: 0 <= i < |items| ==> items[i] < parent
    ensures |r| == |items|
    ensures forall i :: 0 <= i < |r| ==> Clean(r[i])
    ensures forall i :: 0 <= i < |r| ==> r[i] == if items[i].JUndefined? then JNull else Copy(items[i])
    decreases parent, |items|
  {
    if items == [] then []
    else
      [if items[0].JUndefined? then JNull else Copy(items[0])] + CopyItems(items[1..], parent)
  }

  /** Copying a value that is already clean gives the same value back. */
  lemma {:induction false} CopyOfClean(j: Json)
    requires Clean(j)
    ensures Copy(j) == j
  {
    match j
    case JArr(items) =>
      forall i | 0 <= i < |items| ensures Copy(j).items[i] == items[i] {
        CopyOfClean(items[i]);
      }
    case JObj(fields) =>
      forall k | k in fields ensures Copy(fields[k]) == fields[k] {
        CopyOfClean(fields[k]);
      }
      assert Copy(j).fields == fields;
    case _ =>
  }

  /** The JSON round trip is idempotent. */
  lemma CopyIdempotent(j: Json)
    requires !j.JUndefined?
    ensures Copy(Copy(j)) == Copy(j)
  {
    CopyOfClean(Copy(j));
  }
}

=== FILE: query.dfy ===
/** What the repository engine's read queries select: the soft-delete visibility
    rule, the list filter ("array means membership, scalar means equality, unknown
    key is ignored"), the sort order, and the page a `[start, end]` range cuts out. */
module Query {
  import opened Wrappers
  import opened Values
  import opened Schema
  import opened Store

  // ---------------------------------------------------------------- visibility and filters

  /** A default read of a table with `deletedAt` hides rows whose `deletedAt` is set. */
  predicate Visible(schema: TableSchema, includeDeleted: bool, row: Row) {
    !(HasColumn(schema, "deletedAt") && !includeDeleted) || SqlIsNull(Get(row, "deletedAt"))
  }

  /** A filter value: an array asks for membership, anything else for equality. */
  datatype FilterValue = FScalar(v: Value) | FArray(vs: seq<Value>)

  type Conditions = map<string, FilterValue>

  /** The entry adds a condition only when its key is a column and its value is not
      `undefined`. */
  predicate Active(schema: TableSchema, key: string, fv: FilterValue) {
    HasColumn(schema, key) && fv != FScalar(VUndefined)
  }

  predicate EntryHolds(fv: FilterValue, stored: Value) {
    match fv
    case FScalar(v) => SqlEq(stored, Bind(v))
    case FArray(vs) => exists i :: 0 <= i < |vs| && SqlEq(stored, Bind(vs[i]))
  }

  predicate MatchesFilter(schema: TableSchema, filter: Conditions, row: Row) {
    forall key :: key in filter && Active(schema, key, filter[key]) ==> EntryHolds(filter[key], Get(row, key))
  }

  /** The WHERE clause of getList, getListWithRelations and getCount. */
  predicate Selected(schema: TableSchema, filter: Conditions, includeDeleted: bool, row: Row) {
    Visible(schema, includeDeleted, row) && MatchesFilter(schema, filter, row)
  }

  function SelectedRows(schema: TableSchema, filter: Conditions, includeDeleted: bool, rows: seq<Row>): (r: seq<Row>)
    ensures forall x :: x in r <==> x in rows && Selected(schema, filter, includeDeleted, x)
  {
    Filter(rows, x => Selected(schema, filter, includeDeleted, x))
  }

  /** An entry whose key is not a column, or whose value is `undefined`, changes
      nothing about which rows match. */
  lemma InactiveEntryIgnored(schema: TableSchema, filter: Conditions, key: string, fv: FilterValue, row: Row)
    requires !Active(schema, key, fv)
    ensures MatchesFilter(schema, filter[key := fv], row) <==> MatchesFilter(schema, filter - {key}, row)
  {
    var f1 := filter[key := fv];
    var f2 := filter - {key};
    if MatchesFilter(schema, f2, row) {
      forall k | k in f1 && Active(schema, k, f1[k]) ensures EntryHolds(f1[k], Get(row, k)) {
        assert k != key && k in f2 && f1[k] == f2[k];
      }
    }
    if MatchesFilter(schema, f1, row) {
      forall k | k in f2 && Active(schema, k, f2[k]) ensures EntryHolds(f2[k], Get(row, k)) {
        assert k in f1 && f1[k] == f2[k];
      }
    }
  }

  /** One active entry: an array value asks for membership and a scalar value for
      equality, and a NULL column value satisfies neither. */
  lemma SingleEntryMeaning(schema: TableSchema, key: string, fv: FilterValue, row: Row)
    requires Active(schema, key, fv)
    ensures fv.FScalar? ==>
      (MatchesFilter(schema, map[key := fv], row) <==> !IsNullish(Get(row, key)) && Get(row, key) == Bind(fv.v) && !IsNullish(Bind(fv.v)))
    ensures fv.FArray? ==>
      (MatchesFilter(schema, map[key := fv], row) <==> exists i :: 0 <= i < |fv.vs| && SqlEq(Get(row, key), Bind(fv.vs[i])))
    ensures IsNullish(Get(row, key)) ==> !MatchesFilter(schema, map[key := fv], row)
  {
    assert key in map[key := fv];
  }

  // ---------------------------------------------------------------- order

  /** `orderBy`: none, or one column ascending or descending. */
  datatype Order = NoOrder | By(key: string, asc: bool)

  /** The `sort` argument: `[field, direction]`. */
  datatype Sort = Sort(field: string, direction: string)

  /** getList's and getListWithRelations' order: the requested column (ascending only
      for exactly 'ASC'), else `id` descending when the table has one. A requested
      field that is not a column gives no order. */
  function ListOrder(schema: TableSchema, sort: Option<Sort>): (o: Order)
    ensures sort.None? && HasColumn(schema, "id") ==> o == By("id", false)
    ensures sort.Some? && HasColumn(schema, sort.value.field) ==>
      o == By(sort.value.field, sort.value.direction == "ASC")
    ensures o.By? ==> HasColumn(schema, o.key)
  {
    match sort
    case Some(s) => if HasColumn(schema, s.field) then By(s.field, s.direction == "ASC") else NoOrder
    case None => if HasColumn(schema, "id") then By("id", false) else NoOrder
  }

  predicate InOrder(o: Order, a: Row, b: Row) {
    match o
    case NoOrder => true
    case By(k, asc) => if asc then Le(Get(a, k), Get(b, k)) else Le(Get(b, k), Get(a, k))
  }

  predicate Sorted(o: Order, s: seq<Row>) {
    forall i, j :: 0 <= i < j < |s| ==> InOrder(o, s[i], s[j])
  }

  lemma InOrderTotal(o: Order, a: Row, b: Row)
    ensures InOrder(o, a, b) || InOrder(o, b, a)
  {
    if o.By? { LeTotal(Get(a, o.key), Get(b, o.key)); }
  }

  lemma InOrderTrans(o: Order, a: Row, b: Row, c: Row)
    requires InOrder(o, a, b) && InOrder(o, b, c)
    ensures InOrder(o, a, c)
  {
    if o.By? {
      if o.asc { LeTrans(Get(a, o.key), Get(b, o.key), Get(c, o.key)); }
      else { LeTrans(Get(c, o.key), Get(b, o.key), Get(a, o.key)); }
    }
  }

  /** Puts `x` before the first row it may precede; rows that tie keep `x` first. */
  function InsertSorted(o: Order, x: Row, s: seq<Row>): (r: seq<Row>)
    ensures |r| == |s| + 1
    ensures multiset(r) == multiset(s) + multiset{x}
  {
    if s == [] || InOrder(o, x, s[0]) then [x] + s
    else
      assert s == [s[0]] + s[1..];
      [s[0]] + InsertSorted(o, x, s[1..])
  }

  /** A stable sort of the selected rows, which keep table order among ties. */
  function SortRows(o: Order, rows: seq<Row>): (r: seq<Row>)
    ensures |r| == |rows|
  {
    if rows == [] then [] else InsertSorted(o, rows[0], SortRows(o, rows[1..]))
  }

  lemma {:induction false} InsertSortedKeepsOrder(o: Order, x: Row, s: seq<Row>)
    requires Sorted(o, s)
    ensures Sorted(o, InsertSorted(o, x, s))
  {
    if s == [] || InOrder(o, x, s[0]) {
      if s != [] {
        SortedSplit(o, s);
        forall y | y in s ensures InOrder(o, x, y) {
          if y != s[0] { InOrderTrans(o, x, s[0], y); }
        }
      }
      SortedCons(o, x, s);
    } else {
      InOrderTotal(o, x, s[0]);
      SortedSplit(o, s);
      var tail := s[1..];
      InsertSortedKeepsOrder(o, x, tail);
      var rest := InsertSorted(o, x, tail);
      forall y | y in rest ensures InOrder(o, s[0], y) {
        assert y in multiset(rest);
        assert y in multiset(tail) + multiset{x};
      }
      SortedCons(o, s[0], rest);
    }
  }

  /** A sorted non-empty sequence: its head precedes every later row, and its tail is sorted. */
  lemma SortedSplit(o: Order, s: seq<Row>)
    requires Sorted(o, s) && s != []
    ensures Sorted(o, s[1..])
    ensures forall y :: y in s[1..] ==> InOrder(o, s[0], y)
    ensures s == [s[0]] + s[1..]
  {
    forall i, j | 0 <= i < j < |s| - 1 ensures InOrder(o, s[1..][i], s[1..][j]) {
      assert s[1..][i] == s[i + 1] && s[1..][j] == s[j + 1];
    }
    forall y | y in s[1..] ensures InOrder(o, s[0], y) {
      var m :| 0 <= m < |s| - 1 && s[1..][m] == y;
      assert s[m + 1] == y;
    }
  }

  /** A row that precedes every row of a sorted sequence can go in front of it. */
  lemma SortedCons(o: Order, h: Row, s: seq<Row>)
    requires Sorted(o, s) && forall y :: y in s ==> InOrder(o, h, y)
    ensures Sorted(o, [h] + s)
  {
    var r := [h] + s;
    forall i, j | 0 <= i < j < |r| ensures InOrder(o, r[i], r[j]) {
      assert r[j] == s[j - 1];
      if i > 0 { assert r[i] == s[i - 1]; }
    }
  }

  /** The sort returns the same rows, in order. */
  lemma {:induction false} SortRowsCorrect(o: Order, rows: seq<Row>)
    ensures Sorted(o, SortRows(o, rows))
    ensures multiset(SortRows(o, rows)) == multiset(rows)
  {
    if rows != [] {
      var tail := SortRows(o, rows[1..]);
      SortRowsCorrect(o, rows[1..]);
      InsertSortedKeepsOrder(o, rows[0], tail);
      assert SortRows(o, rows) == InsertSorted(o, rows[0], tail);
      assert rows == [rows[0]] + rows[1..];
      assert multiset(rows) == multiset(rows[1..]) + multiset{rows[0]};
    }
  }

  // ---------------------------------------------------------------- range

  /** The `range` argument `[start, end]`. */
  datatype Range = Range(start: int, end: int)

  /** `limit: range[1] - range[0] + 1`. */
  function Limit(r: Range): int {
    r.end - r.start + 1
  }

  /** `offset: range[0]`. */
  function Offset(r: Range): int {
    r.start
  }

  /** SQLite's LIMIT/OFFSET: a negative limit means no limit and a negative offset
      counts as zero. No range means every row. */
  function Page<T>(rows: seq<T>, range: Option<Range>): (r: seq<T>)
    ensures range.None? ==> r == rows
  {
    if range.None? then rows
    else
      var off := if Offset(range.value) < 0 then 0 else Offset(range.value);
      var from := if off < |rows| then off else |rows|;
      var lim := Limit(range.value);
      if lim < 0 || from + lim > |rows| then rows[from..] else rows[from..from + lim]
  }

  /** A range `[s, e]` with `0 <= s` gives the rows at positions `s` to `e` of the
      ordered selection, as far as they exist. */
  lemma PageOfRange(rows: seq<Row>, s: int, e: int)
    requires 0 <= s <= e + 1
    ensures var p := Page(rows, Some(Range(s, e)));
      |p| == (if s >= |rows| then 0 else if e + 1 <= |rows| then e - s + 1 else |rows| - s)
      && forall i :: 0 <= i < |p| ==> p[i] == rows[s + i]
  {
  }

  /** The default range `[0, 9]` asks for the first ten rows. */
  lemma DefaultRangeIsFirstTen(rows: seq<Row>)
    ensures Limit(Range(0, 9)) == 10 && Offset(Range(0, 9)) == 0
    ensures Page(rows, Some(Range(0, 9))) == if |rows| <= 10 then rows else rows[..10]
  {
  }

  lemma {:induction false} PageIsSlice<T>(rows: seq<T>, range: Option<Range>)
    ensures exists a, b :: 0 <= a <= b <= |rows| && Page(rows, range) == rows[a..b]
  {
    if range.None? {
      assert Page(rows, range) == rows[0..|rows|];
    } else {
      var off := if Offset(range.value) < 0 then 0 else Offset(range.value);
      var from := if off < |rows| then off else |rows|;
      var lim := Limit(range.value);
      if lim < 0 || from + lim > |rows| {
        assert Page(rows, range) == rows[from..|rows|];
      } else {
        assert Page(rows, range) == rows[from..from + lim];
      }
    }
  }

  // ---------------------------------------------------------------- getList and getCount

  /** getList: the selected rows, ordered, then paged. Only selected table rows come
      back, in list order, and never more than are selected. */
  function ListSpec(schema: TableSchema, rows: seq<Row>, range: Option<Range>, sort: Option<Sort>,
                    filter: Conditions, includeDeleted: bool): (r: seq<Row>)
    ensures forall x :: x in r ==> x in rows && Selected(schema, filter, includeDeleted, x)
    ensures Sorted(ListOrder(schema, sort), r)
    ensures |r| <= |SelectedRows(schema, filter, includeDeleted, rows)|
  {
    var o := ListOrder(schema, sort);
    var sel := SelectedRows(schema, filter, includeDeleted, rows);
    PagedSortedSelection(o, sel, range);
    Page(SortRows(o, sel), range)
  }

  /** Which selected rows getList returns: every one of them without a range, at most
      the limit, and for a range `[s, e]` with `0 <= s <= e + 1` the rows at positions
      `s` to `e` of the ordered selection, as far as they exist. */
  lemma ListPositions(schema: TableSchema, rows: seq<Row>, range: Option<Range>, sort: Option<Sort>,
                      filter: Conditions, includeDeleted: bool)
    ensures var r := ListSpec(schema, rows, range, sort, filter, includeDeleted);
      range.None? ==> multiset(r) == multiset(SelectedRows(schema, filter, includeDeleted, rows))
    ensures var r := ListSpec(schema, rows, range, sort, filter, includeDeleted);
      range.Some? && Limit(range.value) >= 0 ==> |r| <= Limit(range.value)
    ensures var r := ListSpec(schema, rows, range, sort, filter, includeDeleted);
      var sorted := SortRows(ListOrder(schema, sort), SelectedRows(schema, filter, includeDeleted, rows));
      var n := |SelectedRows(schema, filter, includeDeleted, rows)|;
      range.Some? && 0 <= range.value.start <= range.value.end + 1 ==>
        var s := range.value.start;
        && |r| == (if s >= n then 0 else if range.value.end + 1 <= n then range.value.end - s + 1 else n - s)
        && forall i :: 0 <= i < |r| ==> r[i] == sorted[s + i]
  {
    var o, sel := ListOrder(schema, sort), SelectedRows(schema, filter, includeDeleted, rows);
    PagedSortedPositions(o, sel, range);
    if range.Some? && 0 <= range.value.start <= range.value.end + 1 {
      PagedSortedRange(o, sel, range.value.start, range.value.end);
    }
  }

  /** A page of the sorted selection holds only selected rows, in order. */
  lemma PagedSortedSelection(o: Order, sel: seq<Row>, range: Option<Range>)
    ensures forall x :: x in Page(SortRows(o, sel), range) ==> x in sel
    ensures Sorted(o, Page(SortRows(o, sel), range))
    ensures |Page(SortRows(o, sel), range)| <= |sel|
  {
    var sorted := SortRows(o, sel);
    SortRowsCorrect(o, sel);
    PageKeeps(sorted, range);
    PageKeepsOrder(o, sorted, range);
    PageIsSlice(sorted, range);
    forall x | x in Page(sorted, range) ensures x in sel {
      assert x in multiset(sel);
    }
  }

  /** A page of the sorted selection is all of it without a range, and at most the
      limit with one. */
  lemma PagedSortedPositions(o: Order, sel: seq<Row>, range: Option<Range>)
    ensures range.None? ==> multiset(Page(SortRows(o, sel), range)) == multiset(sel)
    ensures range.Some? && Limit(range.value) >= 0 ==> |Page(SortRows(o, sel), range)| <= Limit(range.value)
  {
    if range.None? {
      SortRowsCorrect(o, sel);
    } else {
      PageWithinLimit(SortRows(o, sel), range);
    }
  }

  /** A range `[s, e]` with `0 <= s <= e + 1` takes the sort's positions `s` to `e`,
      as far as they exist. */
  lemma PagedSortedRange(o: Order, sel: seq<Row>, s: int, e: int)
    requires 0 <= s <= e + 1
    ensures var p := Page(SortRows(o, sel), Some(Range(s, e)));
      && |p| == (if s >= |sel| then 0 else if e + 1 <= |sel| then e - s + 1 else |sel| - s)
      && forall i :: 0 <= i < |p| ==> p[i] == SortRows(o, sel)[s + i]
  {
    PageOfRange(SortRows(o, sel), s, e);
  }

  /** getCount: `count(id)` over the selected rows, which skips NULL ids, or `count(*)`
      for a table without `id`. It never exceeds the selection, and only rows with a
      NULL id go uncounted. */
  function CountSpec(schema: TableSchema, rows: seq<Row>, filter: Conditions, includeDeleted: bool): (r: nat)
    ensures r <= |SelectedRows(schema, filter, includeDeleted, rows)|
    ensures !HasColumn(schema, "id") ==> r == |SelectedRows(schema, filter, includeDeleted, rows)|
    ensures (forall x :: x in rows ==> !IsNullish(Get(x, "id"))) ==> r == |SelectedRows(schema, filter, includeDeleted, rows)|
  {
    var sel := SelectedRows(schema, filter, includeDeleted, rows);
    var withId := Filter(sel, x => !IsNullish(Get(x, "id")));
    assert (forall x :: x in rows ==> !IsNullish(Get(x, "id"))) ==> withId == sel by {
      if forall x :: x in rows ==> !IsNullish(Get(x, "id")) {
        NonNullIdsAll(sel);
      }
    }
    if HasColumn(schema, "id") then |withId| else |sel|
  }

  /** A non-negative limit bounds the page. */
  lemma PageWithinLimit<T>(rows: seq<T>, range: Option<Range>)
    ensures range.Some? && Limit(range.value) >= 0 ==> |Page(rows, range)| <= Limit(range.value)
  {
  }

  /** A page holds only rows of what it pages. */
  lemma PageKeeps<T>(rows: seq<T>, range: Option<Range>)
    ensures forall x :: x in Page(rows, range) ==> x in rows
  {
    PageIsSlice(rows, range);
    var a, b :| 0 <= a <= b <= |rows| && Page(rows, range) == rows[a..b];
    forall x | x in rows[a..b] ensures x in rows {
      var i :| 0 <= i < b - a && rows[a..b][i] == x;
      assert rows[a + i] == x;
    }
  }

  /** A page of ordered rows is ordered. */
  lemma PageKeepsOrder(o: Order, rows: seq<Row>, range: Option<Range>)
    requires Sorted(o, rows)
    ensures Sorted(o, Page(rows, range))
  {
    PageIsSlice(rows, range);
    var a, b :| 0 <= a <= b <= |rows| && Page(rows, range) == rows[a..b];
    var p := rows[a..b];
    forall i, j | 0 <= i < j < |p| ensures InOrder(o, p[i], p[j]) {
      assert p[i] == rows[a + i] && p[j] == rows[a + j];
    }
  }

  /** Every row getList returns is a table row that the filter selects and that is
      visible, and the page is in list order. */
  lemma ListRowsAreSelected(schema: TableSchema, rows: seq<Row>, range: Option<Range>, sort: Option<Sort>,
                            filter: Conditions, includeDeleted: bool)
    ensures forall x :: x in ListSpec(schema, rows, range, sort, filter, includeDeleted) ==>
      x in rows && Visible(schema, includeDeleted, x) && MatchesFilter(schema, filter, x)
    ensures Sorted(ListOrder(schema, sort), ListSpec(schema, rows, range, sort, filter, includeDeleted))
  {
    var o := ListOrder(schema, sort);
    var sel := SelectedRows(schema, filter, includeDeleted, rows);
    var sorted := SortRows(o, sel);
    SortRowsCorrect(o, sel);
    PageKeeps(sorted, range);
    PageKeepsOrder(o, sorted, range);
    forall x | x in Page(sorted, range) ensures x in rows && Selected(schema, filter, includeDeleted, x) {
      assert x in multiset(sel);
    }
  }

  /** With no range, getList returns as many rows as getCount counts, once every
      selected row has an id. */
  lemma ListLengthIsCount(schema: TableSchema, rows: seq<Row>, sort: Option<Sort>, filter: Conditions, includeDeleted: bool)
    requires forall x :: x in rows ==> !IsNullish(Get(x, "id"))
    ensures |ListSpec(schema, rows, None, sort, filter, includeDeleted)| == CountSpec(schema, rows, filter, includeDeleted)
  {
    var sel := SelectedRows(schema, filter, includeDeleted, rows);
    NonNullIdsAll(sel);
  }

  /** A page of getList never holds more rows than getCount counts, once every
      selected row has an id. */
  lemma PageWithinCount(schema: TableSchema, rows: seq<Row>, range: Option<Range>, sort: Option<Sort>,
                        filter: Conditions, includeDeleted: bool)
    requires forall x :: x in rows ==> !IsNullish(Get(x, "id"))
    ensures |ListSpec(schema, rows, range, sort, filter, includeDeleted)| <= CountSpec(schema, rows, filter, includeDeleted)
  {
    ListLengthIsCount(schema, rows, sort, filter, includeDeleted);
    PageIsSlice(SortRows(ListOrder(schema, sort), SelectedRows(schema, filter, includeDeleted, rows)), range);
  }

  lemma {:induction false} NonNullIdsAll(s: seq<Row>)
    requires forall x :: x in s ==> !IsNullish(Get(x, "id"))
    ensures Filter(s, x => !IsNullish(Get(x, "id"))) == s
  {
    if s != [] {
      NonNullIdsAll(s[1..]);
    }
  }

  /** A soft-deleted row is neither listed nor counted by a default read. */
  lemma SoftDeletedRowHidden(schema: TableSchema, rows: seq<Row>, range: Option<Range>, sort: Option<Sort>,
                             filter: Conditions, x: Row)
    requires HasColumn(schema, "deletedAt") && !IsNullish(Get(x, "deletedAt"))
    ensures x !in ListSpec(schema, rows, range, sort, filter, false)
    ensures x !in SelectedRows(schema, filter, false, rows)
  {
    ListRowsAreSelected(schema, rows, range, sort, filter, false);
  }
}

=== FILE: relations.dfy ===
/** LEFT JOIN of a table's rows with the tables its relations name: each row is kept,
    once per matching target row, or once with no match. */
module Relations {
  import opened Wrappers
  import opened Values
  import opened Schema
  import opened Store
  import opened Query

  /** A relation: the joined table and the equality `base.<baseKey> = target.<targetKey>`. */
  datatype Relation = Relation(target: TableSchema, baseKey: string, targetKey: string)

  /** A result row: the base row and, per relation, the joined row or `null`. */
  datatype Joined = Joined(base: Row, related: seq<Option<Row>>)

  predicate OnHolds(rel: Relation, base: Row, t: Row) {
    SqlEq(Get(base, rel.baseKey), Get(t, rel.targetKey))
  }

  /** The slot a LEFT JOIN fills: a matching target row, or `null` when none matches. */
  predicate SlotHolds(rel: Relation, targetRows: seq<Row>, base: Row, slot: Option<Row>) {
    match slot
    case Some(t) => t in targetRows && OnHolds(rel, base, t)
    case None => forall t :: t in targetRows ==> !OnHolds(rel, base, t)
  }

  function Extend(j: Joined, ts: seq<Row>): (r: seq<Joined>)
    ensures |r| == |ts|
    ensures forall i :: 0 <= i < |ts| ==> r[i] == Joined(j.base, j.related + [Some(ts[i])])
  {
    seq(|ts|, i requires 0 <= i < |ts| => Joined(j.base, j.related + [Some(ts[i])]))
  }

  /** One row joined with one relation. */
  function JoinOne(j: Joined, rel: Relation, targetRows: seq<Row>): (r: seq<Joined>)
    ensures r != []
  {
    var m := Filter(targetRows, t => OnHolds(rel, j.base, t));
    if m == [] then [Joined(j.base, j.related + [None])] else Extend(j, m)
  }

  lemma JoinOneMeaning(j: Joined, rel: Relation, targetRows: seq<Row>)
    ensures JoinOne(j, rel, targetRows) != []
    ensures forall x :: x in JoinOne(j, rel, targetRows) ==>
      && x.base == j.base && x.related[..|x.related| - 1] == j.related && |x.related| == |j.related| + 1
      && SlotHolds(rel, targetRows, j.base, x.related[|j.related|])
  {
    var m := Filter(targetRows, t => OnHolds(rel, j.base, t));
    var r := JoinOne(j, rel, targetRows);
    forall x | x in r
      ensures x.base == j.base && x.related[..|x.related| - 1] == j.related && |x.related| == |j.related| + 1
      ensures SlotHolds(rel, targetRows, j.base, x.related[|j.related|])
    {
      if m != [] {
        var i :| 0 <= i < |m| && r[i] == x;
        assert m[i] in m;
      }
    }
  }

  /** Every row joined with one relation, in order. */
  function JoinAll(js: seq<Joined>, rel: Relation, targetRows: seq<Row>): (r: seq<Joined>)
    ensures |r| >= |js|
  {
    if js == [] then [] else JoinOne(js[0], rel, targetRows) + JoinAll(js[1..], rel, targetRows)
  }

  /** The rows of a join that has `n` relations so far, over the base rows `rows`. */
  predicate Shaped(x: Joined, rows: seq<Row>, rels: seq<Relation>, related: seq<seq<Row>>)
    requires |rels| == |related|
  {
    x.base in rows && |x.related| == |rels|
    && forall k :: 0 <= k < |rels| ==> SlotHolds(rels[k], related[k], x.base, x.related[k])
  }

  lemma {:induction false} JoinAllMeaning(js: seq<Joined>, rel: Relation, targetRows: seq<Row>,
                                          rows: seq<Row>, rels: seq<Relation>, related: seq<seq<Row>>)
    requires |rels| == |related|
    requires forall y :: y in js ==> Shaped(y, rows, rels, related)
    ensures forall x :: x in JoinAll(js, rel, targetRows) ==>
      Shaped(x, rows, rels + [rel], related + [targetRows])
    ensures forall y :: y in js ==> exists x :: x in JoinAll(js, rel, targetRows) && x.base == y.base
  {
    if js != [] {
      JoinAllMeaning(js[1..], rel, targetRows, rows, rels, related);
      JoinOneMeaning(js[0], rel, targetRows);
      var head := JoinOne(js[0], rel, targetRows);
      var all := JoinAll(js, rel, targetRows);
      var rels' := rels + [rel];
      var related' := related + [targetRows];
      forall x | x in all ensures Shaped(x, rows, rels', related') {
        if x in head {
          var y := js[0];
          assert y in js;
          assert |x.related| == |y.related| + 1 && x.related[..|x.related| - 1] == y.related;
          forall k | 0 <= k < |rels'| ensures SlotHolds(rels'[k], related'[k], x.base, x.related[k]) {
            if k < |rels| {
              assert x.related[k] == y.related[k];
            }
          }
        } else {
          assert x in JoinAll(js[1..], rel, targetRows);
        }
      }
      forall y | y in js ensures exists x :: x in all && x.base == y.base {
        if y == js[0] {
          assert head[0] in all;
        } else {
          assert y in js[1..];
        }
      }
    }
  }

  function Lift(rows: seq<Row>): (r: seq<Joined>)
    ensures |r| == |rows|
    ensures forall i :: 0 <= i < |rows| ==> r[i] == Joined(rows[i], [])
  {
    seq(|rows|, i requires 0 <= i < |rows| => Joined(rows[i], []))
  }

  /** The base rows joined with each relation in turn. */
  function JoinRelations(rows: seq<Row>, rels: seq<Relation>, related: seq<seq<Row>>): (r: seq<Joined>)
    requires |rels| == |related|
    ensures |r| >= |rows|
    decreases |rels|
  {
    if rels == [] then Lift(rows)
    else
      var n := |rels| - 1;
      JoinAll(JoinRelations(rows, rels[..n], related[..n]), rels[n], related[n])
  }

  /** A LEFT JOIN keeps every base row, and each result row pairs a base row with, per
      relation, a target row satisfying the `on` condition or `null` when none does. */
  lemma {:induction false} LeftJoinMeaning(rows: seq<Row>, rels: seq<Relation>, related: seq<seq<Row>>)
    requires |rels| == |related|
    ensures forall x :: x in JoinRelations(rows, rels, related) ==> Shaped(x, rows, rels, related)
    ensures forall b :: b in rows ==> exists x :: x in JoinRelations(rows, rels, related) && x.base == b
    decreases |rels|
  {
    if rels == [] {
      var l := Lift(rows);
      forall b | b in rows ensures exists x :: x in l && x.base == b {
        var i :| 0 <= i < |rows| && rows[i] == b;
        assert l[i] in l;
      }
    } else {
      var n := |rels| - 1;
      var prev := JoinRelations(rows, rels[..n], related[..n]);
      var all := JoinRelations(rows, rels, related);
      assert all == JoinAll(prev, rels[n], related[n]);
      LeftJoinMeaning(rows, rels[..n], related[..n]);
      JoinAllMeaning(prev, rels[n], related[n], rows, rels[..n], related[..n]);
      DropLast(rels);
      DropLast(related);
      forall b | b in rows ensures exists x :: x in all && x.base == b {
        var y :| y in prev && y.base == b;
      }
    }
  }

  lemma DropLast<T>(s: seq<T>)
    requires s != []
    ensures s[..|s| - 1] + [s[|s| - 1]] == s
  {
  }

  // ---------------------------------------------------------------- order of the joined rows

  /** The base rows of joined rows, in order. */
  function Bases(js: seq<Joined>): (r: seq<Row>)
    ensures |r| == |js|
    ensures forall i :: 0 <= i < |js| ==> r[i] == js[i].base
  {
    seq(|js|, i requires 0 <= i < |js| => js[i].base)
  }

  /** Every joined row's base is the base of a row it was joined from. */
  lemma {:induction false} JoinAllBases(js: seq<Joined>, rel: Relation, targetRows: seq<Row>)
    ensures forall x :: x in JoinAll(js, rel, targetRows) ==> exists k :: 0 <= k < |js| && x.base == js[k].base
  {
    if js != [] {
      JoinAllBases(js[1..], rel, targetRows);
      JoinOneMeaning(js[0], rel, targetRows);
      forall x | x in JoinAll(js, rel, targetRows) ensures exists k :: 0 <= k < |js| && x.base == js[k].base {
        if x in JoinOne(js[0], rel, targetRows) {
          assert x.base == js[0].base;
        } else {
          assert x in JoinAll(js[1..], rel, targetRows);
          var k :| 0 <= k < |js| - 1 && x.base == js[1..][k].base;
          assert x.base == js[k + 1].base;
        }
      }
    }
  }

  /** Joining one more relation keeps the base rows' order: each row expands in place
      into rows with its own base. */
  lemma {:induction false} JoinAllKeepsOrder(o: Order, js: seq<Joined>, rel: Relation, targetRows: seq<Row>)
    requires Sorted(o, Bases(js))
    ensures Sorted(o, Bases(JoinAll(js, rel, targetRows)))
  {
    if js != [] {
      var tail := js[1..];
      SortedBasesTail(o, js);
      JoinAllKeepsOrder(o, tail, rel, targetRows);
      JoinAllBases(tail, rel, targetRows);
      JoinOneMeaning(js[0], rel, targetRows);
      var rest := JoinAll(tail, rel, targetRows);
      forall x | x in rest ensures InOrder(o, js[0].base, x.base) {
        var k :| 0 <= k < |tail| && x.base == tail[k].base;
        assert tail[k] == js[k + 1];
      }
      InOrderTotal(o, js[0].base, js[0].base);
      SortedAfterHead(o, js[0].base, JoinOne(js[0], rel, targetRows), rest);
    }
  }

  lemma SortedBasesTail(o: Order, js: seq<Joined>)
    requires js != [] && Sorted(o, Bases(js))
    ensures Sorted(o, Bases(js[1..]))
    ensures forall k :: 1 <= k < |js| ==> InOrder(o, js[0].base, js[k].base)
  {
    var tail := js[1..];
    forall i, j | 0 <= i < j < |tail| ensures InOrder(o, Bases(tail)[i], Bases(tail)[j]) {
      assert Bases(tail)[i] == Bases(js)[i + 1] && Bases(tail)[j] == Bases(js)[j + 1];
    }
    forall k | 1 <= k < |js| ensures InOrder(o, js[0].base, js[k].base) {
      assert Bases(js)[0] == js[0].base && Bases(js)[k] == js[k].base;
    }
  }

  /** Rows sharing one base, followed by sorted rows whose bases that base precedes,
      are sorted. */
  lemma SortedAfterHead(o: Order, h: Row, head: seq<Joined>, rest: seq<Joined>)
    requires forall x :: x in head ==> x.base == h
    requires InOrder(o, h, h)
    requires forall x :: x in rest ==> InOrder(o, h, x.base)
    requires Sorted(o, Bases(rest))
    ensures Sorted(o, Bases(head + rest))
  {
    var all := head + rest;
    var b := Bases(all);
    forall i, j | 0 <= i < j < |b| ensures InOrder(o, b[i], b[j]) {
      if j < |head| {
        assert all[i] == head[i] && all[j] == head[j];
        assert head[i] in head && head[j] in head;
      } else if i < |head| {
        assert all[i] == head[i] && all[j] == rest[j - |head|];
        assert head[i] in head && rest[j - |head|] in rest;
      } else {
        assert all[i] == rest[i - |head|] && all[j] == rest[j - |head|];
        assert Bases(rest)[i - |head|] == b[i] && Bases(rest)[j - |head|] == b[j];
      }
    }
  }

  /** A LEFT JOIN of rows in some order lists the base rows in that order. */
  lemma {:induction false} JoinRelationsKeepsOrder(o: Order, rows: seq<Row>, rels: seq<Relation>, related: seq<seq<Row>>)
    requires |rels| == |related|
    requires Sorted(o, rows)
    ensures Sorted(o, Bases(JoinRelations(rows, rels, related)))
    decreases |rels|
  {
    if rels == [] {
      assert Bases(Lift(rows)) == rows;
    } else {
      var n := |rels| - 1;
      JoinRelationsKeepsOrder(o, rows, rels[..n], related[..n]);
      JoinAllKeepsOrder(o, JoinRelations(rows, rels[..n], related[..n]), rels[n], related[n]);
    }
  }

  /** A page of joined rows whose bases are in order keeps them in order. */
  lemma PageKeepsBaseOrder(o: Order, js: seq<Joined>, range: Option<Range>)
    requires Sorted(o, Bases(js))
    ensures Sorted(o, Bases(Page(js, range)))
  {
    PageIsSlice(js, range);
    var a, b :| 0 <= a <= b <= |js| && Page(js, range) == js[a..b];
    var p := Bases(js[a..b]);
    forall i, j | 0 <= i < j < |p| ensures InOrder(o, p[i], p[j]) {
      assert p[i] == Bases(js)[a + i] && p[j] == Bases(js)[a + j];
    }
  }
}

=== FILE: response_builder.dfy ===
/** `buildStandardResponses`: the OpenAPI responses of a route, keyed by status code. */
module ResponseBuilder {
  import opened Wrappers
  import opened RouteAnalyzer
  import opened ApiDocs

  /** The error-response schemas (`ERROR_SCHEMA_MAP`). */
  datatype ErrorSchema =
    | ValidationErrorSchema
    | AuthenticationErrorSchema
    | AuthorizationErrorSchema
    | NotFoundErrorSchema
    | BusinessLogicErrorSchema
    | SystemErrorSchema
    | ExternalServiceErrorSchema

  /** What a response's `application/json` content holds: the route's own response
      schema or one of the error schemas. */
  datatype SchemaRef = RouteSchema | ErrorRef(schema: ErrorSchema)

  datatype ResponseEntry = ResponseEntry(description: string, schema: SchemaRef)

  /** `HTTP_STATUS_CODES[method.toUpperCase()]`. */
  function SuccessStatus(m: HttpMethod): (s: int)
    ensures s == 200 || s == 201 || s == 204
  {
    match m
    case Get => 200
    case Post => 201
    case Put => 200
    case Patch => 200
    case Delete => 204
    case Options => 204
    case Head => 200
    case Trace => 200
  }

  /** `ERROR_SCHEMA_MAP`: one schema per error status. */
  function ErrorSchemaFor(status: int): Option<ErrorSchema> {
    match status
    case 400 => Some(ValidationErrorSchema)
    case 401 => Some(AuthenticationErrorSchema)
    case 403 => Some(AuthorizationErrorSchema)
    case 404 => Some(NotFoundErrorSchema)
    case 409 => Some(BusinessLogicErrorSchema)
    case 500 => Some(SystemErrorSchema)
    case 502 => Some(ExternalServiceErrorSchema)
    case _ => None
  }

  const BadGateway := "Bad Gateway (External Service Error)"

  /** The routes that address one resource and so can answer 404. */
  predicate TargetsOne(a: RouteAnalysis) {
    a.isGetByIdRoute || a.isUpdateRoute || a.isDeleteRoute
  }

  function ErrorEntry(description: string, status: int): ResponseEntry
    requires ErrorSchemaFor(status).Some?
  {
    ResponseEntry(description, ErrorRef(ErrorSchemaFor(status).value))
  }

  /** The statuses that have an error schema. */
  const ErrorStatuses: set<int> := {400, 401, 403, 404, 409, 500, 502}

  /** `responses` holds `entry` under the success status, and every other key is an
      error status whose entry uses that status's schema. */
  predicate Fits(responses: map<int, ResponseEntry>, success: int, entry: ResponseEntry) {
    && success in responses && responses[success] == entry
    && forall k :: k in responses && k != success ==>
      k in ErrorStatuses && ErrorSchemaFor(k).Some? && responses[k].schema == ErrorRef(ErrorSchemaFor(k).value)
  }

  /** Adding an error entry under an error status keeps the map fitting and adds
      exactly that key. */
  lemma AddErrorEntry(responses: map<int, ResponseEntry>, success: int, entry: ResponseEntry, description: string, status: int)
    requires Fits(responses, success, entry) && status in ErrorStatuses && status != success
    ensures ErrorSchemaFor(status).Some?
    ensures Fits(responses[status := ErrorEntry(description, status)], success, entry)
    ensures (responses[status := ErrorEntry(description, status)]).Keys == responses.Keys + {status}
  {
  }

  /** The responses of a route whose success status and entry are given: 400, 409,
      500 and 502 always, 401 and 403 when authentication is required, 404 when the
      route addresses one resource. */
  method Assemble(success: int, entry: ResponseEntry, requiresAuth: bool, targetsOne: bool)
    returns (responses: map<int, ResponseEntry>)
    requires success !in ErrorStatuses
    ensures Fits(responses, success, entry)
    ensures responses.Keys == {success, 400, 409, 500, 502}
      + (if requiresAuth then {401, 403} else {}) + (if targetsOne then {404} else {})
  {
    responses := map[success := entry];
    AddErrorEntry(responses, success, entry, "Bad Request", 400);
    responses := responses[400 := ErrorEntry("Bad Request", 400)];
    AddErrorEntry(responses, success, entry, "Conflict", 409);
    responses := responses[409 := ErrorEntry("Conflict", 409)];
    AddErrorEntry(responses, success, entry, "Internal Server Error", 500);
    responses := responses[500 := ErrorEntry("Internal Server Error", 500)];
    AddErrorEntry(responses, success, entry, BadGateway, 502);
    responses := responses[502 := ErrorEntry(BadGateway, 502)];
    if requiresAuth {
      AddErrorEntry(responses, success, entry, "Unauthorized", 401);
      responses := responses[401 := ErrorEntry("Unauthorized", 401)];
      AddErrorEntry(responses, success, entry, "Forbidden", 403);
      responses := responses[403 := ErrorEntry("Forbidden", 403)];
    }
    if targetsOne {
      AddErrorEntry(responses, success, entry, "Not Found", 404);
      responses := responses[404 := ErrorEntry("Not Found", 404)];
    }
  }

  /** The success entry plus 400, 409, 500 and 502; 401 and 403 exactly when the route
      requires authentication; 404 exactly for routes that address one resource. Every
      error entry uses its status's schema, and the success entry (which no error
      status can overwrite) the route's own schema and description. */
  method BuildStandardResponses(m: HttpMethod, path: string, resourceName: string, requiresAuth: bool)
    returns (responses: map<int, ResponseEntry>)
    ensures SuccessStatus(m) in responses
    ensures responses[SuccessStatus(m)] == ResponseEntry(Description(m, resourceName, path), RouteSchema)
    ensures 400 in responses && 409 in responses && 500 in responses && 502 in responses
    ensures (401 in responses <==> requiresAuth) && (403 in responses <==> requiresAuth)
    ensures 404 in responses <==> TargetsOne(Analyze(m, path))
    ensures forall k :: k in responses ==> k == SuccessStatus(m) || k in ErrorStatuses
    ensures forall k :: k in responses && k != SuccessStatus(m) ==>
      ErrorSchemaFor(k).Some? && responses[k].schema == ErrorRef(ErrorSchemaFor(k).value)
  {
    var analysis := Analyze(m, path);
    responses := Assemble(SuccessStatus(m), ResponseEntry(Description(m, resourceName, path), RouteSchema),
      requiresAuth, analysis.isGetByIdRoute || analysis.isUpdateRoute || analysis.isDeleteRoute);
  }
}

=== FILE: route_analyzer.dfy ===
/** `analyzeRoute`: the kind of a route, read off its HTTP method and the `{var}`
    placeholders of its path template. */
module RouteAnalyzer {
  import opened Wrappers
  import opened Text

  datatype HttpMethod = Get | Post | Put | Patch | Delete | Options | Head | Trace

  datatype RouteAnalysis = RouteAnalysis(
    isListRoute: bool,
    isGetByIdRoute: bool,
    isCreateRoute: bool,
    isUpdateRoute: bool,
    isDeleteRoute: bool,
    pathVariables: seq<string>,
    hasPathVariables: bool)

  /** The position of the first `c` in `s`. */
  function IndexOf(s: string, c: char): (r: Option<nat>)
    ensures r.Some? ==> r.value < |s| && s[r.value] == c && forall j :: 0 <= j < r.value ==> s[j] != c
    ensures r.None? ==> !ContainsChar(s, c)
  {
    if s == [] then None
    else if s[0] == c then Some(0)
    else
      var rest := IndexOf(s[1..], c);
      assert forall j :: 1 <= j < |s| ==> s[j] == s[1..][j - 1];
      if rest.None? then None else Some(rest.value + 1)
  }

  /** `path.match(/{[^}]+}/g)` with each match's braces stripped (`slice(1, -1)`): the
      scan tries each position in turn; at a `{` it takes everything up to the next `}`,
      provided that is at least one character, and resumes after that `}`. */
  function PathVariables(path: string): (vars: seq<string>)
    ensures forall i :: 0 <= i < |vars| ==> vars[i] != [] && !ContainsChar(vars[i], '}')
    decreases |path|
  {
    if path == [] then []
    else if path[0] != '{' then PathVariables(path[1..])
    else
      match IndexOf(path[1..], '}')
      case None => PathVariables(path[1..])
      case Some(k) =>
        if k == 0 then PathVariables(path[1..])
        else
          assert forall j :: 0 <= j < k ==> path[1..][..k][j] == path[1..][j];
          [path[1..][..k]] + PathVariables(path[k + 2..])
  }

  function Analyze(m: HttpMethod, path: string): (r: RouteAnalysis)
    ensures r.pathVariables == PathVariables(path)
    ensures r.hasPathVariables <==> r.pathVariables != []
    ensures r.isGetByIdRoute ==> r.hasPathVariables
    ensures r.isListRoute || r.isCreateRoute ==> r.pathVariables == []
  {
    var pathVariables := PathVariables(path);
    var hasPathVariables := |pathVariables| > 0;
    var hasIdPathVariable := "id" in pathVariables;
    RouteAnalysis(
      m == Get && !hasPathVariables,
      m == Get && hasIdPathVariable,
      m == Post && !hasPathVariables,
      (m == Put || m == Patch) && hasPathVariables,
      m == Delete && hasPathVariables,
      pathVariables,
      hasPathVariables)
  }

  function Count(b: bool): nat {
    if b then 1 else 0
  }

  /** At most one of the five route kinds holds, whatever the method and path. */
  lemma AtMostOneKind(m: HttpMethod, path: string)
    ensures var a := Analyze(m, path);
      Count(a.isListRoute) + Count(a.isGetByIdRoute) + Count(a.isCreateRoute)
      + Count(a.isUpdateRoute) + Count(a.isDeleteRoute) <= 1
  {
    var a := Analyze(m, path);
    if a.isGetByIdRoute {
      assert "id" in a.pathVariables;
    }
  }

  // ---------------------------------------------------------------- templates

  /** A variable name that can appear between braces: non-empty, no `}`. */
  predicate VarName(v: string) {
    v != [] && !ContainsChar(v, '}')
  }

  /** The template `lits[0]{vars[0]}lits[1]…{vars[n-1]}lits[n]`. */
  function Template(lits: seq<string>, vars: seq<string>): string
    requires |lits| == |vars| + 1
    decreases |vars|
  {
    if vars == [] then lits[0]
    else lits[0] + "{" + vars[0] + "}" + Template(lits[1..], vars[1..])
  }

  lemma {:induction false} LiteralHasNoVariables(s: string)
    requires !ContainsChar(s, '{')
    ensures PathVariables(s) == []
    decreases |s|
  {
    if s != [] {
      assert s[0] != '{';
      assert !ContainsChar(s[1..], '{') by {
        forall j | 0 <= j < |s[1..]| ensures s[1..][j] != '{' {
          assert s[1..][j] == s[j + 1];
        }
      }
      LiteralHasNoVariables(s[1..]);
    }
  }

  lemma {:induction false} VariableAfterLiteral(lit: string, v: string, rest: string)
    requires !ContainsChar(lit, '{') && VarName(v)
    ensures PathVariables(lit + "{" + v + "}" + rest) == [v] + PathVariables(rest)
    decreases |lit|
  {
    var s := lit + "{" + v + "}" + rest;
    if lit == [] {
      assert s == "{" + v + "}" + rest;
      var t := s[1..];
      assert t == v + "}" + rest;
      var k := |v|;
      assert t[k] == '}';
      assert forall j :: 0 <= j < k ==> t[j] == v[j];
      assert IndexOf(t, '}') == Some(k);
      assert t[..k] == v;
      assert s[k + 2..] == rest;
    } else {
      assert s[0] == lit[0] && lit[0] != '{';
      assert !ContainsChar(lit[1..], '{') by {
        forall j | 0 <= j < |lit[1..]| ensures lit[1..][j] != '{' {
          assert lit[1..][j] == lit[j + 1];
        }
      }
      assert s[1..] == lit[1..] + "{" + v + "}" + rest;
      VariableAfterLiteral(lit[1..], v, rest);
    }
  }

  /** The variables of a template built from brace-free literals and variable names
      are exactly those names, in order. */
  lemma {:induction false} TemplateVariables(lits: seq<string>, vars: seq<string>)
    requires |lits| == |vars| + 1
    requires forall i :: 0 <= i < |lits| ==> !ContainsChar(lits[i], '{')
    requires forall i :: 0 <= i < |vars| ==> VarName(vars[i])
    ensures PathVariables(Template(lits, vars)) == vars
    decreases |vars|
  {
    if vars == [] {
      LiteralHasNoVariables(lits[0]);
    } else {
      TemplateVariables(lits[1..], vars[1..]);
      VariableAfterLiteral(lits[0], vars[0], Template(lits[1..], vars[1..]));
    }
  }
}

=== FILE: schema.dfy ===
/** Column descriptors of the two SQLite tables, as the repository engine sees them:
    property key, SQL column name, constraints, default and enum values, in
    declaration order. */
module Schema {
  import opened Wrappers

  datatype DefaultValue = NoDefault | CurrentTimestamp

  datatype ColumnRef = ColumnRef(table: string, column: string)

  datatype Column = Column(
    key: string,                      // the property name rows and payloads use
    name: string,                     // the SQL column name
    notNull: bool,
    unique: bool,
    primaryKey: bool,
    default: DefaultValue,
    enumValues: Option<seq<string>>,
    references: Option<ColumnRef>)

  datatype TableSchema = TableSchema(tableName: string, columns: seq<Column>)

  /** A primary key column can hold no NULL (drizzle declares it NOT NULL). */
  predicate Required(c: Column) {
    c.notNull || c.primaryKey
  }

  /** A primary key or UNIQUE column: no two rows share a non-NULL value. */
  predicate Distinct(c: Column) {
    c.unique || c.primaryKey
  }

  /** No two columns share a property key. */
  predicate WellFormed(s: TableSchema) {
    forall i, j :: 0 <= i < j < |s.columns| ==> s.columns[i].key != s.columns[j].key
  }

  /** The first column with that property key. */
  function Find(cols: seq<Column>, key: string): (r: Option<Column>)
    ensures r.Some? ==> r.value in cols && r.value.key == key
    ensures r.None? ==> forall c :: c in cols ==> c.key != key
  {
    if cols == [] then None
    else if cols[0].key == key then Some(cols[0])
    else Find(cols[1..], key)
  }

  /** `key in getTableColumns(schema)`. */
  predicate HasColumn(s: TableSchema, key: string) {
    Find(s.columns, key).Some?
  }

  /** The property keys of the columns: `Object.keys(getTableColumns(schema))`. */
  function Keys(s: TableSchema): (ks: set<string>)
    ensures forall k :: k in ks <==> HasColumn(s, k)
  {
    set c | c in s.columns :: c.key
  }

  function ColumnOf(s: TableSchema, key: string): (c: Column)
    requires HasColumn(s, key)
    ensures c.key == key && c in s.columns
  {
    Find(s.columns, key).value
  }

  function Plain(key: string, name: string, notNull: bool): Column {
    Column(key, name, notNull, false, false, NoDefault, None, None)
  }

  /** `storage` (packages/database/src/schema/storage.schema.ts). */
  const StorageSchema := TableSchema("storage", [
    Column("id", "id", false, false, true, NoDefault, None, None),
    Column("key", "key", true, true, false, NoDefault, None, None),
    Plain("originalName", "original_name", true),
    Plain("size", "size", true),
    Plain("mimeType", "mime_type", true),
    Plain("hash", "hash", true),
    Column("createdAt", "created_at", false, false, false, CurrentTimestamp, None, None),
    Plain("updatedAt", "updated_at", false),
    Plain("deletedAt", "deleted_at", false)
  ])

  /** `storage_info` (packages/database/src/schema/storage_info.schema.ts). */
  const StorageInfoSchema := TableSchema("storage_info", [
    Column("id", "id", false, false, true, NoDefault, None, None),
    Column("storageId", "storage_id", true, false, false, NoDefault, None, Some(ColumnRef("storage", "id"))),
    Plain("description", "description", true),
    Column("createdAt", "created_at", false, false, false, CurrentTimestamp, None, None)
  ])

  /** The lookup finds the first column with the key. */
  lemma {:induction false} FindAt(cols: seq<Column>, i: nat, key: string)
    requires i < |cols| && cols[i].key == key
    requires forall j :: 0 <= j < i ==> Differ(cols[j].key, key)
    ensures Find(cols, key) == Some(cols[i])
  {
    if i > 0 {
      FindAt(cols[1..], i - 1, key);
    }
  }

  /** A cheap witness that two keys differ: their lengths or first characters. */
  predicate Differ(a: string, b: string) {
    |a| != |b| || (|a| > 0 && |b| > 0 && a[0] != b[0])
  }

  /** A column found by `FindAt` is the one `ColumnOf` returns. */
  lemma ColumnAt(s: TableSchema, i: nat, key: string)
    requires i < |s.columns| && s.columns[i].key == key
    requires forall j :: 0 <= j < i ==> Differ(s.columns[j].key, key)
    ensures HasColumn(s, key) && ColumnOf(s, key) == s.columns[i]
  {
    FindAt(s.columns, i, key);
  }

  lemma StorageId()
    ensures HasColumn(StorageSchema, "id") && ColumnOf(StorageSchema, "id") == StorageSchema.columns[0]
  {
    ColumnAt(StorageSchema, 0, "id");
  }

  lemma StorageKey()
    ensures HasColumn(StorageSchema, "key") && ColumnOf(StorageSchema, "key") == StorageSchema.columns[1]
  {
    ColumnAt(StorageSchema, 1, "key");
  }

  lemma StorageOriginalName()
    ensures HasColumn(StorageSchema, "originalName")
      && ColumnOf(StorageSchema, "originalName") == StorageSchema.columns[2]
  {
    ColumnAt(StorageSchema, 2, "originalName");
  }

  lemma StorageSize()
    ensures HasColumn(StorageSchema, "size") && ColumnOf(StorageSchema, "size") == StorageSchema.columns[3]
  {
    ColumnAt(StorageSchema, 3, "size");
  }

  lemma StorageMimeType()
    ensures HasColumn(StorageSchema, "mimeType") && ColumnOf(StorageSchema, "mimeType") == StorageSchema.columns[4]
  {
    ColumnAt(StorageSchema, 4, "mimeType");
  }

  lemma StorageHash()
    ensures HasColumn(StorageSchema, "hash") && ColumnOf(StorageSchema, "hash") == StorageSchema.columns[5]
  {
    ColumnAt(StorageSchema, 5, "hash");
  }

  lemma StorageUpdatedAt()
    ensures HasColumn(StorageSchema, "updatedAt") && ColumnOf(StorageSchema, "updatedAt") == StorageSchema.columns[7]
  {
    ColumnAt(StorageSchema, 7, "updatedAt");
  }

  lemma StorageDeletedAt()
    ensures HasColumn(StorageSchema, "deletedAt") && ColumnOf(StorageSchema, "deletedAt") == StorageSchema.columns[8]
  {
    ColumnAt(StorageSchema, 8, "deletedAt");
  }

  /** The storage table: `id` is its key, `key` is required and unique, and the
      file facts are required. */
  lemma StorageSchemaConstraints()
    ensures HasColumn(StorageSchema, "id") && ColumnOf(StorageSchema, "id").primaryKey
    ensures HasColumn(StorageSchema, "key") && ColumnOf(StorageSchema, "key").notNull
      && ColumnOf(StorageSchema, "key").unique
    ensures HasColumn(StorageSchema, "originalName") && ColumnOf(StorageSchema, "originalName").notNull
    ensures HasColumn(StorageSchema, "size") && ColumnOf(StorageSchema, "size").notNull
    ensures HasColumn(StorageSchema, "mimeType") && ColumnOf(StorageSchema, "mimeType").notNull
    ensures HasColumn(StorageSchema, "hash") && ColumnOf(StorageSchema, "hash").notNull
  {
    StorageId();
    StorageKey();
    StorageOriginalName();
    StorageSize();
    StorageMimeType();
    StorageHash();
  }

  /** The table supports soft delete and has no slug or shortId column. */
  lemma StorageSchemaFeatures()
    ensures HasColumn(StorageSchema, "deletedAt") && HasColumn(StorageSchema, "updatedAt")
    ensures !HasColumn(StorageSchema, "slug") && !HasColumn(StorageSchema, "shortId")
  {
    StorageUpdatedAt();
    StorageDeletedAt();
    NoSlugOrShortId();
  }

  lemma NoSlugOrShortId()
    ensures !HasColumn(StorageSchema, "slug") && !HasColumn(StorageSchema, "shortId")
  {
    var cs := StorageSchema.columns;
    assert forall i :: 0 <= i < |cs| ==> |cs[i].key| != 7;
    assert "slug"[1] == 'l';
    assert forall i :: 0 <= i < |cs| && |cs[i].key| == 4 ==> cs[i].key[1] != 'l';
    Absent(cs, "slug");
    Absent(cs, "shortId");
  }

  lemma {:induction false} Absent(cols: seq<Column>, key: string)
    requires forall i :: 0 <= i < |cols| ==> cols[i].key != key
    ensures Find(cols, key).None?
  {
    if cols != [] {
      Absent(cols[1..], key);
    }
  }

  /** Only `createdAt` has a default, and no column has enum values. */
  lemma StorageSchemaDefaults()
    ensures forall i :: 0 <= i < |StorageSchema.columns| ==>
      (StorageSchema.columns[i].default == CurrentTimestamp <==> i == 6)
    ensures StorageSchema.columns[6].key == "createdAt"
    ensures forall i :: 0 <= i < |StorageSchema.columns| ==> StorageSchema.columns[i].enumValues.None?
  {
  }

  /** The storage_info table: `id` is its key, `storageId` is required and points at
      `storage.id`, `description` is required, and there is no `deletedAt` or
      `updatedAt` column. */
  lemma StorageInfoSchemaShape()
    ensures HasColumn(StorageInfoSchema, "id") && ColumnOf(StorageInfoSchema, "id").primaryKey
    ensures HasColumn(StorageInfoSchema, "storageId") && ColumnOf(StorageInfoSchema, "storageId").notNull
      && ColumnOf(StorageInfoSchema, "storageId").references == Some(ColumnRef("storage", "id"))
    ensures HasColumn(StorageInfoSchema, "description") && ColumnOf(StorageInfoSchema, "description").notNull
    ensures !HasColumn(StorageInfoSchema, "deletedAt") && !HasColumn(StorageInfoSchema, "updatedAt")
    ensures !HasColumn(StorageInfoSchema, "slug") && !HasColumn(StorageInfoSchema, "shortId")
  {
    InfoColumns();
    InfoAbsentColumns();
  }

  lemma InfoColumns()
    ensures HasColumn(StorageInfoSchema, "id") && ColumnOf(StorageInfoSchema, "id") == StorageInfoSchema.columns[0]
    ensures HasColumn(StorageInfoSchema, "storageId")
      && ColumnOf(StorageInfoSchema, "storageId") == StorageInfoSchema.columns[1]
    ensures HasColumn(StorageInfoSchema, "description")
      && ColumnOf(StorageInfoSchema, "description") == StorageInfoSchema.columns[2]
  {
    ColumnAt(StorageInfoSchema, 0, "id");
    ColumnAt(StorageInfoSchema, 1, "storageId");
    ColumnAt(StorageInfoSchema, 2, "description");
  }

  lemma InfoAbsentColumns()
    ensures !HasColumn(StorageInfoSchema, "deletedAt") && !HasColumn(StorageInfoSchema, "updatedAt")
    ensures !HasColumn(StorageInfoSchema, "slug") && !HasColumn(StorageInfoSchema, "shortId")
  {
    var cs := StorageInfoSchema.columns;
    assert forall i :: 0 <= i < |cs| ==> cs[i].key[0] in {'i', 's', 'd', 'c'};
    assert "deletedAt"[1] == 'e' && "updatedAt"[0] == 'u';
    assert forall i :: 0 <= i < |cs| && cs[i].key[0] == 'd' ==> cs[i].key[1] == 'e' && |cs[i].key| == 11;
    assert forall i :: 0 <= i < |cs| && cs[i].key[0] == 's' ==> |cs[i].key| == 9;
    Absent(cs, "deletedAt");
    Absent(cs, "updatedAt");
    Absent(cs, "slug");
    Absent(cs, "shortId");
  }

  /** Both tables have distinct property keys. */
  lemma SchemasWellFormed()
    ensures WellFormed(StorageSchema) && WellFormed(StorageInfoSchema)
  {
    KeysDiffer(StorageSchema);
    KeysDiffer(StorageInfoSchema);
  }

  lemma KeysDiffer(s: TableSchema)
    requires forall i, j :: 0 <= i < j < |s.columns| ==> Differ(s.columns[i].key, s.columns[j].key)
    ensures WellFormed(s)
  {
  }
}

=== FILE: schema_generator.dfy ===
/** The request schemas a route gets by default: its path parameters and its query. */
module SchemaGenerator {
  import opened Wrappers
  import opened Text
  import opened RouteAnalyzer

  /** The path-parameter schemas: the shared get-one schema, or an object with one
      UUID string property named after the path variable. */
  datatype ParamsSchema =
    | GetOneParams
    | UuidParam(name: string, description: string)

  /** The query schemas: the caller's own, or the shared list-query schema. */
  datatype QuerySchema = Provided(name: string) | ListQuery

  /** `.replace(/[{}]/g, '')`. */
  function RemoveBraces(s: string): (r: string)
    ensures !ContainsChar(r, '{') && !ContainsChar(r, '}')
    ensures |r| <= |s|
  {
    if s == [] then []
    else if s[0] == '{' || s[0] == '}' then RemoveBraces(s[1..])
    else [s[0]] + RemoveBraces(s[1..])
  }

  /** generateParamsSchema. */
  function ParamsSchemaFor(m: HttpMethod, path: string, resourceName: string): (r: Option<ParamsSchema>)
    ensures PathVariables(path) == [] ==> r.None?
    ensures r == Some(GetOneParams) <==> Analyze(m, path).isGetByIdRoute
    ensures r.Some? && r.value.UuidParam? ==>
      |PathVariables(path)| == 1 && r.value.name == RemoveBraces(PathVariables(path)[0])
  {
    var a := Analyze(m, path);
    if !a.hasPathVariables then None
    else if a.isGetByIdRoute then Some(GetOneParams)
    else if |a.pathVariables| == 1 then
      Some(UuidParam(RemoveBraces(a.pathVariables[0]), "Unique identifier of the " + resourceName + " resource"))
    else None
  }

  /** No variables gives no schema; a get-by-id route gets the get-one schema; one
      variable otherwise gives a UUID property named after it; two or more variables
      on any other route give no schema. */
  lemma ParamsSchemaCases(m: HttpMethod, path: string, resourceName: string)
    ensures var vars := PathVariables(path);
      var r := ParamsSchemaFor(m, path, resourceName);
      && (vars == [] ==> r.None?)
      && (r == Some(GetOneParams) <==> Analyze(m, path).isGetByIdRoute)
      && (r.Some? && r.value.UuidParam? <==> |vars| == 1 && !Analyze(m, path).isGetByIdRoute)
      && (|vars| >= 2 && !Analyze(m, path).isGetByIdRoute ==> r.None?)
      && (r.Some? && r.value.UuidParam? ==> r.value.name == RemoveBraces(vars[0]))
  {
  }

  /** generateQuerySchema: a provided schema wins; otherwise only list routes get the
      list-query schema. */
  function QuerySchemaFor(m: HttpMethod, path: string, provided: Option<string>): (r: Option<QuerySchema>)
    ensures provided.Some? ==> r == Some(Provided(provided.value))
    ensures provided.None? ==> (r.Some? <==> Analyze(m, path).isListRoute) && (r.Some? ==> r.value == ListQuery)
  {
    if provided.Some? then Some(Provided(provided.value))
    else if Analyze(m, path).isListRoute then Some(ListQuery)
    else None
  }

  /** For a one-variable route such as `/items/{itemId}`, the UUID property is named
      after that variable. */
  lemma SingleVariableNamesTheParam(lit: string, v: string, m: HttpMethod, resourceName: string)
    requires !ContainsChar(lit, '{') && VarName(v) && !ContainsChar(v, '{') && v != "id"
    ensures ParamsSchemaFor(m, lit + "{" + v + "}", resourceName)
      == Some(UuidParam(v, "Unique identifier of the " + resourceName + " resource"))
  {
    VariableAfterLiteral(lit, v, "");
    LiteralHasNoVariables("");
    assert PathVariables(lit + "{" + v + "}" + "") == [v];
    assert lit + "{" + v + "}" + "" == lit + "{" + v + "}";
    NoBracesUnchanged(v);
  }

  lemma {:induction false} NoBracesUnchanged(s: string)
    requires !ContainsChar(s, '{') && !ContainsChar(s, '}')
    ensures RemoveBraces(s) == s
  {
    if s != [] {
      assert s[0] != '{' && s[0] != '}';
      assert !ContainsChar(s[1..], '{') && !ContainsChar(s[1..], '}') by {
        forall j | 0 <= j < |s[1..]| ensures s[1..][j] != '{' && s[1..][j] != '}' {
          assert s[1..][j] == s[j + 1];
        }
      }
      NoBracesUnchanged(s[1..]);
    }
  }
}

=== FILE: services.dfy ===
/** The per-table wiring of the repository engine: one service per table, keyed by the
    table's name, and the one relation (storage_info joined to storage). */
module Services {
  import opened Wrappers
  import opened Values
  import opened Schema
  import opened Relations

  /** What a `BaseService` is built from: its table and its relations. */
  datatype ServiceConfig = ServiceConfig(schema: TableSchema, relations: seq<Relation>)

  /** `storage_info.storageId = storage.id`. */
  const InfoToStorage := Relation(StorageSchema, "storageId", "id")

  /** `services(ctx)`: the services keyed by `getTableName` of their schema. */
  function AllServices(): (m: map<string, ServiceConfig>)
    ensures forall name :: name in m ==> m[name].schema.tableName == name
  {
    map[StorageSchema.tableName := ServiceConfig(StorageSchema, []),
        StorageInfoSchema.tableName := ServiceConfig(StorageInfoSchema, [InfoToStorage])]
  }

  /** There are exactly two services, `storage` and `storage_info`; the first has no
      relations, the second exactly one, whose target is the storage table. */
  lemma ServicesShape()
    ensures AllServices().Keys == {"storage", "storage_info"}
    ensures AllServices()["storage"].schema == StorageSchema
    ensures AllServices()["storage"].relations == []
    ensures AllServices()["storage_info"].schema == StorageInfoSchema
    ensures |AllServices()["storage_info"].relations| == 1
    ensures AllServices()["storage_info"].relations[0].target == StorageSchema
  {
    assert "storage" != "storage_info";
  }

  /** Joining storage_info rows with the storage table pairs each info row with the
      storage rows whose `id` equals its `storageId` (both non-null), or with `null`
      when there is none, and keeps every info row. */
  lemma InfoJoinMeaning(infoRows: seq<Row>, storageRows: seq<Row>)
    ensures forall x :: x in JoinRelations(infoRows, [InfoToStorage], [storageRows]) ==>
      && x.base in infoRows && |x.related| == 1
      && match x.related[0]
         case Some(s) =>
           s in storageRows && !IsNullish(Get(x.base, "storageId")) && Get(x.base, "storageId") == Get(s, "id")
         case None =>
           forall s :: s in storageRows ==> !SqlEq(Get(x.base, "storageId"), Get(s, "id"))
    ensures forall b :: b in infoRows ==> exists x :: x in JoinRelations(infoRows, [InfoToStorage], [storageRows]) && x.base == b
  {
    LeftJoinMeaning(infoRows, [InfoToStorage], [storageRows]);
    forall x | x in JoinRelations(infoRows, [InfoToStorage], [storageRows])
      ensures x.base in infoRows && |x.related| == 1
      ensures SlotHolds(InfoToStorage, storageRows, x.base, x.related[0])
    {
      assert Shaped(x, infoRows, [InfoToStorage], [storageRows]);
    }
  }
}

=== FILE: storage_create_route.dfy ===
/** `POST /api/v1/storage`: the multipart field `images[]` holds one value or several;
    the route keeps the files whose type is an allowed image type and whose size is
    within the limit, refuses the request when none is left, and hands the rest to
    the upload. */
module StorageCreateRoute {
  import opened Wrappers
  import opened Json
  import opened Text
  import opened Errors
  import ExternalServiceErrors

  /** A multipart form value: a file, or a plain text field. */
  datatype FormValue =
    | FormFile(name: string, size: int, mimeType: string)
    | FormText(text: string)

  /** What `body['images[]']` holds: nothing, one value, or several. */
  datatype ImagesField = Missing | Single(value: FormValue) | Many(values: seq<FormValue>)

  /** The upload limits: 2 MiB and four image types. */
  const MaxFileSize := 2097152
  const AllowedMimeTypes: seq<string> := ["image/jpeg", "image/png", "image/gif", "image/webp"]

  /** The field is truthy: present, and not an empty text. */
  predicate Provided(images: ImagesField) {
    !images.Missing? && images != Single(FormText(""))
  }

  /** A value the route accepts: a file of an allowed type, at most the limit. */
  predicate Acceptable(v: FormValue) {
    v.FormFile? && v.mimeType in AllowedMimeTypes && v.size <= MaxFileSize
  }

  /** The acceptable values of a sequence, in their order. */
  function AcceptedOf(vs: seq<FormValue>): seq<FormValue>
    decreases |vs|
  {
    if vs == [] then []
    else
      var last := vs[|vs| - 1];
      AcceptedOf(vs[..|vs| - 1]) + (if Acceptable(last) then [last] else [])
  }

  /** The files the route uploads. */
  function Accepted(images: ImagesField): (r: seq<FormValue>)
    ensures forall v :: v in r ==> Acceptable(v)
    ensures images.Many? ==> forall v :: v in images.values && Acceptable(v) ==> v in r
    ensures images.Single? ==> (r != [] <==> Acceptable(images.value))
    ensures images.Missing? ==> r == []
  {
    if images.Many? then AcceptedMembers(images.values); AcceptedOf(images.values)
    else match images
    case Missing => []
    case Single(v) => if Acceptable(v) then [v] else []
    case Many(vs) => AcceptedOf(vs)
  }

  /** The loop that collects `allUploadedImages`: one candidate for a single value,
      and for several, each acceptable value pushed in turn. */
  method CollectImages(images: ImagesField) returns (accepted: seq<FormValue>)
    ensures accepted == Accepted(images)
  {
    accepted := [];
    if images.Single? && Acceptable(images.value) {
      accepted := [images.value];
    }
    if images.Many? {
      var vs := images.values;
      var i := 0;
      while i < |vs|
        invariant 0 <= i <= |vs|
        invariant accepted == AcceptedOf(vs[..i])
      {
        assert vs[..i + 1][..i] == vs[..i];
        if Acceptable(vs[i]) {
          accepted := accepted + [vs[i]];
        }
        i := i + 1;
      }
      assert vs[..|vs|] == vs;
    }
  }

  // ---------------------------------------------------------------- the filter's properties

  /** Exactly the acceptable values are kept. */
  lemma {:induction false} AcceptedMembers(vs: seq<FormValue>)
    ensures forall v :: v in AcceptedOf(vs) <==> v in vs && Acceptable(v)
    decreases |vs|
  {
    if vs != [] {
      var init, last := vs[..|vs| - 1], vs[|vs| - 1];
      AcceptedMembers(init);
      assert vs == init + [last];
    }
  }

  /** Filtering commutes with concatenation, so the kept values stay in their order. */
  lemma {:induction false} AcceptedOfConcat(a: seq<FormValue>, b: seq<FormValue>)
    ensures AcceptedOf(a + b) == AcceptedOf(a) + AcceptedOf(b)
    decreases |b|
  {
    if b == [] {
      assert a + b == a;
    } else {
      var init, last := b[..|b| - 1], b[|b| - 1];
      assert (a + b)[..|a + b| - 1] == a + init;
      assert (a + b)[|a + b| - 1] == last;
      AcceptedOfConcat(a, init);
    }
  }

  /** Nothing is added: the kept values are never more than the values given. */
  lemma {:induction false} AcceptedNoLonger(vs: seq<FormValue>)
    ensures |AcceptedOf(vs)| <= |vs|
    ensures |AcceptedOf(vs)| == |vs| <==> forall i :: 0 <= i < |vs| ==> Acceptable(vs[i])
    decreases |vs|
  {
    if vs != [] {
      var init := vs[..|vs| - 1];
      AcceptedNoLonger(init);
      if |AcceptedOf(vs)| == |vs| {
        forall i | 0 <= i < |vs| ensures Acceptable(vs[i]) {
          if i < |vs| - 1 {
            assert vs[i] == init[i];
          }
        }
      }
    }
  }

  // ---------------------------------------------------------------- the route

  /** `type.split('/')[1].toUpperCase()`. */
  function SubtypeName(mimeType: string): string
    requires |Split(mimeType, '/')| >= 2
  {
    ToUpper(Split(mimeType, '/')[1])
  }

  /** `Math.round(bytes / (1024 * 1024))` for a non-negative size. */
  function RoundedMegabytes(bytes: nat): (r: nat)
    ensures r * 1048576 - 524288 <= bytes < r * 1048576 + 524288
  {
    (2 * bytes + 1048576) / 2097152
  }

  /** `types.map((type) => type.split('/')[1].toUpperCase())`. */
  function SubtypeNames(types: seq<string>): seq<string>
    requires forall i :: 0 <= i < |types| ==> |Split(types[i], '/')| >= 2
  {
    if types == [] then [] else [SubtypeName(types[0])] + SubtypeNames(types[1..])
  }

  /** The text naming the limits in the `INVALID_FILES` message. */
  function LimitsText(types: seq<string>, maxSize: nat): string
    requires forall i :: 0 <= i < |types| ==> |Split(types[i], '/')| >= 2
  {
    "Please ensure files are " + Join(SubtypeNames(types), ", ") + " images under " + NatToString(RoundedMegabytes(maxSize)) + "MB"
  }

  /** The form value as the error detail shows it. */
  function FormJson(v: FormValue): Json {
    match v
    case FormFile(name, size, mimeType) => JObj(map["name" := JStr(name), "size" := JNum(size), "type" := JStr(mimeType)])
    case FormText(text) => JStr(text)
  }

  function ImagesJson(images: ImagesField): Json {
    match images
    case Missing => JUndefined
    case Single(v) => FormJson(v)
    case Many(vs) => JArr(seq(|vs|, i requires 0 <= i < |vs| => FormJson(vs[i])))
  }

  /** The `files` list of an upload failure: name, size and type of each file. */
  function FilesJson(files: seq<FormValue>): (j: Json)
    ensures j.JArr? && |j.items| == |files|
  {
    JArr(seq(|files|, i requires 0 <= i < |files| => FormJson(files[i])))
  }

  /** What the upload does with the accepted files: returns its data, or throws. */
  datatype UploadResult =
    | Uploaded(data: Json)
    | UploadThrewError(message: string)
    | UploadThrewOther

  /** Why the route fails. */
  datatype Failure =
    | NoImages
    | NoValidImages(images: ImagesField)
    | UploadFailed(originalError: Option<string>, files: seq<FormValue>)

  /** The error the route throws for each failure. */
  function ErrorOf(f: Failure): (e: AppError)
    ensures !f.UploadFailed? ==>
      && e.status == 400 && e.code == "VALIDATION_ERROR" && |e.details| == 1 && e.details[0].field == Some("images[]")
      && e.details[0].code == Some(if f.NoImages? then "REQUIRED" else "INVALID_FILES")
    ensures f.UploadFailed? ==>
      && e.status == 502 && e.code == "SERVICE_UNAVAILABLE"
      && "files" in e.context && e.context["files"] == FilesJson(f.files)
      && (f.originalError.Some? ==> "originalError" in e.context && e.context["originalError"] == JStr(f.originalError.value))
  {
    match f
    case NoImages =>
      NewValidationError("No images provided", [Detail(Some("images[]"), Some("REQUIRED"), "Images are required", JUndefined)])
    case NoValidImages(images) =>
      AllowedSubtypeNames();
      NewValidationError("Invalid image files", [Detail(Some("images[]"), Some("INVALID_FILES"),
        LimitsText(AllowedMimeTypes, MaxFileSize), ImagesJson(images))])
    case UploadFailed(originalError, files) =>
      var context := if originalError.Some? then map["originalError" := JStr(originalError.value), "files" := FilesJson(files)]
                     else map["files" := FilesJson(files)];
      ExternalServiceErrors.Make(ExternalServiceErrors.ServiceUnavailable(StorageServiceName), Some(context))
  }

  datatype CreateOutcome = Created(body: map<string, Json>) | CreateFailed(failure: Failure)

  /** The handler: check the field, collect the acceptable files, upload them. The
      upload's behaviour on the files it is given is the parameter `upload`; `sent` is
      what the route hands it. */
  method CreateStorage(images: ImagesField, upload: UploadResult) returns (out: CreateOutcome, sent: Option<seq<FormValue>>)
    ensures !Provided(images) ==> out == CreateFailed(NoImages) && sent.None?
    ensures Provided(images) && Accepted(images) == [] ==> out == CreateFailed(NoValidImages(images)) && sent.None?
    ensures Provided(images) && Accepted(images) != [] ==> sent == Some(Accepted(images))
    ensures sent.Some? && upload.Uploaded? ==>
      out == Created(map["success" := JBool(true), "message" := JStr("Images uploaded successfully"), "data" := upload.data])
    ensures sent.Some? && upload.UploadThrewError? ==> out == CreateFailed(UploadFailed(Some(upload.message), sent.value))
    ensures sent.Some? && upload.UploadThrewOther? ==> out == CreateFailed(UploadFailed(None, sent.value))
  {
    if !Provided(images) {
      return CreateFailed(NoImages), None;
    }
    var allUploadedImages := CollectImages(images);
    if |allUploadedImages| == 0 {
      return CreateFailed(NoValidImages(images)), None;
    }
    sent := Some(allUploadedImages);
    match upload
    case Uploaded(data) =>
      out := Created(map["success" := JBool(true), "message" := JStr("Images uploaded successfully"), "data" := data]);
    case UploadThrewError(message) =>
      out := CreateFailed(UploadFailed(Some(message), allUploadedImages));
    case UploadThrewOther =>
      out := CreateFailed(UploadFailed(None, allUploadedImages));
  }

  // ---------------------------------------------------------------- properties

  /** Every file handed to the upload has an allowed type and a size within the limit,
      and every acceptable value in the field is handed over. */
  lemma SentFilesAreAcceptable(images: ImagesField)
    ensures forall v :: v in Accepted(images) ==> v.FormFile? && v.mimeType in AllowedMimeTypes && v.size <= MaxFileSize
    ensures images.Many? ==> forall v :: v in images.values && Acceptable(v) ==> v in Accepted(images)
  {
    if images.Many? {
      AcceptedMembers(images.values);
    }
  }

  /** A single value is uploaded exactly when it is acceptable. */
  lemma SingleValue(v: FormValue)
    ensures Accepted(Single(v)) != [] <==> Acceptable(v)
  {
  }

  /** An allowed type names its subtype after the `/`. */
  lemma ImageSubtype(sub: string, upper: string)
    requires !ContainsChar(sub, '/') && ToUpper(sub) == upper
    ensures |Split("image/" + sub, '/')| >= 2 && SubtypeName("image/" + sub) == upper
  {
    assert !ContainsChar("image", '/');
    SplitWithoutSeparator("image", '/');
    SplitWithoutSeparator(sub, '/');
    assert "image/" + sub == "image" + ['/'] + sub;
    SplitAround("image", sub, '/');
  }

  /** `image/<sub>` for each subtype. */
  function ImageTypes(subs: seq<string>): (types: seq<string>)
    ensures |types| == |subs| && forall k :: 0 <= k < |subs| ==> types[k] == "image/" + subs[k]
  {
    seq(|subs|, k requires 0 <= k < |subs| => "image/" + subs[k])
  }

  /** Image types name their subtypes, upper-cased, in order. */
  lemma {:induction false} ImageSubtypeNames(subs: seq<string>)
    requires forall k :: 0 <= k < |subs| ==> !ContainsChar(subs[k], '/')
    ensures forall i :: 0 <= i < |subs| ==> |Split(ImageTypes(subs)[i], '/')| >= 2
    ensures SubtypeNames(ImageTypes(subs)) == seq(|subs|, k requires 0 <= k < |subs| => ToUpper(subs[k]))
    decreases |subs|
  {
    forall i | 0 <= i < |subs| ensures |Split(ImageTypes(subs)[i], '/')| >= 2 {
      ImageSubtype(subs[i], ToUpper(subs[i]));
    }
    if subs != [] {
      ImageSubtype(subs[0], ToUpper(subs[0]));
      ImageSubtypeNames(subs[1..]);
      assert ImageTypes(subs)[1..] == ImageTypes(subs[1..]);
    }
  }

  const AllowedSubtypes: seq<string> := ["jpeg", "png", "gif", "webp"]

  lemma AllowedAreImageTypes()
    ensures AllowedMimeTypes == ImageTypes(AllowedSubtypes)
    ensures forall k :: 0 <= k < |AllowedSubtypes| ==> !ContainsChar(AllowedSubtypes[k], '/')
    ensures seq(|AllowedSubtypes|, k requires 0 <= k < |AllowedSubtypes| => ToUpper(AllowedSubtypes[k]))
      == ["JPEG", "PNG", "GIF", "WEBP"]
  {
    assert ToUpper("jpeg") == "JPEG" && ToUpper("png") == "PNG" && ToUpper("gif") == "GIF" && ToUpper("webp") == "WEBP";
    var types := ImageTypes(AllowedSubtypes);
    assert types[0] == "image/jpeg" && types[1] == "image/png" && types[2] == "image/gif" && types[3] == "image/webp";
    assert types == [types[0], types[1], types[2], types[3]];
  }

  /** The allowed types name the subtypes JPEG, PNG, GIF and WEBP. */
  lemma AllowedSubtypeNames()
    ensures forall i :: 0 <= i < |AllowedMimeTypes| ==> |Split(AllowedMimeTypes[i], '/')| >= 2
    ensures SubtypeNames(AllowedMimeTypes) == ["JPEG", "PNG", "GIF", "WEBP"]
  {
    AllowedAreImageTypes();
    ImageSubtypeNames(AllowedSubtypes);
  }

  /** The limits named in the `INVALID_FILES` message: the four subtypes and 2 MB. */
  lemma InvalidFilesMessage()
    ensures (AllowedSubtypeNames(); LimitsText(AllowedMimeTypes, MaxFileSize))
      == "Please ensure files are " + "JPEG, PNG, GIF, WEBP" + " images under " + "2" + "MB"
  {
    AllowedSubtypeNames();
    JoinOfSubtypes();
    assert RoundedMegabytes(MaxFileSize) == 2;
    assert NatToString(2) == "2";
  }

  lemma JoinOfSubtypes()
    ensures Join(["JPEG", "PNG", "GIF", "WEBP"], ", ") == "JPEG, PNG, GIF, WEBP"
  {
    var names := ["JPEG", "PNG", "GIF", "WEBP"];
    assert names[1..][1..][1..] == ["WEBP"];
    assert Join(names[1..][1..], ", ") == "GIF" + ", " + "WEBP";
    assert Join(names[1..], ", ") == "PNG" + ", " + ("GIF" + ", " + "WEBP");
  }

  const StorageServiceName := "File storage service"

  /** A missing field is refused as `REQUIRED` and a field without an acceptable file
      as `INVALID_FILES`, both with status 400 on `images[]`. */
  lemma ValidationFailureErrors(images: ImagesField)
    ensures var e := ErrorOf(NoImages);
      e.status == 400 && e.details[0].field == Some("images[]") && e.details[0].code == Some("REQUIRED")
    ensures var e := ErrorOf(NoValidImages(images));
      && e.status == 400 && e.details[0].field == Some("images[]") && e.details[0].code == Some("INVALID_FILES")
      && e.details[0].value == ImagesJson(images)
  {
  }

  /** A failed upload is a 502 `SERVICE_UNAVAILABLE` about the file storage service,
      listing the files it was given, with the thrown message when it was an `Error`. */
  lemma UploadFailureError(originalError: Option<string>, files: seq<FormValue>)
    ensures var e := ErrorOf(UploadFailed(originalError, files));
      && e.status == 502 && e.code == "SERVICE_UNAVAILABLE"
      && e.message == StorageServiceName + " service is currently unavailable"
      && e.context["files"] == FilesJson(files) && e.context["serviceName"] == JStr(StorageServiceName)
      && ("originalError" in e.context <==> originalError.Some?)
  {
    ExternalServiceErrors.ServiceUnavailableMessage(StorageServiceName);
  }
}

=== FILE: storage_list_route.dfy ===
/** `GET /api/v1/storage`: the `range`, `sort` and `filter` query parameters are JSON
    texts with defaults; the route validates their shape, lists one page of the storage
    table, counts the rows matching the same filter, and reports both in a
    `Content-Range` header. */
module StorageListRoute {
  import opened Wrappers
  import opened Json
  import opened Text
  import opened Values
  import opened Schema
  import opened Store
  import opened Query
  import opened Errors
  import DatabaseErrors

  /** A query parameter: absent, or its text with what `JSON.parse` makes of it
      (`None` when the text is not JSON). */
  datatype Param = Absent | Given(raw: string, parsed: Option<Json>)

  /** The parameter is truthy: present and non-empty. */
  predicate Supplied(p: Param) {
    p.Given? && p.raw != ""
  }

  /** `p ? JSON.parse(p) : fallback`, with `None` for a parse failure. */
  function ParseOr(p: Param, fallback: Json): (r: Option<Json>)
    ensures !Supplied(p) ==> r == Some(fallback)
    ensures Supplied(p) ==> r == p.parsed
  {
    if Supplied(p) then p.parsed else Some(fallback)
  }

  const DefaultRange := JArr([JNum(0), JNum(9)])
  const DefaultSort := JArr([JStr("createdAt"), JStr("DESC")])
  const DefaultFilter := JObj(map[])

  function RawValue(p: Param): Json {
    if p.Given? then JStr(p.raw) else JUndefined
  }

  /** The shape check on `range`: an array of exactly two numbers. */
  predicate RangeValid(j: Json) {
    j.JArr? && |j.items| == 2 && j.items[0].JNum? && j.items[1].JNum?
  }

  /** The shape check on `sort`: an array of two elements whose second is `ASC` or
      `DESC`; the first is not checked. */
  predicate SortValid(j: Json) {
    j.JArr? && |j.items| == 2 && (j.items[1] == JStr("ASC") || j.items[1] == JStr("DESC"))
  }

  /** The property name a JSON value stands for when used as `fields[value]`. */
  function PropertyKey(j: Json): (r: string)
    ensures j.JStr? ==> r == j.s
    ensures j.JNum? ==> ParseIntPrefix(r) == (true, j.n, |r|)
    decreases j, 1
  {
    NumberKeyReadsBack(j);
    match j
    case JUndefined => "undefined"
    case JNull => "null"
    case JBool(b) => if b then "true" else "false"
    case JNum(n) => IntToString(n)
    case JStr(s) => s
    case JArr(items) => ArrayText(items, j)
    case JObj(_) => "[object Object]"
  }

  /** `String(array)`: the elements joined with `,`, `null` and `undefined` as empty. */
  function ArrayText(items: seq<Json>, ghost parent: Json): string
    requires forall i :: 0 <= i < |items| ==> items[i] < parent
    decreases parent, 0, |items|
  {
    if items == [] then ""
    else
      var head := if items[0].JNull? || items[0].JUndefined? then "" else PropertyKey(items[0]);
      if |items| == 1 then head else head + "," + ArrayText(items[1..], parent)
  }

  /** A JSON scalar as a bound value. */
  function ScalarValue(j: Json): Value
    requires !j.JArr? && !j.JObj?
  {
    match j
    case JUndefined => VUndefined
    case JNull => VNull
    case JBool(b) => VBool(b)
    case JNum(n) => VInt(n)
    case JStr(s) => VText(s)
  }

  predicate Scalar(j: Json) {
    !j.JArr? && !j.JObj?
  }

  /** A filter entry: an array of scalars asks for membership, a scalar for equality;
      anything nested cannot be bound. */
  function FilterValueOf(j: Json): Option<FilterValue> {
    if j.JObj? then None
    else if j.JArr? then
      if forall i :: 0 <= i < |j.items| ==> Scalar(j.items[i]) then
        Some(FArray(seq(|j.items|, i requires 0 <= i < |j.items| && Scalar(j.items[i]) => ScalarValue(j.items[i]))))
      else None
    else Some(FScalar(ScalarValue(j)))
  }

  /** Every entry the query would bind (a storage column whose value is not
      `undefined`) holds a value the driver can bind. */
  predicate Bindable(filter: Json) {
    filter.JObj? ==> forall k :: k in filter.fields && HasColumn(StorageSchema, k) && filter.fields[k] != JUndefined ==>
      FilterValueOf(filter.fields[k]).Some?
  }

  /** The conditions a parsed filter gives. Only a plain object has entries that can
      name a storage column. */
  function FilterConditions(filter: Json): (c: Conditions)
    ensures filter.JObj? ==> forall k :: k in c <==> k in filter.fields && FilterValueOf(filter.fields[k]).Some?
    ensures !filter.JObj? ==> c == map[]
  {
    if filter.JObj? then
      map k | k in filter.fields && FilterValueOf(filter.fields[k]).Some? :: FilterValueOf(filter.fields[k]).value
    else map[]
  }

  // ---------------------------------------------------------------- errors

  const InvalidJsonText := "Query parameters must be valid JSON"
  const RangeFormatText := "Range must be an array of two numbers [start, end]"
  const SortFormatText := "Sort must be an array of [field, direction] where direction is ASC or DESC"
  const SetupFailureReason := "Failed to process storage list request"
  const ListFailureReason := "Failed to fetch storage list"
  const CountFailureReason := "Failed to count storage items"

  /** Why the route fails. */
  datatype Failure =
      /** An `Error` with this message thrown before the parameters are read. */
    | SetupFault(message: string)
      /** A supplied parameter is not JSON. */
    | NotJson(rawRange: Param, rawSort: Param, rawFilter: Param)
    | BadRange(range: Json)
    | BadSort(sort: Json)
      /** The driver rejects the list query, or the count query, with this message. */
    | ListFault(range: Json, sort: Json, filter: Json, driverMessage: string)
    | CountFault(filter: Json, driverMessage: string)
  {
    predicate DatabaseFault() {
      SetupFault? || ListFault? || CountFault?
    }
  }

  function InvalidJson(range: Param, sort: Param, filter: Param): (e: AppError)
    ensures e.status == 400 && e.code == "VALIDATION_ERROR" && |e.details| == 1
    ensures e.details[0].field == Some("query") && e.details[0].code == Some("INVALID_JSON")
  {
    NewValidationError("Invalid query parameters", [Detail(Some("query"), Some("INVALID_JSON"),
      InvalidJsonText,
      JObj(map["range" := RawValue(range), "sort" := RawValue(sort), "filter" := RawValue(filter)]))])
  }

  function InvalidRange(range: Json): (e: AppError)
    ensures e.status == 400 && e.code == "VALIDATION_ERROR" && |e.details| == 1
    ensures e.details[0].field == Some("range") && e.details[0].code == Some("INVALID_FORMAT") && e.details[0].value == range
  {
    NewValidationError("Invalid range parameter", [Detail(Some("range"), Some("INVALID_FORMAT"),
      RangeFormatText, range)])
  }

  function InvalidSort(sort: Json): (e: AppError)
    ensures e.status == 400 && e.code == "VALIDATION_ERROR" && |e.details| == 1
    ensures e.details[0].field == Some("sort") && e.details[0].code == Some("INVALID_FORMAT") && e.details[0].value == sort
  {
    NewValidationError("Invalid sort parameter", [Detail(Some("sort"), Some("INVALID_FORMAT"),
      SortFormatText, sort)])
  }

  /** The reason and context of a database fault: a setup fault keeps the thrown
      message; a query fault keeps the driver's message and the query it ran. */
  function FaultReason(f: Failure): (r: string)
    requires f.DatabaseFault()
    ensures r != ""
  {
    assert |SetupFailureReason| > 0 && |ListFailureReason| > 0 && |CountFailureReason| > 0;
    if f.SetupFault? then SetupFailureReason else if f.ListFault? then ListFailureReason else CountFailureReason
  }

  function FaultContext(f: Failure): Context
    requires f.DatabaseFault()
  {
    match f
    case SetupFault(message) => map["originalError" := JStr(message)]
    case ListFault(range, sort, filter, m) =>
      map["originalError" := JStr(m), "query" := JObj(map["range" := range, "sort" := sort, "filter" := filter])]
    case CountFault(filter, m) => map["originalError" := JStr(m), "query" := JObj(map["filter" := filter])]
  }

  /** `DatabaseError.schemaError('storage', reason, context)`: a 500 `SCHEMA_ERROR`
      naming the `storage` schema and the reason, whose context holds every key of
      the given one. */
  function StorageSchemaError(reason: string, context: Context): (e: AppError)
    ensures e.status == 500 && e.code == "SCHEMA_ERROR"
    ensures reason != "" ==> e.message == "Schema error in storage: " + reason
    ensures forall k :: k in context ==> k in e.context && e.context[k] == context[k]
  {
    StorageSchemaFacts(reason, context);
    DatabaseErrors.Make(DatabaseErrors.SchemaError(Some("storage"), Some(reason)), Some(context))
  }

  lemma StorageSchemaFacts(reason: string, context: Context)
    ensures var e := DatabaseErrors.Make(DatabaseErrors.SchemaError(Some("storage"), Some(reason)), Some(context));
      && e.status == 500 && e.code == "SCHEMA_ERROR"
      && (reason != "" ==> e.message == "Schema error in storage: " + reason)
      && (forall k :: k in context ==> k in e.context && e.context[k] == context[k])
  {
    var f := DatabaseErrors.SchemaError(Some("storage"), Some(reason));
    assert DatabaseErrors.Code(f) == "SCHEMA_ERROR";
    DatabaseErrors.SchemaErrorMessages(Some("storage"), Some(reason));
    assert "Schema error in " + "storage" + ": " == "Schema error in storage: ";
  }

  /** The error the route throws: a validation error for a malformed parameter, and a
      schema error about `storage` for anything the database or its setup throws. */
  function ErrorOf(f: Failure): AppError {
    if f.DatabaseFault() then StorageSchemaError(FaultReason(f), FaultContext(f))
    else if f.NotJson? then InvalidJson(f.rawRange, f.rawSort, f.rawFilter)
    else if f.BadRange? then InvalidRange(f.range)
    else InvalidSort(f.sort)
  }

  // ---------------------------------------------------------------- the route

  datatype ListOutcome =
    | Listed(records: seq<Row>, total: nat, contentRange: string)
    | ListFailed(failure: Failure)

  lemma NumberKeyReadsBack(j: Json)
    ensures j.JNum? ==> ParseIntPrefix(IntToString(j.n)) == (true, j.n, |IntToString(j.n)|)
  {
    if j.JNum? {
      ParseIntPrefixOfIntToString(j.n, []);
      assert IntToString(j.n) + [] == IntToString(j.n);
    }
  }

  /** The `Content-Range` header value: `storage `, then the range's start and end,
      each of which reads back from its place. */
  function ContentRange(r: Range, total: nat): (h: string)
    ensures StartsWith(h, "storage ")
    ensures ParseIntPrefix(h[8..]) == (true, r.start, |IntToString(r.start)|)
    ensures 8 + |IntToString(r.start)| + 1 <= |h|
    ensures ParseIntPrefix(h[8 + |IntToString(r.start)| + 1..]) == (true, r.end, |IntToString(r.end)|)
  {
    var h := "storage " + IntToString(r.start) + "-" + IntToString(r.end) + "/" + NatToString(total);
    assert h == "storage " + IntToString(r.start) + "-" + IntToString(r.end) + ("/" + NatToString(total));
    TwoNumbersReadBack(h, "storage ", r.start, "-", r.end, "/" + NatToString(total));
    h
  }

  /** The range and sort a valid `range` and `sort` stand for. */
  function RangeOf(range: Json): Range
    requires RangeValid(range)
  {
    Range(range.items[0].n, range.items[1].n)
  }

  function SortOf(sort: Json): Sort
    requires SortValid(sort)
  {
    Sort(PropertyKey(sort.items[0]), sort.items[1].s)
  }

  /** The queries, once the parameters have passed the shape checks: the page, then
      the count under the same filter. */
  function Answer(rows: seq<Row>, range: Json, sort: Json, filter: Json,
                  listRejected: bool, countRejected: bool, driverMessage: string): (r: ListOutcome)
    requires RangeValid(range) && SortValid(sort)
    ensures r.Listed? ==> !listRejected && !countRejected && forall x :: x in r.records ==> x in rows
    ensures r.ListFailed? ==> r.failure.DatabaseFault() && (r.failure.CountFault? ==> !listRejected)
  {
    if listRejected || !Bindable(filter) then ListFailed(ListFault(range, sort, filter, driverMessage))
    else if countRejected then ListFailed(CountFault(filter, driverMessage))
    else
      var total := CountSpec(StorageSchema, rows, FilterConditions(filter), false);
      Listed(ListSpec(StorageSchema, rows, Some(RangeOf(range)), Some(SortOf(sort)), FilterConditions(filter), false),
             total, ContentRange(RangeOf(range), total))
  }

  /** The route, as a specification. `setupFailure` is the message of an `Error` thrown
      before the parameters are read (opening the database); `listRejected` and
      `countRejected` say whether the driver rejects the list and the count query, and
      `driverMessage` is its error's message. */
  function ListStorageSpec(rows: seq<Row>, range: Param, sort: Param, filter: Param, setupFailure: Option<string>,
                           listRejected: bool, countRejected: bool, driverMessage: string): (r: ListOutcome)
    ensures setupFailure.Some? ==> r == ListFailed(SetupFault(setupFailure.value))
    ensures r.Listed? ==> setupFailure.None? && !listRejected && !countRejected
    ensures r.Listed? ==> forall x :: x in r.records ==> x in rows
    ensures r.ListFailed? && r.failure.CountFault? ==> !listRejected
  {
    if setupFailure.Some? then ListFailed(SetupFault(setupFailure.value))
    else
      var pr, ps, pf := ParseOr(range, DefaultRange), ParseOr(sort, DefaultSort), ParseOr(filter, DefaultFilter);
      if pr.None? || ps.None? || pf.None? then ListFailed(NotJson(range, sort, filter))
      else if !RangeValid(pr.value) then ListFailed(BadRange(pr.value))
      else if !SortValid(ps.value) then ListFailed(BadSort(ps.value))
      else Answer(rows, pr.value, ps.value, pf.value, listRejected, countRejected, driverMessage)
  }

  /** The two queries, in order. */
  method RunQueries(rows: seq<Row>, range: Json, sort: Json, filter: Json,
                    listRejected: bool, countRejected: bool, driverMessage: string) returns (out: ListOutcome)
    requires RangeValid(range) && SortValid(sort)
    ensures out == Answer(rows, range, sort, filter, listRejected, countRejected, driverMessage)
  {
    var r := RangeOf(range);
    var conditions := FilterConditions(filter);
    if listRejected || !Bindable(filter) {
      return ListFailed(ListFault(range, sort, filter, driverMessage));
    }
    var storageList := ListSpec(StorageSchema, rows, Some(r), Some(SortOf(sort)), conditions, false);
    if countRejected {
      return ListFailed(CountFault(filter, driverMessage));
    }
    var totalItems := CountSpec(StorageSchema, rows, conditions, false);
    out := Listed(storageList, totalItems, ContentRange(r, totalItems));
  }

  /** The handler, step by step: parse with defaults, check the shapes, then query. */
  method ListStorage(rows: seq<Row>, range: Param, sort: Param, filter: Param, setupFailure: Option<string>,
                     listRejected: bool, countRejected: bool, driverMessage: string) returns (out: ListOutcome)
    ensures out == ListStorageSpec(rows, range, sort, filter, setupFailure, listRejected, countRejected, driverMessage)
  {
    if setupFailure.Some? {
      return ListFailed(SetupFault(setupFailure.value));
    }
    var parsedRange := ParseOr(range, DefaultRange);
    var parsedSort := ParseOr(sort, DefaultSort);
    var parsedFilter := ParseOr(filter, DefaultFilter);
    if parsedRange.None? || parsedSort.None? || parsedFilter.None? {
      return ListFailed(NotJson(range, sort, filter));
    }
    if !RangeValid(parsedRange.value) {
      return ListFailed(BadRange(parsedRange.value));
    }
    if !SortValid(parsedSort.value) {
      return ListFailed(BadSort(parsedSort.value));
    }
    out := RunQueries(rows, parsedRange.value, parsedSort.value, parsedFilter.value, listRejected, countRejected, driverMessage);
  }

  // ---------------------------------------------------------------- properties

  /** The defaults stand for the first ten rows, newest first, and no filter. */
  lemma DefaultsMeaning()
    ensures RangeValid(DefaultRange) && RangeOf(DefaultRange) == Range(0, 9)
    ensures SortValid(DefaultSort) && SortOf(DefaultSort) == Sort("createdAt", "DESC")
    ensures FilterConditions(DefaultFilter) == map[] && Bindable(DefaultFilter)
  {
    assert PropertyKey(JStr("createdAt")) == "createdAt";
  }

  /** With no parameters the route lists the first ten live rows, newest first, and
      counts every live row. */
  lemma DefaultsApply(rows: seq<Row>, driverMessage: string)
    ensures ListStorageSpec(rows, Absent, Absent, Absent, None, false, false, driverMessage)
      == Listed(ListSpec(StorageSchema, rows, Some(Range(0, 9)), Some(Sort("createdAt", "DESC")), map[], false),
                CountSpec(StorageSchema, rows, map[], false),
                ContentRange(Range(0, 9), CountSpec(StorageSchema, rows, map[], false)))
  {
    DefaultsMeaning();
    var out := Answer(rows, DefaultRange, DefaultSort, DefaultFilter, false, false, driverMessage);
    assert ParseOr(Absent, DefaultRange) == Some(DefaultRange);
    assert ParseOr(Absent, DefaultSort) == Some(DefaultSort);
    assert ParseOr(Absent, DefaultFilter) == Some(DefaultFilter);
    assert ListStorageSpec(rows, Absent, Absent, Absent, None, false, false, driverMessage) == out;
  }

  /** Every error the route throws is a validation error (status 400, one detail) for
      a malformed parameter, or a schema error about `storage` (status 500) for a
      database fault: errors of those two classes pass through and anything else is
      wrapped as the latter, with the reason of the step that failed. */
  lemma ErrorsAreValidationOrSchema(f: Failure)
    ensures var e := ErrorOf(f);
      && (!f.DatabaseFault() ==> e.status == 400 && e.code == "VALIDATION_ERROR" && |e.details| == 1)
      && (f.DatabaseFault() ==>
            && e.status == 500 && e.code == "SCHEMA_ERROR"
            && e.message == "Schema error in storage: " + FaultReason(f)
            && e.context["originalError"] == JStr(if f.SetupFault? then f.message else f.driverMessage))
  {
    if f.DatabaseFault() {
      var e := StorageSchemaError(FaultReason(f), FaultContext(f));
      assert ErrorOf(f) == e;
      assert "originalError" in FaultContext(f);
    }
  }

  /** A range that is not two numbers is refused with `INVALID_FORMAT` on `range`,
      before any query runs; likewise a sort whose direction is not `ASC` or `DESC`. */
  lemma ShapeChecks(rows: seq<Row>, range: Param, sort: Param, filter: Param, listRejected: bool, countRejected: bool, m: string)
    requires ParseOr(range, DefaultRange).Some? && ParseOr(sort, DefaultSort).Some? && ParseOr(filter, DefaultFilter).Some?
    ensures var out := ListStorageSpec(rows, range, sort, filter, None, listRejected, countRejected, m);
      && (!RangeValid(ParseOr(range, DefaultRange).value) ==>
            && out == ListFailed(BadRange(ParseOr(range, DefaultRange).value))
            && ErrorOf(out.failure).details[0].field == Some("range") && ErrorOf(out.failure).details[0].code == Some("INVALID_FORMAT"))
      && (RangeValid(ParseOr(range, DefaultRange).value) && !SortValid(ParseOr(sort, DefaultSort).value) ==>
            && out == ListFailed(BadSort(ParseOr(sort, DefaultSort).value))
            && ErrorOf(out.failure).details[0].field == Some("sort") && ErrorOf(out.failure).details[0].code == Some("INVALID_FORMAT"))
  {
    var out := ListStorageSpec(rows, range, sort, filter, None, listRejected, countRejected, m);
    var pr, ps := ParseOr(range, DefaultRange).value, ParseOr(sort, DefaultSort).value;
    if !RangeValid(pr) {
      assert out == ListFailed(BadRange(pr));
      assert ErrorOf(out.failure) == InvalidRange(pr);
    } else if !SortValid(ps) {
      assert out == ListFailed(BadSort(ps));
      assert ErrorOf(out.failure) == InvalidSort(ps);
    }
  }

  /** A listed page holds only live rows matching the filter, in the requested order,
      and, when every row has an id, never more rows than the `Content-Range` total. */
  lemma AnswerMeaning(rows: seq<Row>, range: Json, sort: Json, filter: Json, m: string)
    requires RangeValid(range) && SortValid(sort)
    requires forall x :: x in rows ==> !IsNullish(Get(x, "id"))
    ensures var out := Answer(rows, range, sort, filter, false, false, m);
      out.Listed? ==>
        && |out.records| <= out.total
        && Sorted(ListOrder(StorageSchema, Some(SortOf(sort))), out.records)
        && forall x :: x in out.records ==>
             x in rows && SqlIsNull(Get(x, "deletedAt")) && MatchesFilter(StorageSchema, FilterConditions(filter), x)
  {
    var out := Answer(rows, range, sort, filter, false, false, m);
    if out.Listed? {
      var r, s, c := RangeOf(range), SortOf(sort), FilterConditions(filter);
      assert out.records == ListSpec(StorageSchema, rows, Some(r), Some(s), c, false);
      assert out.total == CountSpec(StorageSchema, rows, c, false);
      ListRowsAreSelected(StorageSchema, rows, Some(r), Some(s), c, false);
      PageWithinCount(StorageSchema, rows, Some(r), Some(s), c, false);
      StorageSchemaFeatures();
    }
  }

  /** The listed records are getList's answer to the parsed range, sort and filter,
      without deleted rows; Query.ListPositions then says which rows of the ordered
      selection they are. */
  lemma AnswerRecords(rows: seq<Row>, range: Json, sort: Json, filter: Json, m: string)
    requires RangeValid(range) && SortValid(sort)
    ensures var out := Answer(rows, range, sort, filter, false, false, m);
      out.Listed? ==> out.records == ListSpec(StorageSchema, rows, Some(RangeOf(range)), Some(SortOf(sort)), FilterConditions(filter), false)
  {
  }

  /** A listed page is at most `end - start + 1` rows long. */
  lemma AnswerPageLimit(rows: seq<Row>, range: Json, sort: Json, filter: Json, m: string)
    requires RangeValid(range) && SortValid(sort)
    ensures var out := Answer(rows, range, sort, filter, false, false, m);
      var s, e := range.items[0].n, range.items[1].n;
      out.Listed? && e - s + 1 >= 0 ==> |out.records| <= e - s + 1
  {
    AnswerRecords(rows, range, sort, filter, m);
    ListPositions(StorageSchema, rows, Some(RangeOf(range)), Some(SortOf(sort)), FilterConditions(filter), false);
  }

  /** The same for the whole route. */
  lemma ListedPageMeaning(rows: seq<Row>, range: Param, sort: Param, filter: Param, m: string)
    requires forall x :: x in rows ==> !IsNullish(Get(x, "id"))
    ensures var out := ListStorageSpec(rows, range, sort, filter, None, false, false, m);
      out.Listed? ==> |out.records| <= out.total && forall x :: x in out.records ==> x in rows && SqlIsNull(Get(x, "deletedAt"))
  {
    var out := ListStorageSpec(rows, range, sort, filter, None, false, false, m);
    var pr, ps, pf := ParseOr(range, DefaultRange), ParseOr(sort, DefaultSort), ParseOr(filter, DefaultFilter);
    if pr.Some? && ps.Some? && pf.Some? && RangeValid(pr.value) && SortValid(ps.value) {
      assert out == Answer(rows, pr.value, ps.value, pf.value, false, false, m);
      AnswerMeaning(rows, pr.value, ps.value, pf.value, m);
    } else {
      assert out.ListFailed?;
    }
  }
}

=== FILE: storage_records.dfy ===
/** The key-based helpers over the storage table that predate the repository engine:
    create a record under a fresh id, find the live record with a key, list the live
    records. Two copies exist; they differ in the id that create returns. */
module StorageRecords {
  import opened Wrappers
  import opened Values
  import opened Schema
  import opened Store

  /** `{ ...record, id }`: the caller's fields with `id` set (a caller `id` is overridden). */
  function WithId(record: Row, id: string): (r: Row)
    ensures r.Keys == record.Keys + {"id"}
    ensures Get(r, "id") == VText(id)
    ensures forall k :: k in record && k != "id" ==> r[k] == record[k]
  {
    record["id" := VText(id)]
  }

  /** createStorageRecord: insert `record` under `uid`; on success return the caller's
      fields with that same `uid`, otherwise rethrow the store's error unchanged. */
  function CreateRecordSpec(schema: TableSchema, rows: seq<Row>, record: Row, uid: string, nowText: string)
    : (out: (Result<Row, StoreError>, seq<Row>))
    ensures out.0.Success? ==> out.0.value == WithId(record, uid) && out.1 == rows + [NewRow(schema, WithId(record, uid), nowText)]
    ensures out.0.Failure? ==>
      && InsertSpec(schema, rows, WithId(record, uid), nowText).0.Failure?
      && out.0.error == InsertSpec(schema, rows, WithId(record, uid), nowText).0.error
      && out.1 == rows
  {
    var ins := InsertSpec(schema, rows, WithId(record, uid), nowText);
    if ins.0.Failure? then (Failure(ins.0.error), ins.1) else (Success(WithId(record, uid)), ins.1)
  }

  /** createFile as written: the row is inserted under `storedId`, but the object
      returned carries `returnedId`, a second, separately generated id. */
  function CreateFileAsWritten(schema: TableSchema, rows: seq<Row>, file: Row, storedId: string, returnedId: string,
                               nowText: string): (out: (Result<Row, StoreError>, seq<Row>))
    ensures out.0.Success? ==> out.0.value == WithId(file, returnedId) && out.1 == rows + [NewRow(schema, WithId(file, storedId), nowText)]
    ensures out.0.Failure? ==> out.1 == rows
  {
    var ins := InsertSpec(schema, rows, WithId(file, storedId), nowText);
    if ins.0.Failure? then (Failure(ins.0.error), ins.1) else (Success(WithId(file, returnedId)), ins.1)
  }

  /** The record createStorageRecord returns names the row it stored: both carry `uid`,
      and every other field the caller gave is returned as given. */
  lemma CreatedRecordCarriesStoredId(schema: TableSchema, rows: seq<Row>, record: Row, uid: string, nowText: string)
    requires HasColumn(schema, "id")
    ensures var out := CreateRecordSpec(schema, rows, record, uid, nowText);
      out.0.Success? ==>
        && |out.1| == |rows| + 1
        && Get(out.1[|rows|], "id") == Get(out.0.value, "id") == VText(uid)
        && forall k :: k in record && k != "id" ==> out.0.value[k] == record[k]
  {
    var out := CreateRecordSpec(schema, rows, record, uid, nowText);
    if out.0.Success? {
      assert "id" in Keys(schema);
      assert out.1[|rows|] == NewRow(schema, WithId(record, uid), nowText);
    }
  }

  /** createFile as written: whenever the two generated ids differ, the id it returns
      is not the id of the row it stored. */
  lemma CreateFileReturnsAnotherId(schema: TableSchema, rows: seq<Row>, file: Row, storedId: string, returnedId: string,
                                   nowText: string)
    requires HasColumn(schema, "id") && storedId != returnedId
    ensures var out := CreateFileAsWritten(schema, rows, file, storedId, returnedId, nowText);
      out.0.Success? ==> |out.1| == |rows| + 1 && Get(out.1[|rows|], "id") != Get(out.0.value, "id")
  {
    var out := CreateFileAsWritten(schema, rows, file, storedId, returnedId, nowText);
    if out.0.Success? {
      assert "id" in Keys(schema);
      assert out.1[|rows|] == NewRow(schema, WithId(file, storedId), nowText);
      assert Get(out.1[|rows|], "id") == VText(storedId);
    }
  }

  /** createStorageRecord: one id, used for the insert and for the result. */
  method CreateStorageRecord(table: Table, record: Row, uid: string, nowText: string) returns (r: Result<Row, StoreError>)
    requires table.Valid()
    modifies table
    ensures table.Valid()
    ensures (r, table.rows) == CreateRecordSpec(table.schema, old(table.rows), record, uid, nowText)
  {
    var values := record["id" := VText(uid)];
    var response := table.Insert(values, nowText);
    if response.Success? {
      return Success(record["id" := VText(uid)]);
    }
    return Failure(response.error);
  }

  /** createFile (services/db): the insert and the result each take a fresh id. */
  method CreateFile(table: Table, file: Row, storedId: string, returnedId: string, nowText: string)
    returns (r: Result<Row, StoreError>)
    requires table.Valid()
    modifies table
    ensures table.Valid()
    ensures (r, table.rows) == CreateFileAsWritten(table.schema, old(table.rows), file, storedId, returnedId, nowText)
  {
    var response := table.Insert(file["id" := VText(storedId)], nowText);
    if response.Success? {
      return Success(file["id" := VText(returnedId)]);
    }
    return Failure(response.error);
  }

  // ---------------------------------------------------------------- reads

  /** `key = ? AND deletedAt IS NULL`. */
  predicate LiveWithKey(row: Row, key: string) {
    SqlEq(Get(row, "key"), VText(key)) && SqlIsNull(Get(row, "deletedAt"))
  }

  /** getStorageRecordFromKey / getFileFromKey: the first live row with that key, in
      table order, or `null`. */
  function RecordFromKey(rows: seq<Row>, key: string): (r: Option<Row>)
    ensures r.None? <==> forall i :: 0 <= i < |rows| ==> !LiveWithKey(rows[i], key)
    ensures r.Some? ==> exists i :: (0 <= i < |rows| && rows[i] == r.value && LiveWithKey(r.value, key)
                                     && forall j :: 0 <= j < i ==> !LiveWithKey(rows[j], key))
  {
    if rows == [] then None
    else if LiveWithKey(rows[0], key) then Some(rows[0])
    else
      var rest := RecordFromKey(rows[1..], key);
      assert forall i :: 1 <= i < |rows| ==> rows[i] == rows[1..][i - 1];
      if rest.Some? then
        var i :| 0 <= i < |rows[1..]| && rows[1..][i] == rest.value && LiveWithKey(rest.value, key)
          && forall j :: 0 <= j < i ==> !LiveWithKey(rows[1..][j], key);
        assert rows[i + 1] == rest.value;
        rest
      else rest
  }

  /** listStorageRecords: exactly the rows whose `deletedAt` is NULL, in table order. */
  function ListRecords(rows: seq<Row>): (r: seq<Row>)
    ensures forall x :: x in r <==> x in rows && SqlIsNull(Get(x, "deletedAt"))
  {
    Filter(rows, x => SqlIsNull(Get(x, "deletedAt")))
  }
}

=== FILE: store.dfy ===
/** An in-memory SQLite table: rows in insertion (rowid) order, the NOT NULL,
    PRIMARY KEY and UNIQUE constraints of its schema, and the three statements the
    repository engine runs with `returning()`: INSERT, UPDATE … WHERE and DELETE … WHERE. */
module Store {
  import opened Wrappers
  import opened Values
  import opened Schema

  datatype StoreError =
    | NotNullFailed(table: string, column: string)   // NOT NULL constraint failed: table.column
    | UniqueFailed(table: string, column: string)    // UNIQUE constraint failed: table.column
    | NoValuesToSet                                  // an update payload with no defined value
    | EmptySetClause                                 // defined values, but none names a column

  /** The WHERE clause of an update or delete: `eq(id, …)` or `inArray(id, …)`. */
  datatype Where = IdEquals(id: Value) | IdIn(ids: seq<Value>)

  predicate Matches(w: Where, row: Row) {
    match w
    case IdEquals(id) => SqlEq(Get(row, "id"), id)
    case IdIn(ids) => SqlIn(Get(row, "id"), ids)
  }

  /** The rows that satisfy `p`, in table order. */
  function Filter(rows: seq<Row>, p: Row -> bool): (r: seq<Row>)
    ensures |r| <= |rows|
    ensures forall x :: x in r <==> x in rows && p(x)
  {
    if rows == [] then []
    else if p(rows[0]) then [rows[0]] + Filter(rows[1..], p)
    else Filter(rows[1..], p)
  }

  // ---------------------------------------------------------------- constraints

  /** A stored row has a value, possibly NULL, for every column and nothing else. */
  predicate FullRow(schema: TableSchema, row: Row) {
    row.Keys == Keys(schema) && forall k :: k in row ==> IsStored(row[k])
  }

  predicate ColumnHolds(c: Column, rows: seq<Row>) {
    (Required(c) ==> forall i :: 0 <= i < |rows| ==> !IsNullish(Get(rows[i], c.key)))
    && (Distinct(c) ==> forall i, j :: 0 <= i < j < |rows| ==> !SqlEq(Get(rows[i], c.key), Get(rows[j], c.key)))
  }

  predicate Consistent(schema: TableSchema, rows: seq<Row>) {
    (forall i :: 0 <= i < |rows| ==> FullRow(schema, rows[i]))
    && forall c :: c in schema.columns ==> ColumnHolds(c, rows)
  }

  /** The error SQLite reports for the first column, in declaration order, whose
      constraint the rows break. */
  function FirstViolation(table: string, cols: seq<Column>, rows: seq<Row>): (r: Option<StoreError>)
    ensures r.None? <==> forall c :: c in cols ==> ColumnHolds(c, rows)
  {
    if cols == [] then None
    else if !ColumnHolds(cols[0], rows) then
      if Required(cols[0]) && exists i :: 0 <= i < |rows| && IsNullish(Get(rows[i], cols[0].key))
      then Some(NotNullFailed(table, cols[0].name))
      else Some(UniqueFailed(table, cols[0].name))
    else FirstViolation(table, cols[1..], rows)
  }

  // ---------------------------------------------------------------- INSERT

  function DefaultFor(c: Column, nowText: string): Value {
    if c.default == CurrentTimestamp then VText(nowText) else VNull
  }

  /** The row an INSERT stores: each column takes the payload's defined value, or its
      default, or NULL; payload keys that are not columns are ignored. */
  function NewRow(schema: TableSchema, values: Row, nowText: string): (row: Row)
    ensures FullRow(schema, row)
  {
    map k | k in Keys(schema) ::
      if k in values && !values[k].VUndefined? then Bind(values[k])
      else DefaultFor(ColumnOf(schema, k), nowText)
  }

  /** INSERT … RETURNING: the stored row and the new table, or the first constraint
      error with the table unchanged. */
  function InsertSpec(schema: TableSchema, rows: seq<Row>, values: Row, nowText: string)
    : (out: (Result<Row, StoreError>, seq<Row>))
    ensures out.0.Success? ==> out.1 == rows + [out.0.value] && out.0.value == NewRow(schema, values, nowText)
    ensures out.0.Failure? ==> out.1 == rows
    ensures Consistent(schema, rows) ==> Consistent(schema, out.1)
  {
    var row := NewRow(schema, values, nowText);
    var err := FirstViolation(schema.tableName, schema.columns, rows + [row]);
    if err.Some? then (Failure(err.value), rows) else (Success(row), rows + [row])
  }

  /** A second row with the same non-NULL value in a UNIQUE or PRIMARY KEY column is
      refused, and the table is left as it was. */
  lemma {:induction false} DuplicateIsRejected(schema: TableSchema, rows: seq<Row>, values: Row, nowText: string, c: Column, i: nat)
    requires c in schema.columns && Distinct(c)
    requires i < |rows|
    requires c.key in values && !values[c.key].VUndefined?
    requires SqlEq(Get(rows[i], c.key), Bind(values[c.key]))
    ensures InsertSpec(schema, rows, values, nowText).0.Failure?
    ensures InsertSpec(schema, rows, values, nowText).1 == rows
  {
    var row := NewRow(schema, values, nowText);
    var all := rows + [row];
    assert c.key in Keys(schema);
    assert Get(row, c.key) == Bind(values[c.key]);
    assert all[i] == rows[i] && all[|rows|] == row;
    assert !ColumnHolds(c, all);
  }

  // ---------------------------------------------------------------- UPDATE

  /** `.set(values)`: the defined values whose keys are columns. */
  function Assignments(schema: TableSchema, values: Row): (a: Row)
    ensures a.Keys <= Keys(schema)
    ensures forall k :: k in a ==> IsStored(a[k])
  {
    map k | k in values && k in Keys(schema) && !values[k].VUndefined? :: Bind(values[k])
  }

  /** A defined payload value for a column of the table is assigned, bound. */
  lemma AssignmentOf(schema: TableSchema, values: Row, k: string)
    requires k in values && HasColumn(schema, k) && !values[k].VUndefined?
    ensures k in Assignments(schema, values) && Assignments(schema, values)[k] == Bind(values[k])
  {
    assert k in Keys(schema);
  }

  /** Laying a one-entry assignment over a row sets that one entry. */
  lemma OverlaySingle(row: Row, k: string, v: Value)
    ensures row + map[k := v] == row[k := v]
  {
  }

  /** A one-entry payload for a column of the table is its own assignment, bound. */
  lemma SingleAssignment(schema: TableSchema, k: string, v: Value)
    requires HasColumn(schema, k) && !v.VUndefined?
    ensures Assignments(schema, map[k := v]) == map[k := Bind(v)]
  {
    assert k in Keys(schema);
  }

  predicate HasDefinedEntry(values: Row) {
    exists k :: k in values && !values[k].VUndefined?
  }

  /** Every row the WHERE clause matches, with the assignments applied. */
  function ApplyUpdate(rows: seq<Row>, w: Where, a: Row): (r: seq<Row>)
    ensures |r| == |rows|
    ensures forall i :: 0 <= i < |rows| ==> r[i] == if Matches(w, rows[i]) then rows[i] + a else rows[i]
  {
    if rows == [] then []
    else [if Matches(w, rows[0]) then rows[0] + a else rows[0]] + ApplyUpdate(rows[1..], w, a)
  }

  /** Each row with the assignments applied. */
  function Overlay(rows: seq<Row>, a: Row): (r: seq<Row>)
    ensures |r| == |rows|
    ensures forall i :: 0 <= i < |rows| ==> r[i] == rows[i] + a
  {
    if rows == [] then [] else [rows[0] + a] + Overlay(rows[1..], a)
  }

  /** What `returning()` gives for an update: the matched rows after the change. */
  function Affected(rows: seq<Row>, w: Where, a: Row): seq<Row> {
    Overlay(Removed(rows, w), a)
  }

  /** UPDATE … SET … WHERE … RETURNING. */
  function UpdateSpec(schema: TableSchema, rows: seq<Row>, w: Where, values: Row)
    : (out: (Result<seq<Row>, StoreError>, seq<Row>))
    ensures !HasDefinedEntry(values) ==> out.0 == Failure(NoValuesToSet)
    ensures out.0.Failure? ==> out.1 == rows
    ensures out.0.Success? ==>
      (out.1 == ApplyUpdate(rows, w, Assignments(schema, values))
       && out.0.value == Affected(rows, w, Assignments(schema, values)))
    ensures Consistent(schema, rows) ==> Consistent(schema, out.1)
  {
    if !HasDefinedEntry(values) then (Failure(NoValuesToSet), rows)
    else
      var a := Assignments(schema, values);
      if a == map[] then (Failure(EmptySetClause), rows)
      else
        var updated := ApplyUpdate(rows, w, a);
        var err := FirstViolation(schema.tableName, schema.columns, updated);
        if err.Some? then (Failure(err.value), rows)
        else
          UpdateKeepsFullRows(schema, rows, w, a);
          (Success(Affected(rows, w, a)), updated)
  }

  lemma UpdateKeepsFullRows(schema: TableSchema, rows: seq<Row>, w: Where, a: Row)
    requires a.Keys <= Keys(schema) && forall k :: k in a ==> IsStored(a[k])
    ensures (forall i :: 0 <= i < |rows| ==> FullRow(schema, rows[i])) ==>
      forall i :: 0 <= i < |rows| ==> FullRow(schema, ApplyUpdate(rows, w, a)[i])
  {
    var u := ApplyUpdate(rows, w, a);
    forall i | 0 <= i < |rows| && FullRow(schema, rows[i]) ensures FullRow(schema, u[i]) {
      if Matches(w, rows[i]) {
        assert u[i] == rows[i] + a;
        assert (rows[i] + a).Keys == rows[i].Keys + a.Keys;
      }
    }
  }

  // ---------------------------------------------------------------- DELETE

  /** The rows a DELETE keeps. */
  function Kept(rows: seq<Row>, w: Where): seq<Row> {
    Filter(rows, r => !Matches(w, r))
  }

  /** What `returning()` gives for a delete. */
  function Removed(rows: seq<Row>, w: Where): seq<Row> {
    Filter(rows, r => Matches(w, r))
  }

  /** A delete splits the table: every row is either kept or returned, never both. */
  lemma {:induction false} DeleteSplitsRows(rows: seq<Row>, w: Where)
    ensures multiset(Kept(rows, w)) + multiset(Removed(rows, w)) == multiset(rows)
  {
    if rows != [] {
      DeleteSplitsRows(rows[1..], w);
      assert rows == [rows[0]] + rows[1..];
    }
  }

  lemma {:induction false} HoldsOfTail(c: Column, rows: seq<Row>)
    requires rows != [] && ColumnHolds(c, rows)
    ensures ColumnHolds(c, rows[1..])
  {
    if Distinct(c) {
      forall i, j | 0 <= i < j < |rows[1..]|
        ensures !SqlEq(Get(rows[1..][i], c.key), Get(rows[1..][j], c.key))
      {
        assert rows[1..][i] == rows[i + 1] && rows[1..][j] == rows[j + 1];
      }
    }
  }

  /** Dropping rows never breaks a column constraint. */
  lemma {:induction false} FilterKeepsColumn(c: Column, rows: seq<Row>, p: Row -> bool)
    requires ColumnHolds(c, rows)
    ensures ColumnHolds(c, Filter(rows, p))
  {
    if rows != [] {
      HoldsOfTail(c, rows);
      FilterKeepsColumn(c, rows[1..], p);
      var rest := Filter(rows[1..], p);
      if p(rows[0]) {
        var r := [rows[0]] + rest;
        assert r == Filter(rows, p);
        if Distinct(c) {
          forall i, j | 0 <= i < j < |r|
            ensures !SqlEq(Get(r[i], c.key), Get(r[j], c.key))
          {
            if i == 0 {
              assert r[j] == rest[j - 1] && r[j] in rows[1..];
              var m :| 0 <= m < |rows[1..]| && rows[1..][m] == r[j];
              assert rows[m + 1] == r[j];
            } else {
              assert r[i] == rest[i - 1] && r[j] == rest[j - 1];
            }
          }
        }
        if Required(c) {
          forall i | 0 <= i < |r| ensures !IsNullish(Get(r[i], c.key)) {
            if i > 0 {
              assert r[i] in rows[1..];
            }
          }
        }
      }
    }
  }

  lemma FilterKeepsConsistent(schema: TableSchema, rows: seq<Row>, p: Row -> bool)
    requires Consistent(schema, rows)
    ensures Consistent(schema, Filter(rows, p))
  {
    var r := Filter(rows, p);
    forall c | c in schema.columns ensures ColumnHolds(c, r) {
      FilterKeepsColumn(c, rows, p);
    }
    forall i | 0 <= i < |r| ensures FullRow(schema, r[i]) {
      assert r[i] in rows;
    }
  }

  // ---------------------------------------------------------------- the table

  class Table {
    const schema: TableSchema
    var rows: seq<Row>

    ghost predicate Valid()
      reads this
    {
      WellFormed(schema) && Consistent(schema, rows)
    }

    constructor (schema: TableSchema)
      requires WellFormed(schema)
      ensures Valid() && this.schema == schema && rows == []
    {
      this.schema := schema;
      rows := [];
    }

    method Insert(values: Row, nowText: string) returns (r: Result<Row, StoreError>)
      requires Valid()
      modifies this
      ensures Valid()
      ensures (r, rows) == InsertSpec(schema, old(rows), values, nowText)
    {
      var out := InsertSpec(schema, rows, values, nowText);
      r, rows := out.0, out.1;
    }

    method Update(w: Where, values: Row) returns (r: Result<seq<Row>, StoreError>)
      requires Valid()
      modifies this
      ensures Valid()
      ensures (r, rows) == UpdateSpec(schema, old(rows), w, values)
    {
      var out := UpdateSpec(schema, rows, w, values);
      r, rows := out.0, out.1;
    }

    method Delete(w: Where) returns (deleted: seq<Row>)
      requires Valid()
      modifies this
      ensures Valid()
      ensures rows == Kept(old(rows), w) && deleted == Removed(old(rows), w)
    {
      FilterKeepsConsistent(schema, rows, r => !Matches(w, r));
      deleted := Removed(rows, w);
      rows := Kept(rows, w);
    }
  }
}

=== FILE: system_errors.dfy ===
/** `SystemError` (500) and its static factories. Each factory records its own
    arguments in the context and spreads the caller's context over them. */
module SystemErrors {
  import opened Wrappers
  import opened Json
  import opened Text
  import opened Errors

  datatype Factory =
    | OutOfMemory(processId: Option<string>, memoryUsage: Option<string>)
    | CpuExhaustion(cpuUsage: Option<int>, threshold: Option<int>)
    | FileSystemError(operation: string, path: Option<string>, reason: Option<string>)
    | PermissionDenied(resource: string, deniedOperation: Option<string>)
    | DiskSpaceFull(path: Option<string>, availableSpace: Option<string>, requiredSpace: Option<string>)
    | EnvironmentVariableMissing(variableName: string)
    | ConfigurationError(configPath: Option<string>, reason: Option<string>)
    | ProcessKilled(processName: Option<string>, signal: Option<string>, exitCode: Option<int>)
    | NetworkInterfaceError(interfaceName: Option<string>, reason: Option<string>)
    | SecurityViolation(violation: string)
    | ResourceExhaustion(resourceType: string, limit: Option<int>, current: Option<int>)
    | OsError(operation: string, errorCode: Option<string>)
    | RuntimeError(runtime: string, version: Option<string>, reason: Option<string>)
    | DependencyMissing(dependency: string, version: Option<string>)
    | TemporaryDirectoryFull(tempPath: Option<string>)
    | CronJobFailed(jobName: string, schedule: Option<string>, reason: Option<string>)
    | SignalReceived(receivedSignal: string, action: Option<string>)
    | WatchdogTimeout(service: Option<string>, timeoutMs: Option<int>)
    | ContainerError(containerName: Option<string>, reason: Option<string>)
    | KernelPanic(reason: Option<string>)
    | MemoryLeak(component: Option<string>, memoryGrowth: Option<string>)

  /** The factory's position in the class's list of factories. */
  function Kind(f: Factory): nat {
    match f
    case OutOfMemory(_, _) => 0
    case CpuExhaustion(_, _) => 1
    case FileSystemError(_, _, _) => 2
    case PermissionDenied(_, _) => 3
    case DiskSpaceFull(_, _, _) => 4
    case EnvironmentVariableMissing(_) => 5
    case ConfigurationError(_, _) => 6
    case ProcessKilled(_, _, _) => 7
    case NetworkInterfaceError(_, _) => 8
    case SecurityViolation(_) => 9
    case ResourceExhaustion(_, _, _) => 10
    case OsError(_, _) => 11
    case RuntimeError(_, _, _) => 12
    case DependencyMissing(_, _) => 13
    case TemporaryDirectoryFull(_) => 14
    case CronJobFailed(_, _, _) => 15
    case SignalReceived(_, _) => 16
    case WatchdogTimeout(_, _) => 17
    case ContainerError(_, _) => 18
    case KernelPanic(_) => 19
    case MemoryLeak(_, _) => 20
  }

  /** The position of the factory whose code is `c`, if any: the length and a
      character or two single out the one candidate, which must then match. */
  function KindOfCode(c: string): Option<nat> {
    if |c| == 13 && c[0] == 'O' then (if c == "OUT_OF_MEMORY" then Some(0) else None)
    else if |c| == 14 && c[0] == 'C' then (if c == "CPU_EXHAUSTION" then Some(1) else None)
    else if |c| == 17 && c[0] == 'F' then (if c == "FILE_SYSTEM_ERROR" then Some(2) else None)
    else if |c| == 17 && c[0] == 'P' then (if c == "PERMISSION_DENIED" then Some(3) else None)
    else if |c| == 15 && c[0] == 'D' then (if c == "DISK_SPACE_FULL" then Some(4) else None)
    else if |c| == 15 && c[0] == 'E' then (if c == "ENV_VAR_MISSING" then Some(5) else None)
    else if |c| == 19 && c[0] == 'C' then (if c == "CONFIGURATION_ERROR" then Some(6) else None)
    else if |c| == 14 && c[0] == 'P' then (if c == "PROCESS_KILLED" then Some(7) else None)
    else if |c| == 23 then (if c == "NETWORK_INTERFACE_ERROR" then Some(8) else None)
    else if |c| == 18 && c[0] == 'S' then (if c == "SECURITY_VIOLATION" then Some(9) else None)
    else if |c| == 19 && c[0] == 'R' then (if c == "RESOURCE_EXHAUSTION" then Some(10) else None)
    else if |c| == 8 then (if c == "OS_ERROR" then Some(11) else None)
    else if |c| == 13 && c[0] == 'R' then (if c == "RUNTIME_ERROR" then Some(12) else None)
    else if |c| == 18 && c[0] == 'D' then (if c == "DEPENDENCY_MISSING" then Some(13) else None)
    else if |c| == 13 && c[0] == 'T' then (if c == "TEMP_DIR_FULL" then Some(14) else None)
    else if |c| == 15 && c[1] == 'R' then (if c == "CRON_JOB_FAILED" then Some(15) else None)
    else if |c| == 15 && c[0] == 'S' then (if c == "SIGNAL_RECEIVED" then Some(16) else None)
    else if |c| == 16 then (if c == "WATCHDOG_TIMEOUT" then Some(17) else None)
    else if |c| == 15 && c[1] == 'O' then (if c == "CONTAINER_ERROR" then Some(18) else None)
    else if |c| == 12 then (if c == "KERNEL_PANIC" then Some(19) else None)
    else if |c| == 11 then (if c == "MEMORY_LEAK" then Some(20) else None)
    else None
  }

  /** The class default is no factory's code. */
  lemma DefaultCodeUnclaimed()
    ensures KindOfCode(DefaultCode(SystemError)).None?
  {
  }

  function Code(f: Factory): (c: string)
    ensures c != ""
    ensures KindOfCode(c) == Some(Kind(f))
  {
    match f
    case OutOfMemory(_, _) => "OUT_OF_MEMORY"
    case CpuExhaustion(_, _) => "CPU_EXHAUSTION"
    case FileSystemError(_, _, _) => "FILE_SYSTEM_ERROR"
    case PermissionDenied(_, _) => "PERMISSION_DENIED"
    case DiskSpaceFull(_, _, _) => "DISK_SPACE_FULL"
    case EnvironmentVariableMissing(_) => "ENV_VAR_MISSING"
    case ConfigurationError(_, _) => "CONFIGURATION_ERROR"
    case ProcessKilled(_, _, _) => "PROCESS_KILLED"
    case NetworkInterfaceError(_, _) => "NETWORK_INTERFACE_ERROR"
    case SecurityViolation(_) => "SECURITY_VIOLATION"
    case ResourceExhaustion(_, _, _) => "RESOURCE_EXHAUSTION"
    case OsError(_, _) => "OS_ERROR"
    case RuntimeError(_, _, _) => "RUNTIME_ERROR"
    case DependencyMissing(_, _) => "DEPENDENCY_MISSING"
    case TemporaryDirectoryFull(_) => "TEMP_DIR_FULL"
    case CronJobFailed(_, _, _) => "CRON_JOB_FAILED"
    case SignalReceived(_, _) => "SIGNAL_RECEIVED"
    case WatchdogTimeout(_, _) => "WATCHDOG_TIMEOUT"
    case ContainerError(_, _) => "CONTAINER_ERROR"
    case KernelPanic(_) => "KERNEL_PANIC"
    case MemoryLeak(_, _) => "MEMORY_LEAK"
  }

  /** The three-way shape several factories share: subject and reason, subject alone,
      or the reason (or a fallback) alone. */
  function SubjectReason(head: string, preposition: string, subject: Option<string>, reason: Option<string>, fallback: string): string {
    if TextGiven(subject) && TextGiven(reason) then head + " " + preposition + " " + subject.value + ": " + reason.value
    else if TextGiven(subject) then head + " " + preposition + " " + subject.value
    else head + ": " + OrElse(reason, fallback)
  }

  /** What a configuration error without a path or a reason says. */
  const InvalidConfiguration := "Invalid configuration"

  function Message(f: Factory): (m: string)
    ensures m != ""
  {
    match f
    case OutOfMemory(_, usage) =>
      if TextGiven(usage) then "Out of memory: " + usage.value + " used" else "Out of memory"
    case CpuExhaustion(cpu, th) =>
      if NumberGiven(cpu) && NumberGiven(th) then
        "CPU exhaustion: " + IntToString(cpu.value) + "% usage exceeds " + IntToString(th.value) + "% threshold"
      else "CPU exhaustion detected"
    case FileSystemError(op, path, reason) =>
      if TextGiven(path) && TextGiven(reason) then "File system error: Cannot " + op + " " + path.value + " - " + reason.value
      else if TextGiven(path) then "File system error: Cannot " + op + " " + path.value
      else "File system error: Cannot " + op
    case PermissionDenied(resource, op) =>
      if TextGiven(op) then "Permission denied: Cannot " + op.value + " " + resource
      else "Permission denied: Access to " + resource
    case DiskSpaceFull(path, a, r) =>
      if TextGiven(path) && TextGiven(a) && TextGiven(r) then
        "Disk space full at " + path.value + ": " + a.value + " available, " + r.value + " required"
      else if TextGiven(path) then "Disk space full at " + path.value
      else "Disk space full"
    case EnvironmentVariableMissing(name) => "Required environment variable missing: " + name
    case ConfigurationError(p, r) => SubjectReason("Configuration error", "in", p, r, InvalidConfiguration)
    case ProcessKilled(name, signal, _) =>
      if TextGiven(name) && TextGiven(signal) then "Process " + name.value + " killed with signal " + signal.value
      else if TextGiven(name) then "Process " + name.value + " terminated unexpectedly"
      else "Process terminated unexpectedly"
    case NetworkInterfaceError(name, r) => SubjectReason("Network interface error", "on", name, r, "Unknown network issue")
    case SecurityViolation(v) => "Security violation detected: " + v
    case ResourceExhaustion(t, limit, current) =>
      if NumberGiven(limit) && NumberGiven(current) then
        t + " exhausted: " + IntToString(current.value) + "/" + IntToString(limit.value) + " in use"
      else t + " exhausted"
    case OsError(op, code) =>
      if TextGiven(code) then "OS error during " + op + ": " + code.value else "OS error during " + op
    case RuntimeError(runtime, version, reason) =>
      if TextGiven(version) && TextGiven(reason) then runtime + " " + version.value + " runtime error: " + reason.value
      else if runtime != "" && TextGiven(reason) then runtime + " runtime error: " + reason.value
      else runtime + " runtime error"
    case DependencyMissing(d, version) =>
      if TextGiven(version) then "Missing dependency: " + d + " " + version.value else "Missing dependency: " + d
    case TemporaryDirectoryFull(p) =>
      if TextGiven(p) then "Temporary directory full: " + p.value else "Temporary directory full"
    case CronJobFailed(job, schedule, reason) =>
      if TextGiven(schedule) && TextGiven(reason) then "Cron job " + job + " (" + schedule.value + ") failed: " + reason.value
      else if TextGiven(schedule) then "Cron job " + job + " (" + schedule.value + ") failed"
      else "Cron job " + job + " failed: " + OrElse(reason, "Unknown error")
    case SignalReceived(signal, action) =>
      if TextGiven(action) then "Received signal " + signal + ": " + action.value else "Received signal " + signal
    case WatchdogTimeout(service, t) =>
      if TextGiven(service) && NumberGiven(t) then "Watchdog timeout for " + service.value + " after " + IntToString(t.value) + "ms"
      else if TextGiven(service) then "Watchdog timeout for " + service.value
      else "Watchdog timeout: " + (if NumberGiven(t) then IntToString(t.value) else "unknown") + "ms"
    case ContainerError(name, r) => SubjectReason("Container error", "in", name, r, "Unknown container issue")
    case KernelPanic(r) =>
      if TextGiven(r) then "Kernel panic: " + r.value else "Kernel panic detected"
    case MemoryLeak(component, growth) =>
      if TextGiven(component) && TextGiven(growth) then "Memory leak detected in " + component.value + ": " + growth.value + " growth"
      else if TextGiven(component) then "Memory leak detected in " + component.value
      else "Memory leak detected: " + OrElse(growth, "Unknown growth rate")
  }

  function Named(f: Factory): (c: Context)
    ensures |c| >= 1
  {
    match f
    case OutOfMemory(pid, usage) => map["processId" := TextValue(pid), "memoryUsage" := TextValue(usage)]
    case CpuExhaustion(cpu, th) => map["cpuUsage" := NumberValue(cpu), "threshold" := NumberValue(th)]
    case FileSystemError(op, path, reason) =>
      map["operation" := JStr(op), "path" := TextValue(path), "reason" := TextValue(reason)]
    case PermissionDenied(resource, op) => map["resource" := JStr(resource), "operation" := TextValue(op)]
    case DiskSpaceFull(path, a, r) =>
      map["path" := TextValue(path), "availableSpace" := TextValue(a), "requiredSpace" := TextValue(r)]
    case EnvironmentVariableMissing(name) => map["variableName" := JStr(name)]
    case ConfigurationError(p, r) => map["configPath" := TextValue(p), "reason" := TextValue(r)]
    case ProcessKilled(name, signal, code) =>
      map["processName" := TextValue(name), "signal" := TextValue(signal), "exitCode" := NumberValue(code)]
    case NetworkInterfaceError(name, r) => map["interfaceName" := TextValue(name), "reason" := TextValue(r)]
    case SecurityViolation(v) => map["violation" := JStr(v)]
    case ResourceExhaustion(t, limit, current) =>
      map["resourceType" := JStr(t), "limit" := NumberValue(limit), "current" := NumberValue(current)]
    case OsError(op, code) => map["operation" := JStr(op), "errorCode" := TextValue(code)]
    case RuntimeError(runtime, version, reason) =>
      map["runtime" := JStr(runtime), "version" := TextValue(version), "reason" := TextValue(reason)]
    case DependencyMissing(d, version) => map["dependency" := JStr(d), "version" := TextValue(version)]
    case TemporaryDirectoryFull(p) => map["tempPath" := TextValue(p)]
    case CronJobFailed(job, schedule, reason) =>
      map["jobName" := JStr(job), "schedule" := TextValue(schedule), "reason" := TextValue(reason)]
    case SignalReceived(signal, action) => map["signal" := JStr(signal), "action" := TextValue(action)]
    case WatchdogTimeout(service, t) => map["service" := TextValue(service), "timeoutMs" := NumberValue(t)]
    case ContainerError(name, r) => map["containerName" := TextValue(name), "reason" := TextValue(r)]
    case KernelPanic(r) => map["reason" := TextValue(r)]
    case MemoryLeak(component, growth) => map["component" := TextValue(component), "memoryGrowth" := TextValue(growth)]
  }

  /** A factory's error: status 500, its own code in place of the class default, and
      a context holding its arguments with the caller's keys winning. */
  function Make(f: Factory, context: Option<Context>): (e: AppError)
    ensures e.status == 500 && e.category == System
    ensures e.code == Code(f) && e.code != DefaultCode(SystemError)
    ensures e.message == Message(f)
    ensures e.context == Spread(Named(f), context)
  {
    Raise(SystemError, Message(f), Code(f), Spread(Named(f), context))
  }

  /** `fileSystemError` names the path only when given, and the reason only together
      with a path. */
  lemma FileSystemMessages(op: string, path: Option<string>, reason: Option<string>)
    ensures var m := Message(FileSystemError(op, path, reason));
      && (TextGiven(path) && TextGiven(reason) ==> m == "File system error: Cannot " + op + " " + path.value + " - " + reason.value)
      && (TextGiven(path) && !TextGiven(reason) ==> m == "File system error: Cannot " + op + " " + path.value)
      && (!TextGiven(path) ==> m == Message(FileSystemError(op, None, None)))
  {
  }

  /** `configurationError` with neither a path nor a reason falls back to `Invalid
      configuration`; a reason without a path is shown after a colon. */
  lemma ConfigurationFallback(path: Option<string>, reason: Option<string>)
    requires !TextGiven(path)
    ensures !TextGiven(reason) ==> Message(ConfigurationError(path, reason)) == "Configuration error: " + InvalidConfiguration
    ensures TextGiven(reason) ==> Message(ConfigurationError(path, reason)) == "Configuration error: " + reason.value
  {
  }

  /** `runtimeError` names the version only together with a reason; without a reason
      the message is the runtime name alone. */
  lemma RuntimeMessages(runtime: string, version: Option<string>, reason: Option<string>)
    ensures var m := Message(RuntimeError(runtime, version, reason));
      && (TextGiven(version) && TextGiven(reason) ==> m == runtime + " " + version.value + " runtime error: " + reason.value)
      && (!TextGiven(version) && runtime != "" && TextGiven(reason) ==> m == runtime + " runtime error: " + reason.value)
      && (!TextGiven(reason) ==> m == runtime + " runtime error")
  {
  }

  /** `watchdogTimeout` with neither a service nor a timeout prints `unknown` in
      place of the number, before the unit. */
  lemma WatchdogUnknown(service: Option<string>, timeoutMs: Option<int>)
    requires !TextGiven(service) && !NumberGiven(timeoutMs)
    ensures Message(WatchdogTimeout(service, timeoutMs)) == "Watchdog timeout: unknownms"
  {
    assert "Watchdog timeout: " + "unknown" + "ms" == "Watchdog timeout: unknownms";
  }

  /** `outOfMemory` always carries `OUT_OF_MEMORY`, the process id in the context,
      and the usage in the message when given. */
  lemma OutOfMemoryFacts(pid: Option<string>, usage: Option<string>)
    ensures var e := Make(OutOfMemory(pid, usage), None);
      && e.code == "OUT_OF_MEMORY" && e.status == 500
      && e.context["processId"] == TextValue(pid)
      && (TextGiven(usage) ==> e.message == "Out of memory: " + usage.value + " used")
      && (!TextGiven(usage) ==> e.message == "Out of memory")
  {
  }
}

=== FILE: text.dfy ===
/** String helpers with the JavaScript meaning the source relies on: ASCII case mapping,
    `split`/`join`, `trim`, `startsWith`, and the decimal rendering of integers in
    template literals. */
module Text {

  // ---------------------------------------------------------------- case mapping

  function ToLowerChar(c: char): char {
    if 'A' <= c <= 'Z' then (c as int + 32) as char else c
  }

  function ToUpperChar(c: char): char {
    if 'a' <= c <= 'z' then (c as int - 32) as char else c
  }

  /** `s.toLowerCase()` on the ASCII range: no capital ASCII letter is left, and
      every character that was not one is kept in place; a capital becomes the
      small letter whose capital it is. */
  function ToLower(s: string): (r: string)
    ensures |r| == |s|
    ensures forall i :: 0 <= i < |r| ==> !('A' <= r[i] <= 'Z')
    ensures forall i :: 0 <= i < |s| && !('A' <= s[i] <= 'Z') ==> r[i] == s[i]
    ensures forall i :: 0 <= i < |s| && 'A' <= s[i] <= 'Z' ==> ToUpperChar(r[i]) == s[i]
  {
    seq(|s|, i requires 0 <= i < |s| => ToLowerChar(s[i]))
  }

  /** `s.toUpperCase()` on the ASCII range: no small ASCII letter is left, and every
      character that was not one is kept in place; a small letter becomes the
      capital whose small letter it is. */
  function ToUpper(s: string): (r: string)
    ensures |r| == |s|
    ensures forall i :: 0 <= i < |r| ==> !('a' <= r[i] <= 'z')
    ensures forall i :: 0 <= i < |s| && !('a' <= s[i] <= 'z') ==> r[i] == s[i]
    ensures forall i :: 0 <= i < |s| && 'a' <= s[i] <= 'z' ==> ToLowerChar(r[i]) == s[i]
  {
    seq(|s|, i requires 0 <= i < |s| => ToUpperChar(s[i]))
  }

  lemma LowerIsIdempotent(s: string)
    ensures ToLower(ToLower(s)) == ToLower(s)
  {
    forall i | 0 <= i < |s|
      ensures ToLower(ToLower(s))[i] == ToLower(s)[i]
    {
      var c := s[i];
      if 'A' <= c <= 'Z' {
        assert 'a' <= ToLowerChar(c) <= 'z';
      }
    }
  }

  // ---------------------------------------------------------------- split and join

  /** `s.split(sep)` for a one-character separator: "" gives [""], and adjacent
      separators give empty parts. */
  function Split(s: string, sep: char): (parts: seq<string>)
    ensures |parts| >= 1
    decreases |s|
  {
    if |s| == 0 then [""]
    else if s[0] == sep then [""] + Split(s[1..], sep)
    else
      var rest := Split(s[1..], sep);
      [[s[0]] + rest[0]] + rest[1..]
  }

  /** `parts.join(sep)`. */
  function Join(parts: seq<string>, sep: string): string
  {
    if |parts| == 0 then ""
    else if |parts| == 1 then parts[0]
    else parts[0] + sep + Join(parts[1..], sep)
  }

  /** No part of a split contains the separator. */
  lemma {:induction false} SplitPartsHaveNoSeparator(s: string, sep: char)
    ensures forall k, j :: 0 <= k < |Split(s, sep)| && 0 <= j < |Split(s, sep)[k]| ==> Split(s, sep)[k][j] != sep
  {
    if |s| > 0 {
      SplitPartsHaveNoSeparator(s[1..], sep);
    }
  }

  /** Splitting and joining back with the same separator gives the string back. */
  lemma {:induction false} JoinSplit(s: string, sep: char)
    ensures Join(Split(s, sep), [sep]) == s
  {
    if |s| > 0 {
      JoinSplit(s[1..], sep);
      var rest := Split(s[1..], sep);
      if s[0] != sep {
        if |rest| == 1 {
          assert Split(s, sep) == [[s[0]] + rest[0]];
        } else {
          assert Join(Split(s, sep), [sep]) == [s[0]] + rest[0] + [sep] + Join(rest[1..], [sep]);
        }
      }
    }
  }

  /** Splitting at a separator that is placed between two strings splits each side
      on its own. */
  lemma {:induction false} SplitAround(a: string, b: string, sep: char)
    ensures Split(a + [sep] + b, sep) == Split(a, sep) + Split(b, sep)
  {
    if |a| == 0 {
      assert a + [sep] + b == [sep] + b;
      SplitCons(sep, b, sep);
    } else {
      var c, a' := a[0], a[1..];
      var t := a' + [sep] + b;
      assert a + [sep] + b == [c] + t;
      assert a == [c] + a';
      SplitAround(a', b, sep);
      SplitCons(c, t, sep);
      SplitCons(c, a', sep);
      StepAppend(c, sep, Split(a', sep), Split(b, sep));
    }
  }

  /** How the first character of a string changes the split of the rest. */
  function SplitStep(c: char, sep: char, rest: seq<string>): seq<string>
    requires |rest| >= 1
  {
    if c == sep then [""] + rest else [[c] + rest[0]] + rest[1..]
  }

  lemma SplitCons(c: char, t: string, sep: char)
    ensures Split([c] + t, sep) == SplitStep(c, sep, Split(t, sep))
  {
    assert ([c] + t)[0] == c && ([c] + t)[1..] == t;
  }

  lemma StepAppend(c: char, sep: char, pa: seq<string>, pb: seq<string>)
    requires |pa| >= 1
    ensures SplitStep(c, sep, pa + pb) == SplitStep(c, sep, pa) + pb
  {
    if c != sep {
      assert (pa + pb)[0] == pa[0];
      assert (pa + pb)[1..] == pa[1..] + pb;
    }
  }

  /** A string without the separator splits into itself alone. */
  lemma {:induction false} SplitWithoutSeparator(s: string, sep: char)
    requires !ContainsChar(s, sep)
    ensures Split(s, sep) == [s]
    decreases |s|
  {
    if |s| > 0 {
      assert s[0] != sep;
      assert !ContainsChar(s[1..], sep) by {
        forall i | 0 <= i < |s| - 1 ensures s[1..][i] != sep {
          assert s[1..][i] == s[i + 1];
        }
      }
      SplitWithoutSeparator(s[1..], sep);
      assert [s[0]] + s[1..] == s;
    }
  }

  /** Joining two non-empty lists of parts puts one separator between the two joins. */
  lemma {:induction false} JoinAppend(a: seq<string>, b: seq<string>, sep: string)
    requires |a| >= 1 && |b| >= 1
    ensures Join(a + b, sep) == Join(a, sep) + sep + Join(b, sep)
  {
    if |a| > 1 {
      JoinAppend(a[1..], b, sep);
      assert (a + b)[1..] == a[1..] + b;
    } else {
      assert (a + b)[1..] == b;
    }
  }

  /** Joining parts that hold no separator and splitting at it again gives the parts
      back. */
  lemma {:induction false} SplitJoin(parts: seq<string>, sep: char)
    requires |parts| >= 1
    requires forall k :: 0 <= k < |parts| ==> !ContainsChar(parts[k], sep)
    ensures Split(Join(parts, [sep]), sep) == parts
  {
    SplitWithoutSeparator(parts[0], sep);
    if |parts| > 1 {
      SplitJoin(parts[1..], sep);
      SplitAround(parts[0], Join(parts[1..], [sep]), sep);
      assert parts == [parts[0]] + parts[1..];
    }
  }

  // ---------------------------------------------------------------- prefixes and characters

  predicate StartsWith(s: string, prefix: string) {
    |prefix| <= |s| && s[..|prefix|] == prefix
  }

  predicate ContainsChar(s: string, c: char) {
    exists i :: 0 <= i < |s| && s[i] == c
  }

  // ---------------------------------------------------------------- trim

  /** The characters `String.prototype.trim` removes: WhiteSpace and LineTerminator
      of ECMA-262 (section 12.2 and 12.3). */
  predicate IsJsWhitespace(c: char) {
    var n := c as int;
    n == 0x09 || n == 0x0A || n == 0x0B || n == 0x0C || n == 0x0D || n == 0x20 ||
    n == 0xA0 || n == 0x1680 || (0x2000 <= n <= 0x200A) || n == 0x2028 || n == 0x2029 ||
    n == 0x202F || n == 0x205F || n == 0x3000 || n == 0xFEFF
  }

  function TrimStart(s: string): (r: string)
    ensures |r| <= |s|
  {
    if |s| > 0 && IsJsWhitespace(s[0]) then TrimStart(s[1..]) else s
  }

  function TrimEnd(s: string): (r: string)
    ensures |r| <= |s|
  {
    if |s| > 0 && IsJsWhitespace(s[|s| - 1]) then TrimEnd(s[..|s| - 1]) else s
  }

  /** `s.trim()`. */
  function Trim(s: string): string {
    TrimEnd(TrimStart(s))
  }

  /** Every character is whitespace; this is what `!s.trim()` tests. */
  predicate IsBlank(s: string) {
    forall i :: 0 <= i < |s| ==> IsJsWhitespace(s[i])
  }

  lemma BlankTail(s: string)
    requires |s| > 0 && IsJsWhitespace(s[0])
    ensures IsBlank(s) <==> IsBlank(s[1..])
  {
    if IsBlank(s[1..]) {
      forall i | 0 <= i < |s| ensures IsJsWhitespace(s[i]) {
        if i > 0 { assert s[i] == s[1..][i - 1]; }
      }
    }
  }

  lemma {:induction false} TrimStartBlank(s: string)
    ensures IsBlank(TrimStart(s)) <==> IsBlank(s)
  {
    if |s| > 0 && IsJsWhitespace(s[0]) {
      TrimStartBlank(s[1..]);
      BlankTail(s);
    }
  }

  lemma {:induction false} TrimEndEmpty(s: string)
    ensures TrimEnd(s) == "" <==> IsBlank(s)
  {
    if |s| > 0 && IsJsWhitespace(s[|s| - 1]) {
      var t := s[..|s| - 1];
      TrimEndEmpty(t);
      if IsBlank(t) {
        forall i | 0 <= i < |s| ensures IsJsWhitespace(s[i]) {
          if i < |s| - 1 { assert s[i] == t[i]; }
        }
      }
      if IsBlank(s) {
        forall i | 0 <= i < |t| ensures IsJsWhitespace(t[i]) {
          assert t[i] == s[i];
        }
      }
    } else if |s| > 0 {
      assert !IsJsWhitespace(s[|s| - 1]);
    }
  }

  /** `s.trim()` is empty exactly when the string is blank. */
  lemma TrimEmptyIffBlank(s: string)
    ensures Trim(s) == "" <==> IsBlank(s)
  {
    TrimStartBlank(s);
    TrimEndEmpty(TrimStart(s));
  }

  // ---------------------------------------------------------------- decimal numbers

  predicate IsDigit(c: char) {
    '0' <= c <= '9'
  }

  function DigitChar(d: nat): (c: char)
    requires d < 10
    ensures IsDigit(c)
  {
    (d + '0' as int) as char
  }

  function DigitValue(c: char): (d: nat)
    requires IsDigit(c)
    ensures d < 10
  {
    c as int - '0' as int
  }

  predicate AllDigits(s: string) {
    forall i :: 0 <= i < |s| ==> IsDigit(s[i])
  }

  /** The decimal rendering of a natural number, as `${n}` prints it. */
  function NatToString(n: nat): (s: string)
    ensures |s| >= 1 && AllDigits(s)
    decreases n
  {
    if n < 10 then [DigitChar(n)] else NatToString(n / 10) + [DigitChar(n % 10)]
  }

  /** The decimal rendering of an integer, with a leading '-' when negative. */
  function IntToString(i: int): (s: string)
    ensures |s| >= 1
  {
    if i < 0 then "-" + NatToString(-i) else NatToString(i)
  }

  /** The value of a run of decimal digits. */
  function DigitsValue(s: string): nat
    requires AllDigits(s)
  {
    if |s| == 0 then 0 else DigitsValue(s[..|s| - 1]) * 10 + DigitValue(s[|s| - 1])
  }

  lemma {:induction false} DigitsValueOfNatToString(n: nat)
    ensures DigitsValue(NatToString(n)) == n
    decreases n
  {
    if n >= 10 {
      DigitsValueOfNatToString(n / 10);
      var s := NatToString(n);
      assert s[..|s| - 1] == NatToString(n / 10);
    }
  }

  /** The length of the longest run of digits at the start of `s`. */
  function DigitRun(s: string): (k: nat)
    ensures k <= |s| && AllDigits(s[..k])
    ensures k < |s| ==> !IsDigit(s[k])
  {
    if |s| > 0 && IsDigit(s[0]) then
      var k := 1 + DigitRun(s[1..]);
      assert s[..k] == [s[0]] + s[1..][..k - 1];
      k
    else 0
  }

  lemma {:induction false} DigitRunOfDigitsThenOther(d: string, rest: string)
    requires AllDigits(d)
    requires rest == [] || !IsDigit(rest[0])
    ensures DigitRun(d + rest) == |d|
  {
    if |d| > 0 {
      DigitRunOfDigitsThenOther(d[1..], rest);
      assert (d + rest)[1..] == d[1..] + rest;
    }
  }

  /** The run of digits at the start of `t`: whether there is one, its value and its length. */
  function DigitsPrefix(t: string): (r: (bool, nat, nat))
    ensures r.0 ==> 0 < r.2 <= |t|
  {
    var k := DigitRun(t);
    if k == 0 then (false, 0, 0) else (true, DigitsValue(t[..k]), k)
  }

  /** Reads an optionally negative decimal integer at the start of `s`; returns its
      value and the number of characters consumed. */
  function ParseIntPrefix(s: string): (r: (bool, int, nat))
    ensures r.0 ==> 0 < r.2 <= |s|
  {
    var neg := |s| > 0 && s[0] == '-';
    var start := if neg then 1 else 0;
    var d := DigitsPrefix(s[start..]);
    if !d.0 then (false, 0, 0)
    else (true, if neg then -(d.1 as int) else d.1, start + d.2)
  }

  /** Rendering an integer and reading it back gives the integer and consumes exactly
      its rendering, whatever non-digit text follows. */
  lemma ParseIntPrefixOfIntToString(i: int, rest: string)
    requires rest == [] || !IsDigit(rest[0])
    ensures ParseIntPrefix(IntToString(i) + rest) == (true, i, |IntToString(i)|)
  {
    var shown := IntToString(i);
    if i < 0 {
      assert shown == "-" + NatToString(-i);
      ParseNegativeRendering(-i, rest);
    } else {
      assert shown == NatToString(i);
      ParseNonNegativeRendering(i, rest);
    }
  }

  /** Two integers rendered into a text, each followed by text that does not start
      with a digit, both read back from their places. */
  lemma TwoNumbersReadBack(m: string, p: string, a: int, sep: string, b: int, tail: string)
    requires m == p + IntToString(a) + sep + IntToString(b) + tail
    requires sep != [] && !IsDigit(sep[0]) && (tail == [] || !IsDigit(tail[0]))
    ensures StartsWith(m, p)
    ensures ParseIntPrefix(m[|p|..]) == (true, a, |IntToString(a)|)
    ensures |p| + |IntToString(a)| + |sep| <= |m|
    ensures ParseIntPrefix(m[|p| + |IntToString(a)| + |sep|..]) == (true, b, |IntToString(b)|)
  {
    var x, y := IntToString(a), IntToString(b);
    var middle := sep + y + tail;
    assert m == p + (x + middle);
    assert m[..|p|] == p;
    assert m[|p|..] == x + middle;
    ParseIntPrefixOfIntToString(a, middle);
    assert m == (p + x + sep) + (y + tail);
    assert m[|p| + |x| + |sep|..] == y + tail;
    ParseIntPrefixOfIntToString(b, tail);
  }

  lemma ParseNonNegativeRendering(n: nat, rest: string)
    requires rest == [] || !IsDigit(rest[0])
    ensures ParseIntPrefix(NatToString(n) + rest) == (true, n as int, |NatToString(n)|)
  {
    DigitsPrefixOfRendering(n, rest);
    ParseUnsigned(NatToString(n) + rest);
  }

  lemma ParseNegativeRendering(n: nat, rest: string)
    requires n > 0 && (rest == [] || !IsDigit(rest[0]))
    ensures ParseIntPrefix("-" + NatToString(n) + rest) == (true, -(n as int), 1 + |NatToString(n)|)
  {
    var d := NatToString(n);
    var t := d + rest;
    assert ParseIntPrefix(['-'] + t) == (true, -(n as int), 1 + |d|) by {
      DigitsPrefixOfRendering(n, rest);
      ParseSigned(t);
    }
    assert "-" + d + rest == ['-'] + t;
  }

  lemma DigitsPrefixOfRendering(n: nat, rest: string)
    requires rest == [] || !IsDigit(rest[0])
    ensures DigitsPrefix(NatToString(n) + rest) == (true, n, |NatToString(n)|)
  {
    var d := NatToString(n);
    DigitsValueOfNatToString(n);
    DigitRunOfDigitsThenOther(d, rest);
    assert (d + rest)[..|d|] == d;
  }

  lemma ParseSigned(t: string)
    ensures ParseIntPrefix(['-'] + t) ==
      if DigitsPrefix(t).0 then (true, -(DigitsPrefix(t).1 as int), DigitsPrefix(t).2 + 1) else (false, 0, 0)
  {
    assert (['-'] + t)[1..] == t;
  }

  lemma ParseUnsigned(t: string)
    requires DigitsPrefix(t).0
    ensures ParseIntPrefix(t) == DigitsPrefix(t)
  {
    assert t[0..] == t;
    assert IsDigit(t[..DigitsPrefix(t).2][0]);
  }
}

=== FILE: values.dfy ===
/** The values a payload or a table row can hold, JavaScript truthiness, the SQL
    comparisons the repository's `where` conditions use, and SQLite's sort order. */
module Values {
  import Text

  /** A JavaScript value as it appears in a payload, and (restricted to `VNull`,
      `VInt` and `VText`) a value stored in a SQLite column. */
  datatype Value =
    | VUndefined
    | VNull
    | VBool(b: bool)
    | VInt(i: int)
    | VText(s: string)

  /** A row or a payload, keyed by the entity's property names. */
  type Row = map<string, Value>

  /** `!!v` in JavaScript. */
  predicate Truthy(v: Value) {
    match v
    case VUndefined => false
    case VNull => false
    case VBool(b) => b
    case VInt(i) => i != 0
    case VText(s) => s != []
  }

  /** `v === undefined || v === null`. */
  predicate IsNullish(v: Value) {
    v.VUndefined? || v.VNull?
  }

  /** What SQLite can hold in a column. */
  predicate IsStored(v: Value) {
    v.VNull? || v.VInt? || v.VText?
  }

  /** `row[key]`, with a missing key reading as `undefined`. */
  function Get(row: Row, key: string): (v: Value)
    ensures key !in row ==> v.VUndefined?
  {
    if key in row then row[key] else VUndefined
  }

  /** The value a statement binds for a payload value: booleans become 1 and 0. */
  function Bind(v: Value): (r: Value)
    ensures !v.VUndefined? ==> IsStored(r)
    ensures v.VUndefined? ==> r.VUndefined?
  {
    if v.VBool? then VInt(if v.b then 1 else 0) else v
  }

  /** `column = value`: NULL never equals anything, not even NULL. */
  predicate SqlEq(stored: Value, bound: Value) {
    !IsNullish(stored) && !IsNullish(bound) && stored == bound
  }

  /** `column IN (values)`: no element of an empty list matches, and NULL matches none. */
  predicate SqlIn(stored: Value, bound: seq<Value>) {
    exists i :: 0 <= i < |bound| && SqlEq(stored, bound[i])
  }

  /** `column IS NULL`. */
  predicate SqlIsNull(stored: Value) {
    IsNullish(stored)
  }

  // ---------------------------------------------------------------- SQLite ordering

  /** NULL sorts first, then numbers, then text (BINARY collation). */
  function Rank(v: Value): nat {
    match v
    case VUndefined => 0
    case VNull => 0
    case VBool(_) => 1
    case VInt(_) => 1
    case VText(_) => 2
  }

  function NumberOf(v: Value): int
    requires v.VBool? || v.VInt?
  {
    match v
    case VBool(b) => if b then 1 else 0
    case VInt(i) => i
  }

  /** Lexicographic order on code units, as memcmp compares text. */
  predicate TextLe(a: string, b: string)
    decreases |a|
  {
    if a == [] then true
    else if b == [] then false
    else if a[0] != b[0] then a[0] < b[0]
    else TextLe(a[1..], b[1..])
  }

  lemma {:induction false} TextLeTotal(a: string, b: string)
    ensures TextLe(a, b) || TextLe(b, a)
    decreases |a|
  {
    if a != [] && b != [] && a[0] == b[0] {
      TextLeTotal(a[1..], b[1..]);
    }
  }

  lemma {:induction false} TextLeTrans(a: string, b: string, c: string)
    requires TextLe(a, b) && TextLe(b, c)
    ensures TextLe(a, c)
    decreases |a|
  {
    if a != [] && b != [] && c != [] && a[0] == b[0] && b[0] == c[0] {
      TextLeTrans(a[1..], b[1..], c[1..]);
    }
  }

  /** `a` may come before `b` in ascending order. */
  predicate Le(a: Value, b: Value) {
    if Rank(a) != Rank(b) then Rank(a) < Rank(b)
    else if Rank(a) == 0 then true
    else if Rank(a) == 1 then NumberOf(a) <= NumberOf(b)
    else TextLe(a.s, b.s)
  }

  lemma LeTotal(a: Value, b: Value)
    ensures Le(a, b) || Le(b, a)
  {
    if Rank(a) == Rank(b) == 2 {
      TextLeTotal(a.s, b.s);
    }
  }

  lemma LeTrans(a: Value, b: Value, c: Value)
    requires Le(a, b) && Le(b, c)
    ensures Le(a, c)
  {
    if Rank(a) == Rank(b) == Rank(c) == 2 {
      TextLeTrans(a.s, b.s, c.s);
    }
  }

  // ---------------------------------------------------------------- rendering

  /** `${v}` for the values an error message interpolates. */
  function Render(v: Value): string {
    match v
    case VUndefined => "undefined"
    case VNull => "null"
    case VBool(b) => if b then "true" else "false"
    case VInt(i) => Text.IntToString(i)
    case VText(s) => s
  }
}

=== FILE: wrangler_config.dfy ===
/** The `deepMerge` that layers a package's `wrangler.config.json` over the root
    `wrangler.json`, in its three copies, and the path check of the setup script.

    - scripts/setup-wrangler.mjs sends both arguments through the JSON round trip first,
      so the caller's objects are never touched (`DeepMergeCopying`).
    - scripts/setup-wrangler.js and scripts/generate-wrangler.json.js fill the base
      object itself (`ConfigObject.DeepMerge`); the setup script does so once per
      package on the one imported root object (`SetupAllPackagesShared`). */
module WranglerConfig {
  import opened Wrappers
  import opened Json
  import Text

  // ---------------------------------------------------------------- the merge on values

  /** The plain-object fields a base contributes: a null, array or non-object base
      is replaced by `{}`. */
  function BaseFields(base: Json): map<string, Json> {
    if base.JObj? then base.fields else map[]
  }

  /** The value every copy of `deepMerge` computes. A null or undefined override keeps
      the base, a primitive or an array override replaces it, and an object override
      is merged key by key into the base's fields. */
  function Merge(base: Json, over: Json): (r: Json)
    ensures over.JObj? ==> r.JObj? && r.fields.Keys == BaseFields(base).Keys + over.fields.Keys
    decreases over, 1
  {
    if over.JNull? || over.JUndefined? then base
    else if over.JObj? then JObj(MergeFields(base, over))
    else over
  }

  /** The fields of an object-onto-anything merge. */
  function MergeFields(base: Json, over: Json): (m: map<string, Json>)
    requires over.JObj?
    ensures m.Keys == BaseFields(base).Keys + over.fields.Keys
    ensures forall k :: k in over.fields ==> m[k] == Merge(Lookup(BaseFields(base), k), over.fields[k])
    ensures forall k :: k in BaseFields(base) && k !in over.fields ==> m[k] == BaseFields(base)[k]
    decreases over, 0
  {
    var b := BaseFields(base);
    map k | k in b.Keys + over.fields.Keys ::
      if k in over.fields then Merge(Lookup(b, k), over.fields[k]) else b[k]
  }

  /** Merging the same override a second time changes nothing. */
  lemma {:induction false} MergeIdempotent(base: Json, over: Json)
    ensures Merge(Merge(base, over), over) == Merge(base, over)
    decreases over
  {
    if over.JObj? {
      var r := Merge(base, over);
      var b := BaseFields(base);
      var m := MergeFields(r, over);
      forall k | k in over.fields
        ensures m[k] == r.fields[k]
      {
        MergeIdempotent(Lookup(b, k), over.fields[k]);
      }
      assert m == r.fields;
    }
  }

  /** An object override keeps every base key it does not mention, and for each of
      its own keys holding a primitive or an array the result holds exactly that
      value; a null member leaves the base's value (or its absence) in place. */
  lemma MergeObjectMembers(base: Json, over: Json, k: string)
    requires base.JObj? && over.JObj?
    ensures k in base.fields && k !in over.fields ==> Merge(base, over).fields[k] == base.fields[k]
    ensures k in over.fields && !over.fields[k].JObj? && !over.fields[k].JNull? && !over.fields[k].JUndefined?
      ==> Merge(base, over).fields[k] == over.fields[k]
    ensures k in over.fields && over.fields[k].JNull? ==> Merge(base, over).fields[k] == Lookup(base.fields, k)
  {
  }

  /** A merge of clean values is clean, except where a null override member meets a
      missing base key: that key is then set to `undefined`. */
  lemma NullOverMissingKeySetsUndefined()
    ensures Merge(JObj(map[]), JObj(map["vars" := JNull])) == JObj(map["vars" := JUndefined])
  {
    var r := Merge(JObj(map[]), JObj(map["vars" := JNull]));
    assert r.fields.Keys == {"vars"};
  }

  /** The base's fields with the override keys in `done` merged in. */
  predicate MergedUpTo(b: map<string, Json>, over: map<string, Json>, done: set<string>, acc: map<string, Json>) {
    && done <= over.Keys
    && acc.Keys == b.Keys + done
    && forall k :: k in acc ==> acc[k] == if k in done then Merge(Lookup(b, k), over[k]) else b[k]
  }

  /** Merging one more override key extends the merged set by that key. */
  lemma MergeOneKey(b: map<string, Json>, over: map<string, Json>, done: set<string>, acc: map<string, Json>, k: string)
    requires MergedUpTo(b, over, done, acc) && k in over && k !in done
    ensures Lookup(acc, k) == Lookup(b, k)
    ensures MergedUpTo(b, over, done + {k}, acc[k := Merge(Lookup(acc, k), over[k])])
  {
  }

  /** The key loop shared by all three copies, on values: each override key is merged
      recursively with what the base holds under it. */
  method MergeValues(base: Json, over: Json) returns (r: Json)
    ensures r == Merge(base, over)
    decreases over
  {
    if over.JNull? || over.JUndefined? {
      return base;
    }
    if !IsObjectTyped(over) || over.JArr? {
      return over;
    }
    var b := BaseFields(base);
    var acc := b;
    var todo := over.fields.Keys;
    while todo != {}
      invariant todo <= over.fields.Keys
      invariant MergedUpTo(b, over.fields, over.fields.Keys - todo, acc)
      decreases todo
    {
      var k :| k in todo;
      MergeOneKey(b, over.fields, over.fields.Keys - todo, acc, k);
      var v := MergeValues(Lookup(acc, k), over.fields[k]);
      acc := acc[k := v];
      assert over.fields.Keys - (todo - {k}) == (over.fields.Keys - todo) + {k};
      todo := todo - {k};
    }
    assert acc == MergeFields(base, over);
    r := JObj(acc);
  }

  // ---------------------------------------------------------------- setup-wrangler.mjs

  /** `typeof v === 'object' ? JSON.parse(JSON.stringify(v)) : v`. */
  function CopyIfObject(j: Json): (r: Json)
    ensures IsObjectTyped(j) ==> Clean(r)
    ensures !IsObjectTyped(j) ==> r == j
  {
    if IsObjectTyped(j) then Copy(j) else j
  }

  /** `deepMerge` of setup-wrangler.mjs: both arguments are copied through JSON, then
      merged. The nested calls copy again, but a copy of a copy is the copy itself
      (`Json.CopyIdempotent`), so the nested merges run on the copies directly. */
  method DeepMergeCopying(oConfig: Json, pConfig: Json) returns (result: Json)
    ensures result == Merge(CopyIfObject(oConfig), CopyIfObject(pConfig))
  {
    var originalConfig := CopyIfObject(oConfig);
    var packageConfig := CopyIfObject(pConfig);
    result := MergeValues(originalConfig, packageConfig);
  }

  /** On configurations read from JSON files the copying merge computes the same value
      as the in-place one. */
  lemma CopyingMergeOfJsonInputs(root: Json, pkg: Json)
    requires Clean(root) && Clean(pkg)
    ensures Merge(CopyIfObject(root), CopyIfObject(pkg)) == Merge(root, pkg)
  {
    if IsObjectTyped(root) { CopyOfClean(root); }
    if IsObjectTyped(pkg) { CopyOfClean(pkg); }
  }

  /** A workspace package: its directory and its `wrangler.config.json`. */
  datatype Package = Package(dir: string, config: Json)

  /** What the package loop of setup-wrangler.mjs writes, in order: a directory that
      fails the path check is skipped, every other package gets its config merged
      over the same, unchanged root. */
  function CopyingRun(root: Json, rootDir: string, resolve: string -> string, packages: seq<Package>): (outs: seq<Package>)
    ensures |outs| <= |packages|
  {
    if packages == [] then []
    else
      var last := packages[|packages| - 1];
      CopyingRun(root, rootDir, resolve, packages[..|packages| - 1])
        + if IsValidPath(last.dir, rootDir, resolve)
          then [Package(last.dir, Merge(CopyIfObject(root), CopyIfObject(last.config)))]
          else []
  }

  /** `init` of setup-wrangler.mjs: a wrangler path that fails the check stops it before
      any package is touched; otherwise the package loop runs. Running `wrangler types`
      in each package is not modelled. */
  method SetupAllPackagesCopying(root: Json, rootDir: string, resolve: string -> string, wranglerPath: string,
                                 packages: seq<Package>) returns (outputs: Option<seq<Package>>)
    ensures outputs.None? <==> !IsValidPath(wranglerPath, rootDir, resolve)
    ensures outputs.Some? ==> outputs.value == CopyingRun(root, rootDir, resolve, packages)
  {
    if !IsValidPath(wranglerPath, rootDir, resolve) {
      return None;
    }
    var written := [];
    var i := 0;
    while i < |packages|
      invariant 0 <= i <= |packages|
      invariant written == CopyingRun(root, rootDir, resolve, packages[..i])
    {
      assert packages[..i + 1][..i] == packages[..i];
      if IsValidPath(packages[i].dir, rootDir, resolve) {
        var merged := DeepMergeCopying(root, packages[i].config);
        written := written + [Package(packages[i].dir, merged)];
      }
      i := i + 1;
    }
    assert packages[..i] == packages;
    return Some(written);
  }

  /** Every output belongs to a package whose directory passed the check, and every
      such package has its output. */
  lemma {:induction false} CopyingRunMeaning(root: Json, rootDir: string, resolve: string -> string, packages: seq<Package>)
    ensures forall o :: o in CopyingRun(root, rootDir, resolve, packages) ==>
      IsValidPath(o.dir, rootDir, resolve)
      && exists p :: p in packages && p.dir == o.dir && o.config == Merge(CopyIfObject(root), CopyIfObject(p.config))
    ensures forall p :: p in packages && IsValidPath(p.dir, rootDir, resolve) ==>
      Package(p.dir, Merge(CopyIfObject(root), CopyIfObject(p.config))) in CopyingRun(root, rootDir, resolve, packages)
  {
    if packages != [] {
      var init := packages[..|packages| - 1];
      CopyingRunMeaning(root, rootDir, resolve, init);
      assert packages == init + [packages[|packages| - 1]];
    }
  }

  /** With the copying merge each package's output depends on the root and that
      package alone, whatever came before it. */
  lemma CopyingOutputsAreIndependent(root: Json, rootDir: string, resolve: string -> string, packages: seq<Package>, p: Package)
    requires Clean(root) && Clean(p.config)
    requires p in packages && IsValidPath(p.dir, rootDir, resolve)
    ensures Package(p.dir, Merge(root, p.config)) in CopyingRun(root, rootDir, resolve, packages)
  {
    CopyingRunMeaning(root, rootDir, resolve, packages);
    CopyingMergeOfJsonInputs(root, p.config);
  }

  // ---------------------------------------------------------------- the in-place copies

  /** What an in-place `deepMerge` hands back: the base object itself, or another value. */
  datatype MergeOutcome = SameObject | Other(value: Json)

  /** A plain object that `deepMerge` fills in place (the imported root config).
      Nested objects belong to it alone, so their in-place updates are part of `fields`. */
  class ConfigObject {
    var fields: map<string, Json>

    constructor (fields: map<string, Json>)
      ensures this.fields == fields
    {
      this.fields := fields;
    }

    function Value(): Json
      reads this
    {
      JObj(fields)
    }

    /** `deepMerge(this, over)` of setup-wrangler.js and generate-wrangler.json.js. */
    method DeepMerge(over: Json) returns (out: MergeOutcome)
      modifies this
      ensures out.SameObject? <==> (over.JObj? || over.JNull? || over.JUndefined?)
      ensures out.SameObject? ==> Value() == Merge(old(Value()), over)
      ensures out.Other? ==> out.value == Merge(old(Value()), over) && fields == old(fields)
    {
      if over.JNull? || over.JUndefined? {
        return SameObject;
      }
      if !IsObjectTyped(over) || over.JArr? {
        return Other(over);
      }
      ghost var b := fields;
      var todo := over.fields.Keys;
      while todo != {}
        invariant todo <= over.fields.Keys
        invariant fields.Keys == b.Keys + (over.fields.Keys - todo)
        invariant forall k :: k in fields ==>
          fields[k] == if k in over.fields.Keys - todo then Merge(Lookup(b, k), over.fields[k]) else b[k]
        decreases todo
      {
        var k :| k in todo;
        var v := MergeValues(Lookup(fields, k), over.fields[k]);
        fields := fields[k := v];
        todo := todo - {k};
      }
      assert fields == MergeFields(JObj(b), over);
      return SameObject;
    }
  }

  /** The value an outcome stands for, read after the call. */
  function OutcomeValue(out: MergeOutcome, base: ConfigObject): Json
    reads base
  {
    if out.SameObject? then base.Value() else out.value
  }

  /** generate-wrangler.json.js: one merge over the imported root config, which is
      changed by it when the package config is an object. */
  method GenerateWrangler(root: ConfigObject, packageConfig: Json) returns (output: Json)
    modifies root
    ensures output == Merge(old(root.Value()), packageConfig)
    ensures packageConfig.JObj? ==> root.Value() == output
  {
    var out := root.DeepMerge(packageConfig);
    output := OutcomeValue(out, root);
  }

  /** What setup-wrangler.js writes for each package: the merge over the root as the
      earlier packages have left it. */
  function SharedRootOutputs(root: Json, packages: seq<Json>): (outs: seq<Json>)
    ensures |outs| == |packages|
    decreases |packages|
  {
    if packages == [] then []
    else [Merge(root, packages[0])] + SharedRootOutputs(RootAfter(root, packages[0]), packages[1..])
  }

  /** The shared root after one package: an object package is merged into it. */
  function RootAfter(root: Json, package: Json): (r: Json)
    ensures !package.JObj? ==> r == root
    ensures package.JObj? ==> r.JObj? && r.fields.Keys == BaseFields(root).Keys + package.fields.Keys
    ensures Merge(r, package) == Merge(root, package)
  {
    MergeIdempotent(root, package);
    if package.JObj? then Merge(root, package) else root
  }

  lemma SharedRootOutputsFrom(root: Json, packages: seq<Json>, i: nat)
    requires i < |packages|
    ensures SharedRootOutputs(root, packages[i..])
      == [Merge(root, packages[i])] + SharedRootOutputs(RootAfter(root, packages[i]), packages[i + 1..])
  {
    assert packages[i..][1..] == packages[i + 1..];
  }

  /** The package loop of setup-wrangler.js, on the shared root object. */
  method SetupAllPackagesShared(root: ConfigObject, packages: seq<Json>) returns (outputs: seq<Json>)
    modifies root
    ensures outputs == SharedRootOutputs(old(root.Value()), packages)
  {
    outputs := [];
    var i := 0;
    while i < |packages|
      invariant 0 <= i <= |packages|
      invariant outputs + SharedRootOutputs(root.Value(), packages[i..])
        == SharedRootOutputs(old(root.Value()), packages)
    {
      ghost var before := root.Value();
      SharedRootOutputsFrom(before, packages, i);
      var out := root.DeepMerge(packages[i]);
      var written := OutcomeValue(out, root);
      assert written == Merge(before, packages[i]);
      assert root.Value() == RootAfter(before, packages[i]);
      ghost var later := SharedRootOutputs(root.Value(), packages[i + 1..]);
      assert outputs + [written] + later == outputs + ([written] + later);
      outputs := outputs + [written];
      i := i + 1;
    }
  }

  /** Packages after the first see keys that earlier packages left on the shared
      root: with an empty root, the second of two packages gets the first one's keys. */
  lemma SharedRootLeaksBetweenPackages()
    ensures SharedRootOutputs(JObj(map[]), [JObj(map["main" := JStr("a.ts")]), JObj(map[])])[1]
      == JObj(map["main" := JStr("a.ts")])
    ensures Merge(JObj(map[]), JObj(map[])) == JObj(map[])
  {
    var first := Merge(JObj(map[]), JObj(map["main" := JStr("a.ts")]));
    assert first.fields.Keys == {"main"};
    assert first == JObj(map["main" := JStr("a.ts")]);
    var second := Merge(first, JObj(map[]));
    assert second.fields.Keys == {"main"};
  }

  // ---------------------------------------------------------------- isValidPath

  /** The characters `/[;&|`$()\\]/` rejects. */
  predicate IsShellSpecial(c: char) {
    c == ';' || c == '&' || c == '|' || c == '`' || c == '$' || c == '(' || c == ')' || c == '\\'
  }

  predicate HasShellSpecial(path: string) {
    exists i :: 0 <= i < |path| && IsShellSpecial(path[i])
  }

  /** `isValidPath` as setup-wrangler.mjs writes it; `resolve` is `path.resolve`. */
  function IsValidPath(path: string, rootDir: string, resolve: string -> string): (ok: bool)
    ensures ok ==> path != [] && !HasShellSpecial(path) && |rootDir| <= |resolve(path)|
    ensures path == [] || HasShellSpecial(path) ==> !ok
  {
    if path == [] then false
    else if HasShellSpecial(path) then false
    else Text.StartsWith(resolve(path), rootDir)
  }

  /** The resolved path is the root itself or lies below it, segment by segment. */
  predicate IsUnder(resolved: string, rootDir: string) {
    resolved == rootDir
    || Text.StartsWith(resolved, rootDir + "/")
    || (|rootDir| > 0 && rootDir[|rootDir| - 1] == '/' && Text.StartsWith(resolved, rootDir))
  }

  /** `isValidPath` with the containment test it intends: below the root directory,
      not merely sharing its spelling as a prefix. */
  function IsValidPathWithin(path: string, rootDir: string, resolve: string -> string): (ok: bool)
    ensures ok ==> IsValidPath(path, rootDir, resolve)
  {
    path != [] && !HasShellSpecial(path) && IsUnder(resolve(path), rootDir)
  }

  /** For a root without a trailing slash, lying under it means its segments are a
      prefix of the path's segments, and back. */
  lemma {:induction false} UnderIffSegmentPrefix(resolved: string, rootDir: string)
    requires rootDir == [] || rootDir[|rootDir| - 1] != '/'
    ensures IsUnder(resolved, rootDir) <==> Text.Split(rootDir, '/') <= Text.Split(resolved, '/')
  {
    var rs := Text.Split(rootDir, '/');
    var ps := Text.Split(resolved, '/');
    if IsUnder(resolved, rootDir) && resolved != rootDir {
      var rest := resolved[|rootDir| + 1..];
      assert resolved == rootDir + ['/'] + rest;
      Text.SplitAround(rootDir, rest, '/');
    }
    if rs <= ps {
      Text.JoinSplit(rootDir, '/');
      Text.JoinSplit(resolved, '/');
      if |ps| > |rs| {
        var tail := ps[|rs|..];
        assert ps == rs + tail;
        Text.JoinAppend(rs, tail, "/");
        assert resolved == rootDir + "/" + Text.Join(tail, "/");
        assert resolved[..|rootDir + "/"|] == rootDir + "/";
      } else {
        assert ps == rs;
      }
    }
  }

  /** The corrected check only accepts paths whose segments extend the root's. */
  lemma ValidPathWithinHasRootSegments(path: string, rootDir: string, resolve: string -> string)
    requires rootDir == [] || rootDir[|rootDir| - 1] != '/'
    requires IsValidPathWithin(path, rootDir, resolve)
    ensures Text.Split(rootDir, '/') <= Text.Split(resolve(path), '/')
  {
    UnderIffSegmentPrefix(resolve(path), rootDir);
  }

  /** The check as written accepts a sibling directory whose name merely starts with
      the root's last segment. */
  lemma SiblingDirectoryPassesPrefixCheck()
    ensures IsValidPath("/srv/app-evil/bin", "/srv/app", p => p)
    ensures !IsUnder("/srv/app-evil/bin", "/srv/app")
    ensures !IsValidPathWithin("/srv/app-evil/bin", "/srv/app", p => p)
  {
    var path := "/srv/app-evil/bin";
    assert !HasShellSpecial(path) by {
      forall i | 0 <= i < |path| ensures !IsShellSpecial(path[i]) {}
    }
    assert path[..8] == "/srv/app";
    assert path[..9] != "/srv/app/" by { assert path[8] == '-'; }
  }
}

=== FILE: wrappers.dfy ===
/** Option and Result, the two failure-carrying wrappers the rest of the model returns. */
module Wrappers {

  datatype Option<+T> = None | Some(value: T) {
    function GetOr(default: T): T {
      match this
      case Some(v) => v
      case None => default
    }
  }

  datatype Result<+R, +E> = Success(value: R) | Failure(error: E) {
    predicate IsFailure() {
      Failure?
    }

    function PropagateFailure<U>(): Result<U, E>
      requires Failure?
    {
      Failure(error)
    }

    function Extract(): R
      requires Success?
    {
      value
    }
  }
}
